=== FILE: README.md ===
# secrets-spring-boot, modelled in Dafny

secrets-spring-boot is a set of Spring Boot environment post-processors. Each
one loads secrets (Docker secrets, Kubernetes secret volumes, `*_FILE`
environment variables) and publishes them as ordinary configuration
properties. Every post-processor follows the same pipeline:

1. A **property index** maps a property name, such as
   `spring.datasource.password`, to the **location** of its secret, such as
   `file:/run/secrets/db_password`. The index comes from a directory of
   secret files, from `*_FILE` environment variables, or from
   `secrets.<infix>.properties.*` declarations in the configuration.
2. A **resolver** loads each location and keeps its content, trimmed, when
   that content has text.
3. The secrets found are **merged** into the environment's property sources.
   They go into a `secretProperties` source placed right after
   `systemEnvironment`, or into a processor-specific source in the older
   `spring` package.

The model covers three generations of that code:

- **The api module.** Composite and substituting index suppliers, the
  default resolver, the substituter, the `secretProperties` merge, the
  secrets environment and the small predicate helpers.
- **The secrets module.** The filename, environment-variable and
  config-data suppliers, and the four post-processors with their order chain.
- **The older copy in src.** The boot-package suppliers and processors
  (filename, environment, path-based, suffix-based) and the spring-package
  processors (`SecretsProcessor`, `FilenameSecretsProcessor`,
  `EnvironmentPropertySecretsProcessor`).

How the model represents the inputs:

- **Strings** are `seq<char>`.
- **An index** is a `map<string, string>`.
- **Collectors.toMap** is modelled by `Collectors.Accumulate` over a sequence
  of entries in encounter order. Its merge policy is one of strict
  (duplicate-key error naming the key), throwing (the builder's lambda),
  keep-first, keep-last or custom.
- **HashMap iteration order** is unspecified, so it is a ghost enumeration
  `Collectors.Enumerate`. Every property that depends on the map alone is
  proved for whatever order that enumeration picks.
- **Property sources** are a sequence of named layers. A layer is flagged
  map-backed or not. `getProperty` answers from the first layer that holds
  the key under exactly that name. Spring's relaxed names are not modelled:
  systemEnvironment answering `foo.bar` from `FOO_BAR`, and the
  `configurationProperties` source Spring Boot puts in front.
- **Inputs from outside:**
  - The file system is a parameter: a listing per path that is either a
    sequence of entries, "not a directory", or "unreadable". `toUri` is an
    opaque function.
  - The resource loader is a map from location to content.
  - The file reader of the spring filename processor is a function from
    directory and name to text.
- **Java's null** is an `Option` at every entry point that checks for it.
  Exceptions are the `Errors.Error` arm of a `Result`.
- **Java int arithmetic** for the order constants is explicit
  (`Ordering.Add32`, wrap-around modulo 2^32).
- **Whitespace:** `String.trim` removes characters up to U+0020. Spring's
  `StringUtils.hasText` uses `Character.isWhitespace`. Both are defined
  exactly, and they differ: a NUL character has text but trims away.
- **Case mapping** covers the ASCII letters only.

Spring's `MutablePropertySources.addAfter` is modelled with its failure
branch (`PropertySources.AddAfter` returns an `IllegalArgument` error when
the anchor source is missing or is the source being added). It is not a
precondition. Before inserting, it removes a source of the same name.

### The resolver as written and corrected

`DefaultSecretResolver.loadContent` checks for text before it trims, so
content such as two NUL characters is found and becomes the empty secret
(see "## Findings"). The model defines both readings:
`DefaultSecretResolver.LoadContentAsWritten` and the corrected
`DefaultSecretResolver.LoadContent`.

- The older boot processors (`LegacySecretsProcessor`, the path-based and
  suffix-based processors) are modelled with the as-written resolver only.
- For the secrets module's post-processors the model has both pipelines:
  `SecretsEnvironmentPostProcessors.PostProcessEnvironmentAsWritten`, what
  the program does, and `SecretsEnvironmentPostProcessors.PostProcessEnvironment`,
  with the corrected resolver, over which its scenario lemmas are stated.
  `SecretsEnvironmentPostProcessors.AsWrittenAgreesUnlessBlank` proves the
  two equal unless an indexed location holds content that trims to blank.

### Where the sources disagree

The model follows the main code in each case:

- `src/test/.../boot/secrets/FilenamePropertyIndexSupplierTest.java:46-47`
  expects `spring_mail_host` to become `spring.mail.host`. The older boot
  filename supplier only lower-cases (`LegacyFilenamePropertyIndexSupplier.SnakeCaseIsKept`).
- `src/test/.../boot/secrets/PathBasedSecretsProcessorTest.java` configures
  a base-dir property other than the processor's `secrets.base-dir`. Its
  keep-first expectation depends on the listing order, which the model takes
  as an input (`PathBasedSecretsProcessor.FirstOfDottedAndSnakeCaseWins`).
- `secrets/src/test/.../EnvironmentPropertyIndexSupplierTest.java:33-44`
  calls a three-argument constructor. The supplier has constructors of one
  and two arguments only (`EnvironmentPropertyIndexSupplier.New`,
  `EnvironmentPropertyIndexSupplier.WithoutSuffix`).
- `api/src/main/java/de/vinado/boot/secrets/CompositePropertyIndexSupplier.java:48`
  maps the entries through `value(substituteIfNotNull())`. `Utils.value`
  (`Utils.java:70-72`) takes a `Predicate` and returns one, so that line
  does not type-check as written. The model reads it as mapping each entry's
  value through the substitution (`CompositePropertyIndexSupplier.SubstitutedEntries`).
- The src copies of `ConfigDataPropertyIndexSupplier` and
  `SecretsEnvironment` behave as their newer copies and share their models.
  Rows below cite whichever copy the member's contract was read from.

## Model

| member | source | states |
|---|---|---|
| JavaStrings.Trim | api/src/main/java/de/vinado/boot/secrets/DefaultSecretResolver.java:40 | String.trim: the result has no character <= U+0020 at either end, is a contiguous slice of the input starting at the first kept character, is empty iff every character is trimmable, and leaves a trimmed string unchanged |
| JavaStrings.TrimOfPadded | api/src/main/java/de/vinado/boot/secrets/EnvironmentPropertySubstituter.java:24 | trimming padding + core + padding gives back exactly the trimmed non-empty core |
| JavaStrings.TrimIsIdempotent | api/src/main/java/de/vinado/boot/secrets/PropertyIndexSupplier.java:47 | trimming twice is trimming once |
| JavaStrings.HasTextOfTrim | api/src/main/java/de/vinado/boot/secrets/DefaultSecretResolver.java:39-40 | a trimmed string with text came from a string with text |
| JavaStrings.ControlCharactersHaveTextButTrimAway | api/src/main/java/de/vinado/boot/secrets/DefaultSecretResolver.java:39-40 | "\u0000" has text in the StringUtils.hasText sense yet trims to the empty string |
| JavaStrings.Substring | secrets/src/main/java/de/vinado/boot/secrets/EnvironmentPropertyIndexSupplier.java:46 | String.substring(begin): defined iff 0 <= begin <= length, then the input is the cut-off prefix followed by the result; otherwise IndexOutOfBounds |
| JavaStrings.Replace | secrets/src/main/java/de/vinado/boot/secrets/FilenamePropertyIndexSupplier.java:95 | String.replace(char, char): same length, every occurrence of the old character replaced, every other character kept |
| JavaStrings.ToLowerAscii | secrets/src/main/java/de/vinado/boot/secrets/FilenamePropertyIndexSupplier.java:96 | toLowerCase(Locale.US) on ASCII: same length, no capital left, capitals shifted by 32, everything else kept |
| JavaStrings.ToLowerAsciiIsIdempotent | secrets/src/main/java/de/vinado/boot/secrets/FilenamePropertyIndexSupplier.java:96 | lower-casing twice is lower-casing once |
| JavaStrings.ReplaceCommutesWithLower | secrets/src/main/java/de/vinado/boot/secrets/EnvironmentPropertyIndexSupplier.java:47-48 | replacing a non-letter and lower-casing commute, so either order of the two conversion steps yields the same property name |
| JavaStrings.ReplaceRoundTrip | secrets/src/main/java/de/vinado/boot/secrets/FilenamePropertyIndexSupplier.java:95 | replacing a character by one the string lacks and then back restores the string |
| JavaStrings.LowerOfUpper | secrets/src/main/java/de/vinado/boot/secrets/EnvironmentPropertyIndexSupplier.java:48 | upper-casing (the environment-variable spelling) is undone by lower-casing on strings without capitals |
| JavaStrings.UpperOfLower | secrets/src/main/java/de/vinado/boot/secrets/EnvironmentPropertyIndexSupplier.java:48 | lower-casing is undone by upper-casing on strings without small letters |
| JavaStrings.TextThenTrim | api/src/main/java/de/vinado/boot/secrets/DefaultSecretResolver.java:38-40 | filter(hasText).map(trim): present iff the input is present with text, and then its trim |
| JavaStrings.TrimThenText | src/main/java/de/vinado/spring/secrets/SecretsProcessor.java:62-65 | map(trim).filter(hasText): present iff the trimmed input has text; every present value has text and is its own trim |
| JavaStrings.TextThenTrimAgreesUnlessBlank | api/src/main/java/de/vinado/boot/secrets/DefaultSecretResolver.java:38-40 | the two orders differ exactly when the input has text but trims to something blank, and then the filter-first order yields a blank present value |
| JavaStrings.ToUpperAscii | secrets/src/main/java/de/vinado/boot/secrets/EnvironmentPropertyIndexSupplier.java:48 | the upper-case spelling on ASCII: same length, no small letter left, small letters shifted down by 32, every other character kept |
| JavaStrings.StartsWithConcat | api/src/main/java/de/vinado/boot/secrets/Utils.java:58-60 | prefix + rest always starts with prefix |
| JavaStrings.EndsWithConcat | api/src/main/java/de/vinado/boot/secrets/Utils.java:66-68 | stem + suffix always ends with suffix |
| Utils.Not | api/src/main/java/de/vinado/boot/secrets/Utils.java:54-56 | not(p)(x) is the negation of p(x) for every x |
| Utils.NotIsInvolutive | api/src/main/java/de/vinado/boot/secrets/Utils.java:54-56 | negating twice gives the predicate back |
| Utils.NotSplitsStream | api/src/main/java/de/vinado/boot/secrets/Utils.java:54-56 | filtering a stream by p and by not(p) puts each element into exactly one of the results: the multisets add up to the stream's, the lengths to its length |
| Utils.StartsWith | api/src/main/java/de/vinado/boot/secrets/Utils.java:58-60 | startsWith(prefix)(s) holds iff prefix is an initial segment of s |
| Utils.EndsWith | api/src/main/java/de/vinado/boot/secrets/Utils.java:66-68 | endsWith(suffix)(s) holds iff suffix is a final segment of s |
| Utils.StartsWithIffConcat | api/src/main/java/de/vinado/boot/secrets/Utils.java:58-64 | s starts with prefix iff s is prefix + rest for some rest, and then substring(prefix.length()) returns that rest |
| Utils.EndsWithIffConcat | api/src/main/java/de/vinado/boot/secrets/Utils.java:66-68 | s ends with suffix iff s is stem + suffix for some stem |
| Utils.Substring | api/src/main/java/de/vinado/boot/secrets/Utils.java:62-64 | substring(begin)(s) succeeds iff 0 <= begin <= s.length(), and then the cut-off prefix followed by the result is s |
| Utils.SubstringOfConfigDataKey | api/src/test/java/de/vinado/boot/secrets/UtilsTest.java:83-88 | substring(24) of secrets.file.properties.spring.datasource.username is spring.datasource.username |
| Utils.Value | api/src/main/java/de/vinado/boot/secrets/Utils.java:70-72 | value(p)(entry) is p applied to the entry's value |
| Utils.ValueKeepsPassingEntries | api/src/main/java/de/vinado/boot/secrets/Utils.java:70-72 | filtering a map's entry set with value(p) keeps exactly the map's entries whose value satisfies p |
| Utils.ValueRestrictsMap | api/src/main/java/de/vinado/boot/secrets/PropertyIndexSupplier.java:34-36 | collecting those entries back gives the map restricted to the keys whose value satisfies p, each with its value |
| Utils.PassingEntriesHaveDistinctKeys | api/src/main/java/de/vinado/boot/secrets/PropertyIndexSupplier.java:34-36 | the filtered entries still repeat no key, so collecting them cannot fail |
| Utils.TestAndLogFailure | api/src/main/java/de/vinado/boot/secrets/Utils.java:30-40 | testAndLogFailure(p) answers p(x) and logs exactly when p(x) is false |
| Utils.TestAndLogFailureLogsEachRejected | api/src/main/java/de/vinado/boot/secrets/Utils.java:30-40 | filtering a stream with testAndLogFailure(p) keeps what filtering with p keeps and logs one message per element p rejects |
| Utils.AcceptAndLog | api/src/main/java/de/vinado/boot/secrets/Utils.java:24-27 | acceptAndLog applies the consumer once and logs exactly one message |
| Utils.AcceptAndLogLogsEachAccepted | api/src/main/java/de/vinado/boot/secrets/Utils.java:24-27 | forEach with acceptAndLog(consumer) reaches the state forEach with the consumer reaches and logs one message per element |
| Utils.AcceptAndLogAddsEach | api/src/test/java/de/vinado/boot/secrets/UtilsTest.java:34-42 | with list::add as the consumer the list gains the stream's elements in order, with one message per element |
| Utils.AddCollectsEach | api/src/test/java/de/vinado/boot/secrets/UtilsTest.java:34-39 | forEach(list::add) appends the stream to the list in encounter order |
| Utils.SubstringAfterPrefix | api/src/main/java/de/vinado/boot/secrets/Utils.java:62-64 | substring(prefix.length()) of prefix + rest succeeds and returns exactly rest |
| Collectors.Accumulate | secrets/src/main/java/de/vinado/boot/secrets/FilenamePropertyIndexSupplier.java:63 | toMap over entries in encounter order: on success the keys are the accumulator's plus the entries' keys; only a rejecting merge policy can fail, with a duplicate-key error |
| Collectors.KeepReplacementIsLastWins | api/src/main/java/de/vinado/boot/secrets/CompositePropertyIndexSupplier.java:101-103 | with a keep-last merge, toMap never fails and each key maps to its last value in encounter order |
| Collectors.KeepExistingIsFirstWins | src/main/java/de/vinado/boot/secrets/FilenamePropertyIndexSupplier.java:72-76 | with a keep-first merge, toMap never fails and each key maps to its first value in encounter order |
| Collectors.RejectingSucceedsIff | secrets/src/main/java/de/vinado/boot/secrets/FilenamePropertyIndexSupplier.java:63 | with a rejecting merge, toMap succeeds iff the keys are pairwise distinct and new to the accumulator, and then holds every entry |
| Collectors.StrictNamesAKey | secrets/src/main/java/de/vinado/boot/secrets/EnvironmentPropertyIndexSupplier.java:42 | toMap without a merge function fails naming a key of the entries |
| Collectors.ThrowingNamesAValue | api/src/main/java/de/vinado/boot/secrets/CompositePropertyIndexSupplier.java:81-85 | the builder's throwing merge fails naming a value, one already collected or one of the stream, not a key |
| Collectors.CustomIsMergeWith | api/src/main/java/de/vinado/boot/secrets/CompositePropertyIndexSupplier.java:112-115 | with a caller's merge function and distinct keys, toMap is the map merge applying that function to a key already in the accumulator |
| Collectors.Enumerate | api/src/main/java/de/vinado/boot/secrets/SecretsEnvironment.java:48 | entrySet() of a HashMap in some unspecified order: distinct keys, and the entries rebuild exactly the map |
| Collectors.DistinctEntriesAreWinners | api/src/main/java/de/vinado/boot/secrets/SecretsEnvironment.java:48 | an entry list that repeats no key holds exactly the entries of the map it collects to |
| Collectors.EntriesDescribe | api/src/main/java/de/vinado/boot/secrets/PropertyIndexSupplier.java:34-36 | entries that repeat no key and are exactly the entries of m collect to m |
| Collectors.EnumerateEntries | api/src/main/java/de/vinado/boot/secrets/SecretsEnvironment.java:48 | entrySet() holds each key of the map with its value, and nothing else |
| Collectors.MapValuesLastWins | api/src/main/java/de/vinado/boot/secrets/CompositePropertyIndexSupplier.java:43-50 | mapping the values of the entries and then collecting equals collecting and then mapping the map's values |
| Streams.Filter | api/src/main/java/de/vinado/boot/secrets/Utils.java:30-40 | Stream.filter keeps exactly the elements satisfying the predicate and never yields more than the input |
| Streams.FilterAppend | secrets/src/main/java/de/vinado/boot/secrets/EnvironmentPropertyIndexSupplier.java:39-41 | filtering a concatenation is concatenating the filtered parts |
| Streams.FilterKeepsDistinct | secrets/src/main/java/de/vinado/boot/secrets/EnvironmentPropertyIndexSupplier.java:39-40 | filtering a stream without repeats leaves one without repeats |
| Streams.FilterOccurrences | secrets/src/main/java/de/vinado/boot/secrets/ConfigDataPropertyIndexSupplier.java:56-57 | filtering keeps every occurrence of an element that satisfies the predicate and no occurrence of one that does not |
| Streams.KeyStream | secrets/src/main/java/de/vinado/boot/secrets/EnvironmentPropertyIndexSupplier.java:39 | keySet().stream(): every key exactly once |
| Streams.Pairs | secrets/src/main/java/de/vinado/boot/secrets/FilenamePropertyIndexSupplier.java:63 | the (key function, value function) pair stream that toMap consumes, element by element |
| Streams.PairsCollectIff | secrets/src/main/java/de/vinado/boot/secrets/EnvironmentPropertyIndexSupplier.java:42 | collecting pairs with a rejecting merge succeeds iff no two stream positions share a key |
| Streams.PairsCollectContents | secrets/src/main/java/de/vinado/boot/secrets/EnvironmentPropertyIndexSupplier.java:42 | a successful collection holds exactly the keys of the stream, each with its element's value |
| Streams.DistinctCollectIff | secrets/src/main/java/de/vinado/boot/secrets/FilenamePropertyIndexSupplier.java:63 | over a stream without repeats whose elements are those satisfying p, collection succeeds iff no two different such elements share a key |
| Streams.DistinctCollectContents | secrets/src/main/java/de/vinado/boot/secrets/FilenamePropertyIndexSupplier.java:63 | the collected map holds the key of every element satisfying p, and only those, each with its element's value |
| Streams.PairsCollectKeepingFirst | src/main/java/de/vinado/boot/secrets/FilenamePropertyIndexSupplier.java:51 | collecting keep-first never fails and maps each key to the value of its first element |
| Streams.CollisionRejects | secrets/src/main/java/de/vinado/boot/secrets/FilenamePropertyIndexSupplier.java:63 | two positions with one key make a rejecting collection fail |
| Streams.CollectFilteredSucceedsIff | secrets/src/main/java/de/vinado/boot/secrets/FilenamePropertyIndexSupplier.java:61-63 | filtering a repeat-free stream and collecting with a rejecting merge succeeds iff no two different kept elements share a key |
| Streams.FilteredCollectContents | secrets/src/main/java/de/vinado/boot/secrets/FilenamePropertyIndexSupplier.java:61-63 | a successful rejecting collection of the kept elements holds exactly the keys of the kept elements, each mapped to its element's value |
| PropertySources.IndexOf | api/src/main/java/de/vinado/boot/secrets/SecretPropertiesPropertySource.java:42 | the position of the first source with a name, or -1 exactly when there is none |
| PropertySources.CountNamed | api/src/main/java/de/vinado/boot/secrets/SecretPropertiesPropertySource.java:42-47 | the number of sources with a name: zero iff none is present |
| PropertySources.CountNamedAppend | api/src/main/java/de/vinado/boot/secrets/SecretPropertiesPropertySource.java:42-47 | counting sources of a name is additive over concatenation |
| PropertySources.GetProperty | api/src/main/java/de/vinado/boot/secrets/SecretsEnvironment.java:42-45 | environment.getProperty: absent iff no source holds the key, otherwise the value of the first source that holds it |
| PropertySources.GetPropertyOr | api/src/main/java/de/vinado/boot/secrets/CompositePropertyIndexSupplier.java:67-71 | getProperty(key, default): the property when present, the default otherwise |
| PropertySources.PropertyOf | secrets/src/main/java/de/vinado/boot/secrets/ConfigDataPropertyIndexSupplier.java:58 | resolver::getProperty as a collector value function: on every property some source holds, the value of the first source that holds it |
| PropertySources.GetPropertySkipsPrefix | api/src/main/java/de/vinado/boot/secrets/SecretPropertiesPropertySource.java:45-47 | sources ahead of the first holder of a key do not change its value |
| PropertySources.RemoveFirst | api/src/main/java/de/vinado/boot/secrets/SecretPropertiesPropertySource.java:45-47 | removeIfPresent: unchanged without a source of that name, otherwise exactly the first such source taken out |
| PropertySources.AddAfter | api/src/main/java/de/vinado/boot/secrets/SecretPropertiesPropertySource.java:45-47 | addAfter(anchor, source): fails with IllegalArgument when the anchor is the source's own name or is missing once a same-named source is removed; otherwise the source sits right after the anchor |
| PropertySources.AddAfterFreshName | api/src/main/java/de/vinado/boot/secrets/SecretPropertiesPropertySource.java:45-47 | a source with a new name is inserted directly after the anchor, every other source keeping its order |
| PropertySources.AddAfterMissingAnchor | src/main/java/de/vinado/spring/secrets/EnvironmentPropertySecretsProcessor.java:56-58 | without the anchor source addAfter fails with IllegalArgument |
| PropertySources.AddAfterAddedSource | src/main/java/de/vinado/spring/secrets/EnvironmentPropertySecretsProcessor.java:56-58 | adding a second new source after a first new one places it directly behind the first |
| PropertySources.GetPropertyAt | api/src/main/java/de/vinado/boot/secrets/SecretsEnvironment.java:42-45 | the first source holding a key decides its value |
| PropertySources.AddAfterDecides | src/main/java/de/vinado/spring/secrets/SecretsProcessor.java:44-48 | a new source added after an anchor decides every key it holds that no source up to the anchor holds |
| PropertySources.Replace | api/src/main/java/de/vinado/boot/secrets/SecretPropertiesPropertySource.java:42-44 | replace(name, source): succeeds iff a source of that name exists, and then swaps it in place, length and every other position unchanged |
| SecretPropertiesPropertySource.MergeIfPossible | api/src/main/java/de/vinado/boot/secrets/SecretPropertiesPropertySource.java:52-63 | the merged entries: the new ones win; the old ones survive where not overridden only when the old source is map-backed |
| SecretPropertiesPropertySource.Merge | api/src/main/java/de/vinado/boot/secrets/SecretPropertiesPropertySource.java:32-49 | an empty source leaves the sources as they are; merging fails iff the source is non-empty and neither secretProperties nor systemEnvironment exists |
| SecretPropertiesPropertySource.MergeNullable | api/src/main/java/de/vinado/boot/secrets/SecretPropertiesPropertySource.java:33-34 | a null source or null sources are rejected with IllegalArgument before anything else |
| SecretPropertiesPropertySource.MergeReplacesInPlace | api/src/main/java/de/vinado/boot/secrets/SecretPropertiesPropertySource.java:42-44 | an existing secretProperties source is replaced at its position by the merged one; the count and every other position are unchanged |
| SecretPropertiesPropertySource.MergeInsertsAfterSystemEnvironment | api/src/main/java/de/vinado/boot/secrets/SecretPropertiesPropertySource.java:45-47 | without secretProperties exactly one new source with the given entries lands directly after systemEnvironment |
| SecretPropertiesPropertySource.MergeKeepsAtMostOne | api/src/main/java/de/vinado/boot/secrets/SecretPropertiesPropertySource.java:42-47 | one merge keeps at most one secretProperties source, exactly one for a non-empty source |
| SecretPropertiesPropertySource.MergeAllKeepsAtMostOne | api/src/main/java/de/vinado/boot/secrets/SecretPropertiesPropertySource.java:42-47 | any run of successive merges keeps at most one secretProperties source |
| SecretPropertiesPropertySource.SecretEntries | api/src/main/java/de/vinado/boot/secrets/SecretPropertiesPropertySource.java:20 | the entries of the secretProperties source, empty without one |
| SecretPropertiesPropertySource.MergeSecretEntries | api/src/main/java/de/vinado/boot/secrets/SecretPropertiesPropertySource.java:36-47 | after a merge the secretProperties source exists iff it did or the source is non-empty, and holds the old secrets overridden by the new ones |
| SecretPropertiesPropertySource.MergeSecretEntriesReplaced | api/src/main/java/de/vinado/boot/secrets/SecretPropertiesPropertySource.java:42-44 | a merge into an existing map-backed source yields the old secrets overridden by the new ones |
| SecretPropertiesPropertySource.MergeSecretEntriesInserted | api/src/main/java/de/vinado/boot/secrets/SecretPropertiesPropertySource.java:45-47 | a merge without secretProperties yields a map-backed source with the old (none) plus the new secrets |
| SecretPropertiesPropertySource.LaterMergeWins | api/src/test/java/de/vinado/boot/secrets/SecretPropertiesPropertySourceTest.java:57-63 | of two merges carrying one key, the later decides its value |
| SecretPropertiesPropertySource.MergeDecides | api/src/main/java/de/vinado/boot/secrets/SecretPropertiesPropertySource.java:45-48 | with no secretProperties source yet, the merge succeeds and a merged key reads as its merged value when no source up to systemEnvironment holds it |
| SecretsEnvironment.New | api/src/main/java/de/vinado/boot/secrets/SecretsEnvironment.java:29-40 | the constructor succeeds iff all four arguments are non-null, else IllegalArgument, and starts with no collected secrets |
| SecretsEnvironment.Default | api/src/main/java/de/vinado/boot/secrets/DefaultSecretResolver.java:35-41 | the default resolver seen as a SecretResolver, each location resolved by the corrected loadContent (trim before the text check); its properties are those of DefaultSecretResolver.LoadContent |
| SecretsEnvironment.DefaultAsWritten | api/src/main/java/de/vinado/boot/secrets/DefaultSecretResolver.java:35-41 | the default resolver seen as a SecretResolver as the program builds it, each location resolved by loadContent as written (text check before the trim); related to Default by LoadContentAgreesUnlessBlank |
| SecretsEnvironment.Resolved | api/src/main/java/de/vinado/boot/secrets/SecretsEnvironment.java:47-55 | the resolved secrets: a key is present iff it is indexed and the resolver loads its location, with the resolver's value |
| SecretsEnvironment.ResolvedAgree | api/src/main/java/de/vinado/boot/secrets/SecretsEnvironment.java:47-55 | two resolvers that agree on every indexed location find the same secrets |
| SecretsEnvironment.ResolveSecretResources | api/src/main/java/de/vinado/boot/secrets/SecretsEnvironment.java:47-55 | the loop over the entries adds exactly the resolved secrets to the collected ones, whatever the iteration order |
| SecretsEnvironment.ProcessAndApply | api/src/main/java/de/vinado/boot/secrets/SecretsEnvironment.java:42-45 | an index failure propagates; every resolved secret is collected and nothing collected is lost; the merge fails iff something is collected and neither secretProperties nor systemEnvironment exists |
| SecretsEnvironment.ProcessAndApplyFresh | src/main/java/de/vinado/boot/secrets/SecretsEnvironment.java:39-42 | from an empty collection, processAndApply is exactly one merge of the resolved secrets |
| SecretsEnvironment.ProcessAndApplyPublishes | api/src/main/java/de/vinado/boot/secrets/SecretsEnvironment.java:42-45 | afterwards secretProperties holds its old secrets overridden by everything collected |
| SecretsEnvironment.SecretIsVisible | src/main/java/de/vinado/boot/secrets/SecretsEnvironment.java:44-51 | a resolved secret is what the environment answers for its property when no source up to systemEnvironment holds it |
| SecretsEnvironment.EmptyIndexAddsNothing | api/src/test/java/de/vinado/boot/secrets/SecretsEnvironmentTest.java:43-50 | an empty index adds no secretProperties source |
| SecretsEnvironment.SingletonIndexIsApplied | api/src/test/java/de/vinado/boot/secrets/SecretsEnvironmentTest.java:53-63 | an identity resolver over {spring.datasource.username: bob} makes that property read bob |
| DefaultSecretResolver.New | api/src/main/java/de/vinado/boot/secrets/DefaultSecretResolver.java:26-27 | a null resource loader is rejected |
| DefaultSecretResolver.LoadResource | api/src/main/java/de/vinado/boot/secrets/DefaultSecretResolver.java:47-52 | a resource is found iff the location has text and the loader holds it, and then it is that content |
| DefaultSecretResolver.LoadContentAsWritten | api/src/main/java/de/vinado/boot/secrets/DefaultSecretResolver.java:35-41 | loadContent as written: nothing for a null location, otherwise the text check before the trim |
| DefaultSecretResolver.LoadContentAsWrittenYieldsBlank | api/src/main/java/de/vinado/boot/secrets/DefaultSecretResolver.java:38-40 | content of two NUL characters resolves, as written, to the empty string |
| DefaultSecretResolver.NulContentIsBlank | api/src/main/java/de/vinado/boot/secrets/DefaultSecretResolver.java:38-40 | at any location with text that holds two NUL characters, the as-written resolver finds the empty secret and the corrected one finds none |
| DefaultSecretResolver.LoadContent | api/src/main/java/de/vinado/boot/secrets/DefaultSecretResolver.java:35-41 | present iff the location is non-null, has text, exists, and its content has text after trimming; then the trimmed content, which has text and is its own trim |
| DefaultSecretResolver.LoadContentAgreesUnlessBlank | api/src/main/java/de/vinado/boot/secrets/DefaultSecretResolver.java:38-40 | the corrected resolver differs from the as-written one only by reporting absence where the as-written result is blank |
| DefaultSecretResolver.LoadContentExamples | api/src/test/java/de/vinado/boot/secrets/DefaultSecretResolverTest.java:38-91 | classpath content "localhost\n" resolves to localhost; a null, unknown or empty location and an empty file resolve to nothing |
| DefaultSecretResolver.ClasspathResourceIsTrimmed | api/src/test/java/de/vinado/boot/secrets/DefaultSecretResolverTest.java:38-42 | the classpath resource spring_mail_host holding "localhost\n" resolves to "localhost" |
| DefaultSecretResolver.UnknownLocationIsAbsent | api/src/test/java/de/vinado/boot/secrets/DefaultSecretResolverTest.java:59-63 | a random text that names no resource resolves to nothing |
| DefaultSecretResolver.EmptyFileIsAbsent | api/src/test/java/de/vinado/boot/secrets/DefaultSecretResolverTest.java:73-77 | the empty resource secret.empty resolves to nothing |
| EnvironmentPropertySubstituter.SubstituteAsWritten | api/src/main/java/de/vinado/boot/secrets/EnvironmentPropertySubstituter.java:20-25 | substitute as written: present iff the property has text, then its trim |
| EnvironmentPropertySubstituter.SubstituteAsWrittenYieldsBlank | api/src/main/java/de/vinado/boot/secrets/EnvironmentPropertySubstituter.java:23-24 | a property whose value is a NUL character substitutes, as written, to the empty string |
| EnvironmentPropertySubstituter.Substitute | api/src/main/java/de/vinado/boot/secrets/EnvironmentPropertySubstituter.java:20-25 | present iff the name resolves and its trimmed value has text; then that trimmed value, never the name itself |
| EnvironmentPropertySubstituter.SubstituteExamples | api/src/test/java/de/vinado/boot/secrets/EnvironmentPropertySubstituterTest.java:49-61 | " bar \n" substitutes to bar and an empty value to nothing |
| PropertyIndexSupplier.From | api/src/main/java/de/vinado/boot/secrets/PropertyIndexSupplier.java:67-70 | from(null) is rejected; from(m) supplies m, taken as it stands when from is called (see Left out) |
| PropertyIndexSupplier.Substitute | api/src/main/java/de/vinado/boot/secrets/PropertyIndexSupplier.java:57-59 | the default substitute is resolver::getProperty: present iff some source holds the value as a property name, and then the value of the first source that holds it |
| PropertyIndexSupplier.SubstituteValuesAsWritten | api/src/main/java/de/vinado/boot/secrets/PropertyIndexSupplier.java:31-37 | as written: null resolver rejected at the call; a failing index fails get(); an entry is kept iff its resolution has text, mapped to the trimmed resolution; keys never added |
| PropertyIndexSupplier.SubstituteValuesAsWrittenYieldsBlank | api/src/main/java/de/vinado/boot/secrets/PropertyIndexSupplier.java:33-36 | an entry whose resolution is a NUL character survives as the empty string |
| PropertyIndexSupplier.SubstituteValuesAsWrittenFiltersByValue | api/src/main/java/de/vinado/boot/secrets/PropertyIndexSupplier.java:33-36 | the keys substituteValues keeps are exactly those the entry-set filter value(wherePropertyHasText) lets through |
| PropertyIndexSupplier.SubstituteValues | api/src/main/java/de/vinado/boot/secrets/PropertyIndexSupplier.java:31-49 | an entry is kept iff its resolution has text once trimmed, mapped to that trimmed text; keys are a subset of the index's |
| PropertyIndexSupplier.SubstituteValuesAgreesUnlessBlank | api/src/main/java/de/vinado/boot/secrets/PropertyIndexSupplier.java:33-36 | the corrected substitution keeps a subset of the as-written keys with the same values; only blank as-written values are dropped |
| PropertyIndexSupplier.SubstituteValuesOfOne | api/src/main/java/de/vinado/boot/secrets/PropertyIndexSupplier.java:45-49 | a one-entry index whose value resolves to text substitutes to the trimmed resolution under the same key |
| PropertyIndexSupplier.SubstituteValuesAsWrittenOfOne | api/src/main/java/de/vinado/boot/secrets/PropertyIndexSupplier.java:33-36 | as written, a one-entry index whose value resolves to a value with text substitutes to its trim under the same key |
| PropertyIndexSupplier.SubstituteValuesExample | api/src/test/java/de/vinado/boot/secrets/PropertyIndexSupplierTest.java:28-40 | SMTP_USER = " bob \n" substitutes username to bob |
| CompositePropertyIndexSupplier.Using | api/src/main/java/de/vinado/boot/secrets/CompositePropertyIndexSupplier.java:112-115 | using(null) is rejected; otherwise an empty builder with that merge function |
| CompositePropertyIndexSupplier.BuilderAsWritten | api/src/main/java/de/vinado/boot/secrets/CompositePropertyIndexSupplier.java:81-85 | builder() as written: empty, with a merge function that rejects duplicates |
| CompositePropertyIndexSupplier.NewBuilder | api/src/main/java/de/vinado/boot/secrets/CompositePropertyIndexSupplier.java:81-85 | builder() corrected: empty and rejecting duplicates; the error then names the key |
| CompositePropertyIndexSupplier.Keeping | api/src/main/java/de/vinado/boot/secrets/CompositePropertyIndexSupplier.java:92-94 | keeping(): an empty builder whose merge never rejects |
| CompositePropertyIndexSupplier.Overriding | api/src/main/java/de/vinado/boot/secrets/CompositePropertyIndexSupplier.java:101-103 | overriding(): an empty builder whose merge never rejects |
| CompositePropertyIndexSupplier.Add | api/src/main/java/de/vinado/boot/secrets/CompositePropertyIndexSupplier.java:129-134 | add(map): null rejected; otherwise the map's supplier appended, the merge function kept |
| CompositePropertyIndexSupplier.AddSupplier | api/src/main/java/de/vinado/boot/secrets/CompositePropertyIndexSupplier.java:136-140 | add(supplier): null rejected; otherwise the supplier appended |
| CompositePropertyIndexSupplier.AddAll | api/src/main/java/de/vinado/boot/secrets/CompositePropertyIndexSupplier.java:142-146 | addAll: null rejected; otherwise the suppliers appended in order |
| CompositePropertyIndexSupplier.Build | api/src/main/java/de/vinado/boot/secrets/CompositePropertyIndexSupplier.java:153-155 | build(): the builder's delegates and merge function, no resolver |
| CompositePropertyIndexSupplier.BuildAndSubstitute | api/src/main/java/de/vinado/boot/secrets/CompositePropertyIndexSupplier.java:164-167 | buildAndSubstitute(null) rejected; otherwise the delegates and merge function with that resolver |
| CompositePropertyIndexSupplier.SubstituteIfNotNull | api/src/main/java/de/vinado/boot/secrets/CompositePropertyIndexSupplier.java:52-58 | identity without a resolver; with one, the property named by the value, falling back to the value itself |
| CompositePropertyIndexSupplier.CollectStep | api/src/main/java/de/vinado/boot/secrets/CompositePropertyIndexSupplier.java:43-50 | get() takes the delegates in order: a throwing delegate aborts with its error, otherwise its substituted entries are collected before the next delegate |
| CompositePropertyIndexSupplier.Collect | api/src/main/java/de/vinado/boot/secrets/CompositePropertyIndexSupplier.java:43-50 | the composite stream from an accumulated map: delegates in order, each entry value substituted, collected with the merge function; characterised by CollectKeeping, CollectOverriding, CollectRejecting and CollectFailsOnFailingDelegate |
| CompositePropertyIndexSupplier.Get | api/src/main/java/de/vinado/boot/secrets/CompositePropertyIndexSupplier.java:43-50 | the composite get(): Collect from the empty map over the builder's delegates, merge function and resolver |
| CompositePropertyIndexSupplier.SubstituteValues | api/src/main/java/de/vinado/boot/secrets/CompositePropertyIndexSupplier.java:60-65 | the composite's substituteValues: null rejected; same success and keys as get(); each value is the trimmed lookup-or-fallback, never dropped |
| CompositePropertyIndexSupplier.SubstitutedEntries | api/src/main/java/de/vinado/boot/secrets/CompositePropertyIndexSupplier.java:45-47 | a delegate's substituted entries have distinct keys and rebuild its index with substituted values, whatever the enumeration order |
| CompositePropertyIndexSupplier.CollectKeeping | api/src/main/java/de/vinado/boot/secrets/CompositePropertyIndexSupplier.java:92-94 | keeping(): get() is the union of the substituted indexes where the first delegate holding a key wins |
| CompositePropertyIndexSupplier.CollectOverriding | api/src/main/java/de/vinado/boot/secrets/CompositePropertyIndexSupplier.java:101-103 | overriding(): get() is the union where the last delegate holding a key wins |
| CompositePropertyIndexSupplier.CollectRejecting | api/src/main/java/de/vinado/boot/secrets/CompositePropertyIndexSupplier.java:81-85 | a rejecting merge: get() succeeds iff no two delegates share a key and none shares one with what is already collected; then it is the union of all substituted indexes |
| CompositePropertyIndexSupplier.CollectFailsOnFailingDelegate | api/src/main/java/de/vinado/boot/secrets/CompositePropertyIndexSupplier.java:43-50 | a delegate whose get() throws makes get() fail, with that delegate's error when nothing failed earlier and the merge never rejects |
| CompositePropertyIndexSupplier.AccumulateCommutes | api/src/main/java/de/vinado/boot/secrets/CompositePropertyIndexSupplier.java:46-48 | for every merge but a custom one, substituting the entries before collecting gives the collected map substituted, with the same failures; only the throwing merge's error differs, naming a substituted value |
| CompositePropertyIndexSupplier.CollectCommutes | api/src/main/java/de/vinado/boot/secrets/CompositePropertyIndexSupplier.java:43-50 | the same over all delegates: get() with a resolver is get() without one, its values substituted |
| CompositePropertyIndexSupplier.BuildAndSubstituteIsSubstitutedBuild | api/src/main/java/de/vinado/boot/secrets/CompositePropertyIndexSupplier.java:164-167 | buildAndSubstitute(r).get() is build().get() with lookup-or-fallback applied to every value: same keys and failures, never dropped or trimmed |
| CompositePropertyIndexSupplier.BuildThenSubstituteIsTrimmed | api/src/main/java/de/vinado/boot/secrets/CompositePropertyIndexSupplier.java:60-65 | build().substituteValues(r).get() is buildAndSubstitute(r).get() with every value trimmed |
| CompositePropertyIndexSupplier.BuildThenSubstituteEqualsBuildAndSubstitute | api/src/test/java/de/vinado/boot/secrets/CompositePropertyIndexSupplierTest.java:82-95 | the two agree when the substituted values are already trimmed; under the as-written throwing merge, whenever buildAndSubstitute succeeds |
| CompositePropertyIndexSupplier.CollisionOfTwo | api/src/main/java/de/vinado/boot/secrets/CompositePropertyIndexSupplier.java:43-50 | two delegates with one key: get() is whatever the merge function makes of the two values, in delegate order |
| CompositePropertyIndexSupplier.KeepingKeepsInitialValue | api/src/test/java/de/vinado/boot/secrets/CompositePropertyIndexSupplierTest.java:49-58 | keeping() with foo=bar then foo=baz yields foo=bar |
| CompositePropertyIndexSupplier.OverridingOverridesExistingValue | api/src/test/java/de/vinado/boot/secrets/CompositePropertyIndexSupplierTest.java:61-70 | overriding() with foo=bar then foo=baz yields foo=baz |
| CompositePropertyIndexSupplier.BuilderRejectsDuplicateKey | api/src/test/java/de/vinado/boot/secrets/CompositePropertyIndexSupplierTest.java:39-46 | builder() with foo=bar then foo=baz fails on get(), naming the key foo |
| CompositePropertyIndexSupplier.BuilderAsWrittenNamesValue | api/src/main/java/de/vinado/boot/secrets/CompositePropertyIndexSupplier.java:81-85 | as written, the same get() fails naming the value bar |
| CompositePropertyIndexSupplier.MissingResolverDoesNotSubstitute | api/src/test/java/de/vinado/boot/secrets/CompositePropertyIndexSupplierTest.java:98-110 | without a resolver a delegate's index comes back unchanged |
| CompositePropertyIndexSupplier.DisjointPair | api/src/main/java/de/vinado/boot/secrets/CompositePropertyIndexSupplier.java:43-50 | two delegates without a common key under a rejecting merge yield the union of their substituted indexes |
| CompositePropertyIndexSupplier.BuildAndSubstituteScenario | api/src/test/java/de/vinado/boot/secrets/CompositePropertyIndexSupplierTest.java:82-95 | the username entry resolves through DATABASE_USER_FILE and the password path, naming no property, stays as it is |
| CompositePropertyIndexSupplier.BuildThenSubstituteScenario | api/src/test/java/de/vinado/boot/secrets/CompositePropertyIndexSupplierTest.java:82-95 | on that scenario build().substituteValues(env) equals buildAndSubstitute(env) |
| CompositePropertyIndexSupplier.SingleDelegate | api/src/main/java/de/vinado/boot/secrets/CompositePropertyIndexSupplier.java:43-50 | one delegate under a rejecting merge: get() is its index with every value substituted |
| CompositePropertyIndexSupplier.ScenarioUsernameResolves | api/src/main/java/de/vinado/boot/secrets/CompositePropertyIndexSupplier.java:68-71 | the value DATABASE_USER_FILE names a property of the test environment and is replaced by its value /run/secrets/db_username |
| CompositePropertyIndexSupplier.ScenarioPasswordIsKept | api/src/main/java/de/vinado/boot/secrets/CompositePropertyIndexSupplier.java:68-71 | the value /run/secrets/db_password names no property and is kept as it is |
| FilenamePropertyIndexSupplier.Of | secrets/src/main/java/de/vinado/boot/secrets/FilenamePropertyIndexSupplier.java:122-127 | Separator.of succeeds iff the character is '.' or '_', with that separator; otherwise IllegalArgument "Unknown separator char" |
| FilenamePropertyIndexSupplier.OfCharacter | secrets/src/main/java/de/vinado/boot/secrets/FilenamePropertyIndexSupplier.java:115-127 | each separator is found again from its own character |
| FilenamePropertyIndexSupplier.SeparatorCharacter | secrets/src/main/java/de/vinado/boot/secrets/FilenamePropertyIndexSupplier.java:67 | the separator property as a Character: absent or empty means '.', one character means that character, a longer value is a conversion failure |
| FilenamePropertyIndexSupplier.GetSeparator | secrets/src/main/java/de/vinado/boot/secrets/FilenamePropertyIndexSupplier.java:66-69 | the configured separator, or IllegalArgument for one that is no character or no known separator |
| FilenamePropertyIndexSupplier.BaseDir | secrets/src/main/java/de/vinado/boot/secrets/FilenamePropertyIndexSupplier.java:54 | secrets.file.base-dir, defaulting to /run/secrets |
| FilenamePropertyIndexSupplier.LastIndexOf | secrets/src/main/java/de/vinado/boot/secrets/FilenamePropertyIndexSupplier.java:89 | String.lastIndexOf: the last position holding the character, or -1 |
| FilenamePropertyIndexSupplier.ContainsDefaultSeparatorIff | secrets/src/main/java/de/vinado/boot/secrets/FilenamePropertyIndexSupplier.java:87-90 | containsDefaultSeparator holds iff a dot occurs at a position other than the first |
| FilenamePropertyIndexSupplier.ContainsDefaultSeparator | secrets/src/main/java/de/vinado/boot/secrets/FilenamePropertyIndexSupplier.java:87-90 | containsDefaultSeparator: lastIndexOf('.') > 0; ContainsDefaultSeparatorIff states it as a dot after the first character |
| FilenamePropertyIndexSupplier.IsAllowed | secrets/src/main/java/de/vinado/boot/secrets/FilenamePropertyIndexSupplier.java:79-81 | isAllowed: every file in dot mode, otherwise only names without a dot after the first character; used by Eligible and GetIndexesAllowedFiles |
| FilenamePropertyIndexSupplier.ConvertToPropertyName | secrets/src/main/java/de/vinado/boot/secrets/FilenamePropertyIndexSupplier.java:92-97 | same length; the separator becomes '.', everything else is lower-cased |
| FilenamePropertyIndexSupplier.ConvertIsIdempotent | secrets/src/main/java/de/vinado/boot/secrets/FilenamePropertyIndexSupplier.java:92-97 | converting a property name again changes nothing |
| FilenamePropertyIndexSupplier.Eligible | secrets/src/main/java/de/vinado/boot/secrets/FilenamePropertyIndexSupplier.java:61-62 | a listed entry is indexed iff it is a regular file and allowed by isAllowed |
| FilenamePropertyIndexSupplier.Get | secrets/src/main/java/de/vinado/boot/secrets/FilenamePropertyIndexSupplier.java:53-64 | an unknown separator fails; a base that is no directory yields the empty index; an unreadable one raises; otherwise the allowed regular files collected strictly under their property names with their URIs |
| FilenamePropertyIndexSupplier.GetIndexesAllowedFiles | secrets/src/main/java/de/vinado/boot/secrets/FilenamePropertyIndexSupplier.java:53-64 | on a listed directory get() succeeds iff no two indexed files share a property name, and then holds exactly the allowed regular files' names, each with its URI |
| FilenamePropertyIndexSupplier.GetSucceedsIffNoCollision | secrets/src/main/java/de/vinado/boot/secrets/FilenamePropertyIndexSupplier.java:63 | on a listing without repeats, get() succeeds iff no two different allowed files convert to one name |
| FilenamePropertyIndexSupplier.SeparatorExamples | secrets/src/test/java/de/vinado/boot/secrets/FilenamePropertyIndexSupplierTest.java:75-79 | '.' and '_' select those separators, '/' and "__" are rejected, and nothing configured means '.' |
| FilenamePropertyIndexSupplier.IllegalSeparatorFails | secrets/src/test/java/de/vinado/boot/secrets/FilenamePropertyIndexSupplierTest.java:75-79 | separator '/' fails get() whatever the directory holds |
| FilenamePropertyIndexSupplier.MissingBaseDirIsEmpty | secrets/src/main/java/de/vinado/boot/secrets/FilenamePropertyIndexSupplier.java:54-60 | without a base-dir property and no /run/secrets directory the index is empty |
| FilenamePropertyIndexSupplier.TwoOfThreeIndexed | secrets/src/main/java/de/vinado/boot/secrets/FilenamePropertyIndexSupplier.java:53-64 | two indexed files with different names and one skipped file give exactly the two entries |
| FilenamePropertyIndexSupplier.TwoCollide | secrets/src/main/java/de/vinado/boot/secrets/FilenamePropertyIndexSupplier.java:63 | two indexed files with one property name make get() fail |
| FilenamePropertyIndexSupplier.UnderscoreModeIndexesSnakeCaseFiles | secrets/src/test/java/de/vinado/boot/secrets/FilenamePropertyIndexSupplierTest.java:59-73 | underscore mode indexes a snake-case file under its dotted name and a plain word as itself, and skips a dotted file as ambiguous |
| FilenamePropertyIndexSupplier.DotModeIndexesEveryRegularFile | secrets/src/test/java/de/vinado/boot/secrets/FilenamePropertyIndexSupplierTest.java:31-57 | dot mode indexes every regular file, underscores kept, and no other entry |
| FilenamePropertyIndexSupplier.LeadingDotCollidesWithLeadingSeparator | secrets/src/main/java/de/vinado/boot/secrets/FilenamePropertyIndexSupplier.java:87-90 | in underscore mode ".x" is not ambiguous, so ".x" and "_x" both become ".x" and get() fails |
| FilenamePropertyIndexSupplier.CaseOnlyDifferenceCollides | secrets/src/main/java/de/vinado/boot/secrets/FilenamePropertyIndexSupplier.java:96 | a name and its lower-cased copy share a property name, so get() fails on both |
| FilenamePropertyIndexSupplier.ConvertKeepsPlainName | secrets/src/main/java/de/vinado/boot/secrets/FilenamePropertyIndexSupplier.java:92-97 | a name without the separator and without capitals is its own property name |
| FilenamePropertyIndexSupplier.ConvertReplacesSeparator | secrets/src/main/java/de/vinado/boot/secrets/FilenamePropertyIndexSupplier.java:92-97 | a name without capitals becomes itself with every separator replaced by a period |
| FilenamePropertyIndexSupplier.LowerCasedCopySharesName | secrets/src/main/java/de/vinado/boot/secrets/FilenamePropertyIndexSupplier.java:96 | a name and its lower-cased copy give the same property name in dot mode |
| FilenamePropertyIndexSupplier.UnderscoreConfigured | secrets/src/main/java/de/vinado/boot/secrets/FilenamePropertyIndexSupplier.java:54-68 | with secrets.file.separator set to "_" and no base directory set, the separator is the underscore and the base directory is /run/secrets |
| FilenamePropertyIndexSupplier.DotConfigured | secrets/src/main/java/de/vinado/boot/secrets/FilenamePropertyIndexSupplier.java:54-68 | with secrets.file.separator set to "." and no base directory set, the separator is the dot and the base directory is /run/secrets |
| FilenamePropertyIndexSupplier.WordIsItsOwnName | secrets/src/main/java/de/vinado/boot/secrets/FilenamePropertyIndexSupplier.java:79-97 | a lower-case word of letters is allowed in either mode and is its own property name |
| FilenamePropertyIndexSupplier.SnakeCaseIsAllowed | secrets/src/main/java/de/vinado/boot/secrets/FilenamePropertyIndexSupplier.java:79-90 | in underscore mode a snake-case name w1_w2 is allowed |
| FilenamePropertyIndexSupplier.DottedIsSkipped | secrets/src/main/java/de/vinado/boot/secrets/FilenamePropertyIndexSupplier.java:79-90 | in underscore mode a name with a dot after a non-empty first part is skipped as ambiguous |
| FilenamePropertyIndexSupplier.SnakeCaseKey | secrets/src/main/java/de/vinado/boot/secrets/FilenamePropertyIndexSupplier.java:92-97 | in underscore mode the file w1_w2 names the property w1.w2 |
| FilenamePropertyIndexSupplier.DotNames | secrets/src/main/java/de/vinado/boot/secrets/FilenamePropertyIndexSupplier.java:79-97 | in dot mode w1.w2 and w1_w2 are both allowed and each is its own property name |
| EnvironmentPropertyIndexSupplier.New | secrets/src/main/java/de/vinado/boot/secrets/EnvironmentPropertyIndexSupplier.java:28-31 | the two-argument constructor rejects a null environment or suffix |
| EnvironmentPropertyIndexSupplier.WithoutSuffix | secrets/src/main/java/de/vinado/boot/secrets/EnvironmentPropertyIndexSupplier.java:33-35 | the one-argument constructor uses the empty suffix |
| EnvironmentPropertyIndexSupplier.ConvertToPropertyName | secrets/src/main/java/de/vinado/boot/secrets/EnvironmentPropertyIndexSupplier.java:45-49 | the suffix cut off; underscores become periods, everything else lower-cased |
| EnvironmentPropertyIndexSupplier.HasValue | secrets/src/main/java/de/vinado/boot/secrets/EnvironmentPropertyIndexSupplier.java:41 | the second filter holds iff the environment has text for the variable |
| EnvironmentPropertyIndexSupplier.Names | secrets/src/main/java/de/vinado/boot/secrets/EnvironmentPropertyIndexSupplier.java:39-41 | the variables passing both filters, each once |
| EnvironmentPropertyIndexSupplier.Get | secrets/src/main/java/de/vinado/boot/secrets/EnvironmentPropertyIndexSupplier.java:37-43 | get() can only fail with a duplicate key, raised by toMap |
| EnvironmentPropertyIndexSupplier.GetSucceedsIff | secrets/src/main/java/de/vinado/boot/secrets/EnvironmentPropertyIndexSupplier.java:42 | get() succeeds iff no two different eligible variables spell one property |
| EnvironmentPropertyIndexSupplier.GetContents | secrets/src/main/java/de/vinado/boot/secrets/EnvironmentPropertyIndexSupplier.java:37-43 | a successful get() maps exactly the properties eligible variables spell, each to the variable's value, not its name |
| EnvironmentPropertyIndexSupplier.PropertyRoundTrip | secrets/src/main/java/de/vinado/boot/secrets/EnvironmentPropertyIndexSupplier.java:45-49 | converting the variable spelling of a plain property gives the property back |
| EnvironmentPropertyIndexSupplier.VariableRoundTrip | secrets/src/main/java/de/vinado/boot/secrets/EnvironmentPropertyIndexSupplier.java:45-49 | a variable whose stem has no periods or small letters is the spelling of the property it converts to |
| EnvironmentPropertyIndexSupplier.CaseVariantsConvertAlike | secrets/src/main/java/de/vinado/boot/secrets/EnvironmentPropertyIndexSupplier.java:48 | names differing in case only spell one property |
| EnvironmentPropertyIndexSupplier.CaseVariantsCollide | secrets/src/main/java/de/vinado/boot/secrets/EnvironmentPropertyIndexSupplier.java:42 | two eligible case variants make get() fail with a duplicate key |
| EnvironmentPropertyIndexSupplier.OneVariableIsIndexed | secrets/src/test/java/de/vinado/boot/secrets/EnvironmentPropertyIndexSupplierTest.java:47-54 | an eligible variable alone is the whole index, under its value |
| EnvironmentPropertyIndexSupplier.OnePropertyIsIndexed | secrets/src/test/java/de/vinado/boot/secrets/EnvironmentPropertyIndexSupplierTest.java:65-72 | the variable spelling a plain property, alone and with text, indexes that property |
| EnvironmentPropertyIndexSupplier.NothingEligibleIsEmpty | secrets/src/test/java/de/vinado/boot/secrets/EnvironmentPropertyIndexSupplierTest.java:74-98 | variables lacking the suffix or with blank values leave the index empty |
| EnvironmentPropertyIndexSupplier.VariableName | secrets/src/main/java/de/vinado/boot/secrets/EnvironmentPropertyIndexSupplier.java:45-49 | the variable spelling of a property, the inverse of convertToPropertyName: suffix appended, so it ends with the suffix and is that much longer |
| ConfigDataPropertyIndexSupplier.Prefix | secrets/src/main/java/de/vinado/boot/secrets/ConfigDataPropertyIndexSupplier.java:32 | secrets.<infix>.properties: starts with secrets., ends with .properties, the infix in between |
| ConfigDataPropertyIndexSupplier.FilePrefixLength | api/src/test/java/de/vinado/boot/secrets/UtilsTest.java:83-88 | the file infix's prefix plus one is 24, the cut the test uses |
| ConfigDataPropertyIndexSupplier.New | secrets/src/main/java/de/vinado/boot/secrets/ConfigDataPropertyIndexSupplier.java:38-44 | a null log factory, environment or infix is rejected; otherwise the prefix is secrets.<infix>.properties |
| ConfigDataPropertyIndexSupplier.IsValid | src/main/java/de/vinado/boot/secrets/ConfigDataPropertyIndexSupplier.java:62-68 | isValid holds iff the key is at least one longer than the prefix |
| ConfigDataPropertyIndexSupplier.Holding | secrets/src/main/java/de/vinado/boot/secrets/ConfigDataPropertyIndexSupplier.java:50-55 | the number of map-backed sources holding a key, positive iff some does |
| ConfigDataPropertyIndexSupplier.RawKeys | secrets/src/main/java/de/vinado/boot/secrets/ConfigDataPropertyIndexSupplier.java:50-55 | the flattened key sets of the map-backed sources: each key once per source holding it |
| ConfigDataPropertyIndexSupplier.Names | secrets/src/main/java/de/vinado/boot/secrets/ConfigDataPropertyIndexSupplier.java:56-57 | the raw keys with the prefix and long enough, each once per holding source |
| ConfigDataPropertyIndexSupplier.Logged | secrets/src/main/java/de/vinado/boot/secrets/ConfigDataPropertyIndexSupplier.java:57 | a warning is logged exactly for keys too short to assign |
| ConfigDataPropertyIndexSupplier.Warnings | secrets/src/main/java/de/vinado/boot/secrets/ConfigDataPropertyIndexSupplier.java:57 | the keys warned about: only the bare prefix, when declared |
| ConfigDataPropertyIndexSupplier.KeyOf | src/main/java/de/vinado/boot/secrets/ConfigDataPropertyIndexSupplier.java:70-72 | the key is everything after the prefix and one more character, as substring(prefix.length() + 1) |
| ConfigDataPropertyIndexSupplier.Get | secrets/src/main/java/de/vinado/boot/secrets/ConfigDataPropertyIndexSupplier.java:46-59 | get() can only fail with a duplicate key, raised by toMap |
| ConfigDataPropertyIndexSupplier.GetSucceedsIff | secrets/src/main/java/de/vinado/boot/secrets/ConfigDataPropertyIndexSupplier.java:58 | get() succeeds iff no candidate is held by two map-backed sources and no two candidates leave one key |
| ConfigDataPropertyIndexSupplier.GetContents | secrets/src/main/java/de/vinado/boot/secrets/ConfigDataPropertyIndexSupplier.java:46-59 | a successful get() maps exactly the keys of the declared candidates, each to the environment's value of the raw key |
| ConfigDataPropertyIndexSupplier.KeyAfterPrefix | secrets/src/main/java/de/vinado/boot/secrets/ConfigDataPropertyIndexSupplier.java:58 | the character after the prefix is not checked to be a period; a key of length prefix+1 yields the empty property |
| ConfigDataPropertyIndexSupplier.SeparatorVariantsCollide | secrets/src/main/java/de/vinado/boot/secrets/ConfigDataPropertyIndexSupplier.java:58 | two declarations differing only in that character collide |
| ConfigDataPropertyIndexSupplier.DeclaredTwiceFails | secrets/src/main/java/de/vinado/boot/secrets/ConfigDataPropertyIndexSupplier.java:50-58 | a candidate in two map-backed sources makes get() fail |
| ConfigDataPropertyIndexSupplier.OneDeclarationIsIndexed | secrets/src/test/java/de/vinado/boot/secrets/ConfigDataPropertyIndexSupplierTest.java:47-65 | a single declaration is the whole index, with its resolved value |
| ConfigDataPropertyIndexSupplier.BarePrefixIsSkipped | secrets/src/test/java/de/vinado/boot/secrets/ConfigDataPropertyIndexSupplierTest.java:33-45 | the bare prefix alone is warned about and yields the empty index |
| ConfigDataPropertyIndexSupplier.NothingDeclaredIsEmpty | secrets/src/main/java/de/vinado/boot/secrets/ConfigDataPropertyIndexSupplier.java:50-58 | without a declaration the index is empty |
| Ordering.Add32 | secrets/src/main/java/de/vinado/boot/secrets/FilenameSecretsEnvironmentPostProcessor.java:14 | Java int addition: an int congruent to the exact sum modulo 2^32 |
| Ordering.Int32Unique | secrets/src/main/java/de/vinado/boot/secrets/FilenameConfigDataSecretsEnvironmentPostProcessor.java:15 | the int congruent to an integer is unique |
| Ordering.Add32Exact | secrets/src/main/java/de/vinado/boot/secrets/FilenameConfigDataSecretsEnvironmentPostProcessor.java:15 | without overflow the int sum is exact; past the maximum it wraps to a negative number |
| Ordering.Add32Increases | secrets/src/main/java/de/vinado/boot/secrets/EnvironmentConfigDataSecretsEnvironmentPostProcessor.java:16 | adding a positive amount gives a larger int iff the exact sum fits |
| SecretsEnvironmentPostProcessors.Order | secrets/src/main/java/de/vinado/boot/secrets/EnvironmentSecretsPropertyEnvironmentPostProcessor.java:15 | each ORDER (and getOrder) in int arithmetic: config-data order + 100 for the filename processor, + 1 for each later one, exact when nothing overflows |
| SecretsEnvironmentPostProcessors.OrderChain | secrets/src/test/java/de/vinado/boot/secrets/OrderTest.java:13-19 | config-data < filename < filename-config-data < env-config-data < env-suffix holds iff no step overflows |
| SecretsEnvironmentPostProcessors.ConfigDataSupplier | secrets/src/main/java/de/vinado/boot/secrets/FilenameConfigDataSecretsEnvironmentPostProcessor.java:24-27 | the config-data supplier over the environment's sources for an infix |
| SecretsEnvironmentPostProcessors.EnvironmentSupplier | secrets/src/main/java/de/vinado/boot/secrets/EnvironmentSecretsPropertyEnvironmentPostProcessor.java:21-24 | the environment supplier with suffix _FILE |
| SecretsEnvironmentPostProcessors.FilenameIndex | secrets/src/main/java/de/vinado/boot/secrets/FilenameSecretsEnvironmentPostProcessor.java:23-26 | the filename post-processor's supplier, applied: get() of a FilenamePropertyIndexSupplier over the environment and file system |
| SecretsEnvironmentPostProcessors.FilenameConfigDataIndex | secrets/src/main/java/de/vinado/boot/secrets/FilenameConfigDataSecretsEnvironmentPostProcessor.java:24-27 | the filename config-data post-processor's supplier, applied: get() of the config-data supplier for infix filename, values unsubstituted (FilenameConfigDataIndexIs) |
| SecretsEnvironmentPostProcessors.EnvironmentConfigDataIndex | secrets/src/main/java/de/vinado/boot/secrets/EnvironmentConfigDataSecretsEnvironmentPostProcessor.java:25-29 | the env config-data post-processor's supplier, applied: the config-data index for infix env with substituteValues(environment) as written (EnvironmentConfigDataIndexIs) |
| SecretsEnvironmentPostProcessors.EnvironmentSecretsPropertyIndex | secrets/src/main/java/de/vinado/boot/secrets/EnvironmentSecretsPropertyEnvironmentPostProcessor.java:21-24 | the env-suffix post-processor's supplier, applied: get() of an EnvironmentPropertyIndexSupplier with suffix _FILE (EnvironmentSecretsPropertyIndexIs) |
| SecretsEnvironmentPostProcessors.ResourceLoaderOf | api/src/main/java/de/vinado/boot/secrets/SecretsEnvironmentPostProcessor.java:36-39 | the application's resource loader, or the default one when it has none |
| SecretsEnvironmentPostProcessors.ResolverOf | api/src/main/java/de/vinado/boot/secrets/SecretsEnvironmentPostProcessor.java:67-69 | the corrected resolver: each location resolves as the corrected loadContent, which trims before the text check; the resolver the program constructs is ResolverAsWrittenOf |
| SecretsEnvironmentPostProcessors.EnvironmentOf | api/src/main/java/de/vinado/boot/secrets/SecretsEnvironmentPostProcessor.java:53-58 | the secrets environment built from the sources, the resolver and the index, with nothing collected |
| SecretsEnvironmentPostProcessors.PostProcessEnvironment | api/src/main/java/de/vinado/boot/secrets/SecretsEnvironmentPostProcessor.java:41-44 | with the corrected resolver: an index failure propagates; otherwise the merge fails iff some secret resolves and neither secretProperties nor systemEnvironment exists |
| SecretsEnvironmentPostProcessors.PostProcessEnvironmentMerges | api/src/main/java/de/vinado/boot/secrets/SecretsEnvironmentPostProcessor.java:41-44 | a supplied index: the result is one merge of its resolved secrets |
| SecretsEnvironmentPostProcessors.NothingResolvedChangesNothing | secrets/src/test/java/de/vinado/boot/secrets/AbstractSecretsEnvironmentPostProcessorTest.java:38-43 | with the corrected resolver, an index none of whose locations loads leaves the sources as they are |
| SecretsEnvironmentPostProcessors.SecretBecomesVisible | api/src/main/java/de/vinado/boot/secrets/SecretsEnvironmentPostProcessor.java:41-44 | a property whose location loads reads as its secret afterwards, when no source up to systemEnvironment holds it |
| SecretsEnvironmentPostProcessors.FilenameSetsFileSecret | secrets/src/test/java/de/vinado/boot/secrets/FilenameSecretsEnvironmentPostProcessorTest.java:35-65 | the filename processor: an indexed file's property reads as the file's trimmed content |
| SecretsEnvironmentPostProcessors.Declaration | secrets/src/main/java/de/vinado/boot/secrets/ConfigDataPropertyIndexSupplier.java:58 | the declaration of a property under an infix is a candidate that converts back to the property |
| SecretsEnvironmentPostProcessors.OneDeclarationIndex | secrets/src/main/java/de/vinado/boot/secrets/ConfigDataPropertyIndexSupplier.java:46-59 | a single declaration yields the index of its property with the declared value |
| SecretsEnvironmentPostProcessors.FilenameConfigDataSetsDeclaredProperty | secrets/src/test/java/de/vinado/boot/secrets/FilenameConfigDataSecretsEnvironmentPostProcessorTest.java:41-50 | the file config-data processor loads a declared value directly as the location |
| SecretsEnvironmentPostProcessors.FilenameConfigDataIndexIs | secrets/src/main/java/de/vinado/boot/secrets/FilenameConfigDataSecretsEnvironmentPostProcessor.java:24-27 | its index is the declaration's value, unsubstituted |
| SecretsEnvironmentPostProcessors.EnvironmentConfigDataSetsDeclaredProperty | secrets/src/test/java/de/vinado/boot/secrets/EnvironmentConfigDataSecretsEnvironmentPostProcessorTest.java:17-24 | the env config-data processor reads a declared value as a property name and loads its trimmed value |
| SecretsEnvironmentPostProcessors.EnvironmentConfigDataIndexIs | secrets/src/main/java/de/vinado/boot/secrets/EnvironmentConfigDataSecretsEnvironmentPostProcessor.java:25-29 | its index, substituted as written, is the declared name resolved and trimmed |
| SecretsEnvironmentPostProcessors.EnvironmentSecretsPropertySetsProperty | secrets/src/test/java/de/vinado/boot/secrets/EnvironmentSecretsPropertyEnvironmentPostProcessorTest.java:42-58 | the env-suffix processor: <PROPERTY>_FILE naming a loadable location sets the property to its secret |
| SecretsEnvironmentPostProcessors.EnvironmentSecretsPropertyIndexIs | secrets/src/main/java/de/vinado/boot/secrets/EnvironmentSecretsPropertyEnvironmentPostProcessor.java:21-24 | its index maps the property to the variable's value |
| SecretsEnvironmentPostProcessors.NoDeclarationChangesNothing | secrets/src/test/java/de/vinado/boot/secrets/FilenameConfigDataSecretsEnvironmentPostProcessorTest.java:33-39 | without declarations the file config-data processor changes nothing |
| SecretsEnvironmentPostProcessors.NoDeclarationIndex | secrets/src/main/java/de/vinado/boot/secrets/ConfigDataPropertyIndexSupplier.java:46-59 | without declarations its index is empty |
| SecretsEnvironmentPostProcessors.OneSecretBecomesVisible | api/src/main/java/de/vinado/boot/secrets/SecretsEnvironmentPostProcessor.java:41-44 | an index of one property whose location loads: afterwards the property reads as the loaded secret, given no earlier source holds it |
| SecretsEnvironmentPostProcessors.ResolverAsWrittenOf | api/src/main/java/de/vinado/boot/secrets/SecretsEnvironmentPostProcessor.java:67-69 | the resolver the program constructs: each location resolves as loadContent as written, text check before the trim |
| SecretsEnvironmentPostProcessors.EnvironmentAsWrittenOf | api/src/main/java/de/vinado/boot/secrets/SecretsEnvironmentPostProcessor.java:53-58 | the secrets environment the program builds: the given sources and index, the constructed resolver, nothing collected |
| SecretsEnvironmentPostProcessors.PostProcessEnvironmentAsWritten | api/src/main/java/de/vinado/boot/secrets/SecretsEnvironmentPostProcessor.java:41-44 | postProcessEnvironment as written: an index failure propagates; otherwise the merge fails iff the as-written resolver finds some secret, blank ones included, and neither secretProperties nor systemEnvironment exists |
| SecretsEnvironmentPostProcessors.PostProcessEnvironmentAsWrittenMerges | api/src/main/java/de/vinado/boot/secrets/SecretsEnvironmentPostProcessor.java:41-44 | a supplied index: the result as written is one merge of the secrets the as-written resolver finds |
| SecretsEnvironmentPostProcessors.ResolvedAgreeUnlessBlank | api/src/main/java/de/vinado/boot/secrets/DefaultSecretResolver.java:38-40 | an index none of whose locations holds content that trims to blank resolves to the same secrets under both resolvers |
| SecretsEnvironmentPostProcessors.AsWrittenAgreesUnlessBlank | api/src/main/java/de/vinado/boot/secrets/SecretsEnvironmentPostProcessor.java:41-44 | the program as written and the corrected pipeline give the same result unless some indexed location holds content that trims to blank |
| SecretsEnvironmentPostProcessors.SecretBecomesVisibleAsWritten | api/src/main/java/de/vinado/boot/secrets/SecretsEnvironmentPostProcessor.java:41-44 | as written, a property whose location loads reads as the loaded content afterwards, blank or not, when no source up to systemEnvironment holds it |
| SecretsEnvironmentPostProcessors.OnlySystemEnvironmentIsOverridable | api/src/main/java/de/vinado/boot/secrets/SecretPropertiesPropertySource.java:45-47 | with only an empty systemEnvironment, a secrets source placed after it decides every property |
| SecretsEnvironmentPostProcessors.BlankSecretIsSetAsWritten | api/src/main/java/de/vinado/boot/secrets/DefaultSecretResolver.java:38-40 | a secret file of NUL characters: as written the property reads as the empty string afterwards; the corrected pipeline leaves the sources unchanged |
| SecretsEnvironmentPostProcessors.BlankSecretFailsAsWritten | api/src/main/java/de/vinado/boot/secrets/SecretsEnvironmentPostProcessor.java:41-44 | the same file with no secretProperties or systemEnvironment source: as written the processor fails; the corrected one leaves the sources unchanged |
| Directories.BaseDirOf | src/main/java/de/vinado/boot/secrets/FilenamePropertyIndexSupplier.java:45 | the base-dir property's value, or /run/secrets when no source holds it |
| Directories.RegularFiles | src/main/java/de/vinado/boot/secrets/FilenamePropertyIndexSupplier.java:54-60 | exactly the regular entries of a listing |
| Directories.DirectoryIndex | src/main/java/de/vinado/boot/secrets/FilenamePropertyIndexSupplier.java:44-52 | no directory gives the empty index, an unreadable one raises, a listed one never fails unless the merge rejects, and then with a duplicate key |
| Directories.KeepingFirstIndex | src/main/java/de/vinado/boot/secrets/FilenamePropertyIndexSupplier.java:51 | keep-first: the key of every regular file, each with the value of the first regular file with that key |
| Directories.StrictIndexIff | secrets/src/main/java/de/vinado/boot/secrets/FilenamePropertyIndexSupplier.java:63 | rejecting: succeeds iff no two different regular files share a key, and then holds each file's value |
| Directories.TwoFilesOneKey | src/main/java/de/vinado/boot/secrets/FilenamePropertyIndexSupplier.java:72-76 | two regular files with one key: keep-first holds the first one's value, a rejecting merge fails |
| LegacyFilenamePropertyIndexSupplier.BaseDir | src/main/java/de/vinado/boot/secrets/FilenamePropertyIndexSupplier.java:32-33 | secrets.file.base-dir, defaulting to /run/secrets |
| LegacyFilenamePropertyIndexSupplier.ConvertToPropertyName | src/main/java/de/vinado/boot/secrets/FilenamePropertyIndexSupplier.java:62-66 | the file name lower-cased, nothing replaced |
| LegacyFilenamePropertyIndexSupplier.ConvertIsDotMode | src/main/java/de/vinado/boot/secrets/FilenamePropertyIndexSupplier.java:62-66 | the older conversion is the newer one in dot mode |
| LegacyFilenamePropertyIndexSupplier.Get | src/main/java/de/vinado/boot/secrets/FilenamePropertyIndexSupplier.java:43-52 | fails iff the base directory is unreadable; no directory gives the empty index |
| LegacyFilenamePropertyIndexSupplier.GetIndexesRegularFiles | src/main/java/de/vinado/boot/secrets/FilenamePropertyIndexSupplier.java:43-76 | the lower-cased name of every regular file, each with the URI of the first regular file with that name |
| LegacyFilenamePropertyIndexSupplier.CaseVariantsKeepFirst | src/main/java/de/vinado/boot/secrets/FilenamePropertyIndexSupplier.java:72-76 | of two case variants the first listed supplies the URI, where the newer supplier fails |
| LegacyFilenamePropertyIndexSupplier.SnakeCaseIsKept | src/main/java/de/vinado/boot/secrets/FilenamePropertyIndexSupplier.java:62-66 | a snake-case file keeps its underscores in the property name |
| LegacyFilenamePropertyIndexSupplier.LowerCasedCopyKeepsFirst | src/main/java/de/vinado/boot/secrets/FilenamePropertyIndexSupplier.java:72-76 | a file listed before its lower-cased copy: the index holds the one property, with the first file's URI |
| LegacyEnvironmentPropertyIndexSupplier.Names | src/main/java/de/vinado/boot/secrets/EnvironmentPropertyIndexSupplier.java:39-40 | the variables ending with the suffix, each once, whatever their value |
| LegacyEnvironmentPropertyIndexSupplier.Identity | src/main/java/de/vinado/boot/secrets/EnvironmentPropertyIndexSupplier.java:41 | Function.identity(): the location is the variable name |
| LegacyEnvironmentPropertyIndexSupplier.Get | src/main/java/de/vinado/boot/secrets/EnvironmentPropertyIndexSupplier.java:37-42 | get() can only fail with a duplicate key, raised by toMap |
| LegacyEnvironmentPropertyIndexSupplier.GetSucceedsIff | src/main/java/de/vinado/boot/secrets/EnvironmentPropertyIndexSupplier.java:41 | get() succeeds iff no two different suffixed variables spell one property |
| LegacyEnvironmentPropertyIndexSupplier.GetContents | src/main/java/de/vinado/boot/secrets/EnvironmentPropertyIndexSupplier.java:37-42 | a successful get() maps exactly the properties suffixed variables spell, each to the variable's name |
| LegacyEnvironmentPropertyIndexSupplier.LocationsAreVariables | src/main/java/de/vinado/boot/secrets/EnvironmentPropertyIndexSupplier.java:41 | each location is a suffixed variable spelling its property |
| LegacyEnvironmentPropertyIndexSupplier.Substituted | secrets/src/main/java/de/vinado/boot/secrets/EnvironmentPropertyIndexSupplier.java:41-42 | the older index with each variable replaced by its value, dropping those without text |
| LegacyEnvironmentPropertyIndexSupplier.NewerSucceeds | secrets/src/main/java/de/vinado/boot/secrets/EnvironmentPropertyIndexSupplier.java:42 | where the older get() succeeds the newer one does too |
| LegacyEnvironmentPropertyIndexSupplier.NewerKeyIsOlderKey | secrets/src/main/java/de/vinado/boot/secrets/EnvironmentPropertyIndexSupplier.java:37-43 | a property of the newer index is one of the older index, at a variable whose value it holds |
| LegacyEnvironmentPropertyIndexSupplier.OlderKeyWithTextIsNewerKey | secrets/src/main/java/de/vinado/boot/secrets/EnvironmentPropertyIndexSupplier.java:41 | a property of the older index whose variable has text is in the newer index with that value |
| LegacyEnvironmentPropertyIndexSupplier.NewerIndexIsSubstituted | secrets/src/main/java/de/vinado/boot/secrets/EnvironmentPropertyIndexSupplier.java:37-43 | the newer get() is the older get() substituted through the environment |
| LegacyEnvironmentPropertyIndexSupplier.SuffixedIsIndexed | src/main/java/de/vinado/boot/secrets/EnvironmentPropertyIndexSupplier.java:48-52 | every suffixed variable is the location of the property it spells |
| LegacyEnvironmentPropertyIndexSupplier.BlankVariableIsIndexed | src/main/java/de/vinado/boot/secrets/EnvironmentPropertyIndexSupplier.java:39-41 | a variable with a blank value is indexed by the older supplier but not by the newer |
| LegacyEnvironmentPropertyIndexSupplier.OneVariableIsIndexed | src/main/java/de/vinado/boot/secrets/EnvironmentPropertyIndexSupplier.java:37-42 | a suffixed variable alone is indexed under its property with its own name |
| LegacySecretsProcessor.ResolveSecretResources | src/main/java/de/vinado/boot/secrets/SecretsProcessor.java:45-56 | a fresh map holding exactly the properties whose location loads as written (text check before the trim), each with the trimmed content of a resource that has text |
| LegacySecretsProcessor.GetPropertySource | src/main/java/de/vinado/boot/secrets/SecretsProcessor.java:34-37 | a map-backed source named secretProperties holding the secrets the as-written resolver finds |
| LegacySecretsProcessor.PostProcessEnvironment | src/main/java/de/vinado/boot/secrets/SecretsProcessor.java:28-32 | an index failure propagates; the merge fails iff some secret resolves as written and neither secretProperties nor systemEnvironment exists; nothing resolved leaves the sources unchanged |
| LegacySecretsProcessor.AgreesWithSecretsEnvironment | src/main/java/de/vinado/boot/secrets/SecretsProcessor.java:28-56 | the older processor does what the secrets module's post-processing does with the resolver the program constructs |
| LegacySecretsProcessor.SecretBecomesVisible | src/main/java/de/vinado/boot/secrets/SecretsProcessor.java:45-56 | a property whose location loads as written reads as that content afterwards, blank or not, when no source up to systemEnvironment holds it |
| LegacySecretsProcessor.NothingLoadsChangesNothing | src/main/java/de/vinado/boot/secrets/SecretsProcessor.java:28-56 | an index none of whose locations loads as written leaves the property sources as they are |
| PathBasedSecretsProcessor.ConvertToPropertyName | src/main/java/de/vinado/boot/secrets/PathBasedSecretsProcessor.java:59-64 | underscores become periods, then lower-cased |
| PathBasedSecretsProcessor.ConvertIsUnderscoreMode | src/main/java/de/vinado/boot/secrets/PathBasedSecretsProcessor.java:59-64 | the conversion is the newer supplier's in underscore mode |
| PathBasedSecretsProcessor.GetSystemProperties | src/main/java/de/vinado/boot/secrets/PathBasedSecretsProcessor.java:40-49 | fails iff the base is unreadable; no directory gives the empty index; no property name it yields keeps an underscore |
| PathBasedSecretsProcessor.ConvertedNamesHaveNoUnderscore | src/main/java/de/vinado/boot/secrets/PathBasedSecretsProcessor.java:59-64 | no converted property name contains an underscore |
| PathBasedSecretsProcessor.GetSystemPropertiesIndexesRegularFiles | src/main/java/de/vinado/boot/secrets/PathBasedSecretsProcessor.java:40-73 | the converted name of every regular file, each with the URI of the first file with that name |
| PathBasedSecretsProcessor.FirstOfDottedAndSnakeCaseWins | src/main/java/de/vinado/boot/secrets/PathBasedSecretsProcessor.java:70-73 | a.b and a_b name one property; the one listed first supplies the URI |
| PathBasedSecretsProcessor.PostProcessEnvironment | src/main/java/de/vinado/boot/secrets/PathBasedSecretsProcessor.java:40-49 | the older SecretsProcessor, with the as-written resolver, over this index: an unreadable base raises, no directory changes nothing |
| PathBasedSecretsProcessor.FileSecretBecomesVisible | src/main/java/de/vinado/boot/secrets/PathBasedSecretsProcessor.java:40-73 | a regular file listed before any other with its name makes its property read as its content loaded as written |
| PathBasedSecretsProcessor.DottedAndSnakeCaseConvertAlike | src/main/java/de/vinado/boot/secrets/PathBasedSecretsProcessor.java:59-64 | w1.w2 and w1_w2 both convert to the property w1.w2 |
| SuffixBasedEnvironmentPropertySecretsProcessor.RunsAfterPathBased | src/main/java/de/vinado/boot/secrets/SuffixBasedEnvironmentPropertySecretsProcessor.java:49-52 | LOWEST_PRECEDENCE - 10 is one step after the path-based LOWEST_PRECEDENCE - 11, neither wrapping |
| SuffixBasedEnvironmentPropertySecretsProcessor.ConvertToPropertyName | src/main/java/de/vinado/boot/secrets/SuffixBasedEnvironmentPropertySecretsProcessor.java:43-47 | the last five characters cut off, underscores become periods, lower-cased |
| SuffixBasedEnvironmentPropertySecretsProcessor.ConvertCutsFileSuffix | src/main/java/de/vinado/boot/secrets/SuffixBasedEnvironmentPropertySecretsProcessor.java:43-47 | on names ending with _FILE this is the supplier conversion for suffix _FILE |
| SuffixBasedEnvironmentPropertySecretsProcessor.Supplier | src/main/java/de/vinado/boot/secrets/SuffixBasedEnvironmentPropertySecretsProcessor.java:33-37 | the variables read: the system environment with suffix _FILE |
| SuffixBasedEnvironmentPropertySecretsProcessor.GetSystemProperties | src/main/java/de/vinado/boot/secrets/SuffixBasedEnvironmentPropertySecretsProcessor.java:32-37 | getSystemProperties: the _FILE variable names, strictly collected under their converted property names; equal to the older supplier's index by GetSystemPropertiesIsSupplierIndex |
| SuffixBasedEnvironmentPropertySecretsProcessor.GetSystemPropertiesIsSupplierIndex | src/main/java/de/vinado/boot/secrets/SuffixBasedEnvironmentPropertySecretsProcessor.java:33-37 | the processor's index is the older supplier's index for _FILE: variable names as locations, strict on duplicates |
| SuffixBasedEnvironmentPropertySecretsProcessor.PostProcessEnvironmentAsWritten | src/main/java/de/vinado/boot/secrets/SecretsProcessor.java:28-56 | postProcessEnvironment as written: the older SecretsProcessor loads each variable name as a location; its outcomes are stated by AsWrittenLoadsTheName, AsWrittenWithoutSecrets and VariableNameIsLoadedAsLocation |
| SuffixBasedEnvironmentPropertySecretsProcessor.ResolveSubstituted | src/main/java/de/vinado/boot/secrets/EnvironmentPropertySecretsProcessor.java:27-31 | the secrets of an index of variable names, each looked up in the environment and then loaded |
| SuffixBasedEnvironmentPropertySecretsProcessor.PostProcessEnvironment | src/main/java/de/vinado/boot/secrets/EnvironmentPropertySecretsProcessor.java:27-31 | with the lookup: an index failure propagates; the merge fails iff a secret resolves and neither secretProperties nor systemEnvironment exists |
| SuffixBasedEnvironmentPropertySecretsProcessor.SubstitutedSecretsAgree | src/main/java/de/vinado/boot/secrets/EnvironmentPropertySecretsProcessor.java:27-31 | looking up then loading finds the secrets loading the substituted index finds |
| SuffixBasedEnvironmentPropertySecretsProcessor.CorrectedAgreesWithSecretsModule | secrets/src/main/java/de/vinado/boot/secrets/EnvironmentSecretsPropertyEnvironmentPostProcessor.java:21-24 | with the lookup the processor does what the env-suffix post-processor does |
| SuffixBasedEnvironmentPropertySecretsProcessor.OneVariableIndex | src/main/java/de/vinado/boot/secrets/SuffixBasedEnvironmentPropertySecretsProcessor.java:33-37 | a variable <PROPERTY>_FILE alone: the index locates the property at the variable's name |
| SuffixBasedEnvironmentPropertySecretsProcessor.AsWrittenLoadsTheName | src/main/java/de/vinado/boot/secrets/SecretsProcessor.java:45-56 | as written, an index whose only location is a variable name that does not load as a resource (as-written resolver) changes nothing |
| SuffixBasedEnvironmentPropertySecretsProcessor.VariableNameIsLoadedAsLocation | src/main/java/de/vinado/boot/secrets/SecretsProcessor.java:45-56 | DB_FILE=<location> with a secret there: as written nothing changes; with the lookup the property reads as the secret |
| SuffixBasedEnvironmentPropertySecretsProcessor.FileKeysAgree | src/main/java/de/vinado/boot/secrets/SuffixBasedEnvironmentPropertySecretsProcessor.java:33-47 | on names ending with _FILE the processor's key function is the older supplier's conversion for that suffix |
| SuffixBasedEnvironmentPropertySecretsProcessor.PostProcessMerges | src/main/java/de/vinado/boot/secrets/EnvironmentPropertySecretsProcessor.java:27-31 | with the index in hand, the corrected processor merges the secrets its variables' looked-up values locate |
| SuffixBasedEnvironmentPropertySecretsProcessor.MergesAgree | secrets/src/main/java/de/vinado/boot/secrets/EnvironmentSecretsPropertyEnvironmentPostProcessor.java:21-24 | merging the secrets of the looked-up older index is the secrets module's post-processing of the substituted index |
| SuffixBasedEnvironmentPropertySecretsProcessor.AsWrittenWithoutSecrets | src/main/java/de/vinado/boot/secrets/SecretsProcessor.java:45-56 | as written, an index none of whose locations loads through the as-written resolver changes nothing |
| SuffixBasedEnvironmentPropertySecretsProcessor.AsWrittenOneNameChangesNothing | src/main/java/de/vinado/boot/secrets/SecretsProcessor.java:45-56 | as written, a one-property index whose location is a name the as-written resolver does not load changes nothing |
| SuffixBasedEnvironmentPropertySecretsProcessor.LookupLoadsTheValue | src/main/java/de/vinado/boot/secrets/EnvironmentPropertySecretsProcessor.java:27-31 | with the lookup, a lone <PROPERTY>_FILE variable makes the property read as the secret at the variable's value |
| SuffixBasedEnvironmentPropertySecretsProcessor.OneVariableAgreesWithSecretsModule | secrets/src/main/java/de/vinado/boot/secrets/EnvironmentSecretsPropertyEnvironmentPostProcessor.java:21-24 | a lone <PROPERTY>_FILE variable: the corrected processor does what the secrets module's env-suffix processor does |
| SpringSecretsProcessor.Unsubstituted | src/main/java/de/vinado/spring/secrets/SecretsProcessor.java:74-76 | the default substitute keeps the location |
| SpringSecretsProcessor.New | src/main/java/de/vinado/spring/secrets/SecretsProcessor.java:34-36 | the two-argument constructor: relative source systemEnvironment; its placement is stated by NewFollowsSystemEnvironment |
| SpringSecretsProcessor.NewFollowsSystemEnvironment | src/main/java/de/vinado/spring/secrets/SecretsProcessor.java:34-36 | a processor built with the two-argument constructor inserts its source, holding exactly the resolved secrets, directly after systemEnvironment with every other source kept in order |
| SpringSecretsProcessor.Resolve | src/main/java/de/vinado/spring/secrets/SecretsProcessor.java:56-70 | substitute, load if it has text and exists, read and trim, keep if it has text: a present result has text and is trimmed |
| SpringSecretsProcessor.ResolveIsLoadContent | src/main/java/de/vinado/spring/secrets/SecretsProcessor.java:62-65 | the spring pipeline resolves a location as the corrected loadContent does |
| SpringSecretsProcessor.ResolveSecretResources | src/main/java/de/vinado/spring/secrets/SecretsProcessor.java:56-70 | exactly the properties whose substituted location loads, each with its secret |
| SpringSecretsProcessor.GetPropertySource | src/main/java/de/vinado/spring/secrets/SecretsProcessor.java:44-48 | a map-backed source under the processor's name holding exactly the resolved properties |
| SpringSecretsProcessor.PostProcessEnvironment | src/main/java/de/vinado/spring/secrets/SinglePropertySourceEnvironmentPostProcessor.java:28-36 | an index failure propagates; addAfter(relative, source) succeeds iff the relative source is another one and exists once a same-named source is removed, else IllegalArgument |
| SpringSecretsProcessor.NewSourceFollowsRelative | src/main/java/de/vinado/spring/secrets/SecretsProcessor.java:34-42 | a new source lands directly after the relative source, systemEnvironment by default, the rest in order |
| SpringSecretsProcessor.SecretBecomesVisible | src/main/java/de/vinado/spring/secrets/SecretsProcessor.java:56-70 | a property whose location resolves reads as its secret when no source up to the relative one holds it |
| SpringSecretsProcessor.EmptySourceIsAdded | src/main/java/de/vinado/spring/secrets/SinglePropertySourceEnvironmentPostProcessor.java:28-32 | with nothing resolved an empty source is still added: one source more |
| SpringFilenameSecretsProcessor.SplitLines | src/main/java/de/vinado/spring/secrets/FilenameSecretsProcessor.java:87 | Files.lines: no line it yields holds a line terminator (\n or \r) |
| SpringFilenameSecretsProcessor.ConcatSplitLines | src/main/java/de/vinado/spring/secrets/FilenameSecretsProcessor.java:87-90 | concatenating the lines is the text with its line terminators removed |
| SpringFilenameSecretsProcessor.Concat | src/main/java/de/vinado/spring/secrets/FilenameSecretsProcessor.java:88-90 | StringBuilder.append over every line in order; ConcatSplitLines proves it yields the text without its line terminators |
| SpringFilenameSecretsProcessor.GetFileContent | src/main/java/de/vinado/spring/secrets/FilenameSecretsProcessor.java:86-94 | the content holds no line terminator |
| SpringFilenameSecretsProcessor.GetFileContentDropsLineBreaks | src/main/java/de/vinado/spring/secrets/FilenameSecretsProcessor.java:86-94 | the content is exactly the file text with its terminators removed |
| SpringFilenameSecretsProcessor.ContentIsNotTrimmed | src/main/java/de/vinado/spring/secrets/FilenameSecretsProcessor.java:86-94 | " alice \r\n" reads as " alice ": no trimming beyond the terminators |
| SpringFilenameSecretsProcessor.ResolveAll | src/main/java/de/vinado/spring/secrets/FilenameSecretsProcessor.java:62-69 | no directory gives nothing, an unreadable one raises, a listed one fails only on a duplicate property name |
| SpringFilenameSecretsProcessor.NonEmptyValues | src/main/java/de/vinado/spring/secrets/FilenameSecretsProcessor.java:96-103 | exactly the entries whose content has text, values unchanged |
| SpringFilenameSecretsProcessor.PostProcessEnvironment | src/main/java/de/vinado/spring/secrets/FilenameSecretsProcessor.java:48-60 | a resolution failure propagates; otherwise it succeeds iff systemEnvironment exists once an earlier filenameSecrets is removed; every failure is a listing, duplicate-key or IllegalArgument error |
| SpringFilenameSecretsProcessor.ResolvedContents | src/main/java/de/vinado/spring/secrets/FilenameSecretsProcessor.java:62-94 | on a listing without repeats resolveAll succeeds iff no two regular files share a property name, and then maps each to its file's content |
| SpringFilenameSecretsProcessor.DottedAndSnakeCaseKey | src/main/java/de/vinado/spring/secrets/FilenameSecretsProcessor.java:79-84 | a.b and a_b convert to one property name |
| SpringFilenameSecretsProcessor.DottedAndSnakeCaseCollide | src/main/java/de/vinado/spring/secrets/FilenameSecretsProcessor.java:68 | so listing both makes the processor fail with a duplicate key |
| SpringFilenameSecretsProcessor.FileSecretBecomesVisible | src/main/java/de/vinado/spring/secrets/FilenameSecretsProcessor.java:48-60 | a regular file with text makes its property read as its content when no source up to systemEnvironment holds it |
| SpringFilenameSecretsProcessor.Lines | src/main/java/de/vinado/spring/secrets/FilenameSecretsProcessor.java:87-90 | no line read from a text contains a line terminator |
| SpringFilenameSecretsProcessor.LineKeepsBlanks | src/main/java/de/vinado/spring/secrets/FilenameSecretsProcessor.java:86-94 | a line followed by \r\n reads as the line itself, blanks included |
| SpringEnvironmentPropertySecretsProcessor.RunsAfterFilenameProcessor | src/main/java/de/vinado/spring/secrets/EnvironmentPropertySecretsProcessor.java:128-131 | LOWEST_PRECEDENCE - 10 is one after the filename processor's LOWEST_PRECEDENCE - 11, neither wrapping |
| SpringEnvironmentPropertySecretsProcessor.GetSystemProperties | src/main/java/de/vinado/spring/secrets/EnvironmentPropertySecretsProcessor.java:80-84 | getSystemProperties: the same _FILE stream and strict collection as the boot suffix-based processor |
| SpringEnvironmentPropertySecretsProcessor.LookUp | src/main/java/de/vinado/spring/secrets/EnvironmentPropertySecretsProcessor.java:98 | environment::getProperty as the substitution step |
| SpringEnvironmentPropertySecretsProcessor.Resolve | src/main/java/de/vinado/spring/secrets/EnvironmentPropertySecretsProcessor.java:96-114 | a present result has text and is trimmed |
| SpringEnvironmentPropertySecretsProcessor.ResolveLooksUpThenLoads | src/main/java/de/vinado/spring/secrets/EnvironmentPropertySecretsProcessor.java:96-100 | a variable resolves as loadContent resolves its value; an absent value resolves to nothing |
| SpringEnvironmentPropertySecretsProcessor.ResolveSecretResources | src/main/java/de/vinado/spring/secrets/EnvironmentPropertySecretsProcessor.java:67-78 | exactly the properties whose variable's value loads, each with its secret |
| SpringEnvironmentPropertySecretsProcessor.ResolvedAsSuffixBasedWithLookUp | src/main/java/de/vinado/spring/secrets/EnvironmentPropertySecretsProcessor.java:80-94 | the secrets found are those of the boot suffix-based processor with its lookup |
| SpringEnvironmentPropertySecretsProcessor.SecretsSource | src/main/java/de/vinado/spring/secrets/EnvironmentPropertySecretsProcessor.java:56-58 | a map-backed source environmentPropertySecrets holding the resolved secrets |
| SpringEnvironmentPropertySecretsProcessor.PostProcessEnvironment | src/main/java/de/vinado/spring/secrets/EnvironmentPropertySecretsProcessor.java:49-59 | an index failure propagates; otherwise it succeeds iff filenameSecrets exists once an earlier environmentPropertySecrets is removed, else IllegalArgument |
| SpringEnvironmentPropertySecretsProcessor.IsSpringSecretsProcessor | src/main/java/de/vinado/spring/secrets/EnvironmentPropertySecretsProcessor.java:49-59 | the processor is the spring SecretsProcessor placed after filenameSecrets, substituting through the environment |
| SpringEnvironmentPropertySecretsProcessor.MissingFilenameSourceFails | src/main/java/de/vinado/spring/secrets/EnvironmentPropertySecretsProcessor.java:56-58 | without filenameSecrets it raises, even with nothing indexed |
| SpringEnvironmentPropertySecretsProcessor.FilenameSourceAfterSystemEnvironment | src/main/java/de/vinado/spring/secrets/FilenameSecretsProcessor.java:57-59 | the filename processor puts its source directly after systemEnvironment |
| SpringEnvironmentPropertySecretsProcessor.SecretsSourceAfterFilenameSource | src/main/java/de/vinado/spring/secrets/EnvironmentPropertySecretsProcessor.java:56-58 | the environment processor then puts its source directly after filenameSecrets |
| SpringEnvironmentPropertySecretsProcessor.FileSecretPrecedesVariableSecret | src/main/java/de/vinado/spring/secrets/FilenameSecretsProcessor.java:105-108 | with the filename source directly before the environment source, a property no earlier source holds reads from the filename source when it has it, else from the environment source |
| SpringEnvironmentPropertySecretsProcessor.FilenameThenEnvironment | src/main/java/de/vinado/spring/secrets/EnvironmentPropertySecretsProcessor.java:49-59 | running both in order: a secret file wins over a _FILE variable for one property, and a variable's secret shows where no file supplies one |
| SpringEnvironmentPropertySecretsProcessor.PostProcessIsAddAfter | src/main/java/de/vinado/spring/secrets/EnvironmentPropertySecretsProcessor.java:49-59 | with the index in hand, postProcessEnvironment is addAfter(filenameSecrets, the source of resolved secrets) |
| SpringEnvironmentPropertySecretsProcessor.EnvironmentAfterFiles | src/main/java/de/vinado/spring/secrets/EnvironmentPropertySecretsProcessor.java:56-58 | run after the filename processor, the addAfter succeeds; a key the files hold reads as the file secret, and any other key the environment source holds reads as its secret |

## Left out

- File system access is not modelled. A directory listing is an input: a sequence of entries, "not a directory" or "unreadable". The listing's `IOException` is the `ListingFailed` error. `Path.toUri` is an opaque function of directory and name.
- Resource loading is not modelled: the resource loader is a map from location to content. The character set, `Resource.exists` beyond map membership, and the `IOException` of reading are not modelled; a resource that exists always reads.
- PropertySources.GetProperty: the lookup is by exact key. Spring's relaxed property names are not modelled. Under them systemEnvironment answers `foo.bar` from a variable `FOO_BAR`, and Spring Boot places a relaxed `configurationProperties` source ahead of the others. So where the program would find a property only under a relaxed spelling, the model finds nothing. For example, `SECRETS_FILE_BASE_DIR=/mnt/secrets` alone leaves `Directories.BaseDirOf` at `/run/secrets`. The same applies to `secrets.file.separator`, to `EnvironmentPropertySubstituter` and to every `Overridable` premise. Relaxed binding is Spring's code, not this repository's.
- PropertyIndexSupplier.From: the supplier holds the map as it stands when `from` is called. The source's supplier copies the caller's map again on every `get()`, so a later change the caller makes to that map shows up in Java but not in the model. The same holds for `CompositePropertyIndexSupplier.Add`, which goes through `from`. Maps are immutable values here; no caller in the repository changes one after handing it over.
- HashMap and stream order is not modelled. Where the source iterates a map, the model uses the ghost enumeration `Collectors.Enumerate`. The file system decides the order of a directory listing.
- Logging is not modelled. A log line is at most a flag or a count: `Utils.TestAndLogFailure` and `Utils.AcceptAndLog` state when the logger runs, `Utils.TestAndLogFailureLogsEachRejected` and `Utils.AcceptAndLogLogsEachAccepted` count the messages over a stream, and `ConfigDataPropertyIndexSupplier.Logged` states which keys are warned about. Message texts and log levels are not modelled.
- Lombok's `@NonNull` throws `NullPointerException` and the explicit checks throw `IllegalArgumentException`. Both are modelled as the one `IllegalArgument` error, because no caller tells them apart. Spring's `ConversionFailedException`, raised when the separator property does not convert to a `Character`, is modelled as `IllegalArgument` as well.
- Case mapping covers the ASCII letters only. `String.toLowerCase` under a non-ASCII default locale is not modelled.
- `getProperty` answers with the stored string. Spring's `${...}` placeholder resolution and type conversion are not modelled. Only the conversion of the separator property to a `Character` is modelled (`FilenamePropertyIndexSupplier.SeparatorCharacter`).
- `ConfigDataEnvironmentPostProcessor.ORDER` comes from Spring Boot and is a parameter (`configDataOrder`). `Ordered.LOWEST_PRECEDENCE` is `Integer.MAX_VALUE`.
- `api/src/main/java/de/vinado/boot/secrets/SecretResolver.java` is a one-method interface. It is modelled as a function type, not a module.
- `api/src/main/java/de/vinado/boot/secrets/package-info.java` holds no code.
- `src/main/java/de/vinado/boot/secrets/Substituter.java` and `src/main/java/de/vinado/boot/secrets/PropertyIndexSupplier.java` are not part of this model. They are a functional interface with `noop()` and a `Supplier` alias.
- `src/main/java/de/vinado/boot/secrets/SinglePropertySourceEnvironmentPostProcessor.java` is not part of this model. Its postProcessEnvironment is the older `SecretsProcessor`'s, which `LegacySecretsProcessor.PostProcessEnvironment` models.
- `src/main/java/de/vinado/boot/secrets/{Filename,FilenameConfigData,EnvironmentConfigData,EnvironmentSecretsProperty}*EnvironmentPostProcessor.java` are not part of this model. Three of them (filename, environment config-data, environment secrets-property) call a `DefaultSecretResolver(Substituter, ResourceLoader)` constructor that the resolver does not have. The filename config-data one calls the one-argument constructor and wires the config-data supplier with the default resolver, as the secrets module's config-data processor does (`SecretsEnvironmentPostProcessors.FilenameConfigDataIndex`). The suppliers they wire are modelled. Their order chain, with its `+ 10` and `+ 1` steps, is not.
- `src/main/java/de/vinado/spring/secrets/AutoResolvingFilenameSecretsProcessor.java` is not part of this model. It overrides a `resolveAll` that the spring `SecretsProcessor` does not declare, and it calls `convertToPropertyName` and `getFileContent`, which it does not define.
- `src/main/java/de/vinado/spring/secrets/Functions.java` is not part of this model. It holds logging combinators (`peek`, `doAndLog`, `log`) whose only effect is a log line.
- The older `SecretsProcessor.doAndLog` is not modelled separately. It is the same combinator as `Utils.acceptAndLog`.
- The constructor chains of `PathBasedSecretsProcessor` and `SuffixBasedEnvironmentPropertySecretsProcessor` are not modelled. Both call a `(Log, String)` superclass constructor. `EnvironmentPropertySecretsProcessor` declares one, but it passes both arguments on to the older `SecretsProcessor`, which declares only a `(Log)` constructor (`src/main/java/de/vinado/boot/secrets/SecretsProcessor.java:24`); the path-based processor calls that missing constructor directly. The property source names the two processors pass on are kept as constants but are never used: the merge always writes to `secretProperties`.
- `DefaultResourceLoader` is not modelled. The loader used when the application supplies none is a parameter (`SecretsEnvironmentPostProcessors.ResourceLoaderOf`).
- EnvironmentPropertyIndexSupplier.Get: the contract states only that failure is a duplicate key. When it succeeds and what it holds are stated by `EnvironmentPropertyIndexSupplier.GetSucceedsIff` and `EnvironmentPropertyIndexSupplier.GetContents`, because the function is defined over the ghost enumeration.
- ConfigDataPropertyIndexSupplier.Get: the same; see `ConfigDataPropertyIndexSupplier.GetSucceedsIff` and `ConfigDataPropertyIndexSupplier.GetContents`.
- LegacyEnvironmentPropertyIndexSupplier.Get: the same; see `LegacyEnvironmentPropertyIndexSupplier.GetSucceedsIff` and `LegacyEnvironmentPropertyIndexSupplier.GetContents`.
- SpringSecretsProcessor.Resolve: the contract states only that a secret has text and is trimmed. That it equals `loadContent` of the substituted location is `SpringSecretsProcessor.ResolveIsLoadContent`.
- SpringEnvironmentPropertySecretsProcessor.Resolve: the same; the full value is `SpringEnvironmentPropertySecretsProcessor.ResolveLooksUpThenLoads`.
- SecretsEnvironmentPostProcessors.PostProcessEnvironment: stated over the corrected resolver `ResolverOf`, not the one the program constructs. The program's behaviour is `SecretsEnvironmentPostProcessors.PostProcessEnvironmentAsWritten`. `SecretsEnvironmentPostProcessors.AsWrittenAgreesUnlessBlank` proves the two equal unless an indexed location holds content that trims to blank; `SecretsEnvironmentPostProcessors.BlankSecretIsSetAsWritten` and `SecretsEnvironmentPostProcessors.BlankSecretFailsAsWritten` show how they differ there.
- SecretsEnvironmentPostProcessors.ResolverOf: the corrected `loadContent`, not the constructed resolver, which is `SecretsEnvironmentPostProcessors.ResolverAsWrittenOf`.
- SecretsEnvironmentPostProcessors.NothingResolvedChangesNothing: over the corrected pipeline; "nothing loads" there also covers content that trims to blank, which the program as written still merges.
- SecretsEnvironmentPostProcessors.SecretBecomesVisible: over the corrected pipeline; the program's version is `SecretsEnvironmentPostProcessors.SecretBecomesVisibleAsWritten`.
- SecretsEnvironmentPostProcessors.OneSecretBecomesVisible: over the corrected pipeline, for the same reason.
- SecretsEnvironmentPostProcessors.FilenameSetsFileSecret: over the corrected pipeline; where no file's content trims to blank it is the program's behaviour by `SecretsEnvironmentPostProcessors.AsWrittenAgreesUnlessBlank`.
- SecretsEnvironmentPostProcessors.FilenameConfigDataSetsDeclaredProperty: the same.
- SecretsEnvironmentPostProcessors.EnvironmentConfigDataSetsDeclaredProperty: the same.
- SecretsEnvironmentPostProcessors.EnvironmentSecretsPropertySetsProperty: the same.
- SecretsEnvironmentPostProcessors.NoDeclarationChangesNothing: the same.

## Findings

| source | as written | input that shows it | evidently intended | confidence | as-written member | corrected member |
|---|---|---|---|---|---|---|
| api/src/main/java/de/vinado/boot/secrets/DefaultSecretResolver.java:38-40 | content is kept when `hasText` holds and trimmed afterwards | a resource whose content is `"\u0000\u0000"`: NUL is not whitespace, so it has text, yet trim removes it | a present secret is never blank: trim first, then keep content with text | high, not executed | DefaultSecretResolver.LoadContentAsWrittenYieldsBlank | DefaultSecretResolver.LoadContent |
| api/src/main/java/de/vinado/boot/secrets/PropertyIndexSupplier.java:33-36 | resolved values are filtered by `hasText`, then trimmed | index `username=SMTP_USER` with `SMTP_USER="\u0000"`: the entry survives with the empty value | surviving entries carry non-blank values | high, not executed | PropertyIndexSupplier.SubstituteValuesAsWrittenYieldsBlank | PropertyIndexSupplier.SubstituteValues |
| api/src/main/java/de/vinado/boot/secrets/EnvironmentPropertySubstituter.java:20-25 | the looked-up value is filtered by `hasText`, then trimmed | property `foo="\u0000"`: the substitution is present and empty | a present substitution is never blank | high, not executed | EnvironmentPropertySubstituter.SubstituteAsWrittenYieldsBlank | EnvironmentPropertySubstituter.Substitute |
| api/src/main/java/de/vinado/boot/secrets/CompositePropertyIndexSupplier.java:81-85 | the merge lambda's first argument is the existing VALUE, and the message prints it as the key | delegates `foo=bar` then `foo=baz`: get() fails with "Duplicate key bar" | the error names the duplicate key `foo` | high, not executed | CompositePropertyIndexSupplier.BuilderAsWrittenNamesValue | CompositePropertyIndexSupplier.BuilderRejectsDuplicateKey |
| src/main/java/de/vinado/boot/secrets/SecretsProcessor.java:45-56 | the older processor loads every index value as a location, but the suffix-based processor's index values are variable NAMES; the lookup in `EnvironmentPropertySecretsProcessor.substitute` is never called | only `DB_FILE=file:/run/secrets/db` in the environment, with a secret at that file: the processor loads the resource `DB_FILE`, finds none and sets nothing | each `_FILE` variable is looked up and its value loaded, as the secrets module's env-suffix processor does | medium, not executed | SuffixBasedEnvironmentPropertySecretsProcessor.VariableNameIsLoadedAsLocation | SuffixBasedEnvironmentPropertySecretsProcessor.CorrectedAgreesWithSecretsModule |

=== FILE: Collectors.dfy ===
/** Collectors.toMap over a stream of (key, value) entries, processed in
    encounter order, and the enumeration of a map's entries whose order Java
    leaves unspecified. */
module Collectors {
  import opened Wrappers
  import opened Errors

  type Entry = (string, string)

  /** A property index: logical property name to secret location or value. */
  type Index = map<string, string>

  /** How a collision between an already collected value and an incoming one
      is settled. */
  datatype MergeFunction =
    /** No merge function: the JDK collector rejects the key and names it. */
    | Strict
    /** A merge function that throws IllegalStateException naming its first
        argument, the value already collected. */
    | ThrowingOnDuplicate
    /** (u, v) -> u: the first value wins. */
    | KeepExisting
    /** (u, v) -> v: the last value wins. */
    | KeepReplacement
    /** Any other total merge function. */
    | Custom(f: (string, string) -> string)

  function Combine(merge: MergeFunction, key: string, existing: string, incoming: string): Result<string, Error> {
    match merge
    case Strict => Err(DuplicateKey(key))
    case ThrowingOnDuplicate => Err(DuplicateKey(existing))
    case KeepExisting => Ok(existing)
    case KeepReplacement => Ok(incoming)
    case Custom(f) => Ok(f(existing, incoming))
  }

  predicate Rejects(merge: MergeFunction) {
    merge.Strict? || merge.ThrowingOnDuplicate?
  }

  function KeysOf(es: seq<Entry>): set<string> {
    set i | 0 <= i < |es| :: es[i].0
  }

  function ValuesOf(es: seq<Entry>): set<string> {
    set i | 0 <= i < |es| :: es[i].1
  }

  predicate DistinctKeys(es: seq<Entry>) {
    forall i, j :: 0 <= i < j < |es| ==> es[i].0 != es[j].0
  }

  lemma KeysOfCons(es: seq<Entry>)
    requires es != []
    ensures KeysOf(es) == {es[0].0} + KeysOf(es[1..])
    ensures ValuesOf(es) == {es[0].1} + ValuesOf(es[1..])
  {
    forall k | k in KeysOf(es) ensures k in {es[0].0} + KeysOf(es[1..]) {
      var i :| 0 <= i < |es| && es[i].0 == k;
      if i > 0 { assert es[1..][i - 1].0 == k; }
    }
    forall k | k in KeysOf(es[1..]) ensures k in KeysOf(es) {
      var i :| 0 <= i < |es[1..]| && es[1..][i].0 == k;
      assert es[i + 1].0 == k;
    }
    forall v | v in ValuesOf(es) ensures v in {es[0].1} + ValuesOf(es[1..]) {
      var i :| 0 <= i < |es| && es[i].1 == v;
      if i > 0 { assert es[1..][i - 1].1 == v; }
    }
    forall v | v in ValuesOf(es[1..]) ensures v in ValuesOf(es) {
      var i :| 0 <= i < |es[1..]| && es[1..][i].1 == v;
      assert es[i + 1].1 == v;
    }
  }

  lemma DistinctKeysCons(es: seq<Entry>)
    requires es != []
    ensures DistinctKeys(es) <==> es[0].0 !in KeysOf(es[1..]) && DistinctKeys(es[1..])
  {
    if DistinctKeys(es) {
      forall i, j | 0 <= i < j < |es[1..]| ensures es[1..][i].0 != es[1..][j].0 {
        assert es[i + 1].0 != es[j + 1].0;
      }
    }
    if es[0].0 !in KeysOf(es[1..]) && DistinctKeys(es[1..]) {
      forall i, j | 0 <= i < j < |es| ensures es[i].0 != es[j].0 {
        if i == 0 {
          assert es[1..][j - 1].0 == es[j].0;
        } else {
          assert es[1..][i - 1].0 != es[1..][j - 1].0;
        }
      }
    }
  }

  /** The map the entries describe when a later entry overrides an earlier
      one with the same key (what successive Map.put calls build). */
  function LastWins(es: seq<Entry>): Index {
    if es == [] then map[] else map[es[0].0 := es[0].1] + LastWins(es[1..])
  }

  /** The map the entries describe when the first entry for a key is kept. */
  function FirstWins(es: seq<Entry>): Index {
    if es == [] then map[] else FirstWins(es[1..])[es[0].0 := es[0].1]
  }

  lemma {:induction false} KeysOfWins(es: seq<Entry>)
    ensures LastWins(es).Keys == KeysOf(es)
    ensures FirstWins(es).Keys == KeysOf(es)
  {
    if es != [] {
      KeysOfCons(es);
      KeysOfWins(es[1..]);
    }
  }

  /** Without repeated keys the entries describe one map, whichever entry wins. */
  lemma {:induction false} DistinctWinsAgree(es: seq<Entry>)
    requires DistinctKeys(es)
    ensures FirstWins(es) == LastWins(es)
  {
    if es != [] {
      DistinctKeysCons(es);
      DistinctWinsAgree(es[1..]);
      KeysOfWins(es[1..]);
    }
  }

  /** Each entry of a list without repeated keys is found in its map. */
  lemma {:induction false} LastWinsAt(es: seq<Entry>, i: int)
    requires DistinctKeys(es) && 0 <= i < |es|
    ensures es[i].0 in LastWins(es) && LastWins(es)[es[i].0] == es[i].1
  {
    DistinctKeysCons(es);
    KeysOfWins(es[1..]);
    if i > 0 {
      LastWinsAt(es[1..], i - 1);
    }
  }

  /** The first entry carrying a key supplies that key's value in FirstWins. */
  lemma {:induction false} FirstWinsAt(es: seq<Entry>, i: int)
    requires 0 <= i < |es|
    requires forall j :: 0 <= j < i ==> es[j].0 != es[i].0
    ensures es[i].0 in FirstWins(es) && FirstWins(es)[es[i].0] == es[i].1
  {
    if i > 0 {
      FirstWinsAt(es[1..], i - 1);
    }
  }

  /** Collectors.toMap's accumulation: each entry is put into `acc`, and an
      entry whose key is already present is settled by `merge`; the first
      failure aborts the collection. */
  function Accumulate(acc: Index, es: seq<Entry>, merge: MergeFunction): (r: Result<Index, Error>)
    ensures r.Ok? ==> r.value.Keys == acc.Keys + KeysOf(es)
    ensures r.Err? ==> Rejects(merge) && r.error.DuplicateKey?
    decreases |es|
  {
    if es == [] then Ok(acc)
    else
      var k, v := es[0].0, es[0].1;
      KeysOfCons(es);
      if k !in acc then Accumulate(acc[k := v], es[1..], merge)
      else
        var w :- Combine(merge, k, acc[k], v);
        Accumulate(acc[k := w], es[1..], merge)
  }

  /** One step of the accumulation, unfolded. */
  lemma AccumulateStep(acc: Index, es: seq<Entry>, merge: MergeFunction)
    requires es != []
    ensures es[0].0 !in acc ==>
      Accumulate(acc, es, merge) == Accumulate(acc[es[0].0 := es[0].1], es[1..], merge)
    ensures es[0].0 in acc ==>
      Accumulate(acc, es, merge) ==
        match Combine(merge, es[0].0, acc[es[0].0], es[0].1)
        case Ok(w) => Accumulate(acc[es[0].0 := w], es[1..], merge)
        case Err(e) => Err(e)
  {
  }

  /** Collectors.toMap(keyMapper, valueMapper[, merge]) into a fresh map. */
  function ToMap(es: seq<Entry>, merge: MergeFunction): Result<Index, Error> {
    Accumulate(map[], es, merge)
  }

  /** With (u, v) -> v every key ends with its last value. */
  lemma {:induction false} KeepReplacementIsLastWins(acc: Index, es: seq<Entry>)
    ensures Accumulate(acc, es, KeepReplacement) == Ok(acc + LastWins(es))
    decreases |es|
  {
    if es != [] {
      var k, v := es[0].0, es[0].1;
      KeepReplacementIsLastWins(acc[k := v], es[1..]);
      assert Accumulate(acc, es, KeepReplacement) == Accumulate(acc[k := v], es[1..], KeepReplacement);
      UpdateThenUnion(acc, LastWins(es[1..]), k, v);
    } else {
      assert acc + map[] == acc;
    }
  }

  /** The empty map is neutral for map union. */
  lemma UnionWithEmpty(m: Index)
    ensures m + map[] == m && map[] + m == m
  {
  }

  /** A map without keys is the empty map. */
  lemma NoKeyMap(m: Index)
    requires forall x :: x !in m
    ensures m == map[]
  {
    assert m.Keys == {};
  }

  /** Maps with the same keys and the same value at each key are equal. */
  lemma SameEntries(a: Index, b: Index)
    requires forall k :: k in a <==> k in b
    requires forall k :: k in a ==> a[k] == b[k]
    ensures a == b
  {
    assert a.Keys == b.Keys;
  }

  /** A map whose only key is `k` is the one-entry map of `k`. */
  lemma OneKeyMap(m: Index, k: string)
    requires k in m && forall x :: x in m ==> x == k
    ensures m == map[k := m[k]]
  {
    assert m.Keys == {k};
  }

  lemma ShadowedUpdate(a: Index, b: Index, k: string, v: string)
    requires k in b
    ensures a + b == a[k := v] + b
  {
    assert (a + b).Keys == (a[k := v] + b).Keys;
  }

  lemma MovedUpdate(a: Index, b: Index, k: string, v: string)
    requires k !in b
    ensures a + b[k := v] == a[k := v] + b
  {
    assert (a + b[k := v]).Keys == (a[k := v] + b).Keys;
  }

  lemma UpdateThenUnion(a: Index, b: Index, k: string, v: string)
    ensures a[k := v] + b == a + (map[k := v] + b)
  {
    assert (a[k := v] + b).Keys == (a + (map[k := v] + b)).Keys;
  }

  /** With (u, v) -> u every key keeps its first value, the values already in
      `acc` included. */
  lemma {:induction false} KeepExistingIsFirstWins(acc: Index, es: seq<Entry>)
    ensures Accumulate(acc, es, KeepExisting) == Ok(FirstWins(es) + acc)
    decreases |es|
  {
    if es == [] {
      assert map[] + acc == acc;
    } else {
      var k, v := es[0].0, es[0].1;
      var rest := FirstWins(es[1..]);
      assert FirstWins(es) == rest[k := v];
      if k in acc {
        assert acc[k := acc[k]] == acc;
        AccumulateStep(acc, es, KeepExisting);
        KeepExistingIsFirstWins(acc, es[1..]);
        ShadowedUpdate(rest, acc, k, v);
      } else {
        AccumulateStep(acc, es, KeepExisting);
        KeepExistingIsFirstWins(acc[k := v], es[1..]);
        MovedUpdate(rest, acc, k, v);
      }
    }
  }

  /** A rejecting collector succeeds exactly when no key repeats, neither
      within the entries nor against `acc`, and then it holds every entry. */
  lemma {:induction false} RejectingSucceedsIff(acc: Index, es: seq<Entry>, merge: MergeFunction)
    requires Rejects(merge)
    ensures Accumulate(acc, es, merge).Ok? <==> DistinctKeys(es) && acc.Keys !! KeysOf(es)
    ensures Accumulate(acc, es, merge).Ok? ==> Accumulate(acc, es, merge).value == acc + LastWins(es)
    decreases |es|
  {
    if es == [] {
      assert acc + map[] == acc;
    } else {
      KeysOfCons(es);
      DistinctKeysCons(es);
      AccumulateStep(acc, es, merge);
      var k, v := es[0].0, es[0].1;
      if k !in acc {
        RejectingSucceedsIff(acc[k := v], es[1..], merge);
        UpdateThenUnion(acc, LastWins(es[1..]), k, v);
      }
    }
  }

  /** The JDK collector's failure names a key of the stream. */
  lemma {:induction false} StrictNamesAKey(acc: Index, es: seq<Entry>)
    ensures Accumulate(acc, es, Strict).Err? ==> Accumulate(acc, es, Strict).error.detail in KeysOf(es)
    decreases |es|
  {
    if es != [] {
      KeysOfCons(es);
      var k, v := es[0].0, es[0].1;
      if k !in acc {
        StrictNamesAKey(acc[k := v], es[1..]);
      }
    }
  }

  /** The throwing merge function's failure names a value, one already
      collected from `acc` or from the stream. */
  lemma {:induction false} ThrowingNamesAValue(acc: Index, es: seq<Entry>)
    ensures var r := Accumulate(acc, es, ThrowingOnDuplicate);
            r.Err? ==> r.error.detail in acc.Values + ValuesOf(es)
    decreases |es|
  {
    if es != [] {
      KeysOfCons(es);
      var k, v := es[0].0, es[0].1;
      if k !in acc {
        ThrowingNamesAValue(acc[k := v], es[1..]);
        assert acc[k := v].Values <= acc.Values + {v};
      }
    }
  }

  /** Union of two maps where a key in both gets f(value in a, value in b). */
  function MergeWith(a: Index, b: Index, f: (string, string) -> string): (r: Index)
    ensures r.Keys == a.Keys + b.Keys
    ensures forall k :: k in a && k in b ==> r[k] == f(a[k], b[k])
    ensures forall k :: k in a && k !in b ==> r[k] == a[k]
    ensures forall k :: k !in a && k in b ==> r[k] == b[k]
  {
    map k | k in a.Keys + b.Keys ::
      if k in a && k in b then f(a[k], b[k]) else if k in a then a[k] else b[k]
  }

  /** Merging into the empty map changes nothing. */
  lemma MergeWithEmpty(a: Index, f: (string, string) -> string)
    ensures MergeWith(a, map[], f) == a
  {
    assert MergeWith(a, map[], f).Keys == a.Keys;
  }

  /** Combining one entry into `a` first, or merging it in with `b`, agree
      when `b` lacks the entry's key. */
  lemma MergeWithStep(a: Index, b: Index, k: string, v: string, f: (string, string) -> string)
    requires k !in b
    ensures MergeWith(if k in a then a[k := f(a[k], v)] else a[k := v], b, f)
         == MergeWith(a, map[k := v] + b, f)
  {
    var a' := if k in a then a[k := f(a[k], v)] else a[k := v];
    var b' := map[k := v] + b;
    var l := MergeWith(a', b, f);
    var r := MergeWith(a, b', f);
    assert l.Keys == r.Keys;
    forall x | x in l ensures l[x] == r[x] {
      if x == k {
        assert l[x] == a'[k] && b'[k] == v;
      } else {
        assert (x in a' <==> x in a) && (x in a ==> a'[x] == a[x]);
        assert (x in b' <==> x in b) && (x in b ==> b'[x] == b[x]);
      }
    }
  }

  /** One entry of a custom merge, unfolded. */
  lemma CustomStep(acc: Index, es: seq<Entry>, f: (string, string) -> string)
    requires es != []
    ensures var k, v := es[0].0, es[0].1;
      Accumulate(acc, es, Custom(f))
      == Accumulate(if k in acc then acc[k := f(acc[k], v)] else acc[k := v], es[1..], Custom(f))
  {
    AccumulateStep(acc, es, Custom(f));
  }

  /** A custom merge function combines the existing value with the new one;
      over distinct keys the result is the merge of `acc` with the entries. */
  lemma {:induction false} CustomIsMergeWith(acc: Index, es: seq<Entry>, f: (string, string) -> string)
    requires DistinctKeys(es)
    ensures Accumulate(acc, es, Custom(f)) == Ok(MergeWith(acc, LastWins(es), f))
    decreases |es|
  {
    if es == [] {
      MergeWithEmpty(acc, f);
    } else {
      DistinctKeysCons(es);
      KeysOfWins(es[1..]);
      var k, v := es[0].0, es[0].1;
      var b := LastWins(es[1..]);
      var acc' := if k in acc then acc[k := f(acc[k], v)] else acc[k := v];
      CustomStep(acc, es, f);
      CustomIsMergeWith(acc', es[1..], f);
      MergeWithStep(acc, b, k, v, f);
    }
  }

  /** Some enumeration of a map's entries: HashMap iteration order, which Java
      leaves unspecified, so the model fixes none. */
  ghost function Enumerate(m: Index): (es: seq<Entry>)
    ensures DistinctKeys(es) && LastWins(es) == m
    decreases m.Keys
  {
    if m == map[] then []
    else
      var k :| k in m;
      var rest := Enumerate(m - {k});
      var es := [(k, m[k])] + rest;
      assert es[1..] == rest;
      KeysOfWins(rest);
      DistinctKeysCons(es);
      es
  }

  /** An entry list without repeated keys holds exactly the entries of the
      map it describes. */
  lemma DistinctEntriesAreWinners(es: seq<Entry>)
    requires DistinctKeys(es)
    ensures forall e: Entry :: e in es <==> e.0 in LastWins(es) && LastWins(es)[e.0] == e.1
  {
    KeysOfWins(es);
    forall e | e in es ensures e.0 in LastWins(es) && LastWins(es)[e.0] == e.1 {
      var i :| 0 <= i < |es| && es[i] == e;
      LastWinsAt(es, i);
    }
    forall e: Entry | e.0 in LastWins(es) && LastWins(es)[e.0] == e.1 ensures e in es {
      assert e.0 in KeysOf(es);
      var i :| 0 <= i < |es| && es[i].0 == e.0;
      LastWinsAt(es, i);
      assert es[i] == e;
    }
  }

  /** Entries without repeated keys that are exactly the entries of `m`
      describe `m`. */
  lemma EntriesDescribe(es: seq<Entry>, m: Index)
    requires DistinctKeys(es)
    requires forall e: Entry :: e in es <==> e.0 in m && e.1 == m[e.0]
    ensures LastWins(es) == m
  {
    DistinctEntriesAreWinners(es);
    var w := LastWins(es);
    forall k | k in w ensures k in m && w[k] == m[k] {
      assert (k, w[k]) in es;
    }
    forall k | k in m ensures k in w {
      assert (k, m[k]) in es;
    }
  }

  /** Map.entrySet(): every enumeration holds each key with its value and
      nothing else. */
  lemma EnumerateEntries(m: Index)
    ensures forall e: Entry :: e in Enumerate(m) <==> e.0 in m && e.1 == m[e.0]
  {
    DistinctEntriesAreWinners(Enumerate(m));
  }

  /** A one-entry map has only one enumeration. */
  lemma EnumerateSingleton(k: string, v: string)
    ensures Enumerate(map[k := v]) == [(k, v)]
  {
    var m := map[k := v];
    assert m - {k} == map[];
    assert Enumerate(map[]) == [];
  }

  /** Applying `f` to each value of an entry list keeps its keys. */
  function MapValues(es: seq<Entry>, f: string -> string): (r: seq<Entry>)
    ensures |r| == |es|
    ensures forall i :: 0 <= i < |es| ==> r[i] == (es[i].0, f(es[i].1))
  {
    if es == [] then [] else [(es[0].0, f(es[0].1))] + MapValues(es[1..], f)
  }

  /** The map view of applying `f` to each value. */
  function MapOver(m: Index, f: string -> string): (r: Index)
    ensures r.Keys == m.Keys
    ensures forall k :: k in m ==> r[k] == f(m[k])
  {
    map k | k in m :: f(m[k])
  }

  lemma MapValuesKeys(es: seq<Entry>, f: string -> string)
    ensures KeysOf(MapValues(es, f)) == KeysOf(es)
    ensures DistinctKeys(MapValues(es, f)) <==> DistinctKeys(es)
  {
    var r := MapValues(es, f);
    assert forall i :: 0 <= i < |es| ==> r[i].0 == es[i].0;
  }

  lemma {:induction false} MapValuesLastWins(es: seq<Entry>, f: string -> string)
    ensures LastWins(MapValues(es, f)) == MapOver(LastWins(es), f)
  {
    if es != [] {
      MapValuesLastWins(es[1..], f);
      var r := MapValues(es, f);
      assert r[1..] == MapValues(es[1..], f);
      assert r[0] == (es[0].0, f(es[0].1));
    }
  }
}

=== FILE: CompositePropertyIndexSupplier.dfy ===
/** CompositePropertyIndexSupplier: a property index supplier that merges the
    indexes of its delegates with a merge function, optionally substituting
    every value through a property resolver first. */
module CompositePropertyIndexSupplier {
  import opened Wrappers
  import opened Errors
  import opened JavaStrings
  import opened Collectors
  import opened PropertySources
  import PropertyIndexSupplier

  type Supplied = PropertyIndexSupplier.Supplied

  /** The builder: the delegates added so far and the merge function chosen
      when it was created. */
  datatype Builder = Builder(delegates: seq<Supplied>, mergeFunction: MergeFunction)

  /** A built composite; `resolver` is None for build() and the resolver for
      buildAndSubstitute(). */
  datatype Composite = Composite(delegates: seq<Supplied>, mergeFunction: MergeFunction, resolver: Option<seq<Layer>>)

  /** using(mergeFunction): rejects null. */
  function Using(mergeFunction: Option<MergeFunction>): (r: Result<Builder, Error>)
    ensures r.Ok? <==> mergeFunction.Some?
    ensures r.Ok? ==> r.value.delegates == [] && r.value.mergeFunction == mergeFunction.value
    ensures r.Err? ==> r.error.IllegalArgument?
  {
    if mergeFunction.None? then Err(IllegalArgument("Merge function must not be null"))
    else Ok(Builder([], mergeFunction.value))
  }

  /** builder() as written: its merge function throws on a duplicate and
      names the value already collected. */
  function BuilderAsWritten(): (b: Builder)
    ensures b.delegates == [] && Rejects(b.mergeFunction)
  {
    Using(Some(ThrowingOnDuplicate)).value
  }

  /** builder() as its documentation describes it: a duplicate key fails
      get(), and the failure names the key. */
  function NewBuilder(): (b: Builder)
    ensures b.delegates == [] && Rejects(b.mergeFunction)
  {
    Using(Some(Strict)).value
  }

  /** keeping(): the first value of a duplicate key wins. */
  function Keeping(): (b: Builder)
    ensures b.delegates == [] && !Rejects(b.mergeFunction)
  {
    Using(Some(KeepExisting)).value
  }

  /** overriding(): the last value of a duplicate key wins. */
  function Overriding(): (b: Builder)
    ensures b.delegates == [] && !Rejects(b.mergeFunction)
  {
    Using(Some(KeepReplacement)).value
  }

  /** Builder.add(Map): rejects null and appends a supplier of the map. */
  function Add(b: Builder, properties: Option<Index>): (r: Result<Builder, Error>)
    ensures r.Ok? <==> properties.Some?
    ensures r.Ok? ==> r.value == Builder(b.delegates + [Ok(properties.value)], b.mergeFunction)
  {
    var supplier :- PropertyIndexSupplier.From(properties);
    Ok(Builder(b.delegates + [supplier], b.mergeFunction))
  }

  /** Builder.add(PropertyIndexSupplier): rejects null and appends it. */
  function AddSupplier(b: Builder, supplier: Option<Supplied>): (r: Result<Builder, Error>)
    ensures r.Ok? <==> supplier.Some?
    ensures r.Ok? ==> r.value == Builder(b.delegates + [supplier.value], b.mergeFunction)
  {
    if supplier.None? then Err(IllegalArgument("Property index supplier must not be null"))
    else Ok(Builder(b.delegates + [supplier.value], b.mergeFunction))
  }

  /** Builder.addAll: rejects a null collection and appends its suppliers in
      order. */
  function AddAll(b: Builder, suppliers: Option<seq<Supplied>>): (r: Result<Builder, Error>)
    ensures r.Ok? <==> suppliers.Some?
    ensures r.Ok? ==> r.value == Builder(b.delegates + suppliers.value, b.mergeFunction)
  {
    if suppliers.None? then Err(IllegalArgument("Property index supplier collection must not be null"))
    else Ok(Builder(b.delegates + suppliers.value, b.mergeFunction))
  }

  /** build(): values are left as they are. */
  function Build(b: Builder): (c: Composite)
    ensures c.delegates == b.delegates && c.mergeFunction == b.mergeFunction && c.resolver.None?
  {
    Composite(b.delegates, b.mergeFunction, None)
  }

  /** buildAndSubstitute(resolver): rejects null; substitution happens on
      get(). */
  function BuildAndSubstitute(b: Builder, resolver: Option<seq<Layer>>): (r: Result<Composite, Error>)
    ensures r.Ok? <==> resolver.Some?
    ensures r.Ok? ==> r.value == Composite(b.delegates, b.mergeFunction, resolver)
  {
    if resolver.None? then Err(IllegalArgument("Property resolver collection must not be null"))
    else Ok(Composite(b.delegates, b.mergeFunction, resolver))
  }

  /** substituteIfNotNull(): the identity without a resolver, otherwise the
      composite's substitute, which falls back to the value itself when no
      property of that name exists. */
  function SubstituteIfNotNull(resolver: Option<seq<Layer>>, value: string): (r: string)
    ensures resolver.None? ==> r == value
    ensures resolver.Some? && GetProperty(resolver.value, value).None? ==> r == value
    ensures resolver.Some? && GetProperty(resolver.value, value).Some? ==>
              r == GetProperty(resolver.value, value).value
  {
    if resolver.None? then value else GetPropertyOr(resolver.value, value, value)
  }

  function Substitution(resolver: Option<seq<Layer>>): string -> string {
    v => SubstituteIfNotNull(resolver, v)
  }

  /** get(): every delegate's index, in delegate order, enumerated, its values
      substituted, and collected into one map with the merge function. A
      delegate whose get() throws aborts the collection. */
  ghost function Collect(acc: Index, delegates: seq<Supplied>, merge: MergeFunction, resolver: Option<seq<Layer>>): Supplied
    decreases |delegates|
  {
    if delegates == [] then Ok(acc)
    else
      var m :- delegates[0];
      var next :- Accumulate(acc, MapValues(Enumerate(m), Substitution(resolver)), merge);
      Collect(next, delegates[1..], merge, resolver)
  }

  /** One delegate of get(), unfolded. */
  lemma CollectStep(acc: Index, ds: seq<Supplied>, merge: MergeFunction, resolver: Option<seq<Layer>>)
    requires ds != []
    ensures ds[0].Err? ==> Collect(acc, ds, merge, resolver) == Err(ds[0].error)
    ensures ds[0].Ok? ==>
      Collect(acc, ds, merge, resolver) ==
        match Accumulate(acc, MapValues(Enumerate(ds[0].value), Substitution(resolver)), merge)
        case Ok(next) => Collect(next, ds[1..], merge, resolver)
        case Err(e) => Err(e)
  {
  }

  ghost function Get(c: Composite): Supplied {
    Collect(map[], c.delegates, c.mergeFunction, c.resolver)
  }

  /** The composite's substituteValues(resolver): rejects null; every key of
      get() is kept, no text check, and its value becomes the trimmed
      resolution, or the trimmed value itself when nothing resolves. */
  ghost function SubstituteValues(c: Composite, resolver: Option<seq<Layer>>): (r: Result<Supplied, Error>)
    ensures r.Ok? <==> resolver.Some?
    ensures r.Ok? ==> (r.value.Ok? <==> Get(c).Ok?)
    ensures r.Ok? && r.value.Err? ==> r.value.error == Get(c).error
    ensures r.Ok? && r.value.Ok? ==>
              r.value.value.Keys == Get(c).value.Keys
              && forall k :: k in r.value.value ==>
                   IsTrimmed(r.value.value[k])
                   && r.value.value[k] == Trim(GetPropertyOr(resolver.value, Get(c).value[k], Get(c).value[k]))
  {
    if resolver.None? then Err(IllegalArgument("Property resolver must not be null"))
    else
      match Get(c)
      case Err(e) => Ok(Err(e))
      case Ok(m) => Ok(Ok(MapOver(MapOver(m, Substitution(resolver)), Trim)))
  }

  // ----- reference definitions over the delegates -----

  predicate AllSupplied(ds: seq<Supplied>) {
    forall i :: 0 <= i < |ds| ==> ds[i].Ok?
  }

  /** Union of the substituted delegate indexes, an earlier delegate's value
      taking precedence. */
  function FirstUnion(ds: seq<Supplied>, f: string -> string): Index
    requires AllSupplied(ds)
  {
    if ds == [] then map[] else FirstUnion(ds[1..], f) + MapOver(ds[0].value, f)
  }

  /** Union of the substituted delegate indexes, a later delegate's value
      taking precedence. */
  function LastUnion(ds: seq<Supplied>, f: string -> string): Index
    requires AllSupplied(ds)
  {
    if ds == [] then map[] else MapOver(ds[0].value, f) + LastUnion(ds[1..], f)
  }

  function AllKeys(ds: seq<Supplied>): set<string>
    requires AllSupplied(ds)
  {
    if ds == [] then {} else ds[0].value.Keys + AllKeys(ds[1..])
  }

  /** No two delegates share a key. */
  predicate PairwiseDisjoint(ds: seq<Supplied>)
    requires AllSupplied(ds)
  {
    forall i, j :: 0 <= i < j < |ds| ==> ds[i].value.Keys !! ds[j].value.Keys
  }

  lemma {:induction false} AllKeysAt(ds: seq<Supplied>, k: string)
    requires AllSupplied(ds)
    ensures k in AllKeys(ds) <==> exists i :: 0 <= i < |ds| && k in ds[i].value
  {
    if ds != [] {
      AllKeysAt(ds[1..], k);
      if k in AllKeys(ds[1..]) {
        var i :| 0 <= i < |ds[1..]| && k in ds[1..][i].value;
        assert k in ds[i + 1].value;
      }
      if exists i :: 0 <= i < |ds| && k in ds[i].value {
        var i :| 0 <= i < |ds| && k in ds[i].value;
        if i > 0 { assert k in ds[1..][i - 1].value; }
      }
    }
  }

  lemma PairwiseDisjointCons(ds: seq<Supplied>)
    requires ds != [] && AllSupplied(ds)
    ensures PairwiseDisjoint(ds) <==> ds[0].value.Keys !! AllKeys(ds[1..]) && PairwiseDisjoint(ds[1..])
  {
    var rest := ds[1..];
    if PairwiseDisjoint(ds) {
      forall k | k in ds[0].value ensures k !in AllKeys(rest) {
        AllKeysAt(rest, k);
        forall i | 0 <= i < |rest| ensures k !in rest[i].value {
          assert ds[i + 1] == rest[i];
        }
      }
      forall i, j | 0 <= i < j < |rest| ensures rest[i].value.Keys !! rest[j].value.Keys {
        assert ds[i + 1] == rest[i] && ds[j + 1] == rest[j];
      }
    }
    if ds[0].value.Keys !! AllKeys(rest) && PairwiseDisjoint(rest) {
      forall i, j | 0 <= i < j < |ds| ensures ds[i].value.Keys !! ds[j].value.Keys {
        if i == 0 {
          forall k | k in ds[j].value ensures k !in ds[0].value {
            assert k in rest[j - 1].value;
            AllKeysAt(rest, k);
          }
        } else {
          assert ds[i] == rest[i - 1] && ds[j] == rest[j - 1];
        }
      }
    }
  }

  // ----- one delegate's contribution -----

  /** The substituted entries of one delegate have distinct keys and describe
      the delegate's index with substituted values, whichever way the map
      happens to be enumerated. */
  lemma SubstitutedEntries(m: Index, f: string -> string)
    ensures var es := MapValues(Enumerate(m), f);
      DistinctKeys(es) && KeysOf(es) == m.Keys
      && LastWins(es) == MapOver(m, f) && FirstWins(es) == MapOver(m, f)
  {
    var e := Enumerate(m);
    var es := MapValues(e, f);
    MapValuesKeys(e, f);
    MapValuesLastWins(e, f);
    KeysOfWins(e);
    DistinctWinsAgree(es);
  }

  lemma UnionAssoc(a: Index, b: Index, c: Index)
    ensures a + (b + c) == (a + b) + c
  {
    assert (a + (b + c)).Keys == ((a + b) + c).Keys;
  }

  // ----- merge strategies -----

  /** keeping(): get() is the union of the substituted indexes in which the
      first delegate holding a key supplies its value. */
  lemma {:induction false} CollectKeeping(acc: Index, ds: seq<Supplied>, resolver: Option<seq<Layer>>)
    requires AllSupplied(ds)
    ensures Collect(acc, ds, KeepExisting, resolver) == Ok(FirstUnion(ds, Substitution(resolver)) + acc)
    decreases |ds|
  {
    var f := Substitution(resolver);
    if ds == [] {
      assert map[] + acc == acc;
    } else {
      var m := ds[0].value;
      var es := MapValues(Enumerate(m), f);
      SubstitutedEntries(m, f);
      KeepExistingIsFirstWins(acc, es);
      var next := MapOver(m, f) + acc;
      CollectStep(acc, ds, KeepExisting, resolver);
      CollectKeeping(next, ds[1..], resolver);
      UnionAssoc(FirstUnion(ds[1..], f), MapOver(m, f), acc);
    }
  }

  /** overriding(): get() is the union of the substituted indexes in which the
      last delegate holding a key supplies its value. */
  lemma {:induction false} CollectOverriding(acc: Index, ds: seq<Supplied>, resolver: Option<seq<Layer>>)
    requires AllSupplied(ds)
    ensures Collect(acc, ds, KeepReplacement, resolver) == Ok(acc + LastUnion(ds, Substitution(resolver)))
    decreases |ds|
  {
    var f := Substitution(resolver);
    if ds == [] {
      assert acc + map[] == acc;
    } else {
      var m := ds[0].value;
      var es := MapValues(Enumerate(m), f);
      SubstitutedEntries(m, f);
      KeepReplacementIsLastWins(acc, es);
      var next := acc + MapOver(m, f);
      CollectStep(acc, ds, KeepReplacement, resolver);
      CollectOverriding(next, ds[1..], resolver);
      UnionAssoc(acc, MapOver(m, f), LastUnion(ds[1..], f));
    }
  }

  /** One delegate under a rejecting merge: its substituted index joins the
      accumulated map when they share no key, and get() fails otherwise. */
  lemma RejectingStep(acc: Index, ds: seq<Supplied>, merge: MergeFunction, resolver: Option<seq<Layer>>)
    requires ds != [] && ds[0].Ok? && Rejects(merge)
    ensures acc.Keys !! ds[0].value.Keys ==>
              Collect(acc, ds, merge, resolver) == Collect(acc + MapOver(ds[0].value, Substitution(resolver)), ds[1..], merge, resolver)
    ensures !(acc.Keys !! ds[0].value.Keys) ==> Collect(acc, ds, merge, resolver).Err?
  {
    var f := Substitution(resolver);
    var es := MapValues(Enumerate(ds[0].value), f);
    SubstitutedEntries(ds[0].value, f);
    RejectingSucceedsIff(acc, es, merge);
    CollectStep(acc, ds, merge, resolver);
  }

  lemma AllSuppliedTail(ds: seq<Supplied>)
    requires ds != [] && AllSupplied(ds)
    ensures AllSupplied(ds[1..])
  {
    var rest := ds[1..];
    forall j | 0 <= j < |rest| ensures rest[j].Ok? { assert rest[j] == ds[j + 1]; }
  }

  /** A rejecting merge: get() succeeds exactly when no two delegates share a
      key (nor one with `acc`), and then holds every substituted entry. */
  lemma {:induction false} CollectRejecting(acc: Index, ds: seq<Supplied>, merge: MergeFunction, resolver: Option<seq<Layer>>)
    requires AllSupplied(ds) && Rejects(merge)
    ensures Collect(acc, ds, merge, resolver).Ok? <==> acc.Keys !! AllKeys(ds) && PairwiseDisjoint(ds)
    ensures Collect(acc, ds, merge, resolver).Ok? ==>
              Collect(acc, ds, merge, resolver).value == acc + LastUnion(ds, Substitution(resolver))
    decreases |ds|
  {
    var f := Substitution(resolver);
    if ds == [] {
      assert acc + map[] == acc;
    } else {
      var m := ds[0].value;
      var rest := ds[1..];
      AllSuppliedTail(ds);
      PairwiseDisjointCons(ds);
      RejectingStep(acc, ds, merge, resolver);
      if acc.Keys !! m.Keys {
        var next := acc + MapOver(m, f);
        CollectRejecting(next, rest, merge, resolver);
        UnionAssoc(acc, MapOver(m, f), LastUnion(rest, f));
      }
    }
  }

  /** A delegate whose get() throws makes get() fail; unless a rejecting
      merge failed first, with that delegate's error. */
  lemma CollectFailsOnFailingDelegate(acc: Index, ds: seq<Supplied>, merge: MergeFunction, resolver: Option<seq<Layer>>, i: int)
    requires 0 <= i < |ds| && ds[i].Err?
    ensures Collect(acc, ds, merge, resolver).Err?
    ensures !Rejects(merge) && (forall j :: 0 <= j < i ==> ds[j].Ok?) ==>
              Collect(acc, ds, merge, resolver).error == ds[i].error
  {
    FailingDelegateFails(acc, ds, merge, resolver, i);
    if !Rejects(merge) && (forall j :: 0 <= j < i ==> ds[j].Ok?) {
      FirstFailingDelegateNamesError(acc, ds, merge, resolver, i);
    }
  }

  lemma {:induction false} FailingDelegateFails(acc: Index, ds: seq<Supplied>, merge: MergeFunction, resolver: Option<seq<Layer>>, i: int)
    requires 0 <= i < |ds| && ds[i].Err?
    ensures Collect(acc, ds, merge, resolver).Err?
    decreases |ds|
  {
    CollectStep(acc, ds, merge, resolver);
    if i > 0 && ds[0].Ok? {
      var step := Accumulate(acc, MapValues(Enumerate(ds[0].value), Substitution(resolver)), merge);
      if step.Ok? {
        assert ds[1..][i - 1] == ds[i];
        FailingDelegateFails(step.value, ds[1..], merge, resolver, i - 1);
      }
    }
  }

  lemma {:induction false} FirstFailingDelegateNamesError(acc: Index, ds: seq<Supplied>, merge: MergeFunction,
                                                          resolver: Option<seq<Layer>>, i: int)
    requires 0 <= i < |ds| && ds[i].Err?
    requires !Rejects(merge) && forall j :: 0 <= j < i ==> ds[j].Ok?
    ensures Collect(acc, ds, merge, resolver) == Err(ds[i].error)
    decreases |ds|
  {
    CollectStep(acc, ds, merge, resolver);
    if i > 0 {
      var step := Accumulate(acc, MapValues(Enumerate(ds[0].value), Substitution(resolver)), merge);
      var rest := ds[1..];
      assert rest[i - 1] == ds[i];
      forall j | 0 <= j < i - 1 ensures rest[j].Ok? {
        assert rest[j] == ds[j + 1];
      }
      FirstFailingDelegateNamesError(step.value, rest, merge, resolver, i - 1);
    }
  }

  // ----- build() versus buildAndSubstitute() -----

  /** Two outcomes of get() of which the first holds the second's values
      passed through `f`; with `sameError`, a failure is also the same. */
  ghost predicate SubstitutedOutcome(l: Supplied, r: Supplied, f: string -> string, sameError: bool) {
    l.Ok? == r.Ok?
    && (l.Ok? ==> l.value == MapOver(r.value, f))
    && (sameError && l.Err? ==> l.error == r.error)
  }

  lemma MapOverUpdate(m: Index, k: string, v: string, f: string -> string)
    ensures MapOver(m[k := v], f) == MapOver(m, f)[k := f(v)]
  {
    assert MapOver(m[k := v], f).Keys == MapOver(m, f)[k := f(v)].Keys;
  }

  /** Substituting the entries before collecting them and substituting the
      collected map agree for every merge function that does not look at the
      values; the throwing one names a substituted value instead. */
  lemma {:induction false} AccumulateCommutes(acc: Index, es: seq<Entry>, merge: MergeFunction, f: string -> string)
    requires !merge.Custom?
    ensures SubstitutedOutcome(Accumulate(MapOver(acc, f), MapValues(es, f), merge), Accumulate(acc, es, merge),
                               f, !merge.ThrowingOnDuplicate?)
    decreases |es|
  {
    if es == [] {
    } else {
      var k, v := es[0].0, es[0].1;
      var fes := MapValues(es, f);
      assert fes[0] == (k, f(v)) && fes[1..] == MapValues(es[1..], f);
      AccumulateStep(acc, es, merge);
      AccumulateStep(MapOver(acc, f), fes, merge);
      if k !in acc {
        MapOverUpdate(acc, k, v, f);
        AccumulateCommutes(acc[k := v], es[1..], merge, f);
      } else if merge.KeepExisting? {
        assert acc[k := acc[k]] == acc;
        assert MapOver(acc, f)[k := MapOver(acc, f)[k]] == MapOver(acc, f);
        AccumulateCommutes(acc, es[1..], merge, f);
      } else if merge.KeepReplacement? {
        MapOverUpdate(acc, k, v, f);
        AccumulateCommutes(acc[k := v], es[1..], merge, f);
      }
    }
  }

  lemma MapValuesUnsubstituted(es: seq<Entry>, f: string -> string)
    ensures MapValues(MapValues(es, Substitution(None)), f) == MapValues(es, f)
  {
    var l := MapValues(MapValues(es, Substitution(None)), f);
    assert forall i :: 0 <= i < |es| ==> l[i] == MapValues(es, f)[i];
  }

  lemma {:induction false} CollectCommutes(acc: Index, ds: seq<Supplied>, merge: MergeFunction, layers: seq<Layer>)
    requires !merge.Custom?
    ensures SubstitutedOutcome(Collect(MapOver(acc, Substitution(Some(layers))), ds, merge, Some(layers)),
                               Collect(acc, ds, merge, None), Substitution(Some(layers)), !merge.ThrowingOnDuplicate?)
    decreases |ds|
  {
    var f := Substitution(Some(layers));
    if ds != [] {
      CollectStep(acc, ds, merge, None);
      CollectStep(MapOver(acc, f), ds, merge, Some(layers));
    }
    if ds != [] && ds[0].Ok? {
      var e := Enumerate(ds[0].value);
      var es := MapValues(e, Substitution(None));
      MapValuesUnsubstituted(e, f);
      AccumulateCommutes(acc, es, merge, f);
      var step := Accumulate(acc, es, merge);
      if step.Ok? {
        CollectCommutes(step.value, ds[1..], merge, layers);
      }
    }
  }

  /** buildAndSubstitute(resolver).get() is build().get() with every value
      substituted: the same keys, the same failures (the throwing merge
      function names a substituted value instead), and the values mapped
      through the composite's substitute. */
  lemma BuildAndSubstituteIsSubstitutedBuild(b: Builder, layers: seq<Layer>)
    requires !b.mergeFunction.Custom?
    ensures SubstitutedOutcome(Get(BuildAndSubstitute(b, Some(layers)).value), Get(Build(b)),
                               Substitution(Some(layers)), !b.mergeFunction.ThrowingOnDuplicate?)
  {
    assert MapOver(map[], Substitution(Some(layers))) == map[];
    CollectCommutes(map[], b.delegates, b.mergeFunction, layers);
  }

  /** build().substituteValues(resolver).get() is buildAndSubstitute(resolver)
      .get() with every value trimmed. */
  lemma BuildThenSubstituteIsTrimmed(b: Builder, layers: seq<Layer>)
    requires !b.mergeFunction.Custom?
    ensures SubstitutedOutcome(SubstituteValues(Build(b), Some(layers)).value,
                               Get(BuildAndSubstitute(b, Some(layers)).value),
                               Trim, !b.mergeFunction.ThrowingOnDuplicate?)
  {
    BuildAndSubstituteIsSubstitutedBuild(b, layers);
    var late := SubstituteValues(Build(b), Some(layers)).value;
    var early := Get(BuildAndSubstitute(b, Some(layers)).value);
  }

  /** The test's claim: when the substituted values are already trimmed, build
      then substituteValues and buildAndSubstitute yield the same; under the
      throwing merge function of builder() as written, whenever
      buildAndSubstitute succeeds. */
  lemma BuildThenSubstituteEqualsBuildAndSubstitute(b: Builder, layers: seq<Layer>)
    requires !b.mergeFunction.Custom?
    requires b.mergeFunction.ThrowingOnDuplicate? ==> Get(BuildAndSubstitute(b, Some(layers)).value).Ok?
    requires var early := Get(BuildAndSubstitute(b, Some(layers)).value);
             early.Ok? ==> forall k :: k in early.value ==> IsTrimmed(early.value[k])
    ensures SubstituteValues(Build(b), Some(layers)) == Ok(Get(BuildAndSubstitute(b, Some(layers)).value))
  {
    BuildThenSubstituteIsTrimmed(b, layers);
    var late, early := SubstituteValues(Build(b), Some(layers)).value, Get(BuildAndSubstitute(b, Some(layers)).value);
    assert SubstitutedOutcome(late, early, Trim, true);
    TrimmingTrimmedOutcome(late, early);
  }

  /** Trimming an outcome whose values are all trimmed already changes
      nothing. */
  lemma TrimmingTrimmedOutcome(late: Supplied, early: Supplied)
    requires SubstitutedOutcome(late, early, Trim, true)
    requires early.Ok? ==> forall k :: k in early.value ==> IsTrimmed(early.value[k])
    ensures late == early
  {
    if late.Ok? {
      forall k | k in early.value ensures late.value[k] == early.value[k] {
        assert IsTrimmed(early.value[k]);
      }
      assert late.value == early.value;
    }
  }

  // ----- the documented scenarios -----

  lemma MapOverUnsubstituted(m: Index)
    ensures MapOver(m, Substitution(None)) == m
  {
    assert MapOver(m, Substitution(None)).Keys == m.Keys;
  }

  /** Two delegates holding the same key once each, no resolver: get() is
      whatever the merge function makes of the two values. */
  lemma CollisionOfTwo(merge: MergeFunction, k: string, v1: string, v2: string)
    ensures Get(Composite([Ok(map[k := v1]), Ok(map[k := v2])], merge, None)) ==
              match Combine(merge, k, v1, v2)
              case Ok(w) => Ok(map[k := w])
              case Err(e) => Err(e)
  {
    var f := Substitution(None);
    var ds: seq<Supplied> := [Ok(map[k := v1]), Ok(map[k := v2])];
    EnumerateSingleton(k, v1);
    EnumerateSingleton(k, v2);
    var es1 := MapValues(Enumerate(map[k := v1]), f);
    var es2 := MapValues(Enumerate(map[k := v2]), f);
    assert es1 == [(k, v1)];
    assert es2 == [(k, v2)];
    var first := map[k := v1];
    assert Accumulate(map[], es1, merge) == Ok(first) by {
      AccumulateStep(map[], es1, merge);
      assert map[][k := v1] == first;
    }
    CollectStep(map[], ds, merge, None);
    assert ds[1..] == [Ok(map[k := v2])];
    CollectStep(first, ds[1..], merge, None);
    AccumulateStep(first, es2, merge);
    assert es2[1..] == [];
    match Combine(merge, k, v1, v2)
    case Ok(w) => {
      assert first[k := w] == map[k := w];
      assert ds[1..][1..] == [];
    }
    case Err(e) => {}
  }

  /** keeping() with {foo=bar} then {foo=baz} yields {foo=bar}. */
  lemma KeepingKeepsInitialValue()
    ensures var b := Add(Add(Keeping(), Some(map["foo" := "bar"])).value, Some(map["foo" := "baz"])).value;
            Get(Build(b)) == Ok(map["foo" := "bar"])
  {
    CollisionOfTwo(KeepExisting, "foo", "bar", "baz");
  }

  /** overriding() with {foo=bar} then {foo=baz} yields {foo=baz}. */
  lemma OverridingOverridesExistingValue()
    ensures var b := Add(Add(Overriding(), Some(map["foo" := "bar"])).value, Some(map["foo" := "baz"])).value;
            Get(Build(b)) == Ok(map["foo" := "baz"])
  {
    CollisionOfTwo(KeepReplacement, "foo", "bar", "baz");
  }

  /** builder() with {foo=bar} then {foo=baz} fails, naming the key. */
  lemma BuilderRejectsDuplicateKey()
    ensures var b := Add(Add(NewBuilder(), Some(map["foo" := "bar"])).value, Some(map["foo" := "baz"])).value;
            Get(Build(b)) == Err(DuplicateKey("foo"))
  {
    CollisionOfTwo(Strict, "foo", "bar", "baz");
  }

  /** builder() as written fails on the same input, but its message names
      the value "bar" where "Duplicate key foo" was meant. */
  lemma BuilderAsWrittenNamesValue()
    ensures var b := Add(Add(BuilderAsWritten(), Some(map["foo" := "bar"])).value, Some(map["foo" := "baz"])).value;
            Get(Build(b)) == Err(DuplicateKey("bar"))
  {
    CollisionOfTwo(ThrowingOnDuplicate, "foo", "bar", "baz");
  }

  /** Without a resolver a single delegate's index comes back unchanged. */
  lemma MissingResolverDoesNotSubstitute(m: Index)
    ensures Get(Build(Add(BuilderAsWritten(), Some(m)).value)) == Ok(m)
  {
    assert Build(Add(BuilderAsWritten(), Some(m)).value) == Composite([Ok(m)], ThrowingOnDuplicate, None);
    SingleDelegate(m, ThrowingOnDuplicate, None);
    MapOverUnsubstituted(m);
  }

  /** One delegate under a rejecting merge: get() is its substituted index. */
  lemma SingleDelegate(m: Index, merge: MergeFunction, resolver: Option<seq<Layer>>)
    requires Rejects(merge)
    ensures Get(Composite([Ok(m)], merge, resolver)) == Ok(MapOver(m, Substitution(resolver)))
  {
    var ds: seq<Supplied> := [Ok(m)];
    RejectingStep(map[], ds, merge, resolver);
    assert ds[1..] == [];
    UnionWithEmpty(MapOver(m, Substitution(resolver)));
  }

  /** The substitution scenario: a username entry pointing at the
      DATABASE_USER_FILE property and a password entry holding a path. */
  function ScenarioBuilder(): Builder {
    Add(Add(BuilderAsWritten(), Some(map["spring.datasource.username" := "DATABASE_USER_FILE"])).value,
        Some(map["spring.datasource.password" := "/run/secrets/db_password"])).value
  }

  function ScenarioEnvironment(): seq<Layer> {
    [Layer("systemEnvironment", true, map["DATABASE_USER_FILE" := "/run/secrets/db_username"])]
  }

  lemma MapOverOne(k: string, v: string, f: string -> string)
    ensures MapOver(map[k := v], f) == map[k := f(v)]
  {
    assert MapOver(map[k := v], f).Keys == {k};
  }

  /** The username entry names a property of the environment and is
      replaced by its value. */
  lemma ScenarioUsernameResolves()
    ensures Substitution(Some(ScenarioEnvironment()))("DATABASE_USER_FILE") == "/run/secrets/db_username"
  {
    var env := ScenarioEnvironment();
    assert "DATABASE_USER_FILE" in env[0].props;
  }

  /** The password entry names no property and is kept. */
  lemma ScenarioPasswordIsKept()
    ensures Substitution(Some(ScenarioEnvironment()))("/run/secrets/db_password") == "/run/secrets/db_password"
  {
    var env := ScenarioEnvironment();
    assert "/run/secrets/db_password" != "DATABASE_USER_FILE";
    assert "/run/secrets/db_password" !in env[0].props;
  }

  lemma ScenarioSubstitution()
    ensures MapOver(map["spring.datasource.username" := "DATABASE_USER_FILE"], Substitution(Some(ScenarioEnvironment())))
         == map["spring.datasource.username" := "/run/secrets/db_username"]
    ensures MapOver(map["spring.datasource.password" := "/run/secrets/db_password"], Substitution(Some(ScenarioEnvironment())))
         == map["spring.datasource.password" := "/run/secrets/db_password"]
  {
    var f := Substitution(Some(ScenarioEnvironment()));
    ScenarioUsernameResolves();
    ScenarioPasswordIsKept();
    MapOverOne("spring.datasource.username", "DATABASE_USER_FILE", f);
    MapOverOne("spring.datasource.password", "/run/secrets/db_password", f);
  }

  /** Two delegates with no key in common, under a rejecting merge: get() is
      the union of their substituted indexes. */
  lemma DisjointPair(u: Index, p: Index, merge: MergeFunction, resolver: Option<seq<Layer>>)
    requires u.Keys !! p.Keys && Rejects(merge)
    ensures Get(Composite([Ok(u), Ok(p)], merge, resolver))
         == Ok(MapOver(u, Substitution(resolver)) + MapOver(p, Substitution(resolver)))
  {
    var ds: seq<Supplied> := [Ok(u), Ok(p)];
    var f := Substitution(resolver);
    var first := MapOver(u, f);
    RejectingStep(map[], ds, merge, resolver);
    UnionWithEmpty(first);
    assert ds[1..] == [Ok(p)] && ds[1..][1..] == [];
    assert first.Keys == u.Keys;
    RejectingStep(first, ds[1..], merge, resolver);
  }

  /** buildAndSubstitute(env) resolves the username entry and leaves the path
      that names no property as it is. */
  lemma BuildAndSubstituteScenario()
    ensures Get(BuildAndSubstitute(ScenarioBuilder(), Some(ScenarioEnvironment())).value) ==
              Ok(map["spring.datasource.username" := "/run/secrets/db_username",
                     "spring.datasource.password" := "/run/secrets/db_password"])
  {
    var u := map["spring.datasource.username" := "DATABASE_USER_FILE"];
    var p := map["spring.datasource.password" := "/run/secrets/db_password"];
    var env := Some(ScenarioEnvironment());
    assert BuildAndSubstitute(ScenarioBuilder(), env).value == Composite([Ok(u), Ok(p)], ThrowingOnDuplicate, env);
    assert "spring.datasource.username" != "spring.datasource.password";
    DisjointPair(u, p, ThrowingOnDuplicate, env);
    ScenarioSubstitution();
    UnionOfSingletons("spring.datasource.username", "/run/secrets/db_username",
                      "spring.datasource.password", "/run/secrets/db_password");
  }

  lemma UnionOfSingletons(k1: string, v1: string, k2: string, v2: string)
    requires k1 != k2
    ensures map[k1 := v1] + map[k2 := v2] == map[k1 := v1, k2 := v2]
  {
    assert (map[k1 := v1] + map[k2 := v2]).Keys == {k1, k2};
  }

  /** build().substituteValues(env) yields the same as buildAndSubstitute(env). */
  lemma BuildThenSubstituteScenario()
    ensures SubstituteValues(Build(ScenarioBuilder()), Some(ScenarioEnvironment()))
         == Ok(Get(BuildAndSubstitute(ScenarioBuilder(), Some(ScenarioEnvironment())).value))
  {
    BuildAndSubstituteScenario();
    assert IsTrimmed("/run/secrets/db_username") && IsTrimmed("/run/secrets/db_password");
    TrimmedPair("spring.datasource.username", "/run/secrets/db_username",
                "spring.datasource.password", "/run/secrets/db_password");
    BuildThenSubstituteEqualsBuildAndSubstitute(ScenarioBuilder(), ScenarioEnvironment());
  }

  lemma TrimmedPair(k1: string, v1: string, k2: string, v2: string)
    requires IsTrimmed(v1) && IsTrimmed(v2)
    ensures var m := map[k1 := v1, k2 := v2]; forall k :: k in m ==> IsTrimmed(m[k])
  {
  }
}

=== FILE: ConfigDataPropertyIndexSupplier.dfy ===
/** ConfigDataPropertyIndexSupplier: indexes the configuration properties
    declared as secrets.<infix>.properties.<property>=<location> under
    <property>, with the location the environment resolves for them. */
module ConfigDataPropertyIndexSupplier {
  import opened Wrappers
  import opened Errors
  import opened JavaStrings
  import opened Collectors
  import opened PropertySources
  import opened Streams
  import Utils
  import SecretsEnvironment

  /** PROPERTY_PREFIX_TEMPLATE "secrets.%s.properties" filled with the infix. */
  function Prefix(infix: string): (p: string)
    ensures |p| == |infix| + 19
    ensures StartsWith(p, "secrets.") && EndsWith(p, ".properties")
    ensures p[8..8 + |infix|] == infix
  {
    var p := "secrets." + infix + ".properties";
    assert p[..8] == "secrets.";
    assert p[|p| - 11..] == ".properties";
    assert p[8..8 + |infix|] == infix;
    p
  }

  /** The file infix yields a 23-character prefix, so keys start at index 24. */
  lemma FilePrefixLength()
    ensures |Prefix("file")| + 1 == 24
  {
  }

  datatype ConfigDataPropertyIndexSupplier = ConfigDataPropertyIndexSupplier(sources: seq<Layer>, prefix: string)

  /** The constructor checks its three arguments for null and formats the
      prefix. */
  function New(logFactory: Option<SecretsEnvironment.LogFactory>, environment: Option<seq<Layer>>,
               infix: Option<string>): (r: Result<ConfigDataPropertyIndexSupplier, Error>)
    ensures r.Ok? <==> logFactory.Some? && environment.Some? && infix.Some?
    ensures r.Ok? ==> r.value.sources == environment.value && r.value.prefix == Prefix(infix.value)
    ensures r.Err? ==> r.error.IllegalArgument?
  {
    if logFactory.None? then Err(IllegalArgument("logFactory is marked non-null but is null"))
    else if environment.None? then Err(IllegalArgument("environment is marked non-null but is null"))
    else if infix.None? then Err(IllegalArgument("propertyInfix is marked non-null but is null"))
    else Ok(ConfigDataPropertyIndexSupplier(environment.value, Prefix(infix.value)))
  }

  /** isValid: long enough to hold the prefix and one more character. */
  function IsValid(prefix: string): (p: string -> bool)
    ensures forall k :: p(k) <==> |k| >= |prefix| + 1
  {
    k => |k| >= |prefix| + 1
  }

  /** A raw key that passes both filters. */
  predicate Candidate(prefix: string, k: string) {
    StartsWith(k, prefix) && |k| >= |prefix| + 1
  }

  /** How many map-backed sources hold the key. */
  function Holding(sources: seq<Layer>, k: string): (n: nat)
    ensures n <= |sources|
    ensures n > 0 <==> exists i :: 0 <= i < |sources| && sources[i].isMap && k in sources[i].props
  {
    if sources == [] then 0
    else
      var n := (if sources[0].isMap && k in sources[0].props then 1 else 0) + Holding(sources[1..], k);
      assert forall i :: 1 <= i < |sources| ==> sources[i] == sources[1..][i - 1];
      n
  }

  /** The keys of the map-backed sources, flattened in source order; a key
      held by several sources occurs once for each. */
  ghost function RawKeys(sources: seq<Layer>): (r: seq<string>)
    ensures forall k :: multiset(r)[k] == Holding(sources, k)
    ensures forall k :: k in r <==> Holding(sources, k) > 0
  {
    if sources == [] then []
    else
      var head := if sources[0].isMap then KeyStream(sources[0].props) else [];
      var rest := RawKeys(sources[1..]);
      assert forall k :: multiset(head)[k] == if sources[0].isMap && k in sources[0].props then 1 else 0 by {
        forall k ensures multiset(head)[k] == if sources[0].isMap && k in sources[0].props then 1 else 0 {
          if sources[0].isMap {
            DistinctOccurrences(head, k);
          }
        }
      }
      assert multiset(head + rest) == multiset(head) + multiset(rest);
      head + rest
  }

  /** The raw keys that start with the prefix and are long enough, each as
      often as map-backed sources hold it. */
  ghost function Names(s: ConfigDataPropertyIndexSupplier): (r: seq<string>)
    ensures forall k :: multiset(r)[k] == if Candidate(s.prefix, k) then Holding(s.sources, k) else 0
    ensures forall k :: k in r <==> Candidate(s.prefix, k) && Holding(s.sources, k) > 0
  {
    var raw := RawKeys(s.sources);
    var prefixed := Filter(raw, Utils.StartsWith(s.prefix));
    var r := Filter(prefixed, IsValid(s.prefix));
    forall k ensures multiset(r)[k] == if Candidate(s.prefix, k) then Holding(s.sources, k) else 0 {
      FilterOccurrences(raw, Utils.StartsWith(s.prefix), k);
      FilterOccurrences(prefixed, IsValid(s.prefix), k);
    }
    r
  }

  /** testAndLogFailure(isValid, ...) logs exactly for keys too short to
      assign. */
  function Logged(prefix: string): (p: string -> bool)
    ensures forall k :: p(k) <==> |k| < |prefix| + 1
  {
    var test := Utils.TestAndLogFailure(IsValid(prefix));
    k => test(k).1
  }

  /** The raw keys a warning is logged for: only the bare prefix, once for
      each map-backed source that holds it. */
  ghost function Warnings(s: ConfigDataPropertyIndexSupplier): (r: seq<string>)
    ensures forall k :: k in r <==> k == s.prefix && Holding(s.sources, k) > 0
  {
    var raw := RawKeys(s.sources);
    var prefixed := Filter(raw, Utils.StartsWith(s.prefix));
    var r := Filter(prefixed, Logged(s.prefix));
    assert forall k :: k in r <==> k in raw && StartsWith(k, s.prefix) && |k| < |s.prefix| + 1;
    r
  }

  /** substring(prefix.length() + 1) as the collector's key function; it
      only ever sees valid keys, so the guard never fails. */
  function KeyOf(prefix: string): (key: string -> string)
    ensures forall k :: |prefix| + 1 <= |k| ==> key(k) == k[|prefix| + 1..]
    ensures forall k :: |prefix| + 1 <= |k| ==> Utils.Substring(|prefix| + 1)(k) == Ok(key(k))
  {
    k => if |prefix| + 1 <= |k| then k[|prefix| + 1..] else k
  }

  /** A raw key declared in the environment that makes it into the index. */
  predicate Declared(s: ConfigDataPropertyIndexSupplier, k: string) {
    Candidate(s.prefix, k) && Holding(s.sources, k) > 0
  }

  /** get(): collect the candidates with toMap, which rejects a key reached
      twice. */
  ghost function Get(s: ConfigDataPropertyIndexSupplier): (r: Result<Index, Error>)
    ensures r.Err? ==> r.error.DuplicateKey?
  {
    PairsCollectIff(Names(s), KeyOf(s.prefix), PropertyOf(s.sources), Strict);
    ToMap(Pairs(Names(s), KeyOf(s.prefix), PropertyOf(s.sources)), Strict)
  }

  /** get() fails exactly when a candidate is held by two map-backed sources,
      or two different candidates leave the same key once the prefix and the
      character after it are cut off. */
  lemma GetSucceedsIff(s: ConfigDataPropertyIndexSupplier)
    ensures Get(s).Ok? <==>
              (forall k :: Candidate(s.prefix, k) ==> Holding(s.sources, k) <= 1)
              && forall k1, k2 :: Declared(s, k1) && Declared(s, k2) && k1 != k2 ==>
                   k1[|s.prefix| + 1..] != k2[|s.prefix| + 1..]
  {
    var names := Names(s);
    var key := KeyOf(s.prefix);
    var value := PropertyOf(s.sources);
    DistinctIffSingleOccurrences(names);
    if forall k :: Candidate(s.prefix, k) ==> Holding(s.sources, k) <= 1 {
      assert forall x :: multiset(names)[x] <= 1;
      DistinctCollectIff(names, key, value, Strict, k => Declared(s, k));
    } else {
      var k :| Candidate(s.prefix, k) && Holding(s.sources, k) > 1;
      assert multiset(names)[k] > 1;
      var i, j :| 0 <= i < j < |names| && names[i] == names[j];
      PairsCollectIff(names, key, value, Strict);
      assert key(names[i]) == key(names[j]);
    }
  }

  /** A successful get() maps the key of every candidate, and no other key,
      to the environment's value of that candidate. */
  lemma GetContents(s: ConfigDataPropertyIndexSupplier)
    requires Get(s).Ok?
    ensures var r := Get(s).value;
      (forall k :: k in r <==> exists n :: Declared(s, n) && n[|s.prefix| + 1..] == k)
      && forall n :: Declared(s, n) ==> GetProperty(s.sources, n).Some?
                                         && r[n[|s.prefix| + 1..]] == GetProperty(s.sources, n).value
  {
    DistinctCollectContents(Names(s), KeyOf(s.prefix), PropertyOf(s.sources), Strict, k => Declared(s, k));
    forall n | Declared(s, n) ensures GetProperty(s.sources, n).Some? {
      var i :| 0 <= i < |s.sources| && s.sources[i].isMap && n in s.sources[i].props;
    }
  }

  /** The character after the prefix is not checked: the key is whatever
      follows it, and it is empty when nothing does. */
  lemma KeyAfterPrefix(prefix: string, c: char, rest: string)
    ensures Candidate(prefix, prefix + [c] + rest)
    ensures KeyOf(prefix)(prefix + [c] + rest) == rest
  {
    var k := prefix + [c] + rest;
    assert k[..|prefix|] == prefix;
    assert k[|prefix| + 1..] == rest;
  }

  /** So two declarations that differ only in that character collide. */
  lemma SeparatorVariantsCollide(s: ConfigDataPropertyIndexSupplier, c1: char, c2: char, rest: string)
    requires c1 != c2
    requires Holding(s.sources, s.prefix + [c1] + rest) > 0 && Holding(s.sources, s.prefix + [c2] + rest) > 0
    ensures Get(s).Err? && Get(s).error.DuplicateKey?
  {
    var k1 := s.prefix + [c1] + rest;
    var k2 := s.prefix + [c2] + rest;
    KeyAfterPrefix(s.prefix, c1, rest);
    KeyAfterPrefix(s.prefix, c2, rest);
    assert k1[|s.prefix|] != k2[|s.prefix|];
    assert Declared(s, k1) && Declared(s, k2) && k1 != k2;
    assert k1[|s.prefix| + 1..] == rest == k2[|s.prefix| + 1..];
    GetSucceedsIff(s);
  }

  /** A candidate declared in two map-backed sources makes get() fail. */
  lemma DeclaredTwiceFails(s: ConfigDataPropertyIndexSupplier, k: string, i: int, j: int)
    requires Candidate(s.prefix, k)
    requires 0 <= i < j < |s.sources|
    requires s.sources[i].isMap && k in s.sources[i].props && s.sources[j].isMap && k in s.sources[j].props
    ensures Get(s).Err? && Get(s).error.DuplicateKey?
  {
    HoldingTwo(s.sources, k, i, j);
    GetSucceedsIff(s);
  }

  lemma {:induction false} HoldingTwo(sources: seq<Layer>, k: string, i: int, j: int)
    requires 0 <= i < j < |sources|
    requires sources[i].isMap && k in sources[i].props && sources[j].isMap && k in sources[j].props
    ensures Holding(sources, k) >= 2
  {
    if i == 0 {
      assert sources[1..][j - 1] == sources[j];
      assert Holding(sources[1..], k) > 0;
    } else {
      assert sources[1..][i - 1] == sources[i] && sources[1..][j - 1] == sources[j];
      HoldingTwo(sources[1..], k, i - 1, j - 1);
    }
  }

  /** A single declaration is the whole index: its property, mapped to the
      environment's value of the declaration. */
  lemma OneDeclarationIsIndexed(s: ConfigDataPropertyIndexSupplier, k: string)
    requires Candidate(s.prefix, k) && Holding(s.sources, k) == 1
    requires forall n :: Declared(s, n) ==> n == k
    ensures GetProperty(s.sources, k).Some?
    ensures Get(s) == Ok(map[k[|s.prefix| + 1..] := GetProperty(s.sources, k).value])
  {
    assert forall n :: Candidate(s.prefix, n) ==> Holding(s.sources, n) <= 1 by {
      forall n | Candidate(s.prefix, n) ensures Holding(s.sources, n) <= 1 {
        if n != k {
          assert !Declared(s, n);
        }
      }
    }
    GetSucceedsIff(s);
    GetContents(s);
    var r := Get(s).value;
    var key := k[|s.prefix| + 1..];
    forall x | x in r ensures x == key {
      var n :| Declared(s, n) && n[|s.prefix| + 1..] == x;
    }
    OneKeyMap(r, key);
  }

  /** The bare prefix alone is skipped with a warning and yields an empty
      index. */
  lemma BarePrefixIsSkipped(s: ConfigDataPropertyIndexSupplier)
    requires Holding(s.sources, s.prefix) > 0
    requires forall n :: StartsWith(n, s.prefix) && Holding(s.sources, n) > 0 ==> n == s.prefix
    ensures s.prefix in Warnings(s)
    ensures Get(s) == Ok(map[])
  {
    assert forall n :: !Declared(s, n) by {
      forall n ensures !Declared(s, n) {
        if StartsWith(n, s.prefix) && Holding(s.sources, n) > 0 {
          assert n == s.prefix;
        }
      }
    }
    NothingDeclaredIsEmpty(s);
  }

  /** Without a declaration the index is empty. */
  lemma NothingDeclaredIsEmpty(s: ConfigDataPropertyIndexSupplier)
    requires forall n :: !Declared(s, n)
    ensures Get(s) == Ok(map[])
  {
    forall k | Candidate(s.prefix, k) ensures Holding(s.sources, k) <= 1 {
      assert !Declared(s, k);
    }
    GetSucceedsIff(s);
    GetContents(s);
    NoKeyMap(Get(s).value);
  }

  /** Holding over a single map-backed source. */
  lemma HoldingOne(name: string, m: Index, k: string)
    ensures Holding([Layer(name, true, m)], k) == if k in m then 1 else 0
  {
    assert [Layer(name, true, m)][1..] == [];
  }
}

=== FILE: DefaultSecretResolver.dfy ===
/** DefaultSecretResolver: turns a secret's location into its content through
    a resource loader. */
module DefaultSecretResolver {
  import opened Wrappers
  import opened Errors
  import opened JavaStrings

  /** A resource loader reduced to what the resolver observes: the locations
      whose resource exists, each with the text it reads as. */
  type ResourceLoader = map<string, string>

  datatype DefaultSecretResolver = DefaultSecretResolver(loader: ResourceLoader)

  /** The constructor rejects a null resource loader. */
  function New(loader: Option<ResourceLoader>): (r: Result<DefaultSecretResolver, Error>)
    ensures r.Ok? <==> loader.Some?
    ensures r.Ok? ==> r.value.loader == loader.value
  {
    if loader.None? then Err(IllegalArgument("resourceLoader is marked non-null but is null"))
    else Ok(DefaultSecretResolver(loader.value))
  }

  /** loadResource then readContent: a location without text is never looked
      up; otherwise the resource's content when it exists. */
  function LoadResource(loader: ResourceLoader, location: string): (r: Option<string>)
    ensures r.Some? <==> HasText(location) && location in loader
    ensures r.Some? ==> r.value == loader[location]
  {
    if HasText(location) && location in loader then Some(loader[location]) else None
  }

  /** loadContent as written: the content is kept when it has text and is
      trimmed afterwards. */
  function LoadContentAsWritten(loader: ResourceLoader, location: Option<string>): (r: Option<string>)
    ensures location.None? ==> r.None?
    ensures location.Some? ==> r == TextThenTrim(LoadResource(loader, location.value))
  {
    if location.None? then None else TextThenTrim(LoadResource(loader, location.value))
  }

  /** Content made only of characters below U+0020 that are not whitespace
      (a file of NUL bytes) passes the text check and then trims to the empty
      string, which the as-written resolver reports as present. */
  lemma LoadContentAsWrittenYieldsBlank()
    ensures LoadContentAsWritten(map["file:/run/secrets/token" := "\U{0}\U{0}"], Some("file:/run/secrets/token")) == Some("")
  {
    assert HasText("file:/run/secrets/token") by {
      assert !IsWhitespace("file:/run/secrets/token"[0]);
    }
    assert !IsWhitespace("\U{0}\U{0}"[0]);
  }

  /** The same at any location that names a resource of NUL characters: the
      as-written resolver finds the empty secret, the corrected one none. */
  lemma NulContentIsBlank(loader: ResourceLoader, location: string)
    requires HasText(location) && location in loader && loader[location] == "\U{0}\U{0}"
    ensures LoadContentAsWritten(loader, Some(location)) == Some("")
    ensures LoadContent(loader, Some(location)).None?
  {
    assert !IsWhitespace("\U{0}\U{0}"[0]);
  }

  /** loadContent with the trim applied before the text check, so that a
      present result always carries text: a null or blank location, a missing
      resource and blank content all resolve to nothing. */
  function LoadContent(loader: ResourceLoader, location: Option<string>): (r: Option<string>)
    ensures r.Some? <==> location.Some? && HasText(location.value) && location.value in loader
                         && HasText(Trim(loader[location.value]))
    ensures r.Some? ==> r.value == Trim(loader[location.value])
    ensures r.Some? ==> HasText(r.value) && Trim(r.value) == r.value
  {
    if location.None? then None else TrimThenText(LoadResource(loader, location.value))
  }

  /** The two definitions differ only on content that has text and trims to
      blank, where the corrected one reports absence. */
  lemma LoadContentAgreesUnlessBlank(loader: ResourceLoader, location: Option<string>)
    ensures LoadContent(loader, location) != LoadContentAsWritten(loader, location) ==>
      LoadContent(loader, location).None?
      && LoadContentAsWritten(loader, location).Some?
      && !HasText(LoadContentAsWritten(loader, location).value)
  {
    if location.Some? {
      TextThenTrimAgreesUnlessBlank(LoadResource(loader, location.value));
    }
  }

  /** The loader of the resolver's test cases. */
  function ExampleLoader(): ResourceLoader {
    map["classpath:spring_mail_host" := "localhost\n", "classpath:secret.empty" := ""]
  }

  /** A classpath resource with text resolves to its trimmed content. */
  lemma ClasspathResourceIsTrimmed()
    ensures LoadContent(ExampleLoader(), Some("classpath:spring_mail_host")) == Some("localhost")
  {
    assert "classpath:spring_mail_host" in ExampleLoader();
    assert HasText("classpath:spring_mail_host") by {
      assert !IsWhitespace("classpath:spring_mail_host"[0]);
    }
    assert "localhost\n" == "" + "localhost" + "\n";
    TrimOfPadded("", "localhost", "\n");
    assert HasText("localhost") by {
      assert !IsWhitespace("localhost"[0]);
    }
  }

  /** Text that names no resource resolves to nothing. */
  lemma UnknownLocationIsAbsent()
    ensures LoadContent(ExampleLoader(), Some("5e7ab0c1-39d8-4b4c-9a38-4d1b2c3a1f00")) == None
  {
    assert "5e7ab0c1-39d8-4b4c-9a38-4d1b2c3a1f00" != "classpath:spring_mail_host";
    assert "5e7ab0c1-39d8-4b4c-9a38-4d1b2c3a1f00" != "classpath:secret.empty";
  }

  /** An empty file resolves to nothing. */
  lemma EmptyFileIsAbsent()
    ensures LoadContent(ExampleLoader(), Some("classpath:secret.empty")) == None
  {
    assert ExampleLoader()["classpath:secret.empty"] == "";
  }

  /** The resolver's behaviour on the cases its tests name: a classpath or
      file resource with text resolves to its trimmed content; a null
      location, text that names no resource, the empty location and an empty
      file all resolve to nothing. */
  lemma LoadContentExamples()
    ensures var loader := ExampleLoader();
      LoadContent(loader, Some("classpath:spring_mail_host")) == Some("localhost")
      && LoadContent(loader, None) == None
      && LoadContent(loader, Some("5e7ab0c1-39d8-4b4c-9a38-4d1b2c3a1f00")) == None
      && LoadContent(loader, Some("")) == None
      && LoadContent(loader, Some("classpath:secret.empty")) == None
  {
    ClasspathResourceIsTrimmed();
    UnknownLocationIsAbsent();
    EmptyFileIsAbsent();
  }
}

=== FILE: Directories.dfy ===
/** Indexing the regular files of a directory, as the older processors and
    the older filename supplier do: the directory is listed, entries that
    are not regular files are dropped, and each remaining file contributes
    one (key, value) entry to a map collector. */
module Directories {
  import opened Wrappers
  import opened Errors
  import opened Collectors
  import opened PropertySources
  import opened Streams
  import FilenamePropertyIndexSupplier

  type FileEntry = FilenamePropertyIndexSupplier.FileEntry
  type Listing = FilenamePropertyIndexSupplier.Listing

  /** Docker's default secrets path, the fallback of every base directory. */
  const DEFAULT_BASE_DIR := FilenamePropertyIndexSupplier.DEFAULT_BASE_DIR

  /** environment.getProperty(property, "/run/secrets"). */
  function BaseDirOf(sources: seq<Layer>, property: string): (r: string)
    ensures GetProperty(sources, property).None? ==> r == DEFAULT_BASE_DIR
    ensures GetProperty(sources, property).Some? ==> r == GetProperty(sources, property).value
  {
    GetPropertyOr(sources, property, DEFAULT_BASE_DIR)
  }

  function IsRegular(): (p: FileEntry -> bool)
    ensures forall f :: p(f) <==> f.regular
  {
    (f: FileEntry) => f.regular
  }

  /** Files.list(dir).filter(Files::isRegularFile), in listing order. */
  function RegularFiles(entries: seq<FileEntry>): (r: seq<FileEntry>)
    ensures forall f :: f in r <==> f in entries && f.regular
  {
    Filter(entries, IsRegular())
  }

  /** Optional.of(dir).filter(isDirectory).map(listFiles).orElse(empty)
      collected with toMap(key, value, merge): a path that is no directory
      yields the empty map, a listing that fails raises, and a listed
      directory is collected file by file. */
  function DirectoryIndex(listing: Listing, dir: string, key: FileEntry -> string,
                          value: FileEntry -> string, merge: MergeFunction): (r: Result<Index, Error>)
    ensures listing.NotADirectory? ==> r == Ok(map[])
    ensures listing.Unreadable? ==> r == Err(ListingFailed(dir))
    ensures listing.Listed? && !Rejects(merge) ==> r.Ok?
    ensures listing.Listed? && r.Err? ==> r.error.DuplicateKey?
  {
    match listing
    case NotADirectory => Ok(map[])
    case Unreadable => Err(ListingFailed(dir))
    case Listed(entries) => ToMap(Pairs(RegularFiles(entries), key, value), merge)
  }

  /** Keeping the first value of a key, a listed directory always yields an
      index: it holds the key of every regular file, and each key maps to
      the value of the first regular file, in listing order, that has it. */
  lemma KeepingFirstIndex(entries: seq<FileEntry>, dir: string, key: FileEntry -> string, value: FileEntry -> string)
    ensures var files := RegularFiles(entries);
      var r := DirectoryIndex(FilenamePropertyIndexSupplier.Listed(entries), dir, key, value, KeepExisting);
      r.Ok?
      && (forall k :: k in r.value <==> exists f :: f in entries && f.regular && key(f) == k)
      && forall i :: 0 <= i < |files| && (forall j :: 0 <= j < i ==> key(files[j]) != key(files[i])) ==>
           r.value[key(files[i])] == value(files[i])
  {
    var files := RegularFiles(entries);
    PairsCollectKeepingFirst(files, key, value);
    assert DirectoryIndex(FilenamePropertyIndexSupplier.Listed(entries), dir, key, value, KeepExisting)
        == ToMap(Pairs(files, key, value), KeepExisting);
    var r := ToMap(Pairs(files, key, value), KeepExisting).value;
    forall k ensures k in r <==> exists f :: f in entries && f.regular && key(f) == k {
      KeyInFilter(entries, IsRegular(), key, k);
    }
  }

  /** With a rejecting merge, a directory listing, which never repeats an
      entry, yields an index exactly when no two different regular files
      share a key; the index then maps the key of every regular file to
      that file's value and holds no other key. */
  lemma StrictIndexIff(entries: seq<FileEntry>, dir: string, key: FileEntry -> string, value: FileEntry -> string, merge: MergeFunction)
    requires Rejects(merge) && Distinct(entries)
    ensures var r := DirectoryIndex(FilenamePropertyIndexSupplier.Listed(entries), dir, key, value, merge);
      (r.Ok? <==> forall a, b :: a in entries && a.regular && b in entries && b.regular && a != b ==> key(a) != key(b))
      && (r.Err? ==> r.error.DuplicateKey?)
      && (r.Ok? ==>
            (forall k :: k in r.value <==> exists f :: f in entries && f.regular && key(f) == k)
            && forall f :: f in entries && f.regular ==> r.value[key(f)] == value(f))
  {
    var files := RegularFiles(entries);
    var p := (f: FileEntry) => f in entries && f.regular;
    FilterKeepsDistinct(entries, IsRegular());
    DistinctCollectIff(files, key, value, merge, p);
    if ToMap(Pairs(files, key, value), merge).Ok? {
      DistinctCollectContents(files, key, value, merge, p);
    }
  }

  /** Two regular files with the same key: keeping the first value, the
      index holds the first file's value only; a rejecting merge fails. */
  lemma TwoFilesOneKey(f1: FileEntry, f2: FileEntry, dir: string, key: FileEntry -> string, value: FileEntry -> string)
    requires f1.regular && f2.regular && key(f1) == key(f2)
    ensures DirectoryIndex(FilenamePropertyIndexSupplier.Listed([f1, f2]), dir, key, value, KeepExisting)
            == Ok(map[key(f1) := value(f1)])
    ensures forall merge :: Rejects(merge) ==>
              DirectoryIndex(FilenamePropertyIndexSupplier.Listed([f1, f2]), dir, key, value, merge).Err?
  {
    FilterBothOfTwo(f1, f2, IsRegular());
    PairsCollectKeepingFirst([f1, f2], key, value);
    var r := ToMap(Pairs([f1, f2], key, value), KeepExisting).value;
    assert forall k :: k in r ==> k == key(f1);
    OneKeyMap(r, key(f1));
    forall merge | Rejects(merge)
      ensures DirectoryIndex(FilenamePropertyIndexSupplier.Listed([f1, f2]), dir, key, value, merge).Err?
    {
      CollectTwoSameKey(f1, f2, key, value, merge);
    }
  }
}

=== FILE: EnvironmentPropertyIndexSupplier.dfy ===
/** EnvironmentPropertyIndexSupplier: indexes the environment variables whose
    name ends with a suffix under the property name they spell, e.g.
    SPRING_DATASOURCE_PASSWORD_FILE under spring.datasource.password. */
module EnvironmentPropertyIndexSupplier {
  import opened Wrappers
  import opened Errors
  import opened JavaStrings
  import opened Collectors
  import opened PropertySources
  import opened Streams
  import Utils

  /** The suffix of the one-argument constructor. */
  const DEFAULT_SUFFIX := ""

  datatype EnvironmentPropertyIndexSupplier = EnvironmentPropertyIndexSupplier(environment: Environment, suffix: string)

  /** The two-argument constructor; both arguments are checked for null. */
  function New(environment: Option<Environment>, suffix: Option<string>): (r: Result<EnvironmentPropertyIndexSupplier, Error>)
    ensures r.Ok? <==> environment.Some? && suffix.Some?
    ensures r.Ok? ==> r.value.environment == environment.value && r.value.suffix == suffix.value
    ensures r.Err? ==> r.error.IllegalArgument?
  {
    if environment.None? then Err(IllegalArgument("environment is marked non-null but is null"))
    else if suffix.None? then Err(IllegalArgument("suffix is marked non-null but is null"))
    else Ok(EnvironmentPropertyIndexSupplier(environment.value, suffix.value))
  }

  /** The one-argument constructor: every variable name is eligible. */
  function WithoutSuffix(environment: Option<Environment>): (r: Result<EnvironmentPropertyIndexSupplier, Error>)
    ensures r.Ok? <==> environment.Some?
    ensures r.Ok? ==> r.value.environment == environment.value && r.value.suffix == DEFAULT_SUFFIX
    ensures r.Err? ==> r.error.IllegalArgument?
  {
    New(environment, Some(DEFAULT_SUFFIX))
  }

  /** convertToPropertyName: cut the suffix off, turn underscores into
      periods, lower-case. */
  function ConvertToPropertyName(suffix: string, name: string): (r: string)
    requires |suffix| <= |name|
    ensures |r| == |name| - |suffix|
    ensures forall i :: 0 <= i < |r| && name[i] == '_' ==> r[i] == '.'
    ensures forall i :: 0 <= i < |r| && name[i] != '_' ==> r[i] == LowerChar(name[i])
  {
    var r := ToLowerAscii(JavaStrings.Replace(name[..|name| - |suffix|], '_', '.'));
    assert forall i :: 0 <= i < |r| && name[i] != '_' ==> r[i] == LowerChar(name[i]) by {
      forall i | 0 <= i < |r| && name[i] != '_' ensures r[i] == LowerChar(name[i]) {
        assert name[..|name| - |suffix|][i] == name[i];
      }
    }
    r
  }

  /** The collector's key function; it only ever sees names ending with the
      suffix, so the guard never fails. */
  function KeyOf(suffix: string): (key: string -> string)
    ensures forall n :: |suffix| <= |n| ==> key(n) == ConvertToPropertyName(suffix, n)
  {
    n => if |suffix| <= |n| then ConvertToPropertyName(suffix, n) else n
  }

  /** The second filter: the environment has text for the variable. */
  function HasValue(sources: seq<Layer>): (p: string -> bool)
    ensures forall n :: p(n) <==> HasTextOpt(GetProperty(sources, n))
  {
    n => HasTextOpt(GetProperty(sources, n))
  }

  /** A variable that makes it into the index. */
  predicate Indexed(s: EnvironmentPropertyIndexSupplier, n: string) {
    n in s.environment.systemEnvironment && EndsWith(n, s.suffix)
    && HasTextOpt(GetProperty(s.environment.sources, n))
  }

  /** The variables that pass both filters, in key-set order. */
  ghost function Names(s: EnvironmentPropertyIndexSupplier): (r: seq<string>)
    ensures Distinct(r)
    ensures forall n :: n in r <==> Indexed(s, n)
  {
    var keys := KeyStream(s.environment.systemEnvironment);
    var suffixed := Filter(keys, Utils.EndsWith(s.suffix));
    FilterKeepsDistinct(keys, Utils.EndsWith(s.suffix));
    FilterKeepsDistinct(suffixed, HasValue(s.environment.sources));
    Filter(suffixed, HasValue(s.environment.sources))
  }

  /** get(): collect the eligible variables with toMap, which rejects a
      property name reached twice. */
  ghost function Get(s: EnvironmentPropertyIndexSupplier): (r: Result<Index, Error>)
    ensures r.Err? ==> r.error.DuplicateKey?
  {
    PairsCollectIff(Names(s), KeyOf(s.suffix), PropertyOf(s.environment.sources), Strict);
    ToMap(Pairs(Names(s), KeyOf(s.suffix), PropertyOf(s.environment.sources)), Strict)
  }

  /** get() fails exactly when two eligible variables spell the same
      property. */
  lemma GetSucceedsIff(s: EnvironmentPropertyIndexSupplier)
    ensures Get(s).Ok? <==> forall n1, n2 :: Indexed(s, n1) && Indexed(s, n2) && n1 != n2 ==>
                              ConvertToPropertyName(s.suffix, n1) != ConvertToPropertyName(s.suffix, n2)
  {
    DistinctCollectIff(Names(s), KeyOf(s.suffix), PropertyOf(s.environment.sources), Strict, n => Indexed(s, n));
  }

  /** A successful get() maps every property an eligible variable spells,
      and only those, to the environment's value of that variable. */
  lemma GetContents(s: EnvironmentPropertyIndexSupplier)
    requires Get(s).Ok?
    ensures var r := Get(s).value;
      (forall k :: k in r <==> exists n :: Indexed(s, n) && ConvertToPropertyName(s.suffix, n) == k)
      && forall n :: Indexed(s, n) ==>
           r[ConvertToPropertyName(s.suffix, n)] == GetProperty(s.environment.sources, n).value
  {
    DistinctCollectContents(Names(s), KeyOf(s.suffix), PropertyOf(s.environment.sources), Strict, n => Indexed(s, n));
  }

  /** A property name without underscores or capitals, spelled as the
      environment variable the supplier reads it from. */
  function VariableName(property: string, suffix: string): (n: string)
    ensures |n| == |property| + |suffix| && EndsWith(n, suffix)
  {
    var n := ToUpperAscii(JavaStrings.Replace(property, '.', '_')) + suffix;
    assert n[|n| - |suffix|..] == suffix;
    n
  }

  predicate PlainProperty(p: string) {
    forall i :: 0 <= i < |p| ==> p[i] != '_' && !IsUpperAscii(p[i])
  }

  predicate PlainVariableStem(n: string, suffix: string) {
    |suffix| <= |n| && forall i :: 0 <= i < |n| - |suffix| ==> n[i] != '.' && !IsLowerAscii(n[i])
  }

  /** One character of a property name spelled as a variable: periods
      become underscores, small letters capitals. */
  function SpellChar(c: char): char {
    UpperChar(if c == '.' then '_' else c)
  }

  /** One character of a variable name read as a property: underscores
      become periods, capitals small letters. */
  function ReadChar(c: char): char {
    if c == '_' then '.' else LowerChar(c)
  }

  lemma ReadOfSpelledChar(c: char)
    requires c != '_' && !IsUpperAscii(c)
    ensures ReadChar(SpellChar(c)) == c
  {
  }

  lemma SpellOfReadChar(c: char)
    requires c != '.' && !IsLowerAscii(c)
    ensures ReadChar(c) != '_' && !IsUpperAscii(ReadChar(c))
    ensures SpellChar(ReadChar(c)) == c
  {
  }

  /** The variable name is the property spelled character by character,
      then the suffix. */
  lemma VariableNameAt(property: string, suffix: string, i: int)
    requires 0 <= i < |property|
    ensures VariableName(property, suffix)[i] == SpellChar(property[i])
  {
    var replaced := JavaStrings.Replace(property, '.', '_');
    assert VariableName(property, suffix)[i] == ToUpperAscii(replaced)[i];
  }

  /** The converted name is the stem read character by character. */
  lemma ConvertAt(suffix: string, name: string, i: int)
    requires |suffix| <= |name| && 0 <= i < |name| - |suffix|
    ensures ConvertToPropertyName(suffix, name)[i] == ReadChar(name[i])
  {
  }

  /** Reading the variable back gives the property: the conversion inverts
      the environment-variable spelling, e.g. spring.datasource.username from
      SPRING_DATASOURCE_USERNAME_FILE, or with an empty suffix
      spring.mail.host.file from SPRING_MAIL_HOST_FILE. */
  lemma PropertyRoundTrip(property: string, suffix: string)
    requires PlainProperty(property)
    ensures ConvertToPropertyName(suffix, VariableName(property, suffix)) == property
  {
    var n := VariableName(property, suffix);
    var r := ConvertToPropertyName(suffix, n);
    forall i | 0 <= i < |property| ensures r[i] == property[i] {
      VariableNameAt(property, suffix, i);
      ConvertAt(suffix, n, i);
      ReadOfSpelledChar(property[i]);
    }
  }

  /** And the other way round: a variable whose stem has no periods and no
      small letters is the spelling of the property it converts to. */
  lemma VariableRoundTrip(n: string, suffix: string)
    requires EndsWith(n, suffix) && PlainVariableStem(n, suffix)
    ensures PlainProperty(ConvertToPropertyName(suffix, n))
    ensures VariableName(ConvertToPropertyName(suffix, n), suffix) == n
  {
    var p := ConvertToPropertyName(suffix, n);
    var back := VariableName(p, suffix);
    forall i | 0 <= i < |p| ensures p[i] != '_' && !IsUpperAscii(p[i]) && back[i] == n[i] {
      ConvertAt(suffix, n, i);
      SpellOfReadChar(n[i]);
      VariableNameAt(p, suffix, i);
    }
    forall i | |p| <= i < |n| ensures back[i] == n[i] {
      assert n[|n| - |suffix|..] == suffix && back[|back| - |suffix|..] == suffix;
      assert back[i] == suffix[i - |p|] == n[i];
    }
  }

  /** Characters equal once lower-cased are read alike. */
  lemma CaseVariantCharsReadAlike(a: char, b: char)
    requires LowerChar(a) == LowerChar(b)
    ensures ReadChar(a) == ReadChar(b)
  {
  }

  /** Names that differ in letter case only spell the same property. */
  lemma CaseVariantsConvertAlike(suffix: string, n1: string, n2: string)
    requires |suffix| <= |n1| && ToLowerAscii(n1) == ToLowerAscii(n2)
    ensures |suffix| <= |n2|
    ensures ConvertToPropertyName(suffix, n1) == ConvertToPropertyName(suffix, n2)
  {
    var r1 := ConvertToPropertyName(suffix, n1);
    var r2 := ConvertToPropertyName(suffix, n2);
    forall i | 0 <= i < |r1| ensures r1[i] == r2[i] {
      assert ToLowerAscii(n1)[i] == ToLowerAscii(n2)[i];
      CaseVariantCharsReadAlike(n1[i], n2[i]);
      ConvertAt(suffix, n1, i);
      ConvertAt(suffix, n2, i);
    }
  }

  /** Two eligible variables that differ in letter case only make get() fail. */
  lemma CaseVariantsCollide(s: EnvironmentPropertyIndexSupplier, n1: string, n2: string)
    requires Indexed(s, n1) && Indexed(s, n2) && n1 != n2
    requires ToLowerAscii(n1) == ToLowerAscii(n2)
    ensures Get(s).Err? && Get(s).error.DuplicateKey?
  {
    CaseVariantsConvertAlike(s.suffix, n1, n2);
    GetSucceedsIff(s);
  }

  /** A variable that is eligible by itself is all the index holds. */
  lemma OneVariableIsIndexed(s: EnvironmentPropertyIndexSupplier, n: string)
    requires s.environment.systemEnvironment.Keys == {n} && Indexed(s, n)
    ensures Get(s) == Ok(map[ConvertToPropertyName(s.suffix, n) := GetProperty(s.environment.sources, n).value])
  {
    assert forall m :: Indexed(s, m) ==> m == n by {
      forall m | Indexed(s, m) ensures m == n {
        assert m in s.environment.systemEnvironment.Keys;
      }
    }
    GetSucceedsIff(s);
    GetContents(s);
    var r := Get(s).value;
    var k := ConvertToPropertyName(s.suffix, n);
    forall x | x in r ensures x == k {
      var m :| Indexed(s, m) && ConvertToPropertyName(s.suffix, m) == x;
      assert m == n;
    }
    OneKeyMap(r, k);
  }

  /** The variable spelling a plain property, alone in the environment and
      with text, indexes just that property under the variable's value. */
  lemma OnePropertyIsIndexed(s: EnvironmentPropertyIndexSupplier, property: string)
    requires PlainProperty(property)
    requires s.environment.systemEnvironment.Keys == {VariableName(property, s.suffix)}
    requires HasTextOpt(GetProperty(s.environment.sources, VariableName(property, s.suffix)))
    ensures Get(s) == Ok(map[property := GetProperty(s.environment.sources, VariableName(property, s.suffix)).value])
  {
    var n := VariableName(property, s.suffix);
    assert Indexed(s, n);
    OneVariableIsIndexed(s, n);
    PropertyRoundTrip(property, s.suffix);
  }

  /** Without an eligible variable the index is empty: a variable that lacks
      the suffix, or whose value has no text, is skipped. */
  lemma NothingEligibleIsEmpty(s: EnvironmentPropertyIndexSupplier)
    requires forall n :: n in s.environment.systemEnvironment ==>
               !EndsWith(n, s.suffix) || !HasTextOpt(GetProperty(s.environment.sources, n))
    ensures Get(s) == Ok(map[])
  {
    GetSucceedsIff(s);
    GetContents(s);
    assert Get(s).value.Keys == {};
  }
}

=== FILE: EnvironmentPropertySubstituter.dfy ===
/** EnvironmentPropertySubstituter: replaces a name by the value the
    environment resolves it to. */
module EnvironmentPropertySubstituter {
  import opened Wrappers
  import opened JavaStrings
  import opened PropertySources

  /** substitute as written: the resolved value is kept when it has text and
      is trimmed afterwards. */
  function SubstituteAsWritten(sources: seq<Layer>, name: string): (r: Option<string>)
    ensures r.Some? <==> HasTextOpt(GetProperty(sources, name))
    ensures r.Some? ==> r.value == Trim(GetProperty(sources, name).value)
  {
    TextThenTrim(GetProperty(sources, name))
  }

  /** A property whose value is a NUL character is substituted by the empty
      string. */
  lemma SubstituteAsWrittenYieldsBlank()
    ensures SubstituteAsWritten([Layer("test", true, map["foo" := "\U{0}"])], "foo") == Some("")
  {
    assert !IsWhitespace("\U{0}"[0]);
  }

  /** substitute with the trim before the text check: an unresolved name or a
      blank value yields nothing, anything else its trimmed value. */
  function Substitute(sources: seq<Layer>, name: string): (r: Option<string>)
    ensures r.Some? <==> GetProperty(sources, name).Some? && HasText(Trim(GetProperty(sources, name).value))
    ensures r.Some? ==> r.value == Trim(GetProperty(sources, name).value) && HasText(r.value) && Trim(r.value) == r.value
  {
    TrimThenText(GetProperty(sources, name))
  }

  /** The substituter's tests: " bar   \n" becomes "bar", and an empty value
      becomes nothing. */
  lemma SubstituteExamples()
    ensures Substitute([Layer("test", true, map["foo" := " bar   \n"])], "foo") == Some("bar")
    ensures Substitute([Layer("test", true, map["foo" := ""])], "foo") == None
  {
    assert " bar   \n" == " " + "bar" + "   \n";
    TrimOfPadded(" ", "bar", "   \n");
    assert !IsWhitespace("bar"[0]);
  }
}

=== FILE: FilenamePropertyIndexSupplier.dfy ===
/** FilenamePropertyIndexSupplier: indexes the regular files of a configurable
    directory; a file's name, with the configured separator read as '.',
    names the property and the file's URI is its location. */
module FilenamePropertyIndexSupplier {
  import opened Wrappers
  import opened Errors
  import opened JavaStrings
  import opened Collectors
  import opened PropertySources
  import opened Streams

  const BASE_DIR_PROPERTY := "secrets.file.base-dir"
  const SEPARATOR_PROPERTY := "secrets.file.separator"
  /** Docker's default secrets directory. */
  const DEFAULT_BASE_DIR := "/run/secrets"

  /** The filename separators the supplier understands. */
  datatype Separator = Dot | Underscore {
    function Character(): (c: char)
      ensures c == '.' || c == '_'
    {
      match this
      case Dot => '.'
      case Underscore => '_'
    }

    /** Separator.toString: the separator's one character. */
    function ToString(): (s: string)
      ensures |s| == 1 && s[0] == Character()
    {
      [Character()]
    }
  }

  const DEFAULT_SEPARATOR := Dot

  /** Separator.of: the separator with the given character; any other
      character is rejected. */
  function Of(c: char): (r: Result<Separator, Error>)
    ensures r.Ok? <==> c == '.' || c == '_'
    ensures r.Ok? ==> r.value.Character() == c
    ensures r.Err? ==> r.error == IllegalArgument("Unknown separator char")
  {
    if c == '.' then Ok(Dot)
    else if c == '_' then Ok(Underscore)
    else Err(IllegalArgument("Unknown separator char"))
  }

  /** Every separator is found again from its own character. */
  lemma OfCharacter(s: Separator)
    ensures Of(s.Character()) == Ok(s)
  {
  }

  /** The separator property read as a Character the way Spring converts a
      String: absent or empty means the default '.', one character means that
      character, and a longer value cannot be converted. */
  function SeparatorCharacter(sources: seq<Layer>): (r: Result<char, Error>)
    ensures var p := GetProperty(sources, SEPARATOR_PROPERTY);
      (p.None? || p.value == "" ==> r == Ok(DEFAULT_SEPARATOR.Character()))
      && (p.Some? && |p.value| == 1 ==> r == Ok(p.value[0]))
      && (p.Some? && |p.value| > 1 <==> r.Err?)
    ensures r.Err? ==> r.error.IllegalArgument?
  {
    match GetProperty(sources, SEPARATOR_PROPERTY)
    case None => Ok(DEFAULT_SEPARATOR.Character())
    case Some(s) =>
      if s == [] then Ok(DEFAULT_SEPARATOR.Character())
      else if |s| == 1 then Ok(s[0])
      else Err(IllegalArgument("Can only convert a [String] with length of 1 to a [Character]"))
  }

  /** getSeparator: the configured separator, or the exception for one that
      is not a character or not a known separator. */
  function GetSeparator(sources: seq<Layer>): (r: Result<Separator, Error>)
    ensures r.Ok? <==> SeparatorCharacter(sources).Ok? && Of(SeparatorCharacter(sources).value).Ok?
    ensures r.Ok? ==> r.value.Character() == SeparatorCharacter(sources).value
    ensures r.Err? ==> r.error.IllegalArgument?
  {
    var c :- SeparatorCharacter(sources);
    Of(c)
  }

  /** The base directory, defaulting to /run/secrets. */
  function BaseDir(sources: seq<Layer>): (r: string)
    ensures GetProperty(sources, BASE_DIR_PROPERTY).None? ==> r == DEFAULT_BASE_DIR
    ensures GetProperty(sources, BASE_DIR_PROPERTY).Some? ==> r == GetProperty(sources, BASE_DIR_PROPERTY).value
  {
    GetPropertyOr(sources, BASE_DIR_PROPERTY, DEFAULT_BASE_DIR)
  }

  /** A directory entry: its file name and whether it is a regular file. */
  datatype FileEntry = FileEntry(name: string, regular: bool)

  /** What listing a path yields: it is no directory, it lists its entries
      in the order the file system returns them, or listing it raises an
      IOException. */
  datatype Listing = NotADirectory | Listed(entries: seq<FileEntry>) | Unreadable

  /** The file system as the supplier sees it: the listing of each path and
      Path.toUri of a file in a directory. */
  datatype FileSystem = FileSystem(list: string -> Listing, toUri: (string, string) -> string)

  /** String.lastIndexOf(char): the last position holding `c`, or -1. */
  function LastIndexOf(s: string, c: char): (i: int)
    ensures -1 <= i < |s|
    ensures i >= 0 ==> s[i] == c
    ensures forall j :: i < j < |s| ==> s[j] != c
  {
    if s == [] then -1
    else if s[|s| - 1] == c then |s| - 1
    else LastIndexOf(s[..|s| - 1], c)
  }

  /** containsDefaultSeparator: a '.' occurs after the first character. */
  predicate ContainsDefaultSeparator(name: string) {
    LastIndexOf(name, DEFAULT_SEPARATOR.Character()) > 0
  }

  /** The name carries a dot at some position other than the first exactly
      when containsDefaultSeparator holds. */
  lemma ContainsDefaultSeparatorIff(name: string)
    ensures ContainsDefaultSeparator(name) <==> exists i :: 0 < i < |name| && name[i] == '.'
  {
    var l := LastIndexOf(name, '.');
    if exists i :: 0 < i < |name| && name[i] == '.' {
      var i :| 0 < i < |name| && name[i] == '.';
      assert l >= i;
    }
  }

  /** isAllowed: with the default separator every file is allowed; with
      another one a file whose name holds a dot after its first character
      would be ambiguous and is skipped. */
  predicate IsAllowed(separator: Separator, name: string) {
    separator == DEFAULT_SEPARATOR || !ContainsDefaultSeparator(name)
  }

  /** convertToPropertyName: the separator becomes '.', then the name is
      lower-cased. */
  function ConvertToPropertyName(separator: Separator, name: string): (r: string)
    ensures |r| == |name|
    ensures forall i :: 0 <= i < |name| && name[i] == separator.Character() ==> r[i] == '.'
    ensures forall i :: 0 <= i < |name| && name[i] != separator.Character() ==> r[i] == LowerChar(name[i])
  {
    ToLowerAscii(JavaStrings.Replace(name, separator.Character(), '.'))
  }

  /** A property name holds neither the separator nor an upper-case letter,
      so converting it again changes nothing: a file named after the property
      it defines is indexed under that very name. */
  lemma ConvertIsIdempotent(separator: Separator, name: string)
    ensures ConvertToPropertyName(separator, ConvertToPropertyName(separator, name))
            == ConvertToPropertyName(separator, name)
  {
    var once := ConvertToPropertyName(separator, name);
    var twice := ConvertToPropertyName(separator, once);
    forall i | 0 <= i < |name| ensures twice[i] == once[i] {
      if separator.Underscore? && name[i] != '_' {
        assert once[i] == LowerChar(name[i]);
        assert LowerChar(name[i]) != '_' by {
          if 'A' <= name[i] <= 'Z' {
            assert LowerChar(name[i]) as int == name[i] as int + 32;
          }
        }
      }
    }
  }

  /** Which listed entries the supplier indexes. */
  function Eligible(separator: Separator): (p: FileEntry -> bool)
    ensures forall f :: p(f) <==> f.regular && IsAllowed(separator, f.name)
  {
    (f: FileEntry) => f.regular && IsAllowed(separator, f.name)
  }

  /** The property name of a file. */
  function KeyOf(separator: Separator): (key: FileEntry -> string)
    ensures forall f :: key(f) == ConvertToPropertyName(separator, f.name)
  {
    (f: FileEntry) => ConvertToPropertyName(separator, f.name)
  }

  /** The URI of a file of the directory. */
  function UriOf(fs: FileSystem, dir: string): (uri: FileEntry -> string)
    ensures forall f :: uri(f) == fs.toUri(dir, f.name)
  {
    (f: FileEntry) => fs.toUri(dir, f.name)
  }

  /** The indexed entries in listing order, each as (property, URI). */
  function Entries(fs: FileSystem, dir: string, separator: Separator, files: seq<FileEntry>): seq<Entry> {
    Pairs(Filter(files, Eligible(separator)), KeyOf(separator), UriOf(fs, dir))
  }

  /** get(): the base directory and the separator are read first, and an
      unknown separator fails the call; a base that is no directory yields
      the empty index; otherwise every regular, unambiguous file is indexed
      under its property name with its URI, and two files with the same
      property name make the collection fail. */
  function Get(sources: seq<Layer>, fs: FileSystem): (r: Result<Index, Error>)
    ensures GetSeparator(sources).Err? ==> r == Err(GetSeparator(sources).error)
    ensures GetSeparator(sources).Ok? && fs.list(BaseDir(sources)).NotADirectory? ==> r == Ok(map[])
    ensures GetSeparator(sources).Ok? && fs.list(BaseDir(sources)).Unreadable? ==>
              r == Err(ListingFailed(BaseDir(sources)))
    ensures GetSeparator(sources).Ok? && fs.list(BaseDir(sources)).Listed? ==>
              var es := Entries(fs, BaseDir(sources), GetSeparator(sources).value, fs.list(BaseDir(sources)).entries);
              r == ToMap(es, Strict)
  {
    var baseDir := BaseDir(sources);
    var separator :- GetSeparator(sources);
    match fs.list(baseDir)
    case NotADirectory => Ok(map[])
    case Unreadable => Err(ListingFailed(baseDir))
    case Listed(files) => ToMap(Entries(fs, baseDir, separator, files), Strict)
  }

  /** The index of a listed directory: get() succeeds exactly when no two
      indexed files share a property name, and then holds the property name
      of every regular, allowed file, mapped to that file's URI, and nothing
      else. */
  lemma {:induction false} GetIndexesAllowedFiles(sources: seq<Layer>, fs: FileSystem)
    requires GetSeparator(sources).Ok? && fs.list(BaseDir(sources)).Listed?
    ensures var separator := GetSeparator(sources).value;
      var files := fs.list(BaseDir(sources)).entries;
      var kept := Filter(files, Eligible(separator));
      var r := Get(sources, fs);
      (r.Ok? <==> forall i, j :: 0 <= i < j < |kept| ==> KeyOf(separator)(kept[i]) != KeyOf(separator)(kept[j]))
      && (r.Err? ==> r.error.DuplicateKey?)
      && (r.Ok? ==>
            (forall k :: k in r.value <==>
               exists f :: f in files && f.regular && IsAllowed(separator, f.name) && KeyOf(separator)(f) == k)
            && forall f :: f in files && f.regular && IsAllowed(separator, f.name) ==>
                 r.value[KeyOf(separator)(f)] == fs.toUri(BaseDir(sources), f.name))
  {
    var separator := GetSeparator(sources).value;
    var dir := BaseDir(sources);
    var files := fs.list(dir).entries;
    var kept := Filter(files, Eligible(separator));
    assert Get(sources, fs) == ToMap(Pairs(kept, KeyOf(separator), UriOf(fs, dir)), Strict);
    PairsCollectIff(kept, KeyOf(separator), UriOf(fs, dir), Strict);
    if Get(sources, fs).Ok? {
      FilteredCollectContents(files, Eligible(separator), KeyOf(separator), UriOf(fs, dir), Strict);
    }
  }

  /** Two different files of a directory listing, which never repeats an
      entry: get() succeeds exactly when no two different indexed files share
      a property name. */
  lemma {:induction false} GetSucceedsIffNoCollision(sources: seq<Layer>, fs: FileSystem)
    requires GetSeparator(sources).Ok? && fs.list(BaseDir(sources)).Listed?
    requires Distinct(fs.list(BaseDir(sources)).entries)
    ensures var separator := GetSeparator(sources).value;
      var files := fs.list(BaseDir(sources)).entries;
      Get(sources, fs).Ok? <==>
        forall f, g :: f in files && g in files && f != g
                       && f.regular && IsAllowed(separator, f.name) && g.regular && IsAllowed(separator, g.name)
                       ==> KeyOf(separator)(f) != KeyOf(separator)(g)
  {
    var separator := GetSeparator(sources).value;
    var dir := BaseDir(sources);
    var files := fs.list(dir).entries;
    assert Get(sources, fs) == ToMap(Pairs(Filter(files, Eligible(separator)), KeyOf(separator), UriOf(fs, dir)), Strict);
    CollectFilteredSucceedsIff(files, Eligible(separator), KeyOf(separator), UriOf(fs, dir), Strict);
  }

  /** A name without the separator and without upper-case letters is its own
      property name. */
  lemma ConvertKeepsPlainName(separator: Separator, name: string)
    requires forall i :: 0 <= i < |name| ==> name[i] != separator.Character() && !IsUpperAscii(name[i])
    ensures KeyOf(separator)(FileEntry(name, true)) == name
  {
  }

  /** A lower-case name whose separators become dots. */
  lemma ConvertReplacesSeparator(separator: Separator, name: string, key: string)
    requires |key| == |name|
    requires forall i :: 0 <= i < |name| ==> !IsUpperAscii(name[i])
    requires forall i :: 0 <= i < |name| ==> key[i] == if name[i] == separator.Character() then '.' else name[i]
    ensures KeyOf(separator)(FileEntry(name, true)) == key
  {
  }

  /** The configuration holding one separator value. */
  function SeparatorSetTo(value: string): seq<Layer> {
    [Layer("systemProperties", true, map[SEPARATOR_PROPERTY := value])]
  }

  /** The separator values the supplier's tests set: '.' and '_' select
      those separators, '/' is rejected, and so is a value of two
      characters, which is no character at all. */
  lemma SeparatorExamples()
    ensures GetSeparator(SeparatorSetTo(".")) == Ok(Dot)
    ensures GetSeparator(SeparatorSetTo("_")) == Ok(Underscore)
    ensures GetSeparator(SeparatorSetTo("/")) == Err(IllegalArgument("Unknown separator char"))
    ensures GetSeparator(SeparatorSetTo("__")).Err?
    ensures GetSeparator([]) == Ok(DEFAULT_SEPARATOR)
  {
  }

  /** An unknown separator fails get() whatever the directory holds. */
  lemma IllegalSeparatorFails(fs: FileSystem)
    ensures Get(SeparatorSetTo("/"), fs) == Err(IllegalArgument("Unknown separator char"))
  {
    SeparatorExamples();
  }

  /** Without a base directory property the supplier looks at /run/secrets,
      and when that is no directory the index is empty. */
  lemma MissingBaseDirIsEmpty(fs: FileSystem)
    requires fs.list(DEFAULT_BASE_DIR).NotADirectory?
    ensures Get([], fs) == Ok(map[])
  {
  }

  /** A file system whose /run/secrets lists `files`; no other path is a
      directory. */
  function SecretsDirectory(files: seq<FileEntry>, toUri: (string, string) -> string): (fs: FileSystem)
    ensures fs.list(DEFAULT_BASE_DIR) == Listed(files) && fs.toUri == toUri
  {
    FileSystem(p => if p == DEFAULT_BASE_DIR then Listed(files) else NotADirectory, toUri)
  }

  /** A listing of three files of which the first two are indexed
      under different property names and the third is skipped. */
  lemma {:induction false} TwoOfThreeIndexed(sources: seq<Layer>, fs: FileSystem, f1: FileEntry, f2: FileEntry, f3: FileEntry)
    requires GetSeparator(sources).Ok? && fs.list(BaseDir(sources)) == Listed([f1, f2, f3])
    requires var separator := GetSeparator(sources).value;
      Eligible(separator)(f1) && Eligible(separator)(f2) && !Eligible(separator)(f3)
      && KeyOf(separator)(f1) != KeyOf(separator)(f2)
    ensures var separator := GetSeparator(sources).value;
      Get(sources, fs) == Ok(map[KeyOf(separator)(f1) := fs.toUri(BaseDir(sources), f1.name),
                                 KeyOf(separator)(f2) := fs.toUri(BaseDir(sources), f2.name)])
  {
    var separator := GetSeparator(sources).value;
    FilterFirstTwoOfThree(f1, f2, f3, Eligible(separator));
    CollectTwo(f1, f2, KeyOf(separator), UriOf(fs, BaseDir(sources)), Strict);
  }

  /** A listing of two different indexed files sharing a property name. */
  lemma {:induction false} TwoCollide(sources: seq<Layer>, fs: FileSystem, f1: FileEntry, f2: FileEntry)
    requires GetSeparator(sources).Ok? && fs.list(BaseDir(sources)) == Listed([f1, f2])
    requires var separator := GetSeparator(sources).value;
      Eligible(separator)(f1) && Eligible(separator)(f2) && KeyOf(separator)(f1) == KeyOf(separator)(f2)
    ensures Get(sources, fs).Err?
  {
    var separator := GetSeparator(sources).value;
    FilterBothOfTwo(f1, f2, Eligible(separator));
    CollectTwoSameKey(f1, f2, KeyOf(separator), UriOf(fs, BaseDir(sources)), Strict);
  }

  /** The separator read from a configuration that sets it to "_". */
  lemma UnderscoreConfigured()
    ensures GetSeparator(SeparatorSetTo("_")) == Ok(Underscore)
    ensures BaseDir(SeparatorSetTo("_")) == DEFAULT_BASE_DIR
  {
    SeparatorExamples();
  }

  /** The separator read from a configuration that sets it to ".". */
  lemma DotConfigured()
    ensures GetSeparator(SeparatorSetTo(".")) == Ok(Dot)
    ensures BaseDir(SeparatorSetTo(".")) == DEFAULT_BASE_DIR
  {
    SeparatorExamples();
  }

  /** A word of a property name: no dot, no underscore, no upper-case
      letter. */
  predicate Word(w: string) {
    forall i :: 0 <= i < |w| ==> w[i] != '.' && w[i] != '_' && !IsUpperAscii(w[i])
  }

  /** Two words joined by a separator character. */
  function Joined(w1: string, c: char, w2: string): (r: string)
    ensures |r| == |w1| + 1 + |w2| && r[|w1|] == c
    ensures forall i :: 0 <= i < |w1| ==> r[i] == w1[i]
    ensures forall i :: 0 <= i < |w2| ==> r[|w1| + 1 + i] == w2[i]
  {
    w1 + [c] + w2
  }

  /** Converting a word changes nothing, and a word is allowed in either
      mode. */
  lemma WordIsItsOwnName(separator: Separator, w: string)
    requires Word(w)
    ensures Eligible(separator)(FileEntry(w, true))
    ensures KeyOf(separator)(FileEntry(w, true)) == w
  {
    ContainsDefaultSeparatorIff(w);
  }

  /** A snake-case name of two words holds no dot, so underscore mode
      allows it. */
  lemma SnakeCaseIsAllowed(w1: string, w2: string)
    requires Word(w1) && Word(w2)
    ensures Eligible(Underscore)(FileEntry(Joined(w1, '_', w2), true))
  {
    var snake := Joined(w1, '_', w2);
    ContainsDefaultSeparatorIff(snake);
    forall i | |w1| < i < |snake| ensures snake[i] != '.' {
      assert snake[i] == w2[i - |w1| - 1];
    }
  }

  /** Underscore mode skips two words joined by a dot. */
  lemma DottedIsSkipped(w1: string, w2: string)
    requires |w1| > 0
    ensures !Eligible(Underscore)(FileEntry(Joined(w1, '.', w2), true))
  {
    ContainsDefaultSeparatorIff(Joined(w1, '.', w2));
  }

  /** Underscore mode names a snake-case file of two words by the words
      joined with a dot. */
  lemma SnakeCaseKey(w1: string, w2: string)
    requires Word(w1) && Word(w2)
    ensures KeyOf(Underscore)(FileEntry(Joined(w1, '_', w2), true)) == Joined(w1, '.', w2)
  {
    var snake, dotted := Joined(w1, '_', w2), Joined(w1, '.', w2);
    var key := KeyOf(Underscore)(FileEntry(snake, true));
    forall i | 0 <= i < |snake| ensures key[i] == dotted[i] {
      if i > |w1| {
        assert snake[i] == w2[i - |w1| - 1] && dotted[i] == w2[i - |w1| - 1];
      }
    }
  }

  /** Underscore mode: a snake-case file is indexed under its dotted name, a
      plain word under itself, and a file whose name already holds a dot is
      skipped as ambiguous. */
  lemma UnderscoreModeIndexesSnakeCaseFiles(toUri: (string, string) -> string, w1: string, w2: string, w3: string)
    requires Word(w1) && Word(w2) && Word(w3) && |w1| > 0
    ensures var files := [FileEntry(Joined(w1, '_', w2), true), FileEntry(w3, true),
                          FileEntry(Joined(w1, '.', w2), true)];
      Get(SeparatorSetTo("_"), SecretsDirectory(files, toUri)) ==
        Ok(map[Joined(w1, '.', w2) := toUri(DEFAULT_BASE_DIR, Joined(w1, '_', w2)),
               w3 := toUri(DEFAULT_BASE_DIR, w3)])
  {
    var f1, f2, f3 := FileEntry(Joined(w1, '_', w2), true), FileEntry(w3, true), FileEntry(Joined(w1, '.', w2), true);
    UnderscoreConfigured();
    SnakeCaseIsAllowed(w1, w2);
    DottedIsSkipped(w1, w2);
    SnakeCaseKey(w1, w2);
    WordIsItsOwnName(Underscore, w3);
    assert Joined(w1, '.', w2)[|w1|] == '.';
    TwoOfThreeIndexed(SeparatorSetTo("_"), SecretsDirectory([f1, f2, f3], toUri), f1, f2, f3);
  }

  /** How dot mode treats two words joined by '.' or by '_': both are
      allowed, and each is its own property name. */
  lemma DotNames(w1: string, w2: string)
    requires Word(w1) && Word(w2)
    ensures Eligible(Dot)(FileEntry(Joined(w1, '.', w2), true)) && Eligible(Dot)(FileEntry(Joined(w1, '_', w2), true))
    ensures KeyOf(Dot)(FileEntry(Joined(w1, '.', w2), true)) == Joined(w1, '.', w2)
    ensures KeyOf(Dot)(FileEntry(Joined(w1, '_', w2), true)) == Joined(w1, '_', w2)
  {
    var dotted, snake := Joined(w1, '.', w2), Joined(w1, '_', w2);
    forall i | |w1| < i < |dotted| ensures !IsUpperAscii(dotted[i]) && !IsUpperAscii(snake[i]) {
      assert dotted[i] == w2[i - |w1| - 1] && snake[i] == w2[i - |w1| - 1];
    }
    ConvertReplacesSeparator(Dot, dotted, dotted);
    forall i | |w1| < i < |snake| ensures snake[i] != '.' {
      assert snake[i] == w2[i - |w1| - 1];
    }
    ConvertKeepsPlainName(Dot, snake);
  }

  /** Dot mode: every regular file is indexed, underscores are kept, and a
      directory entry that is no regular file is not. */
  lemma DotModeIndexesEveryRegularFile(toUri: (string, string) -> string, w1: string, w2: string, sub: string)
    requires Word(w1) && Word(w2)
    ensures var files := [FileEntry(Joined(w1, '.', w2), true), FileEntry(Joined(w1, '_', w2), true),
                          FileEntry(sub, false)];
      Get(SeparatorSetTo("."), SecretsDirectory(files, toUri)) ==
        Ok(map[Joined(w1, '.', w2) := toUri(DEFAULT_BASE_DIR, Joined(w1, '.', w2)),
               Joined(w1, '_', w2) := toUri(DEFAULT_BASE_DIR, Joined(w1, '_', w2))])
  {
    var f1, f2, f3 := FileEntry(Joined(w1, '.', w2), true), FileEntry(Joined(w1, '_', w2), true), FileEntry(sub, false);
    DotConfigured();
    DotNames(w1, w2);
    assert Joined(w1, '.', w2)[|w1|] != Joined(w1, '_', w2)[|w1|];
    TwoOfThreeIndexed(SeparatorSetTo("."), SecretsDirectory([f1, f2, f3], toUri), f1, f2, f3);
  }

  /** In underscore mode a dot in the first position does not make a name
      ambiguous, so ".x" and "_x" are both indexed as ".x" and get() fails. */
  lemma LeadingDotCollidesWithLeadingSeparator(toUri: (string, string) -> string)
    ensures IsAllowed(Underscore, ".x") && IsAllowed(Underscore, "_x")
    ensures KeyOf(Underscore)(FileEntry(".x", true)) == KeyOf(Underscore)(FileEntry("_x", true)) == ".x"
    ensures Get(SeparatorSetTo("_"), SecretsDirectory([FileEntry(".x", true), FileEntry("_x", true)], toUri)).Err?
  {
    var f1, f2 := FileEntry(".x", true), FileEntry("_x", true);
    UnderscoreConfigured();
    assert Eligible(Underscore)(f1) by { ContainsDefaultSeparatorIff(f1.name); }
    assert Eligible(Underscore)(f2) by { ContainsDefaultSeparatorIff(f2.name); }
    assert KeyOf(Underscore)(f1) == ".x" by { ConvertReplacesSeparator(Underscore, f1.name, ".x"); }
    assert KeyOf(Underscore)(f2) == ".x" by { ConvertReplacesSeparator(Underscore, f2.name, ".x"); }
    TwoCollide(SeparatorSetTo("_"), SecretsDirectory([f1, f2], toUri), f1, f2);
  }

  /** In dot mode a name and its lower-cased copy share a property name. */
  lemma LowerCasedCopySharesName(name: string)
    ensures KeyOf(Dot)(FileEntry(name, true)) == KeyOf(Dot)(FileEntry(ToLowerAscii(name), true))
  {
    var k1, k2 := KeyOf(Dot)(FileEntry(name, true)), KeyOf(Dot)(FileEntry(ToLowerAscii(name), true));
    forall i | 0 <= i < |name| ensures k1[i] == k2[i] {
      if IsUpperAscii(name[i]) {
        assert ToLowerAscii(name)[i] as int == name[i] as int + 32;
      }
    }
  }

  /** In dot mode a file and a file named by the lower-cased name share a
      property name, so get() fails on a listing of both. */
  lemma CaseOnlyDifferenceCollides(toUri: (string, string) -> string, name: string)
    requires name != ToLowerAscii(name)
    ensures Get(SeparatorSetTo("."), SecretsDirectory([FileEntry(name, true), FileEntry(ToLowerAscii(name), true)], toUri)).Err?
  {
    var f1, f2 := FileEntry(name, true), FileEntry(ToLowerAscii(name), true);
    DotConfigured();
    LowerCasedCopySharesName(name);
    TwoCollide(SeparatorSetTo("."), SecretsDirectory([f1, f2], toUri), f1, f2);
  }
}

=== FILE: JavaStrings.dfy ===
/** The java.lang.String and Spring StringUtils operations the library relies
    on, over strings of Unicode scalar values. */
module JavaStrings {

  /** Character.isWhitespace: the Unicode space, line and paragraph separators
      other than the no-break spaces, plus the ASCII tab, line feed, vertical
      tab, form feed, carriage return and the four information separators. */
  predicate IsWhitespace(c: char) {
    ('\t' <= c <= '\r') || ('\U{1C}' <= c <= ' ') || c == '\U{1680}'
    || ('\U{2000}' <= c <= '\U{2006}') || ('\U{2008}' <= c <= '\U{200A}')
    || c == '\U{2028}' || c == '\U{2029}' || c == '\U{205F}' || c == '\U{3000}'
  }

  /** StringUtils.hasText for a non-null string: some character is not whitespace. */
  predicate HasText(s: string) {
    exists i :: 0 <= i < |s| && !IsWhitespace(s[i])
  }

  /** StringUtils.hasText for a nullable string. */
  predicate HasTextOpt(s: Option<string>) {
    s.Some? && HasText(s.value)
  }

  /** The characters String.trim removes: code points up to U+0020. */
  predicate IsTrimmable(c: char) {
    c <= ' '
  }

  predicate AllTrimmable(s: string) {
    forall i :: 0 <= i < |s| ==> IsTrimmable(s[i])
  }

  /** Neither end of `s` holds a character that trim would remove. */
  predicate IsTrimmed(s: string) {
    s == [] || (!IsTrimmable(s[0]) && !IsTrimmable(s[|s| - 1]))
  }

  import opened Wrappers
  import Errors

  /** Index of the first character trim keeps, or |s| when it keeps none. */
  function TrimStart(s: string): (i: nat)
    ensures i <= |s|
    ensures AllTrimmable(s[..i])
    ensures i < |s| ==> !IsTrimmable(s[i])
  {
    if |s| > 0 && IsTrimmable(s[0]) then
      var j := TrimStart(s[1..]);
      assert s[..1 + j] == [s[0]] + s[1..][..j];
      1 + j
    else 0
  }

  /** One past the last character trim keeps, or 0 when it keeps none. */
  function TrimEnd(s: string): (j: nat)
    ensures j <= |s|
    ensures AllTrimmable(s[j..])
    ensures j > 0 ==> !IsTrimmable(s[j - 1])
  {
    if |s| > 0 && IsTrimmable(s[|s| - 1]) then
      var j := TrimEnd(s[..|s| - 1]);
      assert s[j..] == s[..|s| - 1][j..] + [s[|s| - 1]];
      j
    else |s|
  }

  /** String.trim: drop the leading and the trailing characters <= U+0020. */
  function Trim(s: string): (r: string)
    ensures IsTrimmed(r)
    ensures |r| <= |s|
    ensures r == [] <==> AllTrimmable(s)
    ensures IsTrimmed(s) ==> r == s
    ensures TrimStart(s) + |r| <= |s| && r == s[TrimStart(s)..TrimStart(s) + |r|]
  {
    var i := TrimStart(s);
    if i == |s| then
      assert s[..i] == s;
      assert s[0..0] == [];
      []
    else
      var j := TrimEnd(s);
      assert i < j;
      assert !AllTrimmable(s) by { assert !IsTrimmable(s[i]); }
      assert IsTrimmed(s) ==> i == 0 && j == |s|;
      s[i..j]
  }

  /** Trim removes exactly the padding around a trimmed core. */
  lemma TrimOfPadded(pre: string, core: string, post: string)
    requires AllTrimmable(pre) && AllTrimmable(post) && IsTrimmed(core) && core != []
    ensures Trim(pre + core + post) == core
  {
    var s := pre + core + post;
    var i, j := TrimStart(s), TrimEnd(s);
    assert s[|pre|] == core[0];
    assert s[|pre| + |core| - 1] == core[|core| - 1];
    assert s[i..j] == core;
  }

  lemma TrimIsIdempotent(s: string)
    ensures Trim(Trim(s)) == Trim(s)
  {
  }

  /** Trimming never creates text: a trimmed string with text came from one with text. */
  lemma {:induction false} HasTextOfTrim(s: string)
    ensures HasText(Trim(s)) ==> HasText(s)
  {
    if HasText(Trim(s)) {
      var t := Trim(s);
      var i := TrimStart(s);
      var k :| 0 <= k < |t| && !IsWhitespace(t[k]);
      assert s[i + k] == t[k];
    }
  }

  /** The reverse fails: a string of characters below U+0020 that Java does not
      count as whitespace has text, yet trims to the empty string. */
  lemma ControlCharactersHaveTextButTrimAway()
    ensures HasText("\U{0}") && Trim("\U{0}") == ""
  {
    assert !IsWhitespace("\U{0}"[0]);
  }

  function StartsWith(s: string, prefix: string): bool {
    |prefix| <= |s| && s[..|prefix|] == prefix
  }

  function EndsWith(s: string, suffix: string): bool {
    |suffix| <= |s| && s[|s| - |suffix|..] == suffix
  }

  lemma StartsWithConcat(prefix: string, rest: string)
    ensures StartsWith(prefix + rest, prefix)
  {
    assert (prefix + rest)[..|prefix|] == prefix;
  }

  lemma EndsWithConcat(stem: string, suffix: string)
    ensures EndsWith(stem + suffix, suffix)
  {
    assert (stem + suffix)[|stem|..] == suffix;
  }

  /** String.substring(begin): the suffix from `begin`, or the exception for an
      index outside 0..|s|. */
  function Substring(s: string, begin: int): (r: Result<string, Errors.Error>)
    ensures r.Ok? <==> 0 <= begin <= |s|
    ensures r.Ok? ==> s == s[..begin] + r.value && |r.value| == |s| - begin
    ensures r.Err? ==> r.error == Errors.IndexOutOfBounds(begin)
  {
    if 0 <= begin <= |s| then Ok(s[begin..]) else Err(Errors.IndexOutOfBounds(begin))
  }

  /** String.replace(char, char): every occurrence of `from` becomes `to`. */
  function Replace(s: string, from: char, to: char): (r: string)
    ensures |r| == |s|
    ensures forall i :: 0 <= i < |s| && s[i] != from ==> r[i] == s[i]
    ensures forall i :: 0 <= i < |s| && s[i] == from ==> r[i] == to
  {
    if s == [] then []
    else [if s[0] == from then to else s[0]] + Replace(s[1..], from, to)
  }

  /** Character.toLowerCase restricted to ASCII: A-Z map to a-z, every other
      character is kept. */
  function LowerChar(c: char): char {
    if 'A' <= c <= 'Z' then (c as int + 32) as char else c
  }

  predicate IsUpperAscii(c: char) {
    'A' <= c <= 'Z'
  }

  /** String.toLowerCase(Locale.US) restricted to ASCII letters. */
  function ToLowerAscii(s: string): (r: string)
    ensures |r| == |s|
    ensures forall i :: 0 <= i < |s| ==> !IsUpperAscii(r[i])
    ensures forall i :: 0 <= i < |s| && !IsUpperAscii(s[i]) ==> r[i] == s[i]
    ensures forall i :: 0 <= i < |s| && IsUpperAscii(s[i]) ==> r[i] as int == s[i] as int + 32
    ensures forall i :: 0 <= i < |s| ==> r[i] == LowerChar(s[i])
  {
    if s == [] then []
    else [LowerChar(s[0])] + ToLowerAscii(s[1..])
  }

  lemma ToLowerAsciiIsIdempotent(s: string)
    ensures ToLowerAscii(ToLowerAscii(s)) == ToLowerAscii(s)
  {
  }

  /** Lower-casing and replacing one non-letter by another commute, so either
      order of the two steps yields the same property name. */
  lemma ReplaceCommutesWithLower(s: string, from: char, to: char)
    requires !IsUpperAscii(from) && !('a' <= from <= 'z') && !IsUpperAscii(to)
    ensures ToLowerAscii(Replace(s, from, to)) == Replace(ToLowerAscii(s), from, to)
  {
    var a := ToLowerAscii(Replace(s, from, to));
    var b := Replace(ToLowerAscii(s), from, to);
    forall i | 0 <= i < |s| ensures a[i] == b[i] {
      if IsUpperAscii(s[i]) {
        assert a[i] as int == s[i] as int + 32;
        assert b[i] as int == s[i] as int + 32;
      }
    }
  }

  /** Replacing a character that `s` does not contain and then replacing back
      restores `s`: the replacement is invertible. */
  lemma ReplaceRoundTrip(s: string, from: char, to: char)
    requires forall i :: 0 <= i < |s| ==> s[i] != to
    ensures Replace(Replace(s, from, to), to, from) == s
  {
  }

  predicate IsLowerAscii(c: char) {
    'a' <= c <= 'z'
  }

  /** Character.toUpperCase restricted to ASCII: a-z map to A-Z, every other
      character is kept. */
  function UpperChar(c: char): char {
    if IsLowerAscii(c) then (c as int - 32) as char else c
  }

  /** String.toUpperCase restricted to ASCII letters: how a property name is
      spelled as an environment variable. */
  function ToUpperAscii(s: string): (r: string)
    ensures |r| == |s|
    ensures forall i :: 0 <= i < |s| ==> !IsLowerAscii(r[i])
    ensures forall i :: 0 <= i < |s| && !IsLowerAscii(s[i]) ==> r[i] == s[i]
    ensures forall i :: 0 <= i < |s| && IsLowerAscii(s[i]) ==> r[i] as int == s[i] as int - 32
    ensures forall i :: 0 <= i < |s| ==> r[i] == UpperChar(s[i])
  {
    if s == [] then []
    else [UpperChar(s[0])] + ToUpperAscii(s[1..])
  }

  /** Upper-casing is undone by lower-casing on strings without capitals. */
  lemma LowerOfUpper(s: string)
    requires forall i :: 0 <= i < |s| ==> !IsUpperAscii(s[i])
    ensures ToLowerAscii(ToUpperAscii(s)) == s
  {
    var back := ToLowerAscii(ToUpperAscii(s));
    forall i | 0 <= i < |s| ensures back[i] == s[i] {
      LowerOfUpperChar(s[i]);
    }
  }

  /** One character: a character that is no capital comes back from
      upper-casing by lower-casing. */
  lemma LowerOfUpperChar(c: char)
    requires !IsUpperAscii(c)
    ensures LowerChar(UpperChar(c)) == c
  {
  }

  /** Lower-casing is undone by upper-casing on strings without small letters. */
  lemma UpperOfLower(s: string)
    requires forall i :: 0 <= i < |s| ==> !IsLowerAscii(s[i])
    ensures ToUpperAscii(ToLowerAscii(s)) == s
  {
    var down := ToLowerAscii(s);
    var back := ToUpperAscii(down);
    forall i | 0 <= i < |s| ensures back[i] == s[i] {
      if IsUpperAscii(s[i]) {
        assert down[i] as int == s[i] as int + 32;
        assert IsLowerAscii(down[i]);
      } else {
        assert down[i] == s[i];
      }
    }
  }

  /** Optional.filter(StringUtils::hasText).map(String::trim): the order the
      resolver, the substituter and the index substitution use. */
  function TextThenTrim(o: Option<string>): (r: Option<string>)
    ensures r.Some? <==> HasTextOpt(o)
    ensures r.Some? ==> r.value == Trim(o.value)
  {
    o.Filter(HasText).Map(Trim)
  }

  /** Optional.map(String::trim).filter(StringUtils::hasText): every present
      result has text and is its own trim. */
  function TrimThenText(o: Option<string>): (r: Option<string>)
    ensures r.Some? <==> o.Some? && HasText(Trim(o.value))
    ensures r.Some? ==> r.value == Trim(o.value) && HasText(r.value) && Trim(r.value) == r.value
  {
    TrimIsIdempotent(if o.Some? then o.value else []);
    o.Map(Trim).Filter(HasText)
  }

  /** The two orders disagree only where filtering first lets through a value
      that trims to something blank; otherwise they are the same. */
  lemma {:induction false} TextThenTrimAgreesUnlessBlank(o: Option<string>)
    ensures TextThenTrim(o) != TrimThenText(o) <==>
            o.Some? && HasText(o.value) && !HasText(Trim(o.value))
    ensures TextThenTrim(o) != TrimThenText(o) ==>
            TextThenTrim(o).Some? && !HasText(TextThenTrim(o).value)
  {
    if o.Some? {
      HasTextOfTrim(o.value);
    }
  }
}

=== FILE: LegacyEnvironmentPropertyIndexSupplier.dfy ===
/** The older environment-variable supplier of the boot module: it indexes
    every environment variable whose name ends with the suffix under the
    property name it spells, with the variable's NAME as location; the
    variable's value is looked up later, by a substituting resolver. */
module LegacyEnvironmentPropertyIndexSupplier {
  import opened Wrappers
  import opened Errors
  import opened JavaStrings
  import opened Collectors
  import opened PropertySources
  import opened Streams
  import Utils
  import E = EnvironmentPropertyIndexSupplier

  /** The same two fields and constructors as the newer supplier. */
  type Supplier = E.EnvironmentPropertyIndexSupplier

  /** A variable the older supplier indexes: it only has to end with the
      suffix. */
  predicate Suffixed(s: Supplier, n: string) {
    n in s.environment.systemEnvironment && EndsWith(n, s.suffix)
  }

  /** The suffixed variable names, in key-set order. */
  ghost function Names(s: Supplier): (r: seq<string>)
    ensures Distinct(r)
    ensures forall n :: n in r <==> Suffixed(s, n)
  {
    var keys := KeyStream(s.environment.systemEnvironment);
    FilterKeepsDistinct(keys, Utils.EndsWith(s.suffix));
    Filter(keys, Utils.EndsWith(s.suffix))
  }

  /** Function.identity(): the variable name is the location. */
  function Identity(): (f: string -> string)
    ensures forall n :: f(n) == n
  {
    n => n
  }

  /** get(): collect the suffixed names with toMap(convertToPropertyName,
      identity), which rejects a property name reached twice. */
  ghost function Get(s: Supplier): (r: Result<Index, Error>)
    ensures r.Err? ==> r.error.DuplicateKey?
  {
    PairsCollectIff(Names(s), E.KeyOf(s.suffix), Identity(), Strict);
    ToMap(Pairs(Names(s), E.KeyOf(s.suffix), Identity()), Strict)
  }

  /** get() fails exactly when two suffixed variables spell the same
      property. */
  lemma GetSucceedsIff(s: Supplier)
    ensures Get(s).Ok? <==> forall n1, n2 :: Suffixed(s, n1) && Suffixed(s, n2) && n1 != n2 ==>
                              E.ConvertToPropertyName(s.suffix, n1) != E.ConvertToPropertyName(s.suffix, n2)
  {
    DistinctCollectIff(Names(s), E.KeyOf(s.suffix), Identity(), Strict, n => Suffixed(s, n));
  }

  /** A successful get() maps every property a suffixed variable spells,
      and only those, to the name of that variable. */
  lemma GetContents(s: Supplier)
    requires Get(s).Ok?
    ensures var r := Get(s).value;
      (forall k :: k in r <==> exists n :: Suffixed(s, n) && E.ConvertToPropertyName(s.suffix, n) == k)
      && forall n :: Suffixed(s, n) ==> r[E.ConvertToPropertyName(s.suffix, n)] == n
  {
    DistinctCollectContents(Names(s), E.KeyOf(s.suffix), Identity(), Strict, n => Suffixed(s, n));
  }

  /** Each location of a successful index is a suffixed variable spelling
      its property. */
  lemma LocationsAreVariables(s: Supplier, k: string)
    requires Get(s).Ok? && k in Get(s).value
    ensures var n := Get(s).value[k];
      Suffixed(s, n) && E.ConvertToPropertyName(s.suffix, n) == k
  {
    GetContents(s);
    var n :| Suffixed(s, n) && E.ConvertToPropertyName(s.suffix, n) == k;
  }

  /** Substituting the locations through the environment: the properties
      whose variable has text, each mapped to that text. */
  function Substituted(index: Index, sources: seq<Layer>): (r: Index)
    ensures forall k :: k in r <==> k in index && HasTextOpt(GetProperty(sources, index[k]))
    ensures forall k :: k in r ==> k in index && GetProperty(sources, index[k]).Some? && r[k] == GetProperty(sources, index[k]).value
  {
    map k | k in index && HasTextOpt(GetProperty(sources, index[k])) :: GetProperty(sources, index[k]).value
  }

  /** A failure of the newer get() needs two indexed variables spelling
      one property, and those are suffixed variables too. */
  lemma NewerSucceeds(s: Supplier)
    requires Get(s).Ok?
    ensures E.Get(s).Ok?
  {
    GetSucceedsIff(s);
    E.GetSucceedsIff(s);
    forall n1, n2 | E.Indexed(s, n1) && E.Indexed(s, n2) && n1 != n2
      ensures E.ConvertToPropertyName(s.suffix, n1) != E.ConvertToPropertyName(s.suffix, n2)
    {
      assert Suffixed(s, n1) && Suffixed(s, n2);
    }
  }

  /** A property of the newer index is one of the older index, located at a
      variable the newer supplier read. */
  lemma NewerKeyIsOlderKey(s: Supplier, k: string)
    requires Get(s).Ok? && E.Get(s).Ok? && k in E.Get(s).value
    ensures k in Get(s).value
    ensures var n := Get(s).value[k];
      E.Indexed(s, n) && E.Get(s).value[k] == GetProperty(s.environment.sources, n).value
  {
    E.GetContents(s);
    var n :| E.Indexed(s, n) && E.ConvertToPropertyName(s.suffix, n) == k;
    GetContents(s);
    assert Suffixed(s, n);
  }

  /** A property of the older index whose variable has text is one of the
      newer index, mapped to that text. */
  lemma OlderKeyWithTextIsNewerKey(s: Supplier, k: string)
    requires Get(s).Ok? && E.Get(s).Ok? && k in Get(s).value
    requires HasTextOpt(GetProperty(s.environment.sources, Get(s).value[k]))
    ensures k in E.Get(s).value
    ensures E.Get(s).value[k] == GetProperty(s.environment.sources, Get(s).value[k]).value
  {
    LocationsAreVariables(s, k);
    var n := Get(s).value[k];
    assert E.Indexed(s, n);
    E.GetContents(s);
  }

  /** The newer supplier reads each variable's value at once and drops the
      blank ones: whenever the older index exists, so does the newer one,
      and it is the older index with its locations substituted. */
  lemma NewerIndexIsSubstituted(s: Supplier)
    requires Get(s).Ok?
    ensures E.Get(s) == Ok(Substituted(Get(s).value, s.environment.sources))
  {
    NewerSucceeds(s);
    var sources := s.environment.sources;
    var older, newer := Get(s).value, E.Get(s).value;
    var want := Substituted(older, sources);
    forall k ensures k in newer <==> k in want {
      if k in newer {
        NewerKeyIsOlderKey(s, k);
      }
      if k in want {
        OlderKeyWithTextIsNewerKey(s, k);
      }
    }
    forall k | k in newer ensures newer[k] == want[k] {
      NewerKeyIsOlderKey(s, k);
    }
    SameEntries(newer, want);
  }

  /** Every suffixed variable is the location of the property it spells. */
  lemma SuffixedIsIndexed(s: Supplier, n: string)
    requires Suffixed(s, n) && Get(s).Ok?
    ensures var k := E.ConvertToPropertyName(s.suffix, n);
      k in Get(s).value && Get(s).value[k] == n
  {
    GetContents(s);
  }

  /** A suffixed variable with a blank value is still indexed by the older
      supplier, while the newer one skips it. */
  lemma BlankVariableIsIndexed(s: Supplier, n: string)
    requires Suffixed(s, n) && !HasTextOpt(GetProperty(s.environment.sources, n))
    requires Get(s).Ok?
    ensures E.ConvertToPropertyName(s.suffix, n) in Get(s).value
    ensures Get(s).value[E.ConvertToPropertyName(s.suffix, n)] == n
    ensures E.Get(s).Ok? && E.ConvertToPropertyName(s.suffix, n) !in E.Get(s).value
  {
    SuffixedIsIndexed(s, n);
    NewerIndexIsSubstituted(s);
    var k := E.ConvertToPropertyName(s.suffix, n);
    assert k !in Substituted(Get(s).value, s.environment.sources);
  }

  /** A suffixed variable alone in the environment is indexed under its
      property, located at its own name, whatever its value. */
  lemma OneVariableIsIndexed(s: Supplier, n: string)
    requires s.environment.systemEnvironment.Keys == {n} && EndsWith(n, s.suffix)
    ensures Get(s) == Ok(map[E.ConvertToPropertyName(s.suffix, n) := n])
  {
    assert Suffixed(s, n);
    assert forall m :: Suffixed(s, m) ==> m == n by {
      forall m | Suffixed(s, m) ensures m == n {
        assert m in s.environment.systemEnvironment.Keys;
      }
    }
    GetSucceedsIff(s);
    GetContents(s);
    var r := Get(s).value;
    var k := E.ConvertToPropertyName(s.suffix, n);
    forall x | x in r ensures x == k {
      var m :| Suffixed(s, m) && E.ConvertToPropertyName(s.suffix, m) == x;
    }
    OneKeyMap(r, k);
  }
}

=== FILE: LegacyFilenamePropertyIndexSupplier.dfy ===
/** The older filename supplier of the boot module: it indexes every regular
    file of the base directory under its lower-cased name, with the file's
    URI as location, and when two files share a property name it keeps the
    first one and logs the second. */
module LegacyFilenamePropertyIndexSupplier {
  import opened Wrappers
  import opened Errors
  import opened JavaStrings
  import opened Collectors
  import opened PropertySources
  import opened Directories
  import F = FilenamePropertyIndexSupplier

  const BASE_DIR_PROPERTY := "secrets.file.base-dir"

  /** The base directory, defaulting to /run/secrets. */
  function BaseDir(sources: seq<Layer>): (r: string)
    ensures GetProperty(sources, BASE_DIR_PROPERTY).None? ==> r == DEFAULT_BASE_DIR
    ensures GetProperty(sources, BASE_DIR_PROPERTY).Some? ==> r == GetProperty(sources, BASE_DIR_PROPERTY).value
  {
    BaseDirOf(sources, BASE_DIR_PROPERTY)
  }

  /** convertToPropertyName: the file name, lower-cased; no separator is
      replaced. */
  function ConvertToPropertyName(name: string): (r: string)
    ensures |r| == |name|
    ensures forall i :: 0 <= i < |name| ==> r[i] == LowerChar(name[i])
  {
    ToLowerAscii(name)
  }

  /** The older conversion is the newer supplier's conversion in dot mode. */
  lemma ConvertIsDotMode(name: string)
    ensures ConvertToPropertyName(name) == F.ConvertToPropertyName(F.Dot, name)
  {
  }

  function KeyOf(): (key: F.FileEntry -> string)
    ensures forall f: F.FileEntry :: key(f) == ConvertToPropertyName(f.name)
  {
    (f: F.FileEntry) => ConvertToPropertyName(f.name)
  }

  /** get(): a base that is no directory yields the empty index and a
      listing that fails raises; otherwise every regular file is indexed
      and the collection never fails, since duplicates keep the first
      file. */
  function Get(sources: seq<Layer>, fs: F.FileSystem): (r: Result<Index, Error>)
    ensures fs.list(BaseDir(sources)).Unreadable? <==> r.Err?
    ensures r.Err? ==> r == Err(ListingFailed(BaseDir(sources)))
    ensures fs.list(BaseDir(sources)).NotADirectory? ==> r == Ok(map[])
  {
    var dir := BaseDir(sources);
    DirectoryIndex(fs.list(dir), dir, KeyOf(), F.UriOf(fs, dir), KeepExisting)
  }

  /** The index of a listed directory: the lower-cased name of every regular
      file, each mapped to the URI of the first regular file, in listing
      order, with that name. */
  lemma GetIndexesRegularFiles(sources: seq<Layer>, fs: F.FileSystem)
    requires fs.list(BaseDir(sources)).Listed?
    ensures var dir := BaseDir(sources);
      var entries := fs.list(dir).entries;
      var files := RegularFiles(entries);
      var r := Get(sources, fs).value;
      (forall k :: k in r <==> exists f :: f in entries && f.regular && ConvertToPropertyName(f.name) == k)
      && forall i :: 0 <= i < |files| && (forall j :: 0 <= j < i ==> ConvertToPropertyName(files[j].name) != ConvertToPropertyName(files[i].name)) ==>
           r[ConvertToPropertyName(files[i].name)] == fs.toUri(dir, files[i].name)
  {
    var dir := BaseDir(sources);
    var entries := fs.list(dir).entries;
    assert Get(sources, fs) == DirectoryIndex(F.Listed(entries), dir, KeyOf(), F.UriOf(fs, dir), KeepExisting);
    KeepingFirstIndex(entries, dir, KeyOf(), F.UriOf(fs, dir));
  }

  /** A file and its lower-cased copy: the first one listed is indexed. */
  lemma LowerCasedCopyKeepsFirst(toUri: (string, string) -> string, name: string)
    ensures var fs := F.SecretsDirectory([F.FileEntry(name, true), F.FileEntry(ToLowerAscii(name), true)], toUri);
      Get([], fs) == Ok(map[ToLowerAscii(name) := toUri(DEFAULT_BASE_DIR, name)])
  {
    var f1, f2 := F.FileEntry(name, true), F.FileEntry(ToLowerAscii(name), true);
    var fs := F.SecretsDirectory([f1, f2], toUri);
    ToLowerAsciiIsIdempotent(name);
    assert Get([], fs) == DirectoryIndex(F.Listed([f1, f2]), DEFAULT_BASE_DIR, KeyOf(), F.UriOf(fs, DEFAULT_BASE_DIR), KeepExisting);
    TwoFilesOneKey(f1, f2, DEFAULT_BASE_DIR, KeyOf(), F.UriOf(fs, DEFAULT_BASE_DIR));
  }

  /** Two files whose names differ in case only: the first one listed is
      indexed and the second is ignored, where the newer supplier in dot
      mode fails on the same directory. */
  lemma CaseVariantsKeepFirst(toUri: (string, string) -> string, name: string)
    requires name != ToLowerAscii(name)
    ensures var fs := F.SecretsDirectory([F.FileEntry(name, true), F.FileEntry(ToLowerAscii(name), true)], toUri);
      Get([], fs) == Ok(map[ToLowerAscii(name) := toUri(DEFAULT_BASE_DIR, name)])
      && F.Get(F.SeparatorSetTo("."), fs).Err?
  {
    LowerCasedCopyKeepsFirst(toUri, name);
    F.CaseOnlyDifferenceCollides(toUri, name);
  }

  /** An underscore in a file name is kept: a snake-case file is indexed
      under its own name, not under the dotted one. */
  lemma SnakeCaseIsKept(toUri: (string, string) -> string, w1: string, w2: string)
    requires F.Word(w1) && F.Word(w2)
    ensures var snake := F.Joined(w1, '_', w2);
      var fs := F.SecretsDirectory([F.FileEntry(snake, true)], toUri);
      Get([], fs) == Ok(map[snake := toUri(DEFAULT_BASE_DIR, snake)])
      && F.Joined(w1, '.', w2) !in Get([], fs).value
  {
    var snake := F.Joined(w1, '_', w2);
    var f := F.FileEntry(snake, true);
    var fs := F.SecretsDirectory([f], toUri);
    assert ConvertToPropertyName(snake) == snake by {
      forall i | 0 <= i < |snake| ensures !IsUpperAscii(snake[i]) {
        if i > |w1| { assert snake[i] == w2[i - |w1| - 1]; }
      }
    }
    KeepingFirstIndex([f], DEFAULT_BASE_DIR, KeyOf(), F.UriOf(fs, DEFAULT_BASE_DIR));
    assert RegularFiles([f]) == [f];
    var r := Get([], fs).value;
    OneKeyMap(r, snake);
    assert snake[|w1|] != F.Joined(w1, '.', w2)[|w1|];
  }
}

=== FILE: LegacySecretsProcessor.dfy ===
/** The older SecretsProcessor of the boot module: a subclass supplies the
    index of system properties (property name to location), every location
    is handed as it is to the default resolver the processor constructs,
    whose loadContent checks for text before it trims, and the secrets found
    are merged into the shared secretProperties source. */
module LegacySecretsProcessor {
  import opened Wrappers
  import opened Errors
  import opened JavaStrings
  import opened Collectors
  import opened PropertySources
  import opened DefaultSecretResolver
  import SecretsEnvironment
  import SecretPropertiesPropertySource
  import PropertyIndexSupplier
  import SEP = SecretsEnvironmentPostProcessors

  /** resolveSecretResources: a fresh map holding, for every property of
      the index whose location loads to a secret, that secret. The index is
      walked in map order, but its keys are distinct, so the order does not
      matter. A secret is the trimmed content of a resource with text, so it
      may itself be blank. */
  function ResolveSecretResources(index: Index, loader: ResourceLoader): (r: Index)
    ensures forall k :: k in r <==> k in index && LoadContentAsWritten(loader, Some(index[k])).Some?
    ensures forall k :: k in r ==> k in index && HasText(index[k]) && index[k] in loader
                                   && HasText(loader[index[k]]) && r[k] == Trim(loader[index[k]])
  {
    SecretsEnvironment.Resolved(index, SEP.ResolverAsWrittenOf(loader))
  }

  /** getPropertySource: the secrets as a map-backed source named
      secretProperties, whatever name the subclass was constructed with. */
  function GetPropertySource(index: Index, loader: ResourceLoader): (layer: Layer)
    ensures layer.name == SecretPropertiesPropertySource.NAME && layer.isMap
    ensures forall k :: k in layer.props <==> k in index && LoadContentAsWritten(loader, Some(index[k])).Some?
  {
    Layer(SecretPropertiesPropertySource.NAME, true, ResolveSecretResources(index, loader))
  }

  /** postProcessEnvironment: getSystemProperties (its failure propagates),
      then the source's secrets merged into the property sources. */
  function PostProcessEnvironment(index: PropertyIndexSupplier.Supplied, sources: seq<Layer>, loader: ResourceLoader)
    : (r: Result<seq<Layer>, Error>)
    ensures index.Err? ==> r == Err(index.error)
    ensures index.Ok? ==>
              (r.Err? <==> ResolveSecretResources(index.value, loader) != map[]
                           && !Contains(sources, SecretPropertiesPropertySource.NAME)
                           && !Contains(sources, SYSTEM_ENVIRONMENT))
    ensures index.Ok? && ResolveSecretResources(index.value, loader) == map[] ==> r == Ok(sources)
  {
    var idx :- index;
    SecretPropertiesPropertySource.Merge(GetPropertySource(idx, loader).props, sources)
  }

  /** An index none of whose locations loads leaves the sources as they
      are. */
  lemma NothingLoadsChangesNothing(index: Index, sources: seq<Layer>, loader: ResourceLoader)
    requires forall k :: k in index ==> LoadContentAsWritten(loader, Some(index[k])).None?
    ensures PostProcessEnvironment(Ok(index), sources, loader) == Ok(sources)
  {
    NoKeyMap(ResolveSecretResources(index, loader));
  }

  /** The older processor and a secrets environment with the default
      resolver as written change the property sources alike. */
  lemma AgreesWithSecretsEnvironment(index: PropertyIndexSupplier.Supplied, sources: seq<Layer>, loader: ResourceLoader)
    ensures PostProcessEnvironment(index, sources, loader) == SEP.PostProcessEnvironmentAsWritten(index, sources, loader)
  {
    if index.Ok? {
      SEP.PostProcessEnvironmentAsWrittenMerges(index, sources, loader);
    }
  }

  /** A property whose location loads reads as its secret afterwards, when
      no source up to systemEnvironment holds it. */
  lemma SecretBecomesVisible(index: PropertyIndexSupplier.Supplied, sources: seq<Layer>, loader: ResourceLoader, key: string)
    requires index.Ok? && key in index.value && LoadContentAsWritten(loader, Some(index.value[key])).Some?
    requires SEP.Overridable(sources, key)
    ensures PostProcessEnvironment(index, sources, loader).Ok?
    ensures GetProperty(PostProcessEnvironment(index, sources, loader).value, key)
            == LoadContentAsWritten(loader, Some(index.value[key]))
  {
    AgreesWithSecretsEnvironment(index, sources, loader);
    SEP.SecretBecomesVisibleAsWritten(index, sources, loader, key);
  }
}

=== FILE: Ordering.dfy ===
/** Spring's Ordered constants and Java's 32-bit int addition, in which the
    post-processor orders are computed. */
module Ordering {
  const INT32_MIN: int := -0x8000_0000
  const INT32_MAX: int := 0x7fff_ffff
  const TWO_TO_32: int := 0x1_0000_0000

  predicate IsInt32(x: int) {
    INT32_MIN <= x <= INT32_MAX
  }

  /** Ordered.HIGHEST_PRECEDENCE is Integer.MIN_VALUE. */
  const HIGHEST_PRECEDENCE: int := INT32_MIN

  /** Ordered.LOWEST_PRECEDENCE is Integer.MAX_VALUE. */
  const LOWEST_PRECEDENCE: int := INT32_MAX

  /** Java's int addition: the int congruent to the exact sum modulo 2^32. */
  function Add32(a: int, b: int): (r: int)
    requires IsInt32(a) && IsInt32(b)
    ensures IsInt32(r) && (r - (a + b)) % TWO_TO_32 == 0
  {
    var s := a + b;
    if s > INT32_MAX then s - TWO_TO_32
    else if s < INT32_MIN then s + TWO_TO_32
    else s
  }

  /** The int congruent to a given integer is unique. */
  lemma Int32Unique(x: int, y: int)
    requires IsInt32(x) && IsInt32(y) && (x - y) % TWO_TO_32 == 0
    ensures x == y
  {
    var d := x - y;
    assert -TWO_TO_32 < d < TWO_TO_32;
    var q := d / TWO_TO_32;
    assert d == q * TWO_TO_32;
    assert q == 0;
  }

  /** Without overflow the int sum is the exact sum; on overflow past
      Integer.MAX_VALUE it wraps around to a negative number. */
  lemma Add32Exact(a: int, b: int)
    requires IsInt32(a) && IsInt32(b)
    ensures IsInt32(a + b) ==> Add32(a, b) == a + b
    ensures a + b > INT32_MAX ==> Add32(a, b) == a + b - TWO_TO_32 && Add32(a, b) < 0
  {
    if IsInt32(a + b) {
      Int32Unique(Add32(a, b), a + b);
    } else if a + b > INT32_MAX {
      assert (a + b - TWO_TO_32) - (a + b) == -TWO_TO_32;
      Int32Unique(Add32(a, b), a + b - TWO_TO_32);
    }
  }

  /** Adding a positive amount gives a larger int exactly when it does not
      overflow. */
  lemma Add32Increases(a: int, b: int)
    requires IsInt32(a) && IsInt32(b) && b > 0
    ensures a < Add32(a, b) <==> a + b <= INT32_MAX
  {
    Add32Exact(a, b);
  }
}

=== FILE: PathBasedSecretsProcessor.dfy ===
/** The older path-based processor of the boot module: it indexes every
    regular file of the base directory under its name with underscores read
    as periods, keeps the first of two files with one property name, and
    lets the older SecretsProcessor resolve the files' URIs. */
module PathBasedSecretsProcessor {
  import opened Wrappers
  import opened Errors
  import opened JavaStrings
  import opened Collectors
  import opened PropertySources
  import opened Ordering
  import opened Directories
  import opened DefaultSecretResolver
  import F = FilenamePropertyIndexSupplier
  import LegacySecretsProcessor
  import SEP = SecretsEnvironmentPostProcessors

  /** The name handed to the superclass; the merged source is named
      secretProperties all the same. */
  const PROPERTY_SOURCE_NAME := "pathBasedSecrets"
  const BASE_DIR_PROPERTY := "secrets.base-dir"
  const ORDER := LOWEST_PRECEDENCE - 11

  /** convertToPropertyName: underscores become periods, then the name is
      lower-cased. */
  function ConvertToPropertyName(name: string): (r: string)
    ensures |r| == |name|
    ensures forall i :: 0 <= i < |name| ==> r[i] == if name[i] == '_' then '.' else LowerChar(name[i])
  {
    ToLowerAscii(JavaStrings.Replace(name, '_', '.'))
  }

  /** The conversion is the newer filename supplier's conversion in
      underscore mode. */
  lemma ConvertIsUnderscoreMode(name: string)
    ensures ConvertToPropertyName(name) == F.ConvertToPropertyName(F.Underscore, name)
  {
    var a, b := ConvertToPropertyName(name), F.ConvertToPropertyName(F.Underscore, name);
    forall i | 0 <= i < |a| ensures a[i] == b[i] {
    }
  }

  function KeyOf(): (key: F.FileEntry -> string)
    ensures forall f: F.FileEntry :: key(f) == ConvertToPropertyName(f.name)
  {
    (f: F.FileEntry) => ConvertToPropertyName(f.name)
  }

  /** getSystemProperties: a base that is no directory yields the empty
      index and a listing that fails raises; otherwise every regular file is
      indexed with its URI, the first of two files with one property name
      winning. No property name it yields keeps an underscore. */
  function GetSystemProperties(sources: seq<Layer>, fs: F.FileSystem): (r: Result<Index, Error>)
    ensures fs.list(BaseDirOf(sources, BASE_DIR_PROPERTY)).Unreadable? <==> r.Err?
    ensures r.Err? ==> r == Err(ListingFailed(BaseDirOf(sources, BASE_DIR_PROPERTY)))
    ensures fs.list(BaseDirOf(sources, BASE_DIR_PROPERTY)).NotADirectory? ==> r == Ok(map[])
    ensures r.Ok? ==> forall k :: k in r.value ==> '_' !in k
  {
    var dir := BaseDirOf(sources, BASE_DIR_PROPERTY);
    var listing := fs.list(dir);
    if listing.Listed? then
      KeepingFirstIndex(listing.entries, dir, KeyOf(), F.UriOf(fs, dir));
      ConvertedNamesHaveNoUnderscore();
      DirectoryIndex(listing, dir, KeyOf(), F.UriOf(fs, dir), KeepExisting)
    else
      DirectoryIndex(listing, dir, KeyOf(), F.UriOf(fs, dir), KeepExisting)
  }

  lemma ConvertedNamesHaveNoUnderscore()
    ensures forall name :: '_' !in ConvertToPropertyName(name)
  {
    forall name ensures '_' !in ConvertToPropertyName(name) {
      var r := ConvertToPropertyName(name);
      forall i | 0 <= i < |r| ensures r[i] != '_' {
        assert LowerChar(name[i]) == '_' ==> name[i] == '_';
      }
    }
  }

  /** The index of a listed directory: the property name of every regular
      file, each mapped to the URI of the first regular file, in listing
      order, with that property name. */
  lemma GetSystemPropertiesIndexesRegularFiles(sources: seq<Layer>, fs: F.FileSystem)
    requires fs.list(BaseDirOf(sources, BASE_DIR_PROPERTY)).Listed?
    ensures var dir := BaseDirOf(sources, BASE_DIR_PROPERTY);
      var entries := fs.list(dir).entries;
      var files := RegularFiles(entries);
      var r := GetSystemProperties(sources, fs).value;
      (forall k :: k in r <==> exists f :: f in entries && f.regular && ConvertToPropertyName(f.name) == k)
      && forall i :: 0 <= i < |files| && (forall j :: 0 <= j < i ==> ConvertToPropertyName(files[j].name) != ConvertToPropertyName(files[i].name)) ==>
           r[ConvertToPropertyName(files[i].name)] == fs.toUri(dir, files[i].name)
  {
    var dir := BaseDirOf(sources, BASE_DIR_PROPERTY);
    KeepingFirstIndex(fs.list(dir).entries, dir, KeyOf(), F.UriOf(fs, dir));
  }

  /** A dotted name and its snake-case twin both convert to the dotted
      name. */
  lemma DottedAndSnakeCaseConvertAlike(w1: string, w2: string)
    requires F.Word(w1) && F.Word(w2)
    ensures ConvertToPropertyName(F.Joined(w1, '.', w2)) == F.Joined(w1, '.', w2)
    ensures ConvertToPropertyName(F.Joined(w1, '_', w2)) == F.Joined(w1, '.', w2)
  {
    var dotted, snake := F.Joined(w1, '.', w2), F.Joined(w1, '_', w2);
    F.DotNames(w1, w2);
    F.SnakeCaseKey(w1, w2);
    ConvertIsUnderscoreMode(dotted);
    ConvertIsUnderscoreMode(snake);
  }

  /** A dotted file and its snake-case twin name one property; the one
      listed first supplies the URI. */
  lemma FirstOfDottedAndSnakeCaseWins(toUri: (string, string) -> string, w1: string, w2: string)
    requires F.Word(w1) && F.Word(w2)
    ensures var dotted, snake := F.Joined(w1, '.', w2), F.Joined(w1, '_', w2);
      var fs := F.SecretsDirectory([F.FileEntry(dotted, true), F.FileEntry(snake, true)], toUri);
      GetSystemProperties([], fs) == Ok(map[dotted := toUri(DEFAULT_BASE_DIR, dotted)])
  {
    var dotted, snake := F.Joined(w1, '.', w2), F.Joined(w1, '_', w2);
    var f1, f2 := F.FileEntry(dotted, true), F.FileEntry(snake, true);
    var fs := F.SecretsDirectory([f1, f2], toUri);
    DottedAndSnakeCaseConvertAlike(w1, w2);
    assert GetSystemProperties([], fs) == DirectoryIndex(F.Listed([f1, f2]), DEFAULT_BASE_DIR, KeyOf(), F.UriOf(fs, DEFAULT_BASE_DIR), KeepExisting);
    TwoFilesOneKey(f1, f2, DEFAULT_BASE_DIR, KeyOf(), F.UriOf(fs, DEFAULT_BASE_DIR));
  }

  /** postProcessEnvironment: the older SecretsProcessor over this index. */
  function PostProcessEnvironment(sources: seq<Layer>, fs: F.FileSystem, loader: ResourceLoader)
    : (r: Result<seq<Layer>, Error>)
    ensures fs.list(BaseDirOf(sources, BASE_DIR_PROPERTY)).Unreadable? ==> r == Err(ListingFailed(BaseDirOf(sources, BASE_DIR_PROPERTY)))
    ensures fs.list(BaseDirOf(sources, BASE_DIR_PROPERTY)).NotADirectory? ==> r == Ok(sources)
  {
    LegacySecretsProcessor.PostProcessEnvironment(GetSystemProperties(sources, fs), sources, loader)
  }

  /** The secret of a regular file listed before any other file with its
      property name becomes that property's value. */
  lemma FileSecretBecomesVisible(sources: seq<Layer>, fs: F.FileSystem, loader: ResourceLoader, i: int)
    requires fs.list(BaseDirOf(sources, BASE_DIR_PROPERTY)).Listed?
    requires var files := RegularFiles(fs.list(BaseDirOf(sources, BASE_DIR_PROPERTY)).entries);
      0 <= i < |files| && forall j :: 0 <= j < i ==> ConvertToPropertyName(files[j].name) != ConvertToPropertyName(files[i].name)
    requires var files := RegularFiles(fs.list(BaseDirOf(sources, BASE_DIR_PROPERTY)).entries);
      LoadContentAsWritten(loader, Some(fs.toUri(BaseDirOf(sources, BASE_DIR_PROPERTY), files[i].name))).Some?
      && SEP.Overridable(sources, ConvertToPropertyName(files[i].name))
    ensures var files := RegularFiles(fs.list(BaseDirOf(sources, BASE_DIR_PROPERTY)).entries);
      PostProcessEnvironment(sources, fs, loader).Ok?
      && GetProperty(PostProcessEnvironment(sources, fs, loader).value, ConvertToPropertyName(files[i].name))
         == LoadContentAsWritten(loader, Some(fs.toUri(BaseDirOf(sources, BASE_DIR_PROPERTY), files[i].name)))
  {
    var files := RegularFiles(fs.list(BaseDirOf(sources, BASE_DIR_PROPERTY)).entries);
    assert files[i] in files;
    GetSystemPropertiesIndexesRegularFiles(sources, fs);
    LegacySecretsProcessor.SecretBecomesVisible(GetSystemProperties(sources, fs), sources, loader, ConvertToPropertyName(files[i].name));
  }
}

=== FILE: PropertyIndexSupplier.dfy ===
/** PropertyIndexSupplier: a supplier of a property index, with the default
    substitution of index values through a property resolver. */
module PropertyIndexSupplier {
  import opened Wrappers
  import opened Errors
  import opened JavaStrings
  import opened Collectors
  import opened PropertySources
  import opened Streams
  import Utils

  /** What calling get() on a supplier yields: the index, or the exception it
      throws. */
  type Supplied = Result<Index, Error>

  /** PropertyIndexSupplier.from: rejects null, and otherwise supplies a copy
      of the given map. */
  function From(properties: Option<Index>): (r: Result<Supplied, Error>)
    ensures r.Ok? <==> properties.Some?
    ensures r.Ok? ==> r.value == Ok(properties.value)
    ensures r.Err? ==> r.error.IllegalArgument?
  {
    if properties.None? then Err(IllegalArgument("Properties must not be null"))
    else Ok(Ok(properties.value))
  }

  /** The default substitute: a plain lookup of the value as a property name. */
  function Substitute(resolver: seq<Layer>, value: string): (r: Option<string>)
    ensures r.Some? <==> exists i :: 0 <= i < |resolver| && value in resolver[i].props
    ensures r.Some? ==>
              exists i :: 0 <= i < |resolver| && value in resolver[i].props
                          && r.value == resolver[i].props[value]
                          && forall j :: 0 <= j < i ==> value !in resolver[j].props
  {
    GetProperty(resolver, value)
  }

  /** substituteValues as written: an entry is kept when its value resolves to
      text, and then maps to the trimmed resolution. The null check on the
      resolver happens when substituteValues is called, not on get(). */
  function SubstituteValuesAsWritten(supplied: Supplied, resolver: Option<seq<Layer>>): (r: Result<Supplied, Error>)
    ensures r.Ok? <==> resolver.Some?
    ensures r.Ok? && supplied.Err? ==> r.value == Err(supplied.error)
    ensures r.Ok? && supplied.Ok? ==>
              r.value.Ok? && r.value.value.Keys <= supplied.value.Keys
              && forall k :: k in supplied.value ==>
                   var looked := Substitute(resolver.value, supplied.value[k]);
                   (k in r.value.value <==> HasTextOpt(looked))
                   && (k in r.value.value ==> r.value.value[k] == Trim(looked.value))
  {
    if resolver.None? then Err(IllegalArgument("Property resolver must not be null"))
    else match supplied
      case Err(e) => Ok(Err(e))
      case Ok(m) =>
        Ok(Ok(map k | k in m && TextThenTrim(Substitute(resolver.value, m[k])).Some? ::
          TextThenTrim(Substitute(resolver.value, m[k])).value))
  }

  /** The filter step as written: value(wherePropertyHasText) over the
      index's entry set keeps exactly the keys the substitution keeps. */
  lemma SubstituteValuesAsWrittenFiltersByValue(m: Index, resolver: seq<Layer>)
    ensures var wherePropertyHasText := (v: string) => HasTextOpt(Substitute(resolver, v));
      SubstituteValuesAsWritten(Ok(m), Some(resolver)).value.value.Keys
      == LastWins(Filter(Enumerate(m), Utils.Value(wherePropertyHasText))).Keys
  {
    var wherePropertyHasText := (v: string) => HasTextOpt(Substitute(resolver, v));
    Utils.ValueRestrictsMap(m, wherePropertyHasText);
  }

  /** A value that resolves to a NUL character survives as the empty string. */
  lemma SubstituteValuesAsWrittenYieldsBlank()
    ensures SubstituteValuesAsWritten(Ok(map["username" := "SMTP_USER"]),
              Some([Layer("systemEnvironment", true, map["SMTP_USER" := "\U{0}"])]))
            == Ok(Ok(map["username" := ""]))
  {
    var layers := [Layer("systemEnvironment", true, map["SMTP_USER" := "\U{0}"])];
    assert GetProperty(layers, "SMTP_USER") == Some("\U{0}");
    ControlCharactersHaveTextButTrimAway();
    assert TextThenTrim(Some("\U{0}")) == Some("");
    var m := map["username" := "SMTP_USER"];
    var r := SubstituteValuesAsWritten(Ok(m), Some(layers)).value.value;
    forall x | x in r ensures x == "username" { assert x in m; }
    assert r["username"] == "";
    assert r == map["username" := ""];
  }

  /** substituteValues with the trim before the text check: an entry is kept
      exactly when its value resolves to something that still has text once
      trimmed, and then maps to that trimmed text. */
  function SubstituteValues(supplied: Supplied, resolver: Option<seq<Layer>>): (r: Result<Supplied, Error>)
    ensures r.Ok? <==> resolver.Some?
    ensures r.Ok? && supplied.Err? ==> r.value == Err(supplied.error)
    ensures r.Ok? && supplied.Ok? ==>
              r.value.Ok? && r.value.value.Keys <= supplied.value.Keys
              && forall k :: k in supplied.value ==>
                   var looked := Substitute(resolver.value, supplied.value[k]);
                   (k in r.value.value <==> looked.Some? && HasText(Trim(looked.value)))
                   && (k in r.value.value ==> r.value.value[k] == Trim(looked.value) && HasText(r.value.value[k]))
  {
    if resolver.None? then Err(IllegalArgument("Property resolver must not be null"))
    else match supplied
      case Err(e) => Ok(Err(e))
      case Ok(m) =>
        Ok(Ok(map k | k in m && TrimThenText(Substitute(resolver.value, m[k])).Some? ::
          TrimThenText(Substitute(resolver.value, m[k])).value))
  }

  /** The two definitions keep the same keys except those whose resolution
      has text yet trims to blank, which only the as-written one keeps. */
  lemma SubstituteValuesAgreesUnlessBlank(m: Index, resolver: seq<Layer>, k: string)
    requires k in m
    ensures var w := SubstituteValuesAsWritten(Ok(m), Some(resolver)).value.value;
      var c := SubstituteValues(Ok(m), Some(resolver)).value.value;
      (k in c ==> k in w && w[k] == c[k])
      && (k in w && k !in c ==> !HasText(w[k]))
  {
    TextThenTrimAgreesUnlessBlank(Substitute(resolver, m[k]));
  }

  /** The same entry through substituteValues as written. */
  lemma SubstituteValuesAsWrittenOfOne(key: string, name: string, layers: seq<Layer>, v: string)
    requires Substitute(layers, name) == Some(v) && HasText(v)
    ensures SubstituteValuesAsWritten(Ok(map[key := name]), Some(layers)) == Ok(Ok(map[key := Trim(v)]))
  {
    var m := map[key := name];
    var r := SubstituteValuesAsWritten(Ok(m), Some(layers)).value.value;
    assert key in m && m[key] == name;
    assert forall x :: x in r ==> x in m;
    OneKeyMap(r, key);
  }

  /** A one-entry index whose value resolves to text substitutes to the
      trimmed resolution under the same key. */
  lemma SubstituteValuesOfOne(key: string, name: string, layers: seq<Layer>, v: string)
    requires Substitute(layers, name) == Some(v) && HasText(Trim(v))
    ensures SubstituteValues(Ok(map[key := name]), Some(layers)) == Ok(Ok(map[key := Trim(v)]))
  {
    var m := map[key := name];
    var r := SubstituteValues(Ok(m), Some(layers)).value.value;
    assert key in m && m[key] == name;
    assert forall x :: x in r ==> x in m;
    OneKeyMap(r, key);
  }

  /** The substitution test: an index pointing at SMTP_USER, whose value is
      " bob \n", substitutes to "bob". */
  lemma SubstituteValuesExample()
    ensures SubstituteValues(Ok(map["username" := "SMTP_USER"]),
              Some([Layer("systemEnvironment", true, map["SMTP_USER" := " bob \n"])]))
            == Ok(Ok(map["username" := "bob"]))
  {
    var layers := [Layer("systemEnvironment", true, map["SMTP_USER" := " bob \n"])];
    assert Trim(" bob \n") == "bob" by {
      assert " bob \n" == " " + "bob" + " \n";
      TrimOfPadded(" ", "bob", " \n");
    }
    assert HasText("bob") by {
      assert !IsWhitespace("bob"[0]);
    }
    assert Substitute(layers, "SMTP_USER") == Some(" bob \n");
    SubstituteValuesOfOne("username", "SMTP_USER", layers, " bob \n");
  }
}

=== FILE: PropertySources.dfy ===
/** Spring's environment as the library sees it: an ordered list of named
    property sources (MutablePropertySources), where a property resolves to
    the value held by the first source that contains it. */
module PropertySources {
  import opened Wrappers
  import opened Errors

  /** A property source: its name, whether it is backed by a java.util.Map
      (a MapPropertySource), and the properties it holds. */
  datatype Layer = Layer(name: string, isMap: bool, props: map<string, string>)

  /** A configurable environment: its property sources in precedence order
      and the process environment that getSystemEnvironment returns. */
  datatype Environment = Environment(sources: seq<Layer>, systemEnvironment: map<string, string>)

  const SYSTEM_ENVIRONMENT := "systemEnvironment"

  predicate Contains(sources: seq<Layer>, name: string) {
    exists i :: 0 <= i < |sources| && sources[i].name == name
  }

  /** List.indexOf on property sources, which compare by name. */
  function IndexOf(sources: seq<Layer>, name: string): (i: int)
    ensures -1 <= i < |sources|
    ensures i >= 0 <==> Contains(sources, name)
    ensures i >= 0 ==> sources[i].name == name
    ensures forall j :: 0 <= j < i || (i < 0 && 0 <= j < |sources|) ==> sources[j].name != name
  {
    if sources == [] then -1
    else if sources[0].name == name then 0
    else
      var i := IndexOf(sources[1..], name);
      assert forall j :: 1 <= j < |sources| ==> sources[j] == sources[1..][j - 1];
      if i < 0 then -1 else i + 1
  }

  /** The first source carrying `name` is where IndexOf finds it. */
  lemma IndexOfAt(sources: seq<Layer>, name: string, i: int)
    requires 0 <= i < |sources| && sources[i].name == name
    requires forall j :: 0 <= j < i ==> sources[j].name != name
    ensures IndexOf(sources, name) == i
  {
  }

  /** How many sources carry `name`. */
  function CountNamed(sources: seq<Layer>, name: string): (n: nat)
    ensures n == 0 <==> !Contains(sources, name)
    ensures n <= |sources|
  {
    if sources == [] then 0
    else
      assert forall j :: 1 <= j < |sources| ==> sources[j] == sources[1..][j - 1];
      (if sources[0].name == name then 1 else 0) + CountNamed(sources[1..], name)
  }

  lemma {:induction false} CountNamedAppend(a: seq<Layer>, b: seq<Layer>, name: string)
    ensures CountNamed(a + b, name) == CountNamed(a, name) + CountNamed(b, name)
  {
    if a != [] {
      assert (a + b)[1..] == a[1..] + b;
      CountNamedAppend(a[1..], b, name);
    } else {
      assert a + b == b;
    }
  }

  /** Swapping one source for another changes the count by the two names. */
  lemma CountNamedUpdate(sources: seq<Layer>, i: int, layer: Layer, name: string)
    requires 0 <= i < |sources|
    ensures CountNamed(sources[i := layer], name) + (if sources[i].name == name then 1 else 0)
            == CountNamed(sources, name) + (if layer.name == name then 1 else 0)
  {
    var a, b := sources[..i], sources[i + 1..];
    assert sources == a + [sources[i]] + b;
    assert sources[i := layer] == a + [layer] + b;
    CountNamedAppend(a + [sources[i]], b, name);
    CountNamedAppend(a, [sources[i]], name);
    CountNamedAppend(a + [layer], b, name);
    CountNamedAppend(a, [layer], name);
  }

  /** Inserting a source adds one to the count of its own name only. */
  lemma CountNamedInsert(sources: seq<Layer>, i: int, layer: Layer, name: string)
    requires 0 <= i <= |sources|
    ensures CountNamed(sources[..i] + [layer] + sources[i..], name)
            == CountNamed(sources, name) + (if layer.name == name then 1 else 0)
  {
    var a, b := sources[..i], sources[i..];
    assert sources == a + b;
    CountNamedAppend(a, b, name);
    CountNamedAppend(a + [layer], b, name);
    CountNamedAppend(a, [layer], name);
  }

  /** PropertyResolver.getProperty: the value in the first source holding the
      key, or null (None) when no source holds it. */
  function GetProperty(sources: seq<Layer>, key: string): (r: Option<string>)
    ensures r.None? <==> forall i :: 0 <= i < |sources| ==> key !in sources[i].props
    ensures r.Some? ==>
              exists i :: 0 <= i < |sources| && key in sources[i].props
                          && r.value == sources[i].props[key]
                          && forall j :: 0 <= j < i ==> key !in sources[j].props
  {
    if sources == [] then None
    else if key in sources[0].props then Some(sources[0].props[key])
    else
      var r := GetProperty(sources[1..], key);
      assert forall j :: 1 <= j < |sources| ==> sources[j] == sources[1..][j - 1];
      r
  }

  /** PropertyResolver.getProperty(key, defaultValue). */
  function GetPropertyOr(sources: seq<Layer>, key: string, default: string): (r: string)
    ensures GetProperty(sources, key).Some? ==> r == GetProperty(sources, key).value
    ensures GetProperty(sources, key).None? ==> r == default
  {
    GetProperty(sources, key).GetOr(default)
  }

  /** resolver::getProperty as a function for a collector: the value of a
      property some source is known to hold. */
  function PropertyOf(sources: seq<Layer>): (value: string -> string)
    ensures forall n :: GetProperty(sources, n).Some? ==> value(n) == GetProperty(sources, n).value
  {
    n => GetPropertyOr(sources, n, "")
  }

  /** Sources that hold no key shadow nothing: a property is looked up past them. */
  lemma {:induction false} GetPropertySkipsPrefix(before: seq<Layer>, after: seq<Layer>, key: string)
    requires forall i :: 0 <= i < |before| ==> key !in before[i].props
    ensures GetProperty(before + after, key) == GetProperty(after, key)
  {
    if before != [] {
      assert (before + after)[1..] == before[1..] + after;
      GetPropertySkipsPrefix(before[1..], after, key);
    } else {
      assert before + after == after;
    }
  }

  /** List.remove(Object): drop the first source named `name`, if any. */
  function RemoveFirst(sources: seq<Layer>, name: string): (r: seq<Layer>)
    ensures !Contains(sources, name) ==> r == sources
    ensures Contains(sources, name) ==>
      var i := IndexOf(sources, name);
      r == sources[..i] + sources[i + 1..]
  {
    var i := IndexOf(sources, name);
    if i < 0 then sources else sources[..i] + sources[i + 1..]
  }

  /** MutablePropertySources.addAfter: a source may not be placed relative to
      itself; a source of the same name is removed first; the anchor must then
      be present, and the new source goes right after it. */
  function AddAfter(sources: seq<Layer>, anchor: string, layer: Layer): (r: Result<seq<Layer>, Error>)
    ensures anchor == layer.name ==> r.Err?
    ensures anchor != layer.name ==> (r.Ok? <==> Contains(RemoveFirst(sources, layer.name), anchor))
    ensures r.Err? ==> r.error.IllegalArgument?
    ensures r.Ok? ==>
      var rest := RemoveFirst(sources, layer.name);
      var i := IndexOf(rest, anchor);
      |r.value| == |rest| + 1 && r.value[..i + 1] == rest[..i + 1]
      && r.value[i + 1] == layer && r.value[i + 2..] == rest[i + 1..]
  {
    if anchor == layer.name then
      Err(IllegalArgument("Property source named '" + anchor + "' cannot be added relative to itself"))
    else
      var rest := RemoveFirst(sources, layer.name);
      var i := IndexOf(rest, anchor);
      if i < 0 then Err(IllegalArgument("Property source named '" + anchor + "' does not exist"))
      else
        var r := rest[..i + 1] + [layer] + rest[i + 1..];
        assert r[..i + 1] == rest[..i + 1];
        assert r[i + 2..] == rest[i + 1..];
        Ok(r)
  }

  /** Adding after an anchor to sources that do not yet hold the new name
      inserts it right after the anchor and moves nothing else. */
  lemma AddAfterFreshName(sources: seq<Layer>, anchor: string, layer: Layer)
    requires !Contains(sources, layer.name) && Contains(sources, anchor)
    ensures var i := IndexOf(sources, anchor);
      AddAfter(sources, anchor, layer) == Ok(sources[..i + 1] + [layer] + sources[i + 1..])
  {
    var i := IndexOf(sources, anchor);
    var r := AddAfter(sources, anchor, layer);
    assert r.value == r.value[..i + 1] + [r.value[i + 1]] + r.value[i + 2..];
  }

  /** Adding after a source that is missing raises. */
  lemma AddAfterMissingAnchor(sources: seq<Layer>, anchor: string, layer: Layer)
    requires !Contains(sources, anchor)
    ensures AddAfter(sources, anchor, layer).Err? && AddAfter(sources, anchor, layer).error.IllegalArgument?
  {
    var rest := RemoveFirst(sources, layer.name);
    var j := IndexOf(sources, layer.name);
    forall i | 0 <= i < |rest| ensures rest[i].name != anchor {
      if j >= 0 && i >= j { assert rest[i] == sources[i + 1]; } else { assert rest[i] == sources[i]; }
    }
  }

  /** Inserting a source of another name does not add `name`. */
  lemma InsertKeepsAbsent(sources: seq<Layer>, i: int, layer: Layer, name: string)
    requires 0 <= i <= |sources| && layer.name != name && !Contains(sources, name)
    ensures !Contains(sources[..i] + [layer] + sources[i..], name)
  {
    var s1 := sources[..i] + [layer] + sources[i..];
    forall j | 0 <= j < |s1| ensures s1[j].name != name {
      if j < i { assert s1[j] == sources[j]; }
      else if j > i { assert s1[j] == sources[j - 1]; }
    }
  }

  /** A source inserted at position i, after sources that lack its name, is
      where IndexOf finds it. */
  lemma InsertedIsFound(sources: seq<Layer>, i: int, layer: Layer)
    requires 0 <= i <= |sources| && !Contains(sources, layer.name)
    ensures IndexOf(sources[..i] + [layer] + sources[i..], layer.name) == i
  {
    var s1 := sources[..i] + [layer] + sources[i..];
    assert s1[i] == layer;
    forall j | 0 <= j < i ensures s1[j].name != layer.name {
      assert s1[j] == sources[j];
    }
    IndexOfAt(s1, layer.name, i);
  }

  /** A second new source added after a first one, itself placed after
      position i, follows it directly. */
  lemma AddAfterAddedSource(sources: seq<Layer>, i: int, first: Layer, second: Layer)
    requires 0 <= i < |sources| && first.name != second.name
    requires !Contains(sources, first.name) && !Contains(sources, second.name)
    ensures AddAfter(sources[..i + 1] + [first] + sources[i + 1..], first.name, second)
            == Ok(sources[..i + 1] + [first, second] + sources[i + 1..])
  {
    var s1 := sources[..i + 1] + [first] + sources[i + 1..];
    InsertedIsFound(sources, i + 1, first);
    InsertKeepsAbsent(sources, i + 1, first, second.name);
    AddAfterFreshName(s1, first.name, second);
    assert s1[..i + 2] == sources[..i + 1] + [first] && s1[i + 2..] == sources[i + 1..];
    assert s1[..i + 2] + [second] + s1[i + 2..] == sources[..i + 1] + [first, second] + sources[i + 1..];
  }

  /** The first source holding a key decides it. */
  lemma GetPropertyAt(sources: seq<Layer>, key: string, i: int)
    requires 0 <= i < |sources| && key in sources[i].props
    requires forall j :: 0 <= j < i ==> key !in sources[j].props
    ensures GetProperty(sources, key) == Some(sources[i].props[key])
  {
    assert sources == sources[..i] + sources[i..];
    GetPropertySkipsPrefix(sources[..i], sources[i..], key);
  }

  /** A new source placed after an anchor decides a key it holds when no
      source up to the anchor holds that key. */
  lemma AddAfterDecides(sources: seq<Layer>, anchor: string, layer: Layer, key: string)
    requires !Contains(sources, layer.name) && Contains(sources, anchor) && key in layer.props
    requires forall j :: 0 <= j <= IndexOf(sources, anchor) ==> key !in sources[j].props
    ensures AddAfter(sources, anchor, layer).Ok?
    ensures GetProperty(AddAfter(sources, anchor, layer).value, key) == Some(layer.props[key])
  {
    var i := IndexOf(sources, anchor);
    AddAfterFreshName(sources, anchor, layer);
    var before, after := sources[..i + 1], [layer] + sources[i + 1..];
    assert before + after == sources[..i + 1] + [layer] + sources[i + 1..];
    GetPropertySkipsPrefix(before, after, key);
  }

  /** MutablePropertySources.replace: the source named `name` is swapped for
      `layer` at the same position; an absent name is an error. */
  function Replace(sources: seq<Layer>, name: string, layer: Layer): (r: Result<seq<Layer>, Error>)
    ensures r.Ok? <==> Contains(sources, name)
    ensures r.Ok? ==>
              |r.value| == |sources| && r.value[IndexOf(sources, name)] == layer
              && forall j :: 0 <= j < |sources| && j != IndexOf(sources, name) ==> r.value[j] == sources[j]
  {
    var i := IndexOf(sources, name);
    if i < 0 then Err(IllegalArgument("Property source named '" + name + "' does not exist"))
    else Ok(sources[i := layer])
  }
}

=== FILE: SecretPropertiesPropertySource.dfy ===
/** The single property source, named "secretProperties", into which every
    resolved secret is merged. */
module SecretPropertiesPropertySource {
  import opened Wrappers
  import opened Errors
  import opened Collectors
  import opened PropertySources

  const NAME := "secretProperties"

  /** The entries of the new secretProperties source when one already exists:
      the old entries when the old source is map-backed, then the new entries,
      which override the old ones. */
  function MergeIfPossible(existing: Layer, source: Index): (r: Index)
    ensures r.Keys == source.Keys + (if existing.isMap then existing.props.Keys else {})
    ensures forall k :: k in source ==> r[k] == source[k]
    ensures existing.isMap ==> forall k :: k in existing.props && k !in source ==> r[k] == existing.props[k]
  {
    (if existing.isMap then existing.props else map[]) + source
  }

  /** SecretPropertiesPropertySource.merge: nothing happens for an empty
      source; an existing secretProperties source is replaced in place by the
      merged one; otherwise a new one is added right after systemEnvironment. */
  function Merge(source: Index, sources: seq<Layer>): (r: Result<seq<Layer>, Error>)
    ensures source == map[] ==> r == Ok(sources)
    ensures r.Err? <==> source != map[] && !Contains(sources, NAME) && !Contains(sources, SYSTEM_ENVIRONMENT)
  {
    if source == map[] then Ok(sources)
    else if Contains(sources, NAME) then
      var i := IndexOf(sources, NAME);
      Replace(sources, NAME, Layer(NAME, true, MergeIfPossible(sources[i], source)))
    else
      AddAfter(sources, SYSTEM_ENVIRONMENT, Layer(NAME, true, source))
  }

  /** The null checks merge makes before anything else. */
  function MergeNullable(source: Option<Index>, sources: Option<seq<Layer>>): (r: Result<seq<Layer>, Error>)
    ensures source.None? || sources.None? ==> r.Err? && r.error.IllegalArgument?
    ensures source.Some? && sources.Some? ==> r == Merge(source.value, sources.value)
  {
    if source.None? then Err(IllegalArgument("Property sources must not be null"))
    else if sources.None? then Err(IllegalArgument("Property sources must not be null"))
    else Merge(source.value, sources.value)
  }

  /** An existing secretProperties source keeps its position; only its entries
      change, to the old entries overridden by the new ones. */
  lemma MergeReplacesInPlace(source: Index, sources: seq<Layer>)
    requires source != map[] && Contains(sources, NAME)
    ensures var r := Merge(source, sources);
      var i := IndexOf(sources, NAME);
      r.Ok? && |r.value| == |sources|
      && (forall j :: 0 <= j < |sources| && j != i ==> r.value[j] == sources[j])
      && r.value[i] == Layer(NAME, true, MergeIfPossible(sources[i], source))
  {
  }

  /** Without a secretProperties source the new one lands directly after
      systemEnvironment, ahead of every lower-precedence source. */
  lemma MergeInsertsAfterSystemEnvironment(source: Index, sources: seq<Layer>)
    requires source != map[] && !Contains(sources, NAME) && Contains(sources, SYSTEM_ENVIRONMENT)
    ensures var i := IndexOf(sources, SYSTEM_ENVIRONMENT);
      Merge(source, sources) == Ok(sources[..i + 1] + [Layer(NAME, true, source)] + sources[i + 1..])
  {
    AddAfterFreshName(sources, SYSTEM_ENVIRONMENT, Layer(NAME, true, source));
  }

  /** With no secretProperties source yet, a merged secret decides its
      property when no source up to systemEnvironment holds it. */
  lemma MergeDecides(source: Index, sources: seq<Layer>, key: string)
    requires key in source && !Contains(sources, NAME) && Contains(sources, SYSTEM_ENVIRONMENT)
    requires forall j :: 0 <= j <= IndexOf(sources, SYSTEM_ENVIRONMENT) ==> key !in sources[j].props
    ensures Merge(source, sources).Ok?
    ensures GetProperty(Merge(source, sources).value, key) == Some(source[key])
  {
    var layer := Layer(NAME, true, source);
    assert Merge(source, sources) == AddAfter(sources, SYSTEM_ENVIRONMENT, layer);
    AddAfterDecides(sources, SYSTEM_ENVIRONMENT, layer, key);
  }

  /** A merge never creates a second secretProperties source. */
  lemma MergeKeepsAtMostOne(source: Index, sources: seq<Layer>)
    requires CountNamed(sources, NAME) <= 1
    ensures Merge(source, sources).Ok? ==> CountNamed(Merge(source, sources).value, NAME) == (if source == map[] then CountNamed(sources, NAME) else 1)
  {
    var r := Merge(source, sources);
    if source != map[] && r.Ok? {
      if Contains(sources, NAME) {
        var i := IndexOf(sources, NAME);
        var layer := Layer(NAME, true, MergeIfPossible(sources[i], source));
        assert r.value == sources[i := layer];
        CountNamedUpdate(sources, i, layer, NAME);
      } else {
        MergeInsertsAfterSystemEnvironment(source, sources);
        var i := IndexOf(sources, SYSTEM_ENVIRONMENT);
        assert sources[..i + 1] + [Layer(NAME, true, source)] + sources[i + 1..] == r.value;
        CountNamedInsert(sources, i + 1, Layer(NAME, true, source), NAME);
      }
    }
  }

  /** Applying merges one after another, as successive post-processors do. */
  function MergeAll(batches: seq<Index>, sources: seq<Layer>): Result<seq<Layer>, Error>
    decreases |batches|
  {
    if batches == [] then Ok(sources)
    else
      var next :- Merge(batches[0], sources);
      MergeAll(batches[1..], next)
  }

  /** Starting without a secretProperties source, any run of merges leaves at
      most one. */
  lemma {:induction false} MergeAllKeepsAtMostOne(batches: seq<Index>, sources: seq<Layer>)
    requires CountNamed(sources, NAME) <= 1
    ensures MergeAll(batches, sources).Ok? ==> CountNamed(MergeAll(batches, sources).value, NAME) <= 1
    decreases |batches|
  {
    if batches != [] {
      MergeKeepsAtMostOne(batches[0], sources);
      var next := Merge(batches[0], sources);
      if next.Ok? {
        MergeAllKeepsAtMostOne(batches[1..], next.value);
      }
    }
  }

  /** The entries held by the secretProperties source, if there is one. */
  function SecretEntries(sources: seq<Layer>): (r: Index)
    ensures !Contains(sources, NAME) ==> r == map[]
  {
    var i := IndexOf(sources, NAME);
    if i < 0 then map[] else sources[i].props
  }

  /** The merged source holds every merged entry, and earlier secrets survive
      unless a later merge supplies the same key. */
  lemma MergeSecretEntries(source: Index, sources: seq<Layer>)
    requires Merge(source, sources).Ok?
    requires Contains(sources, NAME) ==> sources[IndexOf(sources, NAME)].isMap
    ensures Contains(Merge(source, sources).value, NAME) <==> Contains(sources, NAME) || source != map[]
    ensures SecretEntries(Merge(source, sources).value) == SecretEntries(sources) + source
    ensures var r := Merge(source, sources).value;
      Contains(r, NAME) ==> r[IndexOf(r, NAME)].isMap
  {
    if source == map[] {
      assert SecretEntries(sources) + map[] == SecretEntries(sources);
    } else if Contains(sources, NAME) {
      MergeSecretEntriesReplaced(source, sources);
    } else {
      MergeSecretEntriesInserted(source, sources);
    }
  }

  lemma MergeSecretEntriesReplaced(source: Index, sources: seq<Layer>)
    requires source != map[] && Contains(sources, NAME)
    requires sources[IndexOf(sources, NAME)].isMap
    ensures var r := Merge(source, sources).value;
      Contains(r, NAME) && r[IndexOf(r, NAME)].isMap
      && SecretEntries(r) == SecretEntries(sources) + source
  {
    MergeReplacesInPlace(source, sources);
    var r := Merge(source, sources).value;
    var i := IndexOf(sources, NAME);
    IndexOfAt(r, NAME, i);
  }

  lemma MergeSecretEntriesInserted(source: Index, sources: seq<Layer>)
    requires source != map[] && !Contains(sources, NAME) && Contains(sources, SYSTEM_ENVIRONMENT)
    ensures var r := Merge(source, sources).value;
      Contains(r, NAME) && r[IndexOf(r, NAME)].isMap
      && SecretEntries(r) == SecretEntries(sources) + source
  {
    MergeInsertsAfterSystemEnvironment(source, sources);
    var r := Merge(source, sources).value;
    var i := IndexOf(sources, SYSTEM_ENVIRONMENT);
    assert r[i + 1] == Layer(NAME, true, source);
    assert forall j :: 0 <= j <= i ==> r[j] == sources[j];
    IndexOfAt(r, NAME, i + 1);
    assert SecretEntries(sources) + source == source;
  }

  /** Of two merges carrying the same key, the later one decides its value:
      the post-processor that runs later overrides an earlier one. */
  lemma LaterMergeWins(first: Index, second: Index, sources: seq<Layer>, key: string)
    requires !Contains(sources, NAME) && Contains(sources, SYSTEM_ENVIRONMENT)
    requires key in first && key in second
    ensures MergeAll([first, second], sources).Ok?
    ensures key in SecretEntries(MergeAll([first, second], sources).value)
    ensures SecretEntries(MergeAll([first, second], sources).value)[key] == second[key]
  {
    MergeSecretEntriesInserted(first, sources);
    var once := Merge(first, sources).value;
    MergeSecretEntries(second, once);
    var twice := Merge(second, once);
    assert [first, second][1..] == [second];
    assert MergeAll([first, second], sources) == MergeAll([second], once);
    assert MergeAll([second], once) == twice;
  }
}

=== FILE: SecretsEnvironment.dfy ===
/** SecretsEnvironment: resolves every location of a property index to its
    secret and merges the secrets into the environment's property sources. */
module SecretsEnvironment {
  import opened Wrappers
  import opened Errors
  import opened Collectors
  import opened PropertySources
  import opened SecretPropertiesPropertySource
  import PropertyIndexSupplier
  import DefaultSecretResolver

  type Supplied = PropertyIndexSupplier.Supplied

  /** SecretResolver.loadContent: a location's secret, if any. */
  type SecretResolver = string -> Option<string>

  /** The logger factory; logging is not modelled, only its null check. */
  datatype LogFactory = LogFactory

  /** The environment's property sources, the resolver, what the index
      supplier's get() yields, and the secrets collected so far. */
  datatype SecretsEnvironment = SecretsEnvironment(
    sources: seq<Layer>, resolver: SecretResolver, index: Supplied, source: Index)

  /** The constructor checks its four arguments for null in order and starts
      with no secrets collected. */
  function New(logFactory: Option<LogFactory>, environment: Option<seq<Layer>>,
               resolver: Option<SecretResolver>, index: Option<Supplied>): (r: Result<SecretsEnvironment, Error>)
    ensures r.Ok? <==> logFactory.Some? && environment.Some? && resolver.Some? && index.Some?
    ensures r.Err? ==> r.error.IllegalArgument?
    ensures r.Ok? ==> r.value.sources == environment.value && r.value.index == index.value
                      && r.value.source == map[]
  {
    if logFactory.None? then Err(IllegalArgument("Log factory must not be null"))
    else if environment.None? then Err(IllegalArgument("Environment must not be null"))
    else if resolver.None? then Err(IllegalArgument("Resolver must not be null"))
    else if index.None? then Err(IllegalArgument("Property index supplier must not be null"))
    else Ok(SecretsEnvironment(environment.value, resolver.value, index.value, map[]))
  }

  /** The default resolver seen through the SecretResolver interface, with
      the corrected loadContent. */
  function Default(r: DefaultSecretResolver.DefaultSecretResolver): SecretResolver {
    location => DefaultSecretResolver.LoadContent(r.loader, Some(location))
  }

  /** The default resolver as written: loadContent checks for text before it
      trims. */
  function DefaultAsWritten(r: DefaultSecretResolver.DefaultSecretResolver): SecretResolver {
    location => DefaultSecretResolver.LoadContentAsWritten(r.loader, Some(location))
  }

  /** The secrets an index resolves to: one per property whose location the
      resolver can load. */
  function Resolved(index: Index, resolver: SecretResolver): (r: Index)
    ensures forall k :: k in r <==> k in index && resolver(index[k]).Some?
    ensures forall k :: k in r ==> r[k] == resolver(index[k]).value
  {
    map k | k in index && resolver(index[k]).Some? :: resolver(index[k]).value
  }

  /** Resolvers that agree on every location of an index find the same
      secrets. */
  lemma ResolvedAgree(index: Index, r1: SecretResolver, r2: SecretResolver)
    requires forall k :: k in index ==> r1(index[k]) == r2(index[k])
    ensures Resolved(index, r1) == Resolved(index, r2)
  {
  }

  /** resolveSecretResources: walks the index in some order and puts each
      resolved secret into `source`; keys are distinct, so the order does not
      matter. */
  method ResolveSecretResources(index: Index, resolver: SecretResolver, source: Index) returns (r: Index)
    ensures forall k :: k in index && resolver(index[k]).Some? ==> k in r && r[k] == resolver(index[k]).value
    ensures forall k :: k in r ==> k in source || (k in index && resolver(index[k]).Some?)
    ensures forall k :: k in source && !(k in index && resolver(index[k]).Some?) ==> k in r && r[k] == source[k]
    ensures r == source + Resolved(index, resolver)
  {
    r := source;
    var remaining := index.Keys;
    while remaining != {}
      invariant remaining <= index.Keys
      invariant forall k :: k in source ==> k in r
      invariant forall k :: k in index && k !in remaining && resolver(index[k]).Some? ==>
                  k in r && r[k] == resolver(index[k]).value
      invariant forall k :: k in r ==> k in source || (k in index && k !in remaining && resolver(index[k]).Some?)
      invariant forall k :: k in r && !(k in index && k !in remaining && resolver(index[k]).Some?) ==> r[k] == source[k]
      decreases remaining
    {
      var k :| k in remaining;
      var content := resolver(index[k]);
      if content.Some? {
        r := r[k := content.value];
      }
      remaining := remaining - {k};
    }
    var want := source + Resolved(index, resolver);
    forall k ensures k in r <==> k in want {
    }
    forall k | k in r ensures r[k] == want[k] {
    }
    assert r.Keys == want.Keys;
  }

  /** processAndApply: get() the index (its failure propagates), resolve every
      location, and merge the collected secrets into the property sources. */
  function ProcessAndApply(se: SecretsEnvironment): (r: Result<SecretsEnvironment, Error>)
    ensures se.index.Err? ==> r == Err(se.index.error)
    ensures r.Ok? ==> r.value.resolver == se.resolver && r.value.index == se.index
    ensures r.Ok? ==>
              forall k :: k in se.index.value && se.resolver(se.index.value[k]).Some? ==>
                k in r.value.source && r.value.source[k] == se.resolver(se.index.value[k]).value
    ensures r.Ok? ==> forall k :: k in se.source ==> k in r.value.source
    ensures se.index.Ok? ==>
              (r.Err? <==> (se.source != map[] || Resolved(se.index.value, se.resolver) != map[])
                           && !Contains(se.sources, NAME)
                           && !Contains(se.sources, SYSTEM_ENVIRONMENT))
  {
    var index :- se.index;
    var source := se.source + Resolved(index, se.resolver);
    var sources :- Merge(source, se.sources);
    Ok(se.(sources := sources, source := source))
  }

  /** With no secrets collected yet, processAndApply merges exactly the
      secrets the index resolves to. */
  lemma ProcessAndApplyFresh(se: SecretsEnvironment)
    requires se.index.Ok? && se.source == map[]
    ensures var merged := Merge(Resolved(se.index.value, se.resolver), se.sources);
      ProcessAndApply(se).Ok? == merged.Ok?
      && (merged.Err? ==> ProcessAndApply(se) == Err(merged.error))
      && (merged.Ok? ==> ProcessAndApply(se).value.sources == merged.value)
  {
    var resolved := Resolved(se.index.value, se.resolver);
    assert se.source + resolved == resolved;
  }

  /** After processAndApply the secretProperties source holds every secret
      collected, on top of what it held before. */
  lemma ProcessAndApplyPublishes(se: SecretsEnvironment)
    requires ProcessAndApply(se).Ok?
    requires Contains(se.sources, NAME) ==> se.sources[IndexOf(se.sources, NAME)].isMap
    ensures var r := ProcessAndApply(se).value;
      SecretEntries(r.sources) == SecretEntries(se.sources) + r.source
  {
    var r := ProcessAndApply(se).value;
    MergeSecretEntries(r.source, se.sources);
  }

  /** A new secretProperties source sits right after systemEnvironment, so a
      secret is what the environment answers for its property unless a source
      up to systemEnvironment already holds that property. */
  lemma SecretIsVisible(se: SecretsEnvironment, key: string)
    requires se.index.Ok? && key in se.index.value && se.resolver(se.index.value[key]).Some?
    requires !Contains(se.sources, NAME) && Contains(se.sources, SYSTEM_ENVIRONMENT)
    requires forall j :: 0 <= j <= IndexOf(se.sources, SYSTEM_ENVIRONMENT) ==> key !in se.sources[j].props
    ensures ProcessAndApply(se).Ok?
    ensures GetProperty(ProcessAndApply(se).value.sources, key) == Some(se.resolver(se.index.value[key]).value)
  {
    var index := se.index.value;
    var source := se.source + Resolved(index, se.resolver);
    assert key in source && source[key] == se.resolver(index[key]).value;
    MergeDecides(source, se.sources, key);
    assert ProcessAndApply(se) == Ok(se.(sources := Merge(source, se.sources).value, source := source));
  }

  /** StandardEnvironment reduced to its two sources. */
  function StandardEnvironment(): seq<Layer> {
    [Layer("systemProperties", true, map[]), Layer(SYSTEM_ENVIRONMENT, true, map[])]
  }

  /** An empty index adds no secretProperties source. */
  lemma EmptyIndexAddsNothing(resolver: SecretResolver)
    ensures var se := New(Some(LogFactory), Some(StandardEnvironment()), Some(resolver), Some(Ok(map[]))).value;
            ProcessAndApply(se).Ok? && !Contains(ProcessAndApply(se).value.sources, NAME)
  {
    var se := New(Some(LogFactory), Some(StandardEnvironment()), Some(resolver), Some(Ok(map[]))).value;
    assert Resolved(map[], resolver) == map[];
    assert se.source + map[] == map[];
    assert !Contains(StandardEnvironment(), NAME);
  }

  /** A one-entry index and a resolver that returns the location itself:
      the environment then answers "bob" for spring.datasource.username. */
  lemma SingletonIndexIsApplied()
    ensures var se := New(Some(LogFactory), Some(StandardEnvironment()), Some(location => Some(location)),
                          Some(Ok(map["spring.datasource.username" := "bob"]))).value;
            ProcessAndApply(se).Ok?
            && Contains(ProcessAndApply(se).value.sources, NAME)
            && GetProperty(ProcessAndApply(se).value.sources, "spring.datasource.username") == Some("bob")
  {
    var se := New(Some(LogFactory), Some(StandardEnvironment()), Some(location => Some(location)),
                  Some(Ok(map["spring.datasource.username" := "bob"]))).value;
    var env := StandardEnvironment();
    assert IndexOf(env, SYSTEM_ENVIRONMENT) == 1;
    assert !Contains(env, NAME);
    SecretIsVisible(se, "spring.datasource.username");
    var r := ProcessAndApply(se).value;
    MergeSecretEntriesInserted(r.source, env);
  }
}

=== FILE: SecretsEnvironmentPostProcessors.dfy ===
/** The four environment post-processors of the secrets module: the property
    index each one reads, the order Spring runs them in, and what running one
    does to the environment's property sources. */
module SecretsEnvironmentPostProcessors {
  import opened Wrappers
  import opened Errors
  import opened JavaStrings
  import opened Collectors
  import opened PropertySources
  import opened Ordering
  import SecretPropertiesPropertySource
  import SecretsEnvironment
  import DefaultSecretResolver
  import PropertyIndexSupplier
  import FilenamePropertyIndexSupplier
  import ConfigDataPropertyIndexSupplier
  import EnvironmentPropertyIndexSupplier

  type ResourceLoader = DefaultSecretResolver.ResourceLoader

  datatype Processor =
    | Filename                    // FilenameSecretsEnvironmentPostProcessor
    | FilenameConfigData          // FilenameConfigDataSecretsEnvironmentPostProcessor
    | EnvironmentConfigData       // EnvironmentConfigDataSecretsEnvironmentPostProcessor
    | EnvironmentSecretsProperty  // EnvironmentSecretsPropertyEnvironmentPostProcessor

  const FILENAME_CONFIG_DATA_INFIX := "file"
  const ENVIRONMENT_CONFIG_DATA_INFIX := "env"
  const ENV_VAR_SUFFIX := "_FILE"

  /** How many steps of one a processor's ORDER lies past the filename
      processor's. */
  function Rank(p: Processor): nat {
    match p
    case Filename => 0
    case FilenameConfigData => 1
    case EnvironmentConfigData => 2
    case EnvironmentSecretsProperty => 3
  }

  /** Each processor's ORDER (and getOrder), in int arithmetic, from
      ConfigDataEnvironmentPostProcessor.ORDER: the filename processor adds
      100 to it and every later one adds 1 to its predecessor's. */
  function Order(p: Processor, configDataOrder: int): (r: int)
    requires IsInt32(configDataOrder)
    ensures IsInt32(r)
    ensures configDataOrder <= INT32_MAX - 103 ==> r == configDataOrder + 100 + Rank(p)
    decreases Rank(p)
  {
    match p
    case Filename =>
      Add32Exact(configDataOrder, 100);
      Add32(configDataOrder, 100)
    case FilenameConfigData =>
      var before := Order(Filename, configDataOrder);
      Add32Exact(before, 1);
      Add32(before, 1)
    case EnvironmentConfigData =>
      var before := Order(FilenameConfigData, configDataOrder);
      Add32Exact(before, 1);
      Add32(before, 1)
    case EnvironmentSecretsProperty =>
      var before := Order(EnvironmentConfigData, configDataOrder);
      Add32Exact(before, 1);
      Add32(before, 1)
  }

  /** The chain config-data < filename < filename-config-data <
      env-config-data < env-suffix is strict exactly when no step of it
      overflows an int. */
  lemma OrderChain(configDataOrder: int)
    requires IsInt32(configDataOrder)
    ensures (configDataOrder < Order(Filename, configDataOrder)
             && Order(Filename, configDataOrder) < Order(FilenameConfigData, configDataOrder)
             && Order(FilenameConfigData, configDataOrder) < Order(EnvironmentConfigData, configDataOrder)
             && Order(EnvironmentConfigData, configDataOrder) < Order(EnvironmentSecretsProperty, configDataOrder))
            <==> configDataOrder <= INT32_MAX - 103
  {
    var o0 := Order(Filename, configDataOrder);
    var o1 := Order(FilenameConfigData, configDataOrder);
    var o2 := Order(EnvironmentConfigData, configDataOrder);
    var o3 := Order(EnvironmentSecretsProperty, configDataOrder);
    Add32Increases(configDataOrder, 100);
    Add32Increases(o0, 1);
    Add32Increases(o1, 1);
    Add32Increases(o2, 1);
  }

  /** The config-data supplier a processor constructs for its infix. */
  function ConfigDataSupplier(sources: seq<Layer>, infix: string): (s: ConfigDataPropertyIndexSupplier.ConfigDataPropertyIndexSupplier)
    ensures s.sources == sources && s.prefix == ConfigDataPropertyIndexSupplier.Prefix(infix)
  {
    ConfigDataPropertyIndexSupplier.New(Some(SecretsEnvironment.LogFactory), Some(sources), Some(infix)).value
  }

  /** What a processor reads: the environment, and the file system the
      filename supplier lists. */
  datatype Context = Context(environment: Environment, fs: FilenamePropertyIndexSupplier.FileSystem)

  /** getPropertyIndexSupplier of each processor, applied: what get() on
      the supplier it constructs yields. */
  ghost function FilenameIndex(c: Context): PropertyIndexSupplier.Supplied {
    FilenamePropertyIndexSupplier.Get(c.environment.sources, c.fs)
  }

  ghost function FilenameConfigDataIndex(c: Context): PropertyIndexSupplier.Supplied {
    ConfigDataPropertyIndexSupplier.Get(ConfigDataSupplier(c.environment.sources, FILENAME_CONFIG_DATA_INFIX))
  }

  /** The only supplier whose values are substituted through the
      environment, by substituteValues as written. */
  ghost function EnvironmentConfigDataIndex(c: Context): PropertyIndexSupplier.Supplied {
    PropertyIndexSupplier.SubstituteValuesAsWritten(
      ConfigDataPropertyIndexSupplier.Get(ConfigDataSupplier(c.environment.sources, ENVIRONMENT_CONFIG_DATA_INFIX)),
      Some(c.environment.sources)).value
  }

  /** The supplier the env-suffix processor constructs. */
  function EnvironmentSupplier(environment: Environment): (s: EnvironmentPropertyIndexSupplier.EnvironmentPropertyIndexSupplier)
    ensures s.environment == environment && s.suffix == ENV_VAR_SUFFIX
  {
    EnvironmentPropertyIndexSupplier.New(Some(environment), Some(ENV_VAR_SUFFIX)).value
  }

  ghost function EnvironmentSecretsPropertyIndex(c: Context): PropertyIndexSupplier.Supplied {
    EnvironmentPropertyIndexSupplier.Get(EnvironmentSupplier(c.environment))
  }

  /** The application's resource loader, or the default one when the
      application has none. */
  function ResourceLoaderOf(application: Option<ResourceLoader>, fallback: ResourceLoader): (r: ResourceLoader)
    ensures application.Some? ==> r == application.value
    ensures application.None? ==> r == fallback
  {
    application.GetOr(fallback)
  }

  /** The resolver the processors hand the secrets environment, with the
      corrected loadContent; the one the program constructs is
      ResolverAsWrittenOf. */
  function ResolverOf(loader: ResourceLoader): (resolver: SecretsEnvironment.SecretResolver)
    ensures forall location :: resolver(location) == DefaultSecretResolver.LoadContent(loader, Some(location))
  {
    SecretsEnvironment.Default(DefaultSecretResolver.DefaultSecretResolver(loader))
  }

  /** The secrets environment postProcessEnvironment builds around an
      index. */
  function EnvironmentOf(index: PropertyIndexSupplier.Supplied, sources: seq<Layer>, loader: ResourceLoader)
    : (se: SecretsEnvironment.SecretsEnvironment)
    ensures se.sources == sources && se.index == index
    ensures se.resolver == ResolverOf(loader) && se.source == map[]
  {
    SecretsEnvironment.New(Some(SecretsEnvironment.LogFactory), Some(sources),
                           Some(ResolverOf(loader)), Some(index)).value
  }

  /** What every processor does with its index: a secrets environment over
      it and a default resolver over the loader, processed and applied; the
      result is the new list of property sources. It fails when the index
      does, or when secrets were found but there is neither a
      secretProperties nor a systemEnvironment source to place them by. */
  function PostProcessEnvironment(index: PropertyIndexSupplier.Supplied, sources: seq<Layer>, loader: ResourceLoader)
    : (r: Result<seq<Layer>, Error>)
    ensures index.Err? ==> r == Err(index.error)
    ensures index.Ok? ==>
              (r.Err? <==> SecretsEnvironment.Resolved(index.value, ResolverOf(loader)) != map[]
                           && !Contains(sources, SecretPropertiesPropertySource.NAME)
                           && !Contains(sources, SYSTEM_ENVIRONMENT))
  {
    var applied :- SecretsEnvironment.ProcessAndApply(EnvironmentOf(index, sources, loader));
    Ok(applied.sources)
  }

  /** A supplied index: the processor's result is the merge of the secrets
      the default resolver finds for it. */
  lemma PostProcessEnvironmentMerges(index: PropertyIndexSupplier.Supplied, sources: seq<Layer>, loader: ResourceLoader)
    requires index.Ok?
    ensures PostProcessEnvironment(index, sources, loader)
            == SecretPropertiesPropertySource.Merge(SecretsEnvironment.Resolved(index.value, ResolverOf(loader)), sources)
  {
    SecretsEnvironment.ProcessAndApplyFresh(EnvironmentOf(index, sources, loader));
  }

  /** An index none of whose locations loads leaves the sources as they
      are. */
  lemma NothingResolvedChangesNothing(index: PropertyIndexSupplier.Supplied, sources: seq<Layer>, loader: ResourceLoader)
    requires index.Ok?
    requires forall k :: k in index.value ==> DefaultSecretResolver.LoadContent(loader, Some(index.value[k])).None?
    ensures PostProcessEnvironment(index, sources, loader) == Ok(sources)
  {
    var se := EnvironmentOf(index, sources, loader);
    NoKeyMap(SecretsEnvironment.Resolved(se.index.value, se.resolver));
    assert se.source + map[] == map[];
  }

  /** Sources that let a new secretProperties source decide a property: none
      exists yet, systemEnvironment does, and no source up to it holds the
      property. */
  predicate Overridable(sources: seq<Layer>, key: string) {
    !Contains(sources, SecretPropertiesPropertySource.NAME) && Contains(sources, SYSTEM_ENVIRONMENT)
    && forall j :: 0 <= j <= IndexOf(sources, SYSTEM_ENVIRONMENT) ==> key !in sources[j].props
  }

  /** Whatever the index, a property whose location loads to a secret
      reads as that secret afterwards. */
  lemma SecretBecomesVisible(index: PropertyIndexSupplier.Supplied, sources: seq<Layer>, loader: ResourceLoader, key: string)
    requires index.Ok? && key in index.value
    requires DefaultSecretResolver.LoadContent(loader, Some(index.value[key])).Some?
    requires Overridable(sources, key)
    ensures PostProcessEnvironment(index, sources, loader).Ok?
    ensures GetProperty(PostProcessEnvironment(index, sources, loader).value, key)
            == DefaultSecretResolver.LoadContent(loader, Some(index.value[key]))
  {
    SecretsEnvironment.SecretIsVisible(EnvironmentOf(index, sources, loader), key);
  }

  /** An index of one property: its secret reads as the property
      afterwards. */
  lemma OneSecretBecomesVisible(index: PropertyIndexSupplier.Supplied, sources: seq<Layer>, loader: ResourceLoader,
                                key: string, location: string)
    requires index == Ok(map[key := location])
    requires DefaultSecretResolver.LoadContent(loader, Some(location)).Some?
    requires Overridable(sources, key)
    ensures PostProcessEnvironment(index, sources, loader).Ok?
    ensures GetProperty(PostProcessEnvironment(index, sources, loader).value, key)
            == DefaultSecretResolver.LoadContent(loader, Some(location))
  {
    SecretBecomesVisible(index, sources, loader, key);
  }

  /** The resolver the program as written constructs: DefaultSecretResolver
      over the loader, whose loadContent checks for text before it trims. */
  function ResolverAsWrittenOf(loader: ResourceLoader): (resolver: SecretsEnvironment.SecretResolver)
    ensures forall location :: resolver(location) == DefaultSecretResolver.LoadContentAsWritten(loader, Some(location))
  {
    SecretsEnvironment.DefaultAsWritten(DefaultSecretResolver.DefaultSecretResolver(loader))
  }

  function EnvironmentAsWrittenOf(index: PropertyIndexSupplier.Supplied, sources: seq<Layer>, loader: ResourceLoader)
    : (se: SecretsEnvironment.SecretsEnvironment)
    ensures se.sources == sources && se.index == index
    ensures se.resolver == ResolverAsWrittenOf(loader) && se.source == map[]
  {
    SecretsEnvironment.New(Some(SecretsEnvironment.LogFactory), Some(sources),
                           Some(ResolverAsWrittenOf(loader)), Some(index)).value
  }

  /** postProcessEnvironment with the resolver the program constructs: a
      secret may now be blank, and a blank secret counts as found, both for
      what is merged and for the failure without an anchor source. */
  function PostProcessEnvironmentAsWritten(index: PropertyIndexSupplier.Supplied, sources: seq<Layer>, loader: ResourceLoader)
    : (r: Result<seq<Layer>, Error>)
    ensures index.Err? ==> r == Err(index.error)
    ensures index.Ok? ==>
              (r.Err? <==> SecretsEnvironment.Resolved(index.value, ResolverAsWrittenOf(loader)) != map[]
                           && !Contains(sources, SecretPropertiesPropertySource.NAME)
                           && !Contains(sources, SYSTEM_ENVIRONMENT))
  {
    var applied :- SecretsEnvironment.ProcessAndApply(EnvironmentAsWrittenOf(index, sources, loader));
    Ok(applied.sources)
  }

  lemma PostProcessEnvironmentAsWrittenMerges(index: PropertyIndexSupplier.Supplied, sources: seq<Layer>, loader: ResourceLoader)
    requires index.Ok?
    ensures PostProcessEnvironmentAsWritten(index, sources, loader)
            == SecretPropertiesPropertySource.Merge(SecretsEnvironment.Resolved(index.value, ResolverAsWrittenOf(loader)), sources)
  {
    SecretsEnvironment.ProcessAndApplyFresh(EnvironmentAsWrittenOf(index, sources, loader));
  }

  /** A location whose content passes the text check but trims to blank. */
  predicate BlankAsWritten(loader: ResourceLoader, location: string) {
    var content := DefaultSecretResolver.LoadContentAsWritten(loader, Some(location));
    content.Some? && !HasText(content.value)
  }

  /** Without blank content the two resolvers find the same secrets. */
  lemma ResolvedAgreeUnlessBlank(m: Index, loader: ResourceLoader)
    requires forall k :: k in m ==> !BlankAsWritten(loader, m[k])
    ensures SecretsEnvironment.Resolved(m, ResolverAsWrittenOf(loader)) == SecretsEnvironment.Resolved(m, ResolverOf(loader))
  {
    var asWritten, corrected := ResolverAsWrittenOf(loader), ResolverOf(loader);
    forall k | k in m ensures asWritten(m[k]) == corrected(m[k]) {
      DefaultSecretResolver.LoadContentAgreesUnlessBlank(loader, Some(m[k]));
    }
    SecretsEnvironment.ResolvedAgree(m, asWritten, corrected);
  }

  /** The program as written and the corrected model post-process alike
      unless some location of the index holds content that trims to blank. */
  lemma AsWrittenAgreesUnlessBlank(index: PropertyIndexSupplier.Supplied, sources: seq<Layer>, loader: ResourceLoader)
    requires index.Ok? ==> forall k :: k in index.value ==> !BlankAsWritten(loader, index.value[k])
    ensures PostProcessEnvironmentAsWritten(index, sources, loader) == PostProcessEnvironment(index, sources, loader)
  {
    if index.Ok? {
      ResolvedAgreeUnlessBlank(index.value, loader);
      PostProcessEnvironmentMerges(index, sources, loader);
      PostProcessEnvironmentAsWrittenMerges(index, sources, loader);
    }
  }

  /** As written, a property whose location loads reads as the loaded
      content afterwards, blank or not. */
  lemma SecretBecomesVisibleAsWritten(index: PropertyIndexSupplier.Supplied, sources: seq<Layer>, loader: ResourceLoader, key: string)
    requires index.Ok? && key in index.value
    requires DefaultSecretResolver.LoadContentAsWritten(loader, Some(index.value[key])).Some?
    requires Overridable(sources, key)
    ensures PostProcessEnvironmentAsWritten(index, sources, loader).Ok?
    ensures GetProperty(PostProcessEnvironmentAsWritten(index, sources, loader).value, key)
            == DefaultSecretResolver.LoadContentAsWritten(loader, Some(index.value[key]))
  {
    SecretsEnvironment.SecretIsVisible(EnvironmentAsWrittenOf(index, sources, loader), key);
  }

  /** Sources of only an empty systemEnvironment let a new secrets source
      decide every property. */
  lemma OnlySystemEnvironmentIsOverridable(key: string)
    ensures Overridable([Layer(SYSTEM_ENVIRONMENT, true, map[])], key)
  {
    assert IndexOf([Layer(SYSTEM_ENVIRONMENT, true, map[])], SYSTEM_ENVIRONMENT) == 0;
  }

  /** A secret resource of NUL characters: as written the property reads as
      the empty string afterwards; the corrected resolver finds no secret
      there, so nothing changes. */
  lemma BlankSecretIsSetAsWritten(key: string, location: string)
    requires HasText(location)
    ensures var index := Ok(map[key := location]);
      var loader := map[location := "\U{0}\U{0}"];
      var standard := [Layer(SYSTEM_ENVIRONMENT, true, map[])];
      PostProcessEnvironmentAsWritten(index, standard, loader).Ok?
      && GetProperty(PostProcessEnvironmentAsWritten(index, standard, loader).value, key) == Some("")
      && PostProcessEnvironment(index, standard, loader) == Ok(standard)
  {
    var loader := map[location := "\U{0}\U{0}"];
    var standard := [Layer(SYSTEM_ENVIRONMENT, true, map[])];
    DefaultSecretResolver.NulContentIsBlank(loader, location);
    OnlySystemEnvironmentIsOverridable(key);
    SecretBecomesVisibleAsWritten(Ok(map[key := location]), standard, loader, key);
    NothingResolvedChangesNothing(Ok(map[key := location]), standard, loader);
  }

  /** The same resource with neither a secretProperties nor a
      systemEnvironment source: as written the processor fails, since the
      blank secret counts as found; the corrected one leaves the sources
      alone. */
  lemma BlankSecretFailsAsWritten(key: string, location: string)
    requires HasText(location)
    ensures var index := Ok(map[key := location]);
      var loader := map[location := "\U{0}\U{0}"];
      PostProcessEnvironmentAsWritten(index, [], loader).Err?
      && PostProcessEnvironment(index, [], loader) == Ok([])
  {
    var index := map[key := location];
    var loader := map[location := "\U{0}\U{0}"];
    DefaultSecretResolver.NulContentIsBlank(loader, location);
    NothingResolvedChangesNothing(Ok(index), [], loader);
    var resolver := ResolverAsWrittenOf(loader);
    assert resolver(location) == Some("");
    assert key in SecretsEnvironment.Resolved(index, resolver);
    assert !Contains([], SecretPropertiesPropertySource.NAME) && !Contains([], SYSTEM_ENVIRONMENT);
  }

  /** The filename processor: an indexed file's property reads as the
      secret loaded from the file's URI. */
  lemma FilenameSetsFileSecret(c: Context, loader: ResourceLoader, f: FilenamePropertyIndexSupplier.FileEntry)
    requires var sources := c.environment.sources;
      FilenamePropertyIndexSupplier.GetSeparator(sources).Ok?
      && c.fs.list(FilenamePropertyIndexSupplier.BaseDir(sources)).Listed?
      && FilenameIndex(c).Ok?
    requires var sources := c.environment.sources;
      var separator := FilenamePropertyIndexSupplier.GetSeparator(sources).value;
      f in c.fs.list(FilenamePropertyIndexSupplier.BaseDir(sources)).entries
      && FilenamePropertyIndexSupplier.Eligible(separator)(f)
    requires var sources := c.environment.sources;
      var uri := c.fs.toUri(FilenamePropertyIndexSupplier.BaseDir(sources), f.name);
      DefaultSecretResolver.LoadContent(loader, Some(uri)).Some?
    requires var separator := FilenamePropertyIndexSupplier.GetSeparator(c.environment.sources).value;
      Overridable(c.environment.sources, FilenamePropertyIndexSupplier.KeyOf(separator)(f))
    ensures var sources := c.environment.sources;
      var separator := FilenamePropertyIndexSupplier.GetSeparator(sources).value;
      var uri := c.fs.toUri(FilenamePropertyIndexSupplier.BaseDir(sources), f.name);
      PostProcessEnvironment(FilenameIndex(c), c.environment.sources, loader).Ok?
      && GetProperty(PostProcessEnvironment(FilenameIndex(c), c.environment.sources, loader).value, FilenamePropertyIndexSupplier.KeyOf(separator)(f))
         == DefaultSecretResolver.LoadContent(loader, Some(uri))
  {
    var sources := c.environment.sources;
    var separator := FilenamePropertyIndexSupplier.GetSeparator(sources).value;
    FilenamePropertyIndexSupplier.GetIndexesAllowedFiles(sources, c.fs);
    SecretBecomesVisible(FilenameIndex(c), sources, loader, FilenamePropertyIndexSupplier.KeyOf(separator)(f));
  }

  /** The only secrets.<infix>.properties declaration in the sources: one
      map-backed source holds it, and no other key qualifies. */
  ghost predicate OnlyDeclaration(sources: seq<Layer>, infix: string, declaration: string) {
    var s := ConfigDataSupplier(sources, infix);
    ConfigDataPropertyIndexSupplier.Candidate(s.prefix, declaration)
    && ConfigDataPropertyIndexSupplier.Holding(sources, declaration) == 1
    && forall n :: ConfigDataPropertyIndexSupplier.Declared(s, n) ==> n == declaration
  }

  /** The declaration of `property` under an infix. */
  function Declaration(infix: string, property: string): (d: string)
    ensures ConfigDataPropertyIndexSupplier.KeyOf(ConfigDataPropertyIndexSupplier.Prefix(infix))(d) == property
    ensures ConfigDataPropertyIndexSupplier.Candidate(ConfigDataPropertyIndexSupplier.Prefix(infix), d)
  {
    ConfigDataPropertyIndexSupplier.KeyAfterPrefix(ConfigDataPropertyIndexSupplier.Prefix(infix), '.', property);
    ConfigDataPropertyIndexSupplier.Prefix(infix) + "." + property
  }

  /** The index a single declaration yields: its property, mapped to the
      declaration's value. */
  lemma OneDeclarationIndex(sources: seq<Layer>, infix: string, property: string)
    requires OnlyDeclaration(sources, infix, Declaration(infix, property))
    ensures GetProperty(sources, Declaration(infix, property)).Some?
    ensures ConfigDataPropertyIndexSupplier.Get(ConfigDataSupplier(sources, infix))
            == Ok(map[property := GetProperty(sources, Declaration(infix, property)).value])
  {
    var s := ConfigDataSupplier(sources, infix);
    var d := Declaration(infix, property);
    ConfigDataPropertyIndexSupplier.OneDeclarationIsIndexed(s, d);
    assert d[|s.prefix| + 1..] == property;
  }

  /** The filename-config-data processor uses a declared value directly as
      the location: secrets.file.properties.<property>=<location> makes
      <property> read as the secret at <location>. */
  lemma FilenameConfigDataSetsDeclaredProperty(c: Context, loader: ResourceLoader, property: string, location: string)
    requires OnlyDeclaration(c.environment.sources, FILENAME_CONFIG_DATA_INFIX, Declaration(FILENAME_CONFIG_DATA_INFIX, property))
    requires GetProperty(c.environment.sources, Declaration(FILENAME_CONFIG_DATA_INFIX, property)) == Some(location)
    requires DefaultSecretResolver.LoadContent(loader, Some(location)).Some?
    requires Overridable(c.environment.sources, property)
    ensures PostProcessEnvironment(FilenameConfigDataIndex(c), c.environment.sources, loader).Ok?
    ensures GetProperty(PostProcessEnvironment(FilenameConfigDataIndex(c), c.environment.sources, loader).value, property)
            == DefaultSecretResolver.LoadContent(loader, Some(location))
  {
    FilenameConfigDataIndexIs(c, property);
    SecretBecomesVisible(FilenameConfigDataIndex(c), c.environment.sources, loader, property);
  }

  lemma FilenameConfigDataIndexIs(c: Context, property: string)
    requires OnlyDeclaration(c.environment.sources, FILENAME_CONFIG_DATA_INFIX, Declaration(FILENAME_CONFIG_DATA_INFIX, property))
    ensures GetProperty(c.environment.sources, Declaration(FILENAME_CONFIG_DATA_INFIX, property)).Some?
    ensures FilenameConfigDataIndex(c)
            == Ok(map[property := GetProperty(c.environment.sources, Declaration(FILENAME_CONFIG_DATA_INFIX, property)).value])
  {
    OneDeclarationIndex(c.environment.sources, FILENAME_CONFIG_DATA_INFIX, property);
  }

  /** The env-config-data processor treats a declared value as the name of
      a property holding the location: secrets.env.properties.<property>=<name>
      with <name>=<location> makes <property> read as the secret at the
      trimmed location. */
  lemma EnvironmentConfigDataSetsDeclaredProperty(c: Context, loader: ResourceLoader, property: string,
                                                 name: string, location: string)
    requires OnlyDeclaration(c.environment.sources, ENVIRONMENT_CONFIG_DATA_INFIX, Declaration(ENVIRONMENT_CONFIG_DATA_INFIX, property))
    requires GetProperty(c.environment.sources, Declaration(ENVIRONMENT_CONFIG_DATA_INFIX, property)) == Some(name)
    requires GetProperty(c.environment.sources, name) == Some(location) && HasText(Trim(location))
    requires DefaultSecretResolver.LoadContent(loader, Some(Trim(location))).Some?
    requires Overridable(c.environment.sources, property)
    ensures PostProcessEnvironment(EnvironmentConfigDataIndex(c), c.environment.sources, loader).Ok?
    ensures GetProperty(PostProcessEnvironment(EnvironmentConfigDataIndex(c), c.environment.sources, loader).value, property)
            == DefaultSecretResolver.LoadContent(loader, Some(Trim(location)))
  {
    EnvironmentConfigDataIndexIs(c, property, name, location);
    OneSecretBecomesVisible(EnvironmentConfigDataIndex(c), c.environment.sources, loader, property, Trim(location));
  }

  lemma EnvironmentConfigDataIndexIs(c: Context, property: string, name: string, location: string)
    requires OnlyDeclaration(c.environment.sources, ENVIRONMENT_CONFIG_DATA_INFIX, Declaration(ENVIRONMENT_CONFIG_DATA_INFIX, property))
    requires GetProperty(c.environment.sources, Declaration(ENVIRONMENT_CONFIG_DATA_INFIX, property)) == Some(name)
    requires GetProperty(c.environment.sources, name) == Some(location) && HasText(Trim(location))
    ensures EnvironmentConfigDataIndex(c) == Ok(map[property := Trim(location)])
  {
    var sources := c.environment.sources;
    OneDeclarationIndex(sources, ENVIRONMENT_CONFIG_DATA_INFIX, property);
    HasTextOfTrim(location);
    PropertyIndexSupplier.SubstituteValuesAsWrittenOfOne(property, name, sources, location);
  }

  /** The env-suffix processor: a variable <PROPERTY>_FILE whose value is a
      location makes <property> read as the secret at that location. */
  lemma EnvironmentSecretsPropertySetsProperty(c: Context, loader: ResourceLoader, property: string, location: string)
    requires EnvironmentPropertyIndexSupplier.PlainProperty(property)
    requires c.environment.systemEnvironment.Keys == {EnvironmentPropertyIndexSupplier.VariableName(property, ENV_VAR_SUFFIX)}
    requires GetProperty(c.environment.sources, EnvironmentPropertyIndexSupplier.VariableName(property, ENV_VAR_SUFFIX)) == Some(location)
    requires HasText(location) && DefaultSecretResolver.LoadContent(loader, Some(location)).Some?
    requires Overridable(c.environment.sources, property)
    ensures PostProcessEnvironment(EnvironmentSecretsPropertyIndex(c), c.environment.sources, loader).Ok?
    ensures GetProperty(PostProcessEnvironment(EnvironmentSecretsPropertyIndex(c), c.environment.sources, loader).value, property)
            == DefaultSecretResolver.LoadContent(loader, Some(location))
  {
    EnvironmentSecretsPropertyIndexIs(c, property);
    OneSecretBecomesVisible(EnvironmentSecretsPropertyIndex(c), c.environment.sources, loader, property, location);
  }

  lemma EnvironmentSecretsPropertyIndexIs(c: Context, property: string)
    requires EnvironmentPropertyIndexSupplier.PlainProperty(property)
    requires c.environment.systemEnvironment.Keys == {EnvironmentPropertyIndexSupplier.VariableName(property, ENV_VAR_SUFFIX)}
    requires HasTextOpt(GetProperty(c.environment.sources, EnvironmentPropertyIndexSupplier.VariableName(property, ENV_VAR_SUFFIX)))
    ensures EnvironmentSecretsPropertyIndex(c)
            == Ok(map[property := GetProperty(c.environment.sources, EnvironmentPropertyIndexSupplier.VariableName(property, ENV_VAR_SUFFIX)).value])
  {
    var s := EnvironmentSupplier(c.environment);
    assert s.suffix == ENV_VAR_SUFFIX;
    EnvironmentPropertyIndexSupplier.OnePropertyIsIndexed(s, property);
  }

  /** With no secrets.file.properties declaration at all the
      filename-config-data processor leaves the sources as they are. */
  lemma NoDeclarationChangesNothing(c: Context, loader: ResourceLoader)
    requires forall n :: !ConfigDataPropertyIndexSupplier.Declared(ConfigDataSupplier(c.environment.sources, FILENAME_CONFIG_DATA_INFIX), n)
    ensures PostProcessEnvironment(FilenameConfigDataIndex(c), c.environment.sources, loader) == Ok(c.environment.sources)
  {
    NoDeclarationIndex(c);
    NothingResolvedChangesNothing(FilenameConfigDataIndex(c), c.environment.sources, loader);
  }

  lemma NoDeclarationIndex(c: Context)
    requires forall n :: !ConfigDataPropertyIndexSupplier.Declared(ConfigDataSupplier(c.environment.sources, FILENAME_CONFIG_DATA_INFIX), n)
    ensures FilenameConfigDataIndex(c) == Ok(map[])
  {
    ConfigDataPropertyIndexSupplier.NothingDeclaredIsEmpty(ConfigDataSupplier(c.environment.sources, FILENAME_CONFIG_DATA_INFIX));
  }
}

=== FILE: SpringEnvironmentPropertySecretsProcessor.dfy ===
/** The environment-variable processor of the older spring package: every
    system-environment variable ending with _FILE names the property it
    spells, its value is the location of the secret, and the secrets form a
    source of their own right after the filename processor's source. */
module SpringEnvironmentPropertySecretsProcessor {
  import opened Wrappers
  import opened Errors
  import opened JavaStrings
  import opened Collectors
  import opened PropertySources
  import opened Ordering
  import opened DefaultSecretResolver
  import F = FilenamePropertyIndexSupplier
  import Directories
  import SSP = SpringSecretsProcessor
  import FN = SpringFilenameSecretsProcessor
  import SB = SuffixBasedEnvironmentPropertySecretsProcessor

  const PROPERTY_SOURCE_NAME := "environmentPropertySecrets"
  const ORDER := LOWEST_PRECEDENCE - 10

  /** The filename processor runs one step earlier, so its source exists
      when this one is placed after it. */
  lemma RunsAfterFilenameProcessor()
    ensures IsInt32(FN.ORDER) && IsInt32(ORDER)
    ensures ORDER == FN.ORDER + 1
  {
  }

  /** getSystemProperties: the same stream as the boot module's suffix-based
      processor, the _FILE variables collected with
      toMap(convertToPropertyName, identity). */
  ghost function GetSystemProperties(environment: Environment): Result<Index, Error> {
    SB.GetSystemProperties(environment)
  }

  /** environment::getProperty as the substitution step. */
  function LookUp(sources: seq<Layer>): (substitute: SSP.Substitute)
    ensures forall n :: substitute(n) == GetProperty(sources, n)
  {
    n => GetProperty(sources, n)
  }

  /** resolve: the variable looked up in the environment, then loaded as a
      resource when it has text and exists, read, trimmed, and kept when it
      has text. */
  function Resolve(variable: string, sources: seq<Layer>, loader: ResourceLoader): (r: Option<string>)
    ensures r.Some? ==> HasText(r.value) && Trim(r.value) == r.value
  {
    SSP.Resolve(variable, LookUp(sources), loader)
  }

  /** A variable resolves as loadContent resolves its value. */
  lemma ResolveLooksUpThenLoads(variable: string, sources: seq<Layer>, loader: ResourceLoader)
    ensures Resolve(variable, sources, loader) == LoadContent(loader, GetProperty(sources, variable))
  {
    SSP.ResolveIsLoadContent(variable, LookUp(sources), loader);
  }

  /** resolveSecretResources: a fresh map of the properties whose variable
      resolves, each mapped to its secret. */
  function ResolveSecretResources(index: Index, sources: seq<Layer>, loader: ResourceLoader): (r: Index)
    ensures forall k :: k in r <==> k in index && LoadContent(loader, GetProperty(sources, index[k])).Some?
    ensures forall k :: k in r ==> r[k] == LoadContent(loader, GetProperty(sources, index[k])).value
  {
    SSP.ResolveSecretResources(index, LookUp(sources), loader)
  }

  /** The secrets are those the boot module's suffix-based processor finds
      once it looks its variables up. */
  lemma ResolvedAsSuffixBasedWithLookUp(index: Index, sources: seq<Layer>, loader: ResourceLoader)
    ensures ResolveSecretResources(index, sources, loader) == SB.ResolveSubstituted(index, sources, loader)
  {
    SameEntries(ResolveSecretResources(index, sources, loader), SB.ResolveSubstituted(index, sources, loader));
  }

  function SecretsSource(index: Index, sources: seq<Layer>, loader: ResourceLoader): (layer: Layer)
    ensures layer.name == PROPERTY_SOURCE_NAME && layer.isMap
    ensures layer.props == ResolveSecretResources(index, sources, loader)
  {
    Layer(PROPERTY_SOURCE_NAME, true, ResolveSecretResources(index, sources, loader))
  }

  /** postProcessEnvironment: the index (its failure propagates), its
      secrets, and addAfter(filenameSecrets, source), which fails when the
      filename processor's source is missing. */
  ghost function PostProcessEnvironment(environment: Environment, loader: ResourceLoader)
    : (r: Result<seq<Layer>, Error>)
    ensures GetSystemProperties(environment).Err? ==> r == Err(GetSystemProperties(environment).error)
    ensures GetSystemProperties(environment).Ok? ==>
              (r.Ok? <==> Contains(RemoveFirst(environment.sources, PROPERTY_SOURCE_NAME), FN.PROPERTY_SOURCE_NAME))
    ensures GetSystemProperties(environment).Ok? && r.Err? ==> r.error.IllegalArgument?
  {
    var index :- GetSystemProperties(environment);
    AddAfter(environment.sources, FN.PROPERTY_SOURCE_NAME, SecretsSource(index, environment.sources, loader))
  }

  /** The processor is the spring SecretsProcessor placed after
      filenameSecrets, substituting through the environment. */
  lemma IsSpringSecretsProcessor(environment: Environment, loader: ResourceLoader)
    ensures PostProcessEnvironment(environment, loader)
            == SSP.PostProcessEnvironment(SSP.SpringSecretsProcessor(PROPERTY_SOURCE_NAME, FN.PROPERTY_SOURCE_NAME),
                                          GetSystemProperties(environment), LookUp(environment.sources),
                                          environment.sources, loader)
  {
  }

  /** Without the filename processor's source the processor raises, even
      when no variable is indexed. */
  lemma MissingFilenameSourceFails(environment: Environment, loader: ResourceLoader)
    requires GetSystemProperties(environment).Ok?
    requires !Contains(environment.sources, FN.PROPERTY_SOURCE_NAME)
    ensures PostProcessEnvironment(environment, loader).Err?
    ensures PostProcessEnvironment(environment, loader).error.IllegalArgument?
  {
    var index := GetSystemProperties(environment).value;
    var layer := SecretsSource(index, environment.sources, loader);
    assert PostProcessEnvironment(environment, loader) == AddAfter(environment.sources, FN.PROPERTY_SOURCE_NAME, layer);
    AddAfterMissingAnchor(environment.sources, FN.PROPERTY_SOURCE_NAME, layer);
  }

  /** The sources the two processors start from: systemEnvironment present,
      neither of their sources yet. */
  predicate Fresh(sources: seq<Layer>) {
    Contains(sources, SYSTEM_ENVIRONMENT)
    && !Contains(sources, FN.PROPERTY_SOURCE_NAME) && !Contains(sources, PROPERTY_SOURCE_NAME)
  }

  /** The filename processor, run first, puts its source right after
      systemEnvironment and keeps filenameSecrets and the environment
      processor's name where they were. */
  lemma FilenameSourceAfterSystemEnvironment(sources: seq<Layer>, fs: F.FileSystem, read: FN.Reader)
    requires Fresh(sources) && FN.ResolveAll(Directories.BaseDirOf(sources, FN.BASE_DIR_PROPERTY), fs, read).Ok?
    ensures var i := IndexOf(sources, SYSTEM_ENVIRONMENT);
      var fl := Layer(FN.PROPERTY_SOURCE_NAME, true, FN.NonEmptyValues(FN.ResolveAll(Directories.BaseDirOf(sources, FN.BASE_DIR_PROPERTY), fs, read).value));
      FN.PostProcessEnvironment(sources, fs, read) == Ok(sources[..i + 1] + [fl] + sources[i + 1..])
  {
    var fl := Layer(FN.PROPERTY_SOURCE_NAME, true, FN.NonEmptyValues(FN.ResolveAll(Directories.BaseDirOf(sources, FN.BASE_DIR_PROPERTY), fs, read).value));
    AddAfterFreshName(sources, SYSTEM_ENVIRONMENT, fl);
  }

  /** After the filename processor, the environment processor puts its
      source right after the filename source: one source more, in
      order. */
  lemma SecretsSourceAfterFilenameSource(sources: seq<Layer>, i: int, fl: Layer, environment: Environment, loader: ResourceLoader)
    requires Fresh(sources) && i == IndexOf(sources, SYSTEM_ENVIRONMENT) && fl.name == FN.PROPERTY_SOURCE_NAME
    requires environment.sources == sources[..i + 1] + [fl] + sources[i + 1..]
    requires GetSystemProperties(environment).Ok?
    ensures var el := SecretsSource(GetSystemProperties(environment).value, environment.sources, loader);
      PostProcessEnvironment(environment, loader) == Ok(sources[..i + 1] + [fl, el] + sources[i + 1..])
  {
    var el := SecretsSource(GetSystemProperties(environment).value, environment.sources, loader);
    assert PostProcessEnvironment(environment, loader) == AddAfter(environment.sources, FN.PROPERTY_SOURCE_NAME, el);
    AddAfterAddedSource(sources, i, fl, el);
  }

  /** The order of the two sources decides between them: a property both
      a file and a variable supply reads as the file's content, and one
      only a variable supplies reads as that variable's secret, whenever no
      source up to systemEnvironment holds the property. */
  lemma FileSecretPrecedesVariableSecret(sources: seq<Layer>, i: int, fl: Layer, el: Layer, key: string)
    requires 0 <= i < |sources|
    requires forall j :: 0 <= j <= i ==> key !in sources[j].props
    requires key in fl.props || key in el.props
    ensures GetProperty(sources[..i + 1] + [fl, el] + sources[i + 1..], key)
            == if key in fl.props then Some(fl.props[key]) else Some(el.props[key])
  {
    var s2 := sources[..i + 1] + [fl, el] + sources[i + 1..];
    assert s2[i + 1] == fl && s2[i + 2] == el;
    assert forall j :: 0 <= j <= i ==> s2[j] == sources[j];
    if key in fl.props {
      GetPropertyAt(s2, key, i + 1);
    } else {
      GetPropertyAt(s2, key, i + 2);
    }
  }

  /** With the index in hand, the processor is one addAfter of its secrets
      source. */
  lemma PostProcessIsAddAfter(s1: seq<Layer>, systemEnvironment: map<string, string>, loader: ResourceLoader, index: Index)
    requires GetSystemProperties(Environment(s1, systemEnvironment)) == Ok(index)
    ensures PostProcessEnvironment(Environment(s1, systemEnvironment), loader)
            == AddAfter(s1, FN.PROPERTY_SOURCE_NAME, SecretsSource(index, s1, loader))
  {
  }

  /** The environment processor run on the sources the filename processor
      left: the files' source decides what it holds, the secrets source the
      rest of what it holds. */
  lemma EnvironmentAfterFiles(sources: seq<Layer>, s1: seq<Layer>, files: Index, el: Layer,
                              s2: Result<seq<Layer>, Error>, key: string)
    requires Fresh(sources) && el.name == PROPERTY_SOURCE_NAME
    requires forall j :: 0 <= j <= IndexOf(sources, SYSTEM_ENVIRONMENT) ==> key !in sources[j].props
    requires var i := IndexOf(sources, SYSTEM_ENVIRONMENT);
      s1 == sources[..i + 1] + [Layer(FN.PROPERTY_SOURCE_NAME, true, files)] + sources[i + 1..]
    requires s2 == AddAfter(s1, FN.PROPERTY_SOURCE_NAME, el)
    ensures s2.Ok?
    ensures key in files ==> GetProperty(s2.value, key) == Some(files[key])
    ensures key !in files && key in el.props ==> GetProperty(s2.value, key) == Some(el.props[key])
  {
    var i := IndexOf(sources, SYSTEM_ENVIRONMENT);
    var fl := Layer(FN.PROPERTY_SOURCE_NAME, true, files);
    AddAfterAddedSource(sources, i, fl, el);
    if key in files || key in el.props {
      FileSecretPrecedesVariableSecret(sources, i, fl, el, key);
    }
  }

  /** Both processors in their order: a secret file wins over a _FILE
      variable for the same property, and a variable's secret shows where
      no file supplies one. */
  lemma FilenameThenEnvironment(sources: seq<Layer>, systemEnvironment: map<string, string>,
                                fs: F.FileSystem, read: FN.Reader, loader: ResourceLoader, key: string)
    requires Fresh(sources) && FN.ResolveAll(Directories.BaseDirOf(sources, FN.BASE_DIR_PROPERTY), fs, read).Ok?
    requires forall j :: 0 <= j <= IndexOf(sources, SYSTEM_ENVIRONMENT) ==> key !in sources[j].props
    requires var s1 := FN.PostProcessEnvironment(sources, fs, read);
      s1.Ok? && GetSystemProperties(Environment(s1.value, systemEnvironment)).Ok?
    ensures var s1 := FN.PostProcessEnvironment(sources, fs, read).value;
      var files := FN.NonEmptyValues(FN.ResolveAll(Directories.BaseDirOf(sources, FN.BASE_DIR_PROPERTY), fs, read).value);
      var secrets := ResolveSecretResources(GetSystemProperties(Environment(s1, systemEnvironment)).value, s1, loader);
      var s2 := PostProcessEnvironment(Environment(s1, systemEnvironment), loader);
      s2.Ok?
      && (key in files ==> GetProperty(s2.value, key) == Some(files[key]))
      && (key !in files && key in secrets ==> GetProperty(s2.value, key) == Some(secrets[key]))
  {
    var files := FN.NonEmptyValues(FN.ResolveAll(Directories.BaseDirOf(sources, FN.BASE_DIR_PROPERTY), fs, read).value);
    FilenameSourceAfterSystemEnvironment(sources, fs, read);
    var s1 := FN.PostProcessEnvironment(sources, fs, read).value;
    var index := GetSystemProperties(Environment(s1, systemEnvironment)).value;
    PostProcessIsAddAfter(s1, systemEnvironment, loader, index);
    var el := SecretsSource(index, s1, loader);
    EnvironmentAfterFiles(sources, s1, files, el, PostProcessEnvironment(Environment(s1, systemEnvironment), loader), key);
  }
}

=== FILE: SpringFilenameSecretsProcessor.dfy ===
/** The filename processor of the older spring package: every regular file
    of the base directory becomes a property named after the file, with
    underscores read as periods, whose value is the file's lines joined
    without their terminators; files without text are dropped, and the
    rest form a source of their own right after systemEnvironment. */
module SpringFilenameSecretsProcessor {
  import opened Wrappers
  import opened Errors
  import opened JavaStrings
  import opened Collectors
  import opened PropertySources
  import opened Streams
  import opened Ordering
  import opened Directories
  import F = FilenamePropertyIndexSupplier
  import PathBasedSecretsProcessor

  const PROPERTY_SOURCE_NAME := "filenameSecrets"
  const BASE_DIR_PROPERTY := "secrets.base-dir"
  const ORDER := LOWEST_PRECEDENCE - 11

  /** The content of a file, given its directory and name; a read failure
      is not modelled. */
  type Reader = (string, string) -> string

  predicate IsLineBreak(c: char) {
    c == '\n' || c == '\r'
  }

  /** BufferedReader.readLine over the rest of a text, `line` holding the
      characters read since the last terminator: a line ends at \n, at \r or
      at \r\n, and a last line without terminator counts when it is not
      empty. */
  function SplitLines(text: string, line: string): (r: seq<string>)
    requires forall j :: 0 <= j < |line| ==> !IsLineBreak(line[j])
    ensures forall i, j :: 0 <= i < |r| && 0 <= j < |r[i]| ==> !IsLineBreak(r[i][j])
    decreases |text|
  {
    if text == [] then
      if line == [] then [] else [line]
    else if text[0] == '\n' then
      [line] + SplitLines(text[1..], [])
    else if text[0] == '\r' then
      if |text| > 1 && text[1] == '\n' then [line] + SplitLines(text[2..], [])
      else [line] + SplitLines(text[1..], [])
    else
      var r := SplitLines(text[1..], line + [text[0]]);
      r
  }

  /** Files.lines: the lines of a text. */
  function Lines(text: string): (r: seq<string>)
    ensures forall i, j :: 0 <= i < |r| && 0 <= j < |r[i]| ==> !IsLineBreak(r[i][j])
  {
    SplitLines(text, [])
  }

  /** StringBuilder.append over every line. */
  function Concat(lines: seq<string>): string {
    if lines == [] then [] else lines[0] + Concat(lines[1..])
  }

  /** A text with every line-break character dropped: the reference the
      joined lines are measured against. */
  function WithoutLineBreaks(text: string): (r: string)
    ensures |r| <= |text|
    ensures forall i :: 0 <= i < |r| ==> !IsLineBreak(r[i])
  {
    if text == [] then []
    else if IsLineBreak(text[0]) then WithoutLineBreaks(text[1..])
    else [text[0]] + WithoutLineBreaks(text[1..])
  }

  lemma ConcatCons(line: string, lines: seq<string>)
    ensures Concat([line] + lines) == line + Concat(lines)
  {
    assert ([line] + lines)[1..] == lines;
  }

  /** Joining the lines read from a text drops its terminators and nothing
      else. */
  lemma {:induction false} ConcatSplitLines(text: string, line: string)
    requires forall j :: 0 <= j < |line| ==> !IsLineBreak(line[j])
    ensures Concat(SplitLines(text, line)) == line + WithoutLineBreaks(text)
    decreases |text|, 1
  {
    if text == [] {
      assert line + [] == line;
    } else if IsLineBreak(text[0]) {
      ConcatAfterBreak(text, line);
    } else {
      ConcatSplitLines(text[1..], line + [text[0]]);
      assert line + [text[0]] + WithoutLineBreaks(text[1..]) == line + ([text[0]] + WithoutLineBreaks(text[1..]));
    }
  }

  /** At a terminator the line read so far is complete, and the rest of the
      text is read afresh. */
  lemma {:induction false} ConcatAfterBreak(text: string, line: string)
    requires text != [] && IsLineBreak(text[0])
    requires forall j :: 0 <= j < |line| ==> !IsLineBreak(line[j])
    ensures Concat(SplitLines(text, line)) == line + WithoutLineBreaks(text)
    decreases |text|, 0
  {
    var k := if text[0] == '\r' && |text| > 1 && text[1] == '\n' then 2 else 1;
    assert SplitLines(text, line) == [line] + SplitLines(text[k..], []);
    assert WithoutLineBreaks(text) == WithoutLineBreaks(text[k..]) by {
      if k == 2 {
        assert text[1..][1..] == text[2..];
      }
    }
    ConcatSplitLines(text[k..], []);
    ConcatCons(line, SplitLines(text[k..], []));
  }

  /** A text without line breaks loses nothing. */
  lemma {:induction false} WithoutLineBreaksOfPlain(text: string)
    requires forall i :: 0 <= i < |text| ==> !IsLineBreak(text[i])
    ensures WithoutLineBreaks(text) == text
  {
    if text != [] {
      WithoutLineBreaksOfPlain(text[1..]);
    }
  }

  /** Dropping line breaks works piece by piece. */
  lemma {:induction false} WithoutLineBreaksAppend(a: string, b: string)
    ensures WithoutLineBreaks(a + b) == WithoutLineBreaks(a) + WithoutLineBreaks(b)
  {
    if a != [] {
      assert (a + b)[0] == a[0] && (a + b)[1..] == a[1..] + b;
      WithoutLineBreaksAppend(a[1..], b);
      if !IsLineBreak(a[0]) {
        assert [a[0]] + (WithoutLineBreaks(a[1..]) + WithoutLineBreaks(b))
            == [a[0]] + WithoutLineBreaks(a[1..]) + WithoutLineBreaks(b);
      }
    } else {
      assert a + b == b;
    }
  }

  /** getFileContent: the file's lines, appended one after the other. */
  function GetFileContent(text: string): (r: string)
    ensures forall i :: 0 <= i < |r| ==> !IsLineBreak(r[i])
  {
    ConcatSplitLines(text, []);
    Concat(Lines(text))
  }

  /** The content read is the file with its line breaks dropped; it is not
      trimmed. */
  lemma GetFileContentDropsLineBreaks(text: string)
    ensures GetFileContent(text) == WithoutLineBreaks(text)
  {
    ConcatSplitLines(text, []);
  }

  /** A single line keeps its surrounding blanks and loses its terminator. */
  lemma LineKeepsBlanks(line: string)
    requires forall i :: 0 <= i < |line| ==> !IsLineBreak(line[i])
    ensures GetFileContent(line + "\r\n") == line
  {
    GetFileContentDropsLineBreaks(line + "\r\n");
    WithoutLineBreaksAppend(line, "\r\n");
    WithoutLineBreaksOfPlain(line);
    assert WithoutLineBreaks("\r\n") == [] by {
      assert "\r\n"[1..] == "\n" && "\n"[1..] == [];
    }
    assert line + [] == line;
  }

  /** The line " alice " read from a file ending in CRLF is not trimmed. */
  lemma ContentIsNotTrimmed()
    ensures GetFileContent(" alice " + "\r\n") == " alice "
  {
    LineKeepsBlanks(" alice ");
  }

  /** A file's property name; the conversion is the one the boot module's
      path-based processor uses, with the US locale. */
  function KeyOf(): (key: F.FileEntry -> string)
    ensures forall f: F.FileEntry :: key(f) == PathBasedSecretsProcessor.ConvertToPropertyName(f.name)
  {
    PathBasedSecretsProcessor.KeyOf()
  }

  function ContentOf(read: Reader, dir: string): (content: F.FileEntry -> string)
    ensures forall f: F.FileEntry :: content(f) == GetFileContent(read(dir, f.name))
  {
    (f: F.FileEntry) => GetFileContent(read(dir, f.name))
  }

  /** resolveAll: the regular files of the base directory collected with
      toMap(convertToPropertyName, getFileContent), which rejects a
      property name reached twice; no directory yields the empty map, and a
      listing that fails raises. */
  function ResolveAll(dir: string, fs: F.FileSystem, read: Reader): (r: Result<Index, Error>)
    ensures fs.list(dir).NotADirectory? ==> r == Ok(map[])
    ensures fs.list(dir).Unreadable? ==> r == Err(ListingFailed(dir))
    ensures fs.list(dir).Listed? && r.Err? ==> r.error.DuplicateKey?
  {
    DirectoryIndex(fs.list(dir), dir, KeyOf(), ContentOf(read, dir), Strict)
  }

  /** The filter(hasNonEmptyValue) step: every value is a string, so only
      the values with text are kept. */
  function NonEmptyValues(all: Index): (r: Index)
    ensures forall k :: k in r <==> k in all && HasText(all[k])
    ensures forall k :: k in r ==> r[k] == all[k]
  {
    map k | k in all && HasText(all[k]) :: all[k]
  }

  /** postProcessEnvironment: resolveAll over the base directory, the
      blank values dropped, and the rest added right after systemEnvironment
      as the filenameSecrets source, even when it is empty. */
  function PostProcessEnvironment(sources: seq<Layer>, fs: F.FileSystem, read: Reader): (r: Result<seq<Layer>, Error>)
    ensures ResolveAll(BaseDirOf(sources, BASE_DIR_PROPERTY), fs, read).Err? ==> r == Err(ResolveAll(BaseDirOf(sources, BASE_DIR_PROPERTY), fs, read).error)
    ensures ResolveAll(BaseDirOf(sources, BASE_DIR_PROPERTY), fs, read).Ok? ==>
              (r.Ok? <==> Contains(RemoveFirst(sources, PROPERTY_SOURCE_NAME), SYSTEM_ENVIRONMENT))
    ensures r.Err? ==> r.error.ListingFailed? || r.error.DuplicateKey? || r.error.IllegalArgument?
  {
    var all :- ResolveAll(BaseDirOf(sources, BASE_DIR_PROPERTY), fs, read);
    AddAfter(sources, SYSTEM_ENVIRONMENT, Layer(PROPERTY_SOURCE_NAME, true, NonEmptyValues(all)))
  }

  /** A listed directory, which never repeats an entry, resolves exactly
      when no two regular files convert to one property name; the source
      then holds a property exactly when some regular file converts to it
      and has text, with that file's content as value. */
  lemma ResolvedContents(dir: string, fs: F.FileSystem, read: Reader)
    requires fs.list(dir).Listed? && Distinct(fs.list(dir).entries)
    ensures var entries := fs.list(dir).entries;
      var r := ResolveAll(dir, fs, read);
      (r.Ok? <==> forall a, b :: a in entries && a.regular && b in entries && b.regular && a != b ==>
                    KeyOf()(a) != KeyOf()(b))
      && (r.Ok? ==>
            forall f :: f in entries && f.regular ==>
              (KeyOf()(f) in NonEmptyValues(r.value) <==> HasText(GetFileContent(read(dir, f.name))))
              && (KeyOf()(f) in NonEmptyValues(r.value) ==>
                    NonEmptyValues(r.value)[KeyOf()(f)] == GetFileContent(read(dir, f.name))))
  {
    StrictIndexIff(fs.list(dir).entries, dir, KeyOf(), ContentOf(read, dir), Strict);
  }

  /** A dotted file and its snake-case twin convert to one property name. */
  lemma DottedAndSnakeCaseKey(w1: string, w2: string)
    requires F.Word(w1) && F.Word(w2)
    ensures KeyOf()(F.FileEntry(F.Joined(w1, '.', w2), true)) == KeyOf()(F.FileEntry(F.Joined(w1, '_', w2), true))
  {
    var dotted, snake := F.Joined(w1, '.', w2), F.Joined(w1, '_', w2);
    F.DotNames(w1, w2);
    F.SnakeCaseKey(w1, w2);
    PathBasedSecretsProcessor.ConvertIsUnderscoreMode(dotted);
    PathBasedSecretsProcessor.ConvertIsUnderscoreMode(snake);
  }

  /** The two twins in one directory fail to resolve, where the boot
      module's path-based processor keeps the first of them. */
  lemma DottedAndSnakeCaseCollide(toUri: (string, string) -> string, read: Reader, w1: string, w2: string)
    requires F.Word(w1) && F.Word(w2)
    ensures var fs := F.SecretsDirectory([F.FileEntry(F.Joined(w1, '.', w2), true), F.FileEntry(F.Joined(w1, '_', w2), true)], toUri);
      ResolveAll(DEFAULT_BASE_DIR, fs, read).Err?
      && ResolveAll(DEFAULT_BASE_DIR, fs, read).error.DuplicateKey?
  {
    var f1, f2 := F.FileEntry(F.Joined(w1, '.', w2), true), F.FileEntry(F.Joined(w1, '_', w2), true);
    var fs := F.SecretsDirectory([f1, f2], toUri);
    DottedAndSnakeCaseKey(w1, w2);
    TwoFilesOneKey(f1, f2, DEFAULT_BASE_DIR, KeyOf(), ContentOf(read, DEFAULT_BASE_DIR));
    assert Rejects(Strict);
  }

  /** The content of a regular file with text becomes the value of its
      property, when the filenameSecrets source is new, systemEnvironment
      exists and no source up to it holds the property. */
  lemma FileSecretBecomesVisible(sources: seq<Layer>, fs: F.FileSystem, read: Reader, f: F.FileEntry)
    requires fs.list(BaseDirOf(sources, BASE_DIR_PROPERTY)).Listed? && Distinct(fs.list(BaseDirOf(sources, BASE_DIR_PROPERTY)).entries)
    requires ResolveAll(BaseDirOf(sources, BASE_DIR_PROPERTY), fs, read).Ok?
    requires f in fs.list(BaseDirOf(sources, BASE_DIR_PROPERTY)).entries && f.regular
    requires HasText(GetFileContent(read(BaseDirOf(sources, BASE_DIR_PROPERTY), f.name)))
    requires !Contains(sources, PROPERTY_SOURCE_NAME) && Contains(sources, SYSTEM_ENVIRONMENT)
    requires forall j :: 0 <= j <= IndexOf(sources, SYSTEM_ENVIRONMENT) ==> KeyOf()(f) !in sources[j].props
    ensures PostProcessEnvironment(sources, fs, read).Ok?
    ensures GetProperty(PostProcessEnvironment(sources, fs, read).value, KeyOf()(f))
            == Some(GetFileContent(read(BaseDirOf(sources, BASE_DIR_PROPERTY), f.name)))
  {
    var dir := BaseDirOf(sources, BASE_DIR_PROPERTY);
    ResolvedContents(dir, fs, read);
    var layer := Layer(PROPERTY_SOURCE_NAME, true, NonEmptyValues(ResolveAll(dir, fs, read).value));
    AddAfterDecides(sources, SYSTEM_ENVIRONMENT, layer, KeyOf()(f));
  }
}

=== FILE: SpringSecretsProcessor.dfy ===
/** The SecretsProcessor of the older spring package: a subclass supplies the
    index of system properties (property name to location), each location is
    substituted, loaded and read, and the secrets found become a map-backed
    source of the processor's own name, added right after a relative source,
    systemEnvironment by default. */
module SpringSecretsProcessor {
  import opened Wrappers
  import opened Errors
  import opened JavaStrings
  import opened Collectors
  import opened PropertySources
  import opened DefaultSecretResolver
  import SecretsEnvironment
  import PropertyIndexSupplier

  datatype SpringSecretsProcessor = SpringSecretsProcessor(propertySourceName: string, relative: string)

  /** The two-argument constructor places the source after
      systemEnvironment. */
  function New(propertySourceName: string): SpringSecretsProcessor {
    SpringSecretsProcessor(propertySourceName, SYSTEM_ENVIRONMENT)
  }

  /** substitute(location, environment): a step a subclass may override;
      by default the location is kept. */
  type Substitute = string -> Option<string>

  function Unsubstituted(): (substitute: Substitute)
    ensures forall location :: substitute(location) == Some(location)
  {
    location => Some(location)
  }

  /** The location, substituted, loaded if it has text and exists, read and
      trimmed; content without text counts as no secret. */
  function Resolve(location: string, substitute: Substitute, loader: ResourceLoader): (r: Option<string>)
    ensures r.Some? ==> HasText(r.value) && Trim(r.value) == r.value
  {
    match substitute(location)
    case None => None
    case Some(substituted) =>
      LoadResource(loader, substituted).Map(Trim).Filter(HasText)
  }

  /** Reading happens after the trim, so the spring processor resolves a
      location exactly as the corrected loadContent does. */
  lemma ResolveIsLoadContent(location: string, substitute: Substitute, loader: ResourceLoader)
    ensures Resolve(location, substitute, loader) == LoadContent(loader, substitute(location))
  {
  }

  /** resolveSecretResources: the properties whose location resolves, each
      mapped to its secret. */
  function ResolveSecretResources(index: Index, substitute: Substitute, loader: ResourceLoader): (r: Index)
    ensures forall k :: k in r <==> k in index && LoadContent(loader, substitute(index[k])).Some?
    ensures forall k :: k in r ==> r[k] == LoadContent(loader, substitute(index[k])).value
  {
    assert forall l :: Resolve(l, substitute, loader) == LoadContent(loader, substitute(l)) by {
      forall l ensures Resolve(l, substitute, loader) == LoadContent(loader, substitute(l)) {
        ResolveIsLoadContent(l, substitute, loader);
      }
    }
    SecretsEnvironment.Resolved(index, l => Resolve(l, substitute, loader))
  }

  /** getPropertySource: the secrets under the processor's own name. */
  function GetPropertySource(p: SpringSecretsProcessor, index: Index, substitute: Substitute, loader: ResourceLoader)
    : (layer: Layer)
    ensures layer.name == p.propertySourceName && layer.isMap
    ensures forall k :: k in layer.props <==> k in index && LoadContent(loader, substitute(index[k])).Some?
  {
    Layer(p.propertySourceName, true, ResolveSecretResources(index, substitute, loader))
  }

  /** postProcessEnvironment: getSystemProperties (its failure propagates),
      then addAfter(relative, source): the source is added even when it is
      empty, and addAfter fails when the relative source is missing or is
      the source itself. */
  function PostProcessEnvironment(p: SpringSecretsProcessor, index: PropertyIndexSupplier.Supplied,
                                  substitute: Substitute, sources: seq<Layer>, loader: ResourceLoader)
    : (r: Result<seq<Layer>, Error>)
    ensures index.Err? ==> r == Err(index.error)
    ensures index.Ok? ==>
              (r.Ok? <==> p.relative != p.propertySourceName
                          && Contains(RemoveFirst(sources, p.propertySourceName), p.relative))
    ensures index.Ok? && r.Err? ==> r.error.IllegalArgument?
  {
    var idx :- index;
    AddAfter(sources, p.relative, GetPropertySource(p, idx, substitute, loader))
  }

  /** Sources that let the processor's new source decide a property: the
      source is new, the relative source exists, and no source up to it
      holds the property. */
  predicate Overridable(p: SpringSecretsProcessor, sources: seq<Layer>, key: string) {
    p.relative != p.propertySourceName
    && !Contains(sources, p.propertySourceName) && Contains(sources, p.relative)
    && forall j :: 0 <= j <= IndexOf(sources, p.relative) ==> key !in sources[j].props
  }

  /** Placed right after the relative source, a new source adds exactly one
      source, keeps the others in order, and decides every property no
      source up to the relative one holds. */
  lemma NewSourceFollowsRelative(p: SpringSecretsProcessor, index: PropertyIndexSupplier.Supplied,
                                 substitute: Substitute, sources: seq<Layer>, loader: ResourceLoader)
    requires index.Ok? && p.relative != p.propertySourceName
    requires !Contains(sources, p.propertySourceName) && Contains(sources, p.relative)
    ensures var i := IndexOf(sources, p.relative);
      PostProcessEnvironment(p, index, substitute, sources, loader)
      == Ok(sources[..i + 1] + [GetPropertySource(p, index.value, substitute, loader)] + sources[i + 1..])
  {
    AddAfterFreshName(sources, p.relative, GetPropertySource(p, index.value, substitute, loader));
  }

  /** A processor built with the two-argument constructor puts its source
      directly after systemEnvironment. */
  lemma NewFollowsSystemEnvironment(propertySourceName: string, index: PropertyIndexSupplier.Supplied,
                                    substitute: Substitute, sources: seq<Layer>, loader: ResourceLoader)
    requires index.Ok? && propertySourceName != SYSTEM_ENVIRONMENT
    requires !Contains(sources, propertySourceName) && Contains(sources, SYSTEM_ENVIRONMENT)
    ensures var p := New(propertySourceName);
      var i := IndexOf(sources, SYSTEM_ENVIRONMENT);
      PostProcessEnvironment(p, index, substitute, sources, loader)
      == Ok(sources[..i + 1] + [Layer(propertySourceName, true, ResolveSecretResources(index.value, substitute, loader))]
            + sources[i + 1..])
  {
    NewSourceFollowsRelative(New(propertySourceName), index, substitute, sources, loader);
  }

  /** A property whose location resolves reads as its secret afterwards. */
  lemma SecretBecomesVisible(p: SpringSecretsProcessor, index: PropertyIndexSupplier.Supplied,
                             substitute: Substitute, sources: seq<Layer>, loader: ResourceLoader, key: string)
    requires index.Ok? && key in index.value && LoadContent(loader, substitute(index.value[key])).Some?
    requires Overridable(p, sources, key)
    ensures PostProcessEnvironment(p, index, substitute, sources, loader).Ok?
    ensures GetProperty(PostProcessEnvironment(p, index, substitute, sources, loader).value, key)
            == LoadContent(loader, substitute(index.value[key]))
  {
    var layer := GetPropertySource(p, index.value, substitute, loader);
    assert layer.props == ResolveSecretResources(index.value, substitute, loader);
    assert key in layer.props && layer.props[key] == LoadContent(loader, substitute(index.value[key])).value;
    AddAfterDecides(sources, p.relative, layer, key);
  }

  /** Nothing resolves, yet the processor's empty source is added all the
      same: one source more than before. */
  lemma EmptySourceIsAdded(p: SpringSecretsProcessor, sources: seq<Layer>, loader: ResourceLoader)
    requires p.relative != p.propertySourceName
    requires !Contains(sources, p.propertySourceName) && Contains(sources, p.relative)
    ensures var r := PostProcessEnvironment(p, Ok(map[]), Unsubstituted(), sources, loader);
      r.Ok? && |r.value| == |sources| + 1
      && r.value[IndexOf(sources, p.relative) + 1] == Layer(p.propertySourceName, true, map[])
  {
    NewSourceFollowsRelative(p, Ok(map[]), Unsubstituted(), sources, loader);
    NoKeyMap(ResolveSecretResources(map[], Unsubstituted(), loader));
  }
}

=== FILE: Streams.dfy ===
/** The java.util.stream steps the index suppliers are built from, over
    encounter-ordered sequences. */
module Streams {
  import opened Wrappers
  import opened Collectors

  /** Stream.filter: the elements satisfying `p`, in encounter order. */
  function Filter<T(!new)>(s: seq<T>, p: T -> bool): (r: seq<T>)
    ensures |r| <= |s|
    ensures forall x :: x in r <==> x in s && p(x)
  {
    if s == [] then [] else (if p(s[0]) then [s[0]] else []) + Filter(s[1..], p)
  }

  /** Some kept element has key `k` exactly when some element of `s` that
      passes `p` has it. */
  lemma KeyInFilter<T(!new)>(s: seq<T>, p: T -> bool, key: T -> string, k: string)
    ensures (exists i :: 0 <= i < |Filter(s, p)| && key(Filter(s, p)[i]) == k)
            <==> exists x :: x in s && p(x) && key(x) == k
  {
    var r := Filter(s, p);
    forall i | 0 <= i < |r| && key(r[i]) == k ensures exists x :: x in s && p(x) && key(x) == k {
      assert r[i] in r;
    }
    forall x | x in s && p(x) && key(x) == k ensures exists i :: 0 <= i < |r| && key(r[i]) == k {
      assert x in r;
      var i :| 0 <= i < |r| && r[i] == x;
    }
  }

  /** A rejecting collection of the kept elements' pairs that succeeds holds
      the key of every kept element, mapped to its value, and nothing else. */
  lemma FilteredCollectContents<T(!new)>(xs: seq<T>, p: T -> bool, key: T -> string, value: T -> string,
                                         merge: MergeFunction)
    requires Rejects(merge) && ToMap(Pairs(Filter(xs, p), key, value), merge).Ok?
    ensures var r := ToMap(Pairs(Filter(xs, p), key, value), merge).value;
      (forall k :: k in r <==> exists x :: x in xs && p(x) && key(x) == k)
      && forall x :: x in xs && p(x) ==> key(x) in r && r[key(x)] == value(x)
  {
    var kept := Filter(xs, p);
    PairsCollectContents(kept, key, value, merge);
    var r := ToMap(Pairs(kept, key, value), merge).value;
    forall k ensures k in r <==> exists x :: x in xs && p(x) && key(x) == k {
      KeyInFilter(xs, p, key, k);
    }
    forall x | x in xs && p(x) ensures key(x) in r && r[key(x)] == value(x) {
      assert x in kept;
      var i :| 0 <= i < |kept| && kept[i] == x;
    }
  }

  /** Filtering distributes over concatenation (Stream.flatMap of two parts). */
  lemma {:induction false} FilterAppend<T(!new)>(a: seq<T>, b: seq<T>, p: T -> bool)
    ensures Filter(a + b, p) == Filter(a, p) + Filter(b, p)
  {
    if a == [] {
      assert a + b == b;
    } else {
      assert (a + b)[0] == a[0];
      assert (a + b)[1..] == a[1..] + b;
      FilterAppend(a[1..], b, p);
    }
  }

  /** No element occurs twice. */
  predicate Distinct<T(==)>(s: seq<T>) {
    forall i, j :: 0 <= i < j < |s| ==> s[i] != s[j]
  }

  /** In a sequence without repeats, keys differing at every two positions
      is keys differing for every two different elements. */
  lemma DistinctKeysOfDistinct<T, K>(s: seq<T>, key: T -> K)
    requires Distinct(s)
    ensures (forall i, j :: 0 <= i < j < |s| ==> key(s[i]) != key(s[j]))
            <==> (forall x, y :: x in s && y in s && x != y ==> key(x) != key(y))
  {
    if forall i, j :: 0 <= i < j < |s| ==> key(s[i]) != key(s[j]) {
      forall x, y | x in s && y in s && x != y ensures key(x) != key(y) {
        var i :| 0 <= i < |s| && s[i] == x;
        var j :| 0 <= j < |s| && s[j] == y;
        if i < j {
          assert key(s[i]) != key(s[j]);
        } else {
          assert key(s[j]) != key(s[i]);
        }
      }
    } else {
      var i, j :| 0 <= i < j < |s| && key(s[i]) == key(s[j]);
      assert s[i] in s && s[j] in s && s[i] != s[j];
    }
  }

  /** Collecting the elements of a sequence without repeats that pass a
      filter, with a merge function that rejects duplicates, succeeds
      exactly when no two different passing elements share a key. */
  lemma CollectFilteredSucceedsIff<T(!new)>(xs: seq<T>, p: T -> bool, key: T -> string, value: T -> string,
                                           merge: MergeFunction)
    requires Rejects(merge) && Distinct(xs)
    ensures ToMap(Pairs(Filter(xs, p), key, value), merge).Ok?
            <==> forall x, y :: x in xs && y in xs && x != y && p(x) && p(y) ==> key(x) != key(y)
  {
    var kept := Filter(xs, p);
    FilterKeepsDistinct(xs, p);
    PairsCollectIff(kept, key, value, merge);
    DistinctKeysOfDistinct(kept, key);
  }

  /** A sequence of distinct elements stays distinct when filtered. */
  lemma {:induction false} FilterKeepsDistinct<T(!new)>(s: seq<T>, p: T -> bool)
    requires Distinct(s)
    ensures Distinct(Filter(s, p))
  {
    if s != [] {
      var rest := Filter(s[1..], p);
      assert Distinct(s[1..]) by {
        forall i, j | 0 <= i < j < |s[1..]| ensures s[1..][i] != s[1..][j] {
          assert s[i + 1] != s[j + 1];
        }
      }
      FilterKeepsDistinct(s[1..], p);
      if p(s[0]) {
        var r := [s[0]] + rest;
        assert s[0] !in s[1..] by {
          forall j | 0 <= j < |s[1..]| ensures s[1..][j] != s[0] {
            assert s[j + 1] != s[0];
          }
        }
        assert s[0] !in rest;
        forall i, j | 0 <= i < j < |r| ensures r[i] != r[j] {
          if i == 0 {
            assert r[0] == s[0];
            assert r[j] == rest[j - 1] && rest[j - 1] in rest;
          } else {
            assert r[i] == rest[i - 1] && r[j] == rest[j - 1];
          }
        }
        assert Filter(s, p) == r;
      } else {
        assert Filter(s, p) == rest;
      }
    }
  }

  /** A sequence is free of repeats exactly when no element occurs in it
      more than once. */
  lemma {:induction false} DistinctIffSingleOccurrences<T>(s: seq<T>)
    ensures Distinct(s) <==> forall x :: multiset(s)[x] <= 1
  {
    if s != [] {
      var t := s[1..];
      assert s == [s[0]] + t;
      assert multiset(s) == multiset{s[0]} + multiset(t);
      DistinctIffSingleOccurrences(t);
      if Distinct(s) {
        assert Distinct(t) by {
          forall i, j | 0 <= i < j < |t| ensures t[i] != t[j] {
            assert s[i + 1] != s[j + 1];
          }
        }
        assert s[0] !in t by {
          forall j | 0 <= j < |t| ensures t[j] != s[0] {
            assert s[j + 1] != s[0];
          }
        }
      }
      if forall x :: multiset(s)[x] <= 1 {
        assert forall x :: multiset(t)[x] <= 1 by {
          forall x ensures multiset(t)[x] <= 1 {
            assert multiset(s)[x] <= 1;
          }
        }
        assert multiset(t)[s[0]] == 0 by {
          assert multiset(s)[s[0]] <= 1;
        }
        forall i, j | 0 <= i < j < |s| ensures s[i] != s[j] {
          if i == 0 {
            assert s[j] == t[j - 1] && t[j - 1] in t;
          } else {
            assert s[i] == t[i - 1] && s[j] == t[j - 1];
          }
        }
      }
    }
  }

  /** Filtering keeps every occurrence of an element that passes and none of
      one that fails. */
  lemma {:induction false} FilterOccurrences<T(!new)>(s: seq<T>, p: T -> bool, x: T)
    ensures multiset(Filter(s, p))[x] == if p(x) then multiset(s)[x] else 0
  {
    if s != [] {
      assert s == [s[0]] + s[1..];
      assert multiset(s) == multiset{s[0]} + multiset(s[1..]);
      FilterOccurrences(s[1..], p, x);
      var head: seq<T> := if p(s[0]) then [s[0]] else [];
      assert Filter(s, p) == head + Filter(s[1..], p);
      assert multiset(Filter(s, p)) == multiset(head) + multiset(Filter(s[1..], p));
    }
  }

  /** A sequence of distinct elements holds each of its members exactly once. */
  lemma DistinctOccurrences<T>(s: seq<T>, x: T)
    requires Distinct(s)
    ensures multiset(s)[x] == if x in s then 1 else 0
  {
    DistinctIffSingleOccurrences(s);
    assert multiset(s)[x] <= 1;
  }

  /** The keys of an entry list, in order (Map.keySet().stream()). */
  function Keys(es: seq<Entry>): (r: seq<string>)
    ensures |r| == |es|
    ensures forall i :: 0 <= i < |es| ==> r[i] == es[i].0
  {
    if es == [] then [] else [es[0].0] + Keys(es[1..])
  }

  /** A map's key set as a stream: some order, every key exactly once. */
  ghost function KeyStream(m: Index): (r: seq<string>)
    ensures forall k :: k in r <==> k in m
    ensures Distinct(r)
  {
    var es := Enumerate(m);
    KeysOfWins(es);
    var r := Keys(es);
    assert forall k :: k in r <==> k in KeysOf(es) by {
      forall k | k in KeysOf(es) ensures k in r {
        var i :| 0 <= i < |es| && es[i].0 == k;
        assert r[i] == k;
      }
    }
    r
  }

  /** Stream.collect(toMap(key, value)) sees the entries (key(x), value(x))
      of the stream's elements, in encounter order. */
  function Pairs<T>(xs: seq<T>, key: T -> string, value: T -> string): (es: seq<Entry>)
    ensures |es| == |xs|
    ensures forall i :: 0 <= i < |xs| ==> es[i] == (key(xs[i]), value(xs[i]))
  {
    seq(|xs|, i requires 0 <= i < |xs| => (key(xs[i]), value(xs[i])))
  }

  /** Key functions that agree on every element give the same pairs. */
  lemma PairsOfAgreeingKeys<T>(xs: seq<T>, key1: T -> string, key2: T -> string, value: T -> string)
    requires forall i :: 0 <= i < |xs| ==> key1(xs[i]) == key2(xs[i])
    ensures Pairs(xs, key1, value) == Pairs(xs, key2, value)
  {
    var a, b := Pairs(xs, key1, value), Pairs(xs, key2, value);
    forall i | 0 <= i < |xs| ensures a[i] == b[i] {
    }
  }

  /** A rejecting collector of a fresh map succeeds exactly when no two
      elements have the same key, and otherwise reports a duplicate key. */
  lemma PairsCollectIff<T>(xs: seq<T>, key: T -> string, value: T -> string, merge: MergeFunction)
    requires Rejects(merge)
    ensures var r := ToMap(Pairs(xs, key, value), merge);
      (r.Ok? <==> forall i, j :: 0 <= i < j < |xs| ==> key(xs[i]) != key(xs[j]))
      && (r.Err? ==> r.error.DuplicateKey?)
  {
    var es := Pairs(xs, key, value);
    RejectingSucceedsIff(map[], es, merge);
    var none: Index := map[];
    assert none.Keys !! KeysOf(es);
  }

  /** What a successful rejecting collection holds: the key of every element,
      mapped to that element's value, and no other key. */
  lemma PairsCollectContents<T>(xs: seq<T>, key: T -> string, value: T -> string, merge: MergeFunction)
    requires Rejects(merge) && ToMap(Pairs(xs, key, value), merge).Ok?
    ensures var r := ToMap(Pairs(xs, key, value), merge).value;
      (forall k :: k in r <==> exists i :: 0 <= i < |xs| && key(xs[i]) == k)
      && forall i :: 0 <= i < |xs| ==> r[key(xs[i])] == value(xs[i])
  {
    var es := Pairs(xs, key, value);
    RejectingSucceedsIff(map[], es, merge);
    CollectedEntries(es, merge);
    var r := ToMap(es, merge).value;
    forall k ensures k in r <==> exists i :: 0 <= i < |xs| && key(xs[i]) == k {
      if k in r {
        var i :| 0 <= i < |es| && es[i].0 == k;
      }
      if exists i :: 0 <= i < |xs| && key(xs[i]) == k {
        var i :| 0 <= i < |xs| && key(xs[i]) == k;
        assert es[i].0 == k;
      }
    }
  }

  /** The same, for a stream of distinct elements described by the
      predicate `p`: the collection succeeds exactly when no two different
      elements satisfying `p` share a key. */
  lemma DistinctCollectIff<T(!new)>(xs: seq<T>, key: T -> string, value: T -> string, merge: MergeFunction, p: T -> bool)
    requires Rejects(merge) && Distinct(xs)
    requires forall x :: x in xs <==> p(x)
    ensures var r := ToMap(Pairs(xs, key, value), merge);
      (r.Ok? <==> forall a, b :: p(a) && p(b) && a != b ==> key(a) != key(b))
      && (r.Err? ==> r.error.DuplicateKey?)
  {
    PairsCollectIff(xs, key, value, merge);
    if ToMap(Pairs(xs, key, value), merge).Ok? {
      forall a, b | p(a) && p(b) && a != b ensures key(a) != key(b) {
        var i :| 0 <= i < |xs| && xs[i] == a;
        var j :| 0 <= j < |xs| && xs[j] == b;
        if i < j {
          assert key(xs[i]) != key(xs[j]);
        } else {
          assert key(xs[j]) != key(xs[i]);
        }
      }
    } else {
      var i, j :| 0 <= i < j < |xs| && key(xs[i]) == key(xs[j]);
      assert xs[i] in xs && xs[j] in xs;
      assert xs[i] != xs[j];
    }
  }

  /** What such a successful collection holds: the key of every element
      satisfying `p`, mapped to that element's value, and no other key. */
  lemma DistinctCollectContents<T(!new)>(xs: seq<T>, key: T -> string, value: T -> string, merge: MergeFunction, p: T -> bool)
    requires Rejects(merge) && ToMap(Pairs(xs, key, value), merge).Ok?
    requires forall x :: x in xs <==> p(x)
    ensures var r := ToMap(Pairs(xs, key, value), merge).value;
      (forall k :: k in r <==> exists x :: p(x) && key(x) == k)
      && forall x :: p(x) ==> key(x) in r && r[key(x)] == value(x)
  {
    PairsCollectContents(xs, key, value, merge);
    var r := ToMap(Pairs(xs, key, value), merge).value;
    forall k ensures k in r <==> exists x :: p(x) && key(x) == k {
      if k in r {
        var i :| 0 <= i < |xs| && key(xs[i]) == k;
        assert xs[i] in xs;
      }
      if exists x :: p(x) && key(x) == k {
        var x :| p(x) && key(x) == k;
        var i :| 0 <= i < |xs| && xs[i] == x;
      }
    }
    forall x | p(x) ensures key(x) in r && r[key(x)] == value(x) {
      var i :| 0 <= i < |xs| && xs[i] == x;
    }
  }

  /** Keeping the first value of a key: the collection never fails, holds the
      key of every element, and maps it to the value of the first element
      with that key. */
  lemma PairsCollectKeepingFirst<T>(xs: seq<T>, key: T -> string, value: T -> string)
    ensures ToMap(Pairs(xs, key, value), KeepExisting).Ok?
    ensures var r := ToMap(Pairs(xs, key, value), KeepExisting).value;
      (forall k :: k in r <==> exists i :: 0 <= i < |xs| && key(xs[i]) == k)
      && forall i :: 0 <= i < |xs| && (forall j :: 0 <= j < i ==> key(xs[j]) != key(xs[i])) ==>
           r[key(xs[i])] == value(xs[i])
  {
    var es := Pairs(xs, key, value);
    KeepExistingIsFirstWins(map[], es);
    UnionWithEmpty(FirstWins(es));
    PairsFirstWins(xs, key, value);
  }

  /** The first-wins map of the pairs of `xs` has the key of every element
      and, for the first element with a key, that element's value. */
  lemma PairsFirstWins<T>(xs: seq<T>, key: T -> string, value: T -> string)
    ensures var r := FirstWins(Pairs(xs, key, value));
      (forall k :: k in r <==> exists i :: 0 <= i < |xs| && key(xs[i]) == k)
      && forall i :: 0 <= i < |xs| && (forall j :: 0 <= j < i ==> key(xs[j]) != key(xs[i])) ==>
           r[key(xs[i])] == value(xs[i])
  {
    var es := Pairs(xs, key, value);
    var r := FirstWins(es);
    KeysOfWins(es);
    forall k ensures k in r <==> exists i :: 0 <= i < |xs| && key(xs[i]) == k {
      if k in r {
        var i :| 0 <= i < |es| && es[i].0 == k;
      }
      if exists i :: 0 <= i < |xs| && key(xs[i]) == k {
        var i :| 0 <= i < |xs| && key(xs[i]) == k;
        assert es[i].0 == k;
      }
    }
    forall i | 0 <= i < |xs| && (forall j :: 0 <= j < i ==> key(xs[j]) != key(xs[i]))
      ensures r[key(xs[i])] == value(xs[i])
    {
      assert forall j :: 0 <= j < i ==> es[j].0 != es[i].0;
      FirstWinsAt(es, i);
    }
  }

  /** Two entries of a list that carry the same key make a rejecting
      collector fail. */
  lemma CollisionRejects(acc: Index, es: seq<Entry>, merge: MergeFunction, i: int, j: int)
    requires Rejects(merge)
    requires 0 <= i < j < |es| && es[i].0 == es[j].0
    ensures Accumulate(acc, es, merge).Err?
  {
    RejectingSucceedsIff(acc, es, merge);
  }

  /** What a rejecting collector of a fresh map returns when no key repeats:
      every entry, under its own key. */
  lemma CollectedEntries(es: seq<Entry>, merge: MergeFunction)
    requires Rejects(merge) && DistinctKeys(es)
    ensures Accumulate(map[], es, merge).Ok?
    ensures var r := Accumulate(map[], es, merge).value;
      r.Keys == KeysOf(es) && forall i :: 0 <= i < |es| ==> r[es[i].0] == es[i].1
  {
    RejectingSucceedsIff(map[], es, merge);
    KeysOfWins(es);
    var r := Accumulate(map[], es, merge).value;
    assert map[] + LastWins(es) == LastWins(es);
    forall i | 0 <= i < |es| ensures r[es[i].0] == es[i].1 {
      LastWinsAt(es, i);
    }
  }

  /** Filtering three elements of which only the first two pass. */
  lemma FilterFirstTwoOfThree<T(!new)>(a: T, b: T, c: T, p: T -> bool)
    requires p(a) && p(b) && !p(c)
    ensures Filter([a, b, c], p) == [a, b]
  {
    assert [a, b, c][1..] == [b, c];
    assert [b, c][1..] == [c];
    assert [c][1..] == [];
    assert Filter([c], p) == [];
    assert Filter([b, c], p) == [b];
  }

  /** Filtering two elements that both pass. */
  lemma FilterBothOfTwo<T(!new)>(a: T, b: T, p: T -> bool)
    requires p(a) && p(b)
    ensures Filter([a, b], p) == [a, b]
  {
    assert [a, b][1..] == [b];
    assert [b][1..] == [];
    assert Filter([b], p) == [b];
  }

  /** Collecting two elements with different keys. */
  lemma CollectTwo<T>(a: T, b: T, key: T -> string, value: T -> string, merge: MergeFunction)
    requires key(a) != key(b)
    ensures ToMap(Pairs([a, b], key, value), merge) == Ok(map[key(a) := value(a), key(b) := value(b)])
  {
    var es := Pairs([a, b], key, value);
    assert es == [(key(a), value(a)), (key(b), value(b))];
    var none: Index := map[];
    AccumulateStep(none, es, merge);
    assert es[1..] == [(key(b), value(b))];
    AccumulateStep(none[key(a) := value(a)], es[1..], merge);
    assert es[1..][1..] == [];
  }

  /** Collecting two elements with the same key into a rejecting collector. */
  lemma CollectTwoSameKey<T>(a: T, b: T, key: T -> string, value: T -> string, merge: MergeFunction)
    requires Rejects(merge) && key(a) == key(b)
    ensures ToMap(Pairs([a, b], key, value), merge).Err?
  {
    CollisionRejects(map[], Pairs([a, b], key, value), merge, 0, 1);
  }
}

=== FILE: SuffixBasedEnvironmentPropertySecretsProcessor.dfy ===
/** The older suffix-based processor of the boot module: its index maps the
    property each <PROPERTY>_FILE environment variable spells to the
    variable's name, and the older SecretsProcessor resolves that index. */
module SuffixBasedEnvironmentPropertySecretsProcessor {
  import opened Wrappers
  import opened Errors
  import opened JavaStrings
  import opened Collectors
  import opened PropertySources
  import opened Streams
  import opened Ordering
  import opened DefaultSecretResolver
  import SecretsEnvironment
  import SecretPropertiesPropertySource
  import PropertyIndexSupplier
  import FilenamePropertyIndexSupplier
  import E = EnvironmentPropertyIndexSupplier
  import L = LegacyEnvironmentPropertyIndexSupplier
  import LegacySecretsProcessor
  import PathBasedSecretsProcessor
  import SEP = SecretsEnvironmentPostProcessors

  /** The name handed to the superclass; the merged source is named
      secretProperties all the same. */
  const PROPERTY_SOURCE_NAME := "suffixBasedEnvironmentPropertySecrets"
  const ENV_VAR_SUFFIX := "_FILE"
  const ORDER := LOWEST_PRECEDENCE - 10

  /** The processor runs one step after the path-based processor, and
      neither order wraps around. */
  lemma RunsAfterPathBased()
    ensures IsInt32(PathBasedSecretsProcessor.ORDER) && IsInt32(ORDER)
    ensures ORDER == PathBasedSecretsProcessor.ORDER + 1
  {
  }

  /** convertToPropertyName: the last five characters cut off, underscores
      turned into periods, lower-cased. */
  function ConvertToPropertyName(name: string): (r: string)
    requires |name| >= 5
    ensures |r| == |name| - 5
    ensures forall i :: 0 <= i < |r| ==> r[i] == if name[i] == '_' then '.' else LowerChar(name[i])
  {
    var stem := name[..|name| - 5];
    var r := ToLowerAscii(JavaStrings.Replace(stem, '_', '.'));
    assert forall i :: 0 <= i < |r| ==> r[i] == if name[i] == '_' then '.' else LowerChar(name[i]) by {
      forall i | 0 <= i < |r| ensures r[i] == if name[i] == '_' then '.' else LowerChar(name[i]) {
        assert stem[i] == name[i];
      }
    }
    r
  }

  /** Cutting five characters is cutting the suffix _FILE: the conversion
      is the supplier's conversion for that suffix. */
  lemma ConvertCutsFileSuffix(name: string)
    requires |name| >= 5
    ensures ConvertToPropertyName(name) == E.ConvertToPropertyName(ENV_VAR_SUFFIX, name)
  {
    var a, b := ConvertToPropertyName(name), E.ConvertToPropertyName(ENV_VAR_SUFFIX, name);
    forall i | 0 <= i < |a| ensures a[i] == b[i] {
    }
  }

  /** The collector's key function; it only sees names ending with _FILE. */
  function KeyOf(): (key: string -> string)
    ensures forall n :: |n| >= 5 ==> key(n) == ConvertToPropertyName(n)
  {
    n => if |n| >= 5 then ConvertToPropertyName(n) else n
  }

  /** The variables getSystemProperties reads: those of the system
      environment ending with _FILE. */
  function Supplier(environment: Environment): (s: L.Supplier)
    ensures s.environment == environment && s.suffix == ENV_VAR_SUFFIX
    ensures s == SEP.EnvironmentSupplier(environment)
  {
    E.New(Some(environment), Some(ENV_VAR_SUFFIX)).value
  }

  /** getSystemProperties: the system environment's key set filtered by
      endsWith("_FILE"), collected with toMap(convertToPropertyName,
      identity). */
  ghost function GetSystemProperties(environment: Environment): Result<Index, Error> {
    ToMap(Pairs(L.Names(Supplier(environment)), KeyOf(), L.Identity()), Strict)
  }

  /** The processor's index is the older supplier's index for _FILE. */
  lemma GetSystemPropertiesIsSupplierIndex(environment: Environment)
    ensures GetSystemProperties(environment) == L.Get(Supplier(environment))
  {
    var s := Supplier(environment);
    var names := L.Names(s);
    assert forall i :: 0 <= i < |names| ==> EndsWith(names[i], ENV_VAR_SUFFIX) by {
      forall i | 0 <= i < |names| ensures EndsWith(names[i], ENV_VAR_SUFFIX) {
        assert L.Suffixed(s, names[i]);
      }
    }
    FileKeysAgree(names);
  }

  /** On names ending with _FILE the processor's key function is the
      supplier's. */
  lemma FileKeysAgree(names: seq<string>)
    requires forall i :: 0 <= i < |names| ==> EndsWith(names[i], ENV_VAR_SUFFIX)
    ensures Pairs(names, KeyOf(), L.Identity()) == Pairs(names, E.KeyOf(ENV_VAR_SUFFIX), L.Identity())
  {
    forall i | 0 <= i < |names| ensures KeyOf()(names[i]) == E.KeyOf(ENV_VAR_SUFFIX)(names[i]) {
      ConvertCutsFileSuffix(names[i]);
    }
    PairsOfAgreeingKeys(names, KeyOf(), E.KeyOf(ENV_VAR_SUFFIX), L.Identity());
  }

  /** postProcessEnvironment as written: the older SecretsProcessor loads
      each location of the index as it is, and here a location is the
      NAME of a variable. */
  ghost function PostProcessEnvironmentAsWritten(environment: Environment, loader: ResourceLoader)
    : Result<seq<Layer>, Error>
  {
    LegacySecretsProcessor.PostProcessEnvironment(GetSystemProperties(environment), environment.sources, loader)
  }

  /** The secrets of an index whose locations are variable names: each
      name is looked up in the environment first, then loaded. */
  function ResolveSubstituted(index: Index, sources: seq<Layer>, loader: ResourceLoader): (r: Index)
    ensures forall k :: k in r <==> k in index && LoadContent(loader, GetProperty(sources, index[k])).Some?
    ensures forall k :: k in r ==> r[k] == LoadContent(loader, GetProperty(sources, index[k])).value
  {
    SecretsEnvironment.Resolved(index, n => LoadContent(loader, GetProperty(sources, n)))
  }

  /** postProcessEnvironment with the environment lookup the variable
      names call for, as EnvironmentPropertySecretsProcessor.substitute
      provides it. */
  ghost function PostProcessEnvironment(environment: Environment, loader: ResourceLoader)
    : (r: Result<seq<Layer>, Error>)
    ensures GetSystemProperties(environment).Err? ==> r == Err(GetSystemProperties(environment).error)
    ensures GetSystemProperties(environment).Ok? ==>
              (r.Err? <==> ResolveSubstituted(GetSystemProperties(environment).value, environment.sources, loader) != map[]
                           && !Contains(environment.sources, SecretPropertiesPropertySource.NAME)
                           && !Contains(environment.sources, SYSTEM_ENVIRONMENT))
  {
    var index :- GetSystemProperties(environment);
    SecretPropertiesPropertySource.Merge(ResolveSubstituted(index, environment.sources, loader), environment.sources)
  }

  /** Substituting first and loading afterwards finds the secrets that
      loading the substituted index finds. */
  lemma SubstitutedSecretsAgree(index: Index, sources: seq<Layer>, loader: ResourceLoader)
    ensures ResolveSubstituted(index, sources, loader)
            == SecretsEnvironment.Resolved(L.Substituted(index, sources), SEP.ResolverOf(loader))
  {
    var a := ResolveSubstituted(index, sources, loader);
    var b := SecretsEnvironment.Resolved(L.Substituted(index, sources), SEP.ResolverOf(loader));
    SameEntries(a, b);
  }

  /** With the index in hand, the corrected processor merges the secrets its
      variables' values locate. */
  lemma PostProcessMerges(environment: Environment, loader: ResourceLoader, index: Index)
    requires GetSystemProperties(environment) == Ok(index)
    ensures PostProcessEnvironment(environment, loader)
            == SecretPropertiesPropertySource.Merge(ResolveSubstituted(index, environment.sources, loader), environment.sources)
  {
  }

  /** Merging the secrets of the looked-up older index is what the secrets
      module's processor does with the substituted index. */
  lemma MergesAgree(older: Index, newer: PropertyIndexSupplier.Supplied, sources: seq<Layer>, loader: ResourceLoader)
    requires newer == Ok(L.Substituted(older, sources))
    ensures SecretPropertiesPropertySource.Merge(ResolveSubstituted(older, sources, loader), sources)
            == SEP.PostProcessEnvironment(newer, sources, loader)
  {
    SEP.PostProcessEnvironmentMerges(newer, sources, loader);
    SubstitutedSecretsAgree(older, sources, loader);
  }

  /** With the lookup in place the older processor does what the secrets
      module's env-suffix processor does. */
  lemma CorrectedAgreesWithSecretsModule(c: SEP.Context, loader: ResourceLoader)
    requires GetSystemProperties(c.environment).Ok?
    ensures PostProcessEnvironment(c.environment, loader)
            == SEP.PostProcessEnvironment(SEP.EnvironmentSecretsPropertyIndex(c), c.environment.sources, loader)
  {
    var s := Supplier(c.environment);
    GetSystemPropertiesIsSupplierIndex(c.environment);
    var older := L.Get(s).value;
    L.NewerIndexIsSubstituted(s);
    PostProcessMerges(c.environment, loader, older);
    MergesAgree(older, SEP.EnvironmentSecretsPropertyIndex(c), c.environment.sources, loader);
  }

  /** A variable <PROPERTY>_FILE alone in the environment: the processor's
      index locates the property at the variable's name. */
  lemma OneVariableIndex(environment: Environment, property: string)
    requires E.PlainProperty(property)
    requires environment.systemEnvironment.Keys == {E.VariableName(property, ENV_VAR_SUFFIX)}
    ensures GetSystemProperties(environment) == Ok(map[property := E.VariableName(property, ENV_VAR_SUFFIX)])
  {
    var s := Supplier(environment);
    L.OneVariableIsIndexed(s, E.VariableName(property, ENV_VAR_SUFFIX));
    E.PropertyRoundTrip(property, ENV_VAR_SUFFIX);
    GetSystemPropertiesIsSupplierIndex(environment);
  }

  /** As written, an index none of whose locations loads as a resource
      changes nothing. */
  lemma AsWrittenWithoutSecrets(environment: Environment, loader: ResourceLoader, index: Index)
    requires GetSystemProperties(environment) == Ok(index)
    requires forall k :: k in index ==> LoadContentAsWritten(loader, Some(index[k])).None?
    ensures PostProcessEnvironmentAsWritten(environment, loader) == Ok(environment.sources)
  {
    LegacySecretsProcessor.NothingLoadsChangesNothing(index, environment.sources, loader);
  }

  lemma OnlyLocationDoesNotLoad(property: string, location: string, loader: ResourceLoader)
    requires LoadContentAsWritten(loader, Some(location)).None?
    ensures var index := map[property := location];
      forall k :: k in index ==> LoadContentAsWritten(loader, Some(index[k])).None?
  {
  }

  /** As written, an index of one property whose location is a name that
      does not load as a resource changes nothing. */
  lemma AsWrittenOneNameChangesNothing(environment: Environment, loader: ResourceLoader, property: string, n: string)
    requires GetSystemProperties(environment) == Ok(map[property := n])
    requires LoadContentAsWritten(loader, Some(n)).None?
    ensures PostProcessEnvironmentAsWritten(environment, loader) == Ok(environment.sources)
  {
    OnlyLocationDoesNotLoad(property, n, loader);
    AsWrittenWithoutSecrets(environment, loader, map[property := n]);
  }

  /** As written, a variable <PROPERTY>_FILE alone in the environment,
      whose name does not load as a resource, changes nothing. */
  lemma AsWrittenLoadsTheName(environment: Environment, loader: ResourceLoader, property: string)
    requires E.PlainProperty(property)
    requires environment.systemEnvironment.Keys == {E.VariableName(property, ENV_VAR_SUFFIX)}
    requires LoadContentAsWritten(loader, Some(E.VariableName(property, ENV_VAR_SUFFIX))).None?
    ensures PostProcessEnvironmentAsWritten(environment, loader) == Ok(environment.sources)
  {
    OneVariableIndex(environment, property);
    AsWrittenOneNameChangesNothing(environment, loader, property, E.VariableName(property, ENV_VAR_SUFFIX));
  }

  /** With the lookup, a variable <PROPERTY>_FILE alone in the environment
      makes the property read as the secret at the variable's value. */
  lemma LookupLoadsTheValue(c: SEP.Context, loader: ResourceLoader, property: string, location: string)
    requires E.PlainProperty(property)
    requires c.environment.systemEnvironment.Keys == {E.VariableName(property, ENV_VAR_SUFFIX)}
    requires GetProperty(c.environment.sources, E.VariableName(property, ENV_VAR_SUFFIX)) == Some(location)
    requires HasText(location) && LoadContent(loader, Some(location)).Some?
    requires SEP.Overridable(c.environment.sources, property)
    ensures PostProcessEnvironment(c.environment, loader).Ok?
    ensures GetProperty(PostProcessEnvironment(c.environment, loader).value, property)
            == LoadContent(loader, Some(location))
  {
    OneVariableAgreesWithSecretsModule(c, loader, property);
    SEP.EnvironmentSecretsPropertySetsProperty(c, loader, property, location);
  }

  lemma OneVariableAgreesWithSecretsModule(c: SEP.Context, loader: ResourceLoader, property: string)
    requires E.PlainProperty(property)
    requires c.environment.systemEnvironment.Keys == {E.VariableName(property, ENV_VAR_SUFFIX)}
    ensures PostProcessEnvironment(c.environment, loader)
            == SEP.PostProcessEnvironment(SEP.EnvironmentSecretsPropertyIndex(c), c.environment.sources, loader)
  {
    OneVariableIndex(c.environment, property);
    CorrectedAgreesWithSecretsModule(c, loader);
  }

  /** One variable DB_FILE=<location> with a secret at <location>: as
      written the processor loads the resource named DB_FILE, finds none,
      and leaves the sources as they are; with the lookup, db reads as the
      secret. */
  lemma VariableNameIsLoadedAsLocation(c: SEP.Context, loader: ResourceLoader, property: string, location: string)
    requires E.PlainProperty(property)
    requires c.environment.systemEnvironment.Keys == {E.VariableName(property, ENV_VAR_SUFFIX)}
    requires GetProperty(c.environment.sources, E.VariableName(property, ENV_VAR_SUFFIX)) == Some(location)
    requires LoadContentAsWritten(loader, Some(E.VariableName(property, ENV_VAR_SUFFIX))).None?
    requires HasText(location) && LoadContent(loader, Some(location)).Some?
    requires SEP.Overridable(c.environment.sources, property)
    ensures PostProcessEnvironmentAsWritten(c.environment, loader) == Ok(c.environment.sources)
    ensures PostProcessEnvironment(c.environment, loader).Ok?
    ensures GetProperty(PostProcessEnvironment(c.environment, loader).value, property)
            == LoadContent(loader, Some(location))
  {
    AsWrittenLoadsTheName(c.environment, loader, property);
    LookupLoadsTheValue(c, loader, property, location);
  }
}

=== FILE: Utils.dfy ===
/** The small function combinators the index suppliers are written with. */
module Utils {
  import opened Wrappers
  import opened Errors
  import JavaStrings
  import opened Collectors
  import opened Streams

  /** Predicate negation. */
  function Not<T(!new)>(p: T -> bool): (r: T -> bool)
    ensures forall x :: r(x) == !p(x)
  {
    x => !p(x)
  }

  lemma NotIsInvolutive<T(!new)>(p: T -> bool, x: T)
    ensures Not(Not(p))(x) == p(x)
  {
  }

  /** Filtering a stream by a predicate and by its negation splits the
      stream: every element lands in exactly one of the two results. */
  lemma NotSplitsStream<T(!new)>(xs: seq<T>, p: T -> bool)
    ensures multiset(Filter(xs, p)) + multiset(Filter(xs, Not(p))) == multiset(xs)
    ensures |Filter(xs, p)| + |Filter(xs, Not(p))| == |xs|
  {
    var a, b := multiset(Filter(xs, p)), multiset(Filter(xs, Not(p)));
    forall x ensures (a + b)[x] == multiset(xs)[x] {
      FilterOccurrences(xs, p, x);
      FilterOccurrences(xs, Not(p), x);
    }
    assert a + b == multiset(xs);
    assert |a + b| == |a| + |b|;
  }

  function StartsWith(prefix: string): (r: string -> bool)
    ensures forall s :: r(s) <==> |prefix| <= |s| && s[..|prefix|] == prefix
  {
    s => JavaStrings.StartsWith(s, prefix)
  }

  function EndsWith(suffix: string): (r: string -> bool)
    ensures forall s :: r(s) <==> |suffix| <= |s| && s[|s| - |suffix|..] == suffix
  {
    s => JavaStrings.EndsWith(s, suffix)
  }

  /** A string starts with `prefix` exactly when it is `prefix` followed by
      something, and then cutting the prefix off gives that something back. */
  lemma StartsWithIffConcat(prefix: string, s: string)
    ensures StartsWith(prefix)(s) <==> exists rest :: s == prefix + rest
    ensures StartsWith(prefix)(s) ==> Substring(|prefix|)(s) == Ok(s[|prefix|..]) && s == prefix + s[|prefix|..]
  {
    if exists rest :: s == prefix + rest {
      var rest :| s == prefix + rest;
      assert s[..|prefix|] == prefix;
    }
    if StartsWith(prefix)(s) {
      assert s == prefix + s[|prefix|..];
    }
  }

  /** A string ends with `suffix` exactly when it is something followed by `suffix`. */
  lemma EndsWithIffConcat(suffix: string, s: string)
    ensures EndsWith(suffix)(s) <==> exists stem :: s == stem + suffix
  {
    if exists stem :: s == stem + suffix {
      var stem :| s == stem + suffix;
      assert s[|s| - |suffix|..] == suffix;
    }
    if EndsWith(suffix)(s) {
      assert s == s[..|s| - |suffix|] + suffix;
    }
  }

  /** String.substring(begin) as a function of the string. */
  function Substring(begin: int): (r: string -> Result<string, Error>)
    ensures forall s :: r(s).Ok? <==> 0 <= begin <= |s|
    ensures forall s :: r(s).Ok? ==> s[..begin] + r(s).value == s
  {
    s => JavaStrings.Substring(s, begin)
  }

  /** Cutting a prefix's length off the prefix followed by a rest gives the
      rest back. */
  lemma SubstringAfterPrefix(prefix: string, rest: string)
    ensures Substring(|prefix|)(prefix + rest) == Ok(rest)
  {
    assert (prefix + rest)[|prefix|..] == rest;
  }

  /** The 24 characters of secrets.file.properties. cut off a config-data
      key leave the property name. */
  lemma SubstringOfConfigDataKey()
    ensures Substring(24)("secrets.file.properties." + "spring.datasource.username") == Ok("spring.datasource.username")
  {
    SubstringAfterPrefix("secrets.file.properties.", "spring.datasource.username");
  }

  /** Lifts a predicate on values to one on index entries. */
  function Value(p: string -> bool): (r: Entry -> bool)
    ensures forall e :: r(e) == p(e.1)
  {
    (e: Entry) => p(e.1)
  }

  /** Filtering a map's entry set with value(p) keeps exactly the entries
      whose value passes p. */
  lemma ValueKeepsPassingEntries(m: Index, p: string -> bool)
    ensures forall e: Entry :: e in Filter(Enumerate(m), Value(p)) <==> e.0 in m && e.1 == m[e.0] && p(e.1)
  {
    EnumerateEntries(m);
  }

  /** Collecting those entries back gives the map restricted to the keys
      whose value passes p, each with its own value. */
  lemma ValueRestrictsMap(m: Index, p: string -> bool)
    ensures LastWins(Filter(Enumerate(m), Value(p))) == map k | k in m && p(m[k]) :: m[k]
  {
    ValueKeepsPassingEntries(m, p);
    PassingEntriesHaveDistinctKeys(m, p);
    EntriesDescribe(Filter(Enumerate(m), Value(p)), map k | k in m && p(m[k]) :: m[k]);
  }

  lemma PassingEntriesHaveDistinctKeys(m: Index, p: string -> bool)
    ensures DistinctKeys(Filter(Enumerate(m), Value(p)))
  {
    var f := Filter(Enumerate(m), Value(p));
    ValueKeepsPassingEntries(m, p);
    FilterKeepsDistinct(Enumerate(m), Value(p));
    forall i, j | 0 <= i < j < |f| ensures f[i].0 != f[j].0 {
      assert f[i] in f && f[j] in f;
    }
  }

  /** Utils.testAndLogFailure: the predicate's verdict, paired with whether a
      message was logged, which happens exactly when the verdict is false. */
  function TestAndLogFailure<T(!new)>(p: T -> bool): (r: T -> (bool, bool))
    ensures forall x :: r(x).0 == p(x) && r(x).1 == !p(x)
  {
    x => (p(x), !p(x))
  }

  /** Stream.filter with a predicate that may log: the elements it accepts,
      in encounter order, and the number of messages logged on the way. */
  function FilterLogging<T>(xs: seq<T>, test: T -> (bool, bool)): (seq<T>, nat) {
    if xs == [] then ([], 0)
    else
      var rest := FilterLogging(xs[1..], test);
      ((if test(xs[0]).0 then [xs[0]] else []) + rest.0, (if test(xs[0]).1 then 1 else 0) + rest.1)
  }

  /** Filtering with testAndLogFailure(p) keeps what filtering with p keeps
      and logs one message for each element p rejects. */
  lemma {:induction false} TestAndLogFailureLogsEachRejected<T(!new)>(xs: seq<T>, p: T -> bool)
    ensures FilterLogging(xs, TestAndLogFailure(p)) == (Filter(xs, p), |Filter(xs, Not(p))|)
  {
    if xs != [] {
      TestAndLogFailureLogsEachRejected(xs[1..], p);
    }
  }

  /** Utils.acceptAndLog: runs the consumer on the state once and logs once;
      the result is the new state and the number of messages logged. */
  function AcceptAndLog<S(!new), T(!new)>(consumer: (S, T) -> S): (r: (S, T) -> (S, nat))
    ensures forall s, x :: r(s, x).0 == consumer(s, x) && r(s, x).1 == 1
  {
    (s, x) => (consumer(s, x), 1)
  }

  /** Stream.forEach with a consumer of state: the state after each element
      has been consumed in encounter order. */
  function ForEach<S, T>(consumer: (S, T) -> S, s: S, xs: seq<T>): S {
    if xs == [] then s else ForEach(consumer, consumer(s, xs[0]), xs[1..])
  }

  /** Stream.forEach with a consumer that may log: the final state and the
      number of messages logged on the way. */
  function ForEachLogging<S, T>(step: (S, T) -> (S, nat), s: S, xs: seq<T>): (S, nat) {
    if xs == [] then (s, 0)
    else
      var first := step(s, xs[0]);
      var rest := ForEachLogging(step, first.0, xs[1..]);
      (rest.0, first.1 + rest.1)
  }

  /** Consuming with acceptAndLog(consumer) reaches the state consuming with
      the consumer reaches, and logs once for each element. */
  lemma {:induction false} AcceptAndLogLogsEachAccepted<S(!new), T(!new)>(consumer: (S, T) -> S, s: S, xs: seq<T>)
    ensures ForEachLogging(AcceptAndLog(consumer), s, xs) == (ForEach(consumer, s, xs), |xs|)
  {
    if xs != [] {
      AcceptAndLogLogsEachAccepted(consumer, consumer(s, xs[0]), xs[1..]);
    }
  }

  /** With list::add as the consumer, every element ends up in the list, in
      encounter order, each logged once. */
  lemma {:induction false} AcceptAndLogAddsEach(list: seq<int>, xs: seq<int>)
    ensures ForEachLogging(AcceptAndLog((l: seq<int>, x: int) => l + [x]), list, xs) == (list + xs, |xs|)
  {
    var add := (l: seq<int>, x: int) => l + [x];
    AcceptAndLogLogsEachAccepted(add, list, xs);
    AddCollectsEach(list, xs);
  }

  lemma {:induction false} AddCollectsEach(list: seq<int>, xs: seq<int>)
    ensures ForEach((l: seq<int>, x: int) => l + [x], list, xs) == list + xs
    decreases xs
  {
    if xs != [] {
      AddCollectsEach(list + [xs[0]], xs[1..]);
      assert list + [xs[0]] + xs[1..] == list + xs;
    }
  }
}

=== FILE: Wrappers.dfy ===
/** Optional values and failure-compatible results, standing in for Java's
    Optional, null references and thrown exceptions. */
module Wrappers {

  datatype Option<T> = None | Some(value: T) {

    function Map<U>(f: T -> U): (r: Option<U>)
      ensures r.Some? <==> Some?
      ensures r.Some? ==> r.value == f(value)
    {
      match this
      case None => None
      case Some(v) => Some(f(v))
    }

    function Filter(p: T -> bool): (r: Option<T>)
      ensures r.Some? <==> Some? && p(value)
      ensures r.Some? ==> r.value == value
    {
      match this
      case None => None
      case Some(v) => if p(v) then this else None
    }

    function GetOr(default: T): (r: T)
      ensures Some? ==> r == value
      ensures None? ==> r == default
    {
      match this
      case None => default
      case Some(v) => v
    }
  }

  datatype Result<T, E> = Ok(value: T) | Err(error: E) {

    predicate IsFailure() {
      Err?
    }

    function PropagateFailure<U>(): Result<U, E>
      requires Err?
    {
      Err(error)
    }

    function Extract(): T
      requires Ok?
    {
      value
    }
  }
}

/** The exceptions the modelled code raises, by kind. */
module Errors {

  datatype Error =
    /** IllegalArgumentException: a rejected null argument, an unknown separator
        character, a property that does not convert to a character, or an
        illegal relative placement of a property source. */
    | IllegalArgument(message: string)
    /** IllegalStateException raised while collecting a map; `detail` is the
        text that follows "Duplicate key " in the message. */
    | DuplicateKey(detail: string)
    /** An IOException raised while listing a directory, rethrown unchecked. */
    | ListingFailed(directory: string)
    /** StringIndexOutOfBoundsException from a substring call. */
    | IndexOutOfBounds(index: int)
}
